=== FILE: README.md ===
# discord-vc-overlay, modelled in Dafny

discord-vc-overlay is a browser tool that writes the custom CSS for Discord's
stream-kit voice overlay. The user enters a server id, a voice-channel id and
a list of participants, each with an avatar image and a "speaking" image. The
tool then shows the overlay URL and the CSS that swaps each participant's
avatar. The repository holds three generations of the tool, and all three are
modelled here:

- **The Vue version** (`index.js`, `components/config/Config.js`,
  `components/import-export/ImportExport.js`): one shared object that every
  component changes in place. Nothing is persisted. Module `VueApp`, with the
  CSS builder in `OverlayCss`.
- **The previous version** (`js/index.js` over the store of `js/state.js`):
  a keyed store mirrored to `localStorage` with `JSON.stringify`. Modules
  `LegacyState` and `LegacyApp`.
- **The current version** (`src/` over the `State` / `StateElement` /
  `StateComponent` library of `lib/state.js`): typed slots, `onBeforeSet`
  transforms, persistence through per-kind serialisers, and per-key and
  `"change"` listeners. Modules `LibState`, `App`, `Editors`, `UsersEditor`,
  `Forms`, `ConfigEditor`, `Documents` and `ImportExport`.

Shared pieces:

- `JsValue`: the JavaScript values the tool stores, with `typeof`,
  truthiness, property lookup, spread and delete. Object keys are kept in the
  order they were added.
- `Json`: a stand-in for `JSON.stringify` / `JSON.parse` with the same value
  semantics and a proved round trip. `Decimal` holds number-to-text and back.
- `Browser`: `localStorage` as a string map, and listeners as recorded
  deliveries.
- `UserOrder`: the participant order. Dated entries come first, newest
  first; undated entries follow, ordered by id. The sort is a stable
  insertion sort, proved sorted, a permutation and idempotent. As
  ECMAScript's `SortCompare` prescribes, `undefined` entries go last and
  never reach the comparator. The comparator throws on a `null` entry and
  on an undated entry without a string id; `CheckedSort` says when a sort
  throws.
- `OverlayCss` and `Text`: the CSS builders of every version, the
  whitespace normalisation (proved idempotent) and the overlay URL.
- `StyleKeys`: the camelCase to kebab-case rewrite of style keys in both
  `htmlBuilder.js` files.

Objects whose fields the source updates become classes:

- the stores, their elements, the application objects and the Vue shared
  object.

Each method is proved against a pure step function. That function works on a
`World`, which holds:

- the store's values;
- the persisted strings;
- the log of listener deliveries.

Lemmas about the step functions state what the source promises.

## Model

| member | source | states |
|---|---|---|
| LegacyState.SetWrites | js/state.js:25-38 | a write replaces the key's value and no other; it persists exactly when the call and the store both ask and the value has JSON text; it throws exactly when persisting meets a BigInt; the key's listeners run in registration order exactly when a completed write has events enabled |
| LegacyState.InitKeyKeepsDefined | js/state.js:44-45 | `initKey` on a key that holds a defined value changes nothing |
| LegacyState.InitKeyRestores | js/state.js:47-56 | a stored entry wins over the default: its parsed value (through a function default) is held, storage is not written and no listener runs |
| LegacyState.InitKeyMalformed | js/state.js:48-50 | a stored entry that is not valid text makes `initKey` throw before anything is written |
| LegacyState.InitKeyDefault | js/state.js:59-65 | with nothing to restore, a falsy default leaves the key unset; a truthy one is held silently and persisted when asked |
| LegacyState.ReloadRestores | js/state.js:28-55 | what a persisting write leaves in storage is what `initKey` brings back next session: the value itself when it is plain data |
| LegacyState.MergedFields | js/state.js:97-104 | `update` keeps every old field the update does not name and takes the update's value for every field it names; over `undefined` it stores the update as given |
| LegacyState.InitDefaultsSilent | js/state.js:16-22 | initialising the constructor's defaults never calls a listener, whatever is stored |
| LegacyState.State.constructor | js/state.js:9-15 | a missing config gives the default one (persist and fire events); the map starts empty with no listeners (the defaults go through `InitDefaults`) |
| LegacyState.State.Get | js/state.js:40-42 | the value held for the key, `undefined` when none is held |
| LegacyState.State.Set | js/state.js:25-38 | the new map, storage and delivery log are those of the `set` specification, whose properties `SetWrites` states |
| LegacyState.State.InitKey | js/state.js:44-66 | the new state is that of the `initKey` specification (see the three `InitKey…` lemmas) |
| LegacyState.State.InitDefaults | js/state.js:16-22 | the defaults are initialised in order, stopping at the first that throws |
| LegacyState.State.Attach | js/state.js:68-86 | a fresh handle on the key, persisting exactly when its config says so |
| LegacyState.State.AddEventListener | js/state.js:1 | the listener is appended to the event's listeners and nothing else changes |
| LegacyState.StateElement.constructor | js/state.js:80-86 | the handle names the store, the key and the persistence flag it was given |
| LegacyState.StateElement.Set | js/state.js:92-94 | a store write of the element's key with its persistence flag and events on |
| LegacyState.StateElement.Update | js/state.js:97-104 | the key ends holding the merge of its old value and the update (see `MergedFields`) |
| LegacyState.StateElement.AddEventListener | js/state.js:106-109 | the listener is registered for the element's key and nothing else changes |
| LegacyState.StateElement.Init | js/state.js:111-114 | the store's `initKey` for the element's key with its persistence flag |
| LibState.ValueToString | lib/state.js:145-161 | persisting fails exactly for `undefined`, functions and objects holding a BigInt; strings persist as themselves, scalars as their `toString`, objects as JSON |
| LibState.ParseFloat | lib/state.js:180 | `Number.parseFloat` gives a number or NaN, and the integer a decimal literal denotes |
| LibState.ParseBigInt | lib/state.js:174 | `BigInt(text)` gives a BigInt, and throws exactly on non-empty text that is not an integer literal |
| LibState.ValueFromStringAsWritten | lib/state.js:171-190 | the boolean case is `Boolean(text)`: true for every non-empty text |
| LibState.ValueFromString | lib/state.js:171-190 | a restored value has the requested kind (any plain value for the object kind); it fails exactly on malformed BigInt or JSON text and on the unsupported kinds |
| LibState.PersistRoundTrip | lib/state.js:145-190 | persisting a value and reading it back under its own kind gives the value again: scalars exactly, objects through JSON (exactly for plain data) |
| LibState.BooleanRestoreAsWritten | lib/state.js:151-176 | as written, a persisted `false` is restored as `true` |
| LibState.SymbolRestore | lib/state.js:151-178 | a symbol comes back as a symbol whose description is its whole text `Symbol(d)` |
| LibState.CommitStores | lib/state.js:113-118 | a write always updates the key's value, even when persisting throws; it persists exactly when asked and the value has text; no other key changes |
| LibState.CommitDelivers | lib/state.js:120-126 | with events on, a completed write calls the key's listeners in order with the value, then the `"change"` listeners with `{key, value}` when enabled; otherwise no listener is called |
| LibState.InitChecksFirst | lib/state.js:204-211 | `init` rejects an already registered key, then a function or `undefined` default, changing nothing |
| LibState.InitCommits | lib/state.js:213-221 | an accepted `init` commits the persisted text read back as written (a boolean through `Boolean(text)`) when persistence is on and the key is present, else the default; a restore that throws changes nothing |
| LibState.InitIsSilent | lib/state.js:221 | unless the store emits on init, `init` calls no listener |
| LibState.ReloadRestores | lib/state.js:203-221 | a value persisted by a completed write is what a later `init` of the key commits, given a default of the same kind: objects through JSON, every other kind but symbols and booleans exactly |
| LibState.ReloadFlipsFalse | lib/state.js:176 | a boolean persisted by a completed write comes back from a later `init` as `true`, so a stored `false` does not survive a reload |
| LibState.BeforeSet | lib/state.js:380-382 | without `onBeforeSet` the value is stored as given |
| LibState.ElementSetChecksKind | lib/state.js:375-385 | a value whose `typeof` differs from the default's, or that `onBeforeSet` throws on, is rejected before anything changes; an accepted one is committed as `onBeforeSet` transforms it |
| LibState.ResetAllRestores | lib/state.js:479-481 | when `$resetAll` completes, every attached key holds its (transformed) default and every other key keeps its value |
| LibState.State.constructor | lib/state.js:63-82 | the store starts with the given config, no values, no elements and no listeners (initial elements go through `Init`) |
| LibState.State.Get | lib/state.js:134-136 | the value held for the key, `undefined` when none |
| LibState.State.Set | lib/state.js:113-127 | the new world is that of the write specification (`CommitStores`, `CommitDelivers`); the registry is unchanged |
| LibState.State.Init | lib/state.js:203-227 | the new world is that of the `init` specification, which restores through `Boolean(text)` for booleans; on success a fresh element with the key, default and options is registered last; on failure the registry is unchanged |
| LibState.State.Attach | lib/state.js:235-242 | the registered element of the key, or "Element not initialized" |
| LibState.State.AddEventListener | lib/state.js:19 | the listener is appended to the event's listeners and nothing else changes |
| LibState.StateElement.constructor | lib/state.js:308-326 | the element records its store, key, default and options; its kind is the default's `typeof` |
| LibState.StateElement.Set | lib/state.js:375-385 | the new world is that of `ElementSet` (see `ElementSetChecksKind`) |
| LibState.StateElement.Reset | lib/state.js:390-392 | a `set` of the default value |
| LibState.StateElement.AddListener | lib/state.js:399-402 | the listener is registered last for the element's key and nothing else changes |
| LibState.KeysOfElements | lib/state.js:440-461 | `Object.keys` of the component's `states` holds exactly the keys assigned |
| LibState.KeysOfDistinct | lib/state.js:440-461 | each key appears once in `Object.keys`, however often it was assigned |
| LibState.AttachablePrefix | lib/state.js:446-451 | the keys `forEach` gets through before `attach` throws: a prefix of the list, all registered, stopped by the first unregistered key |
| LibState.ListenEachAppends | lib/state.js:441-449 | attaching a handler to several keys keeps each event's earlier listeners first and adds the handler once per occurrence of the key |
| LibState.StateComponent.Slots | lib/state.js:480 | the attached elements' data, in `Object.keys` order |
| LibState.StateComponent.AttachAll | lib/state.js:437-444 | `elements === true` attaches every registered element in registration order, listening with the handler when overridden |
| LibState.StateComponent.AttachOne | lib/state.js:447-450 | one key: its registered element (or "Element not initialized") and the handler added to its listeners when overridden |
| LibState.StateComponent.AttachKeys | lib/state.js:445-451 | a key list attaches the registered prefix; on success the keys are the list's first occurrences in order and each maps to its registered element |
| LibState.StateComponent.ListenToChanges | lib/state.js:452-454 | with no elements, an overriding handler listens to `"change"` |
| LibState.StateComponent.ResetAll | lib/state.js:479-481 | `$resetAll` is the reset of every attached slot in key order; on success every attached key holds its transformed default |
| LibState.NewComponent | lib/state.js:429-465 | the constructor's three selections: every element, a key list (throwing at the first missing key, with the listeners already added kept) or a `"change"` listener; the store's values are untouched |
| App.SortUsersValue | src/index.js:81-93 | `sortUsers` succeeds exactly on an array on whose entries no comparison throws (`CheckedSort`), and then gives the entries in the user order (`SortUsers`); anything else, or a comparison that throws, is a TypeError |
| App.SortUsersValueSorts | src/index.js:81-93 | a list of sortable entries (each readable, and dated or with a string id) is always accepted; a list holding a `null` and another entry that is not `undefined` is always rejected; what is stored is sorted and a permutation of the entries; a sorted list is stored unchanged |
| App.ElementSetPass | lib/state.js:375-385 | a completed `set` had a value of the slot's kind that `onBeforeSet` accepted, and stored the transformed value under the slot's key only |
| App.UsersSetStores | src/index.js:27 | an array written to `users` passes the kind check; a sort that throws rejects it with nothing changed; otherwise it completes exactly when the sorted array has text, and the slot then holds the entries sorted, each as often as given |
| App.ResetAllIsSetAll | lib/state.js:479-481 | `$resetAll` over some slots is the sequence of writes of their defaults |
| App.DefaultsSerialize | src/index.js:26-28 | the three defaults `null`, `[]` and `{}` have JSON text, so persisting them never throws |
| App.InitPasses | lib/state.js:203-227 | `init` of a key neither registered nor persisted commits and persists its default |
| App.InitStatesFresh | src/index.js:24-30 | on a store without the three keys, the tool starts with `null`, `[]` and `{}`, persists all three and calls no listener unless the store emits on init |
| App.ResetStateIsResetAll | src/index.js:32-36 | `resetState`'s three writes are the defaults of the three slots, i.e. `$resetAll` over them |
| App.ResetStateRestores | src/index.js:32-36 | `resetState` always completes: the slots hold `null`, `[]` and `{}`, every other key is untouched and all three are persisted |
| App.App.constructor | src/index.js:12-22 | the tool keeps the store and the three elements it registered |
| App.App.SetSlot | src/index.js:33-35 | `set` on one of the three elements is that element's `ElementSet` step |
| App.App.ResetState | src/index.js:32-36 | the new world is the `resetState` step (see `ResetStateRestores`) |
| App.NewApp | src/index.js:19-30 | construction is the three `init` calls in order, ending at the first that throws; on success the tool holds the three new elements |
| UserOrder.StrCompare | src/js/utils.js:43 | `localeCompare` gives -1, 0 or 1 |
| UserOrder.StrCompareFlip | src/js/utils.js:43 | swapping the strings flips the sign, and the comparison is 0 exactly on equal strings |
| UserOrder.StrCompareTransitive | src/js/utils.js:43 | the string order is transitive |
| UserOrder.CompareFlip | src/js/utils.js:34-44 | on entries where the comparator completes (see `Comparison`, which says exactly when it throws), swapping two entries flips its sign and keeps a tie a tie, so the order is antisymmetric as `sort` requires |
| UserOrder.CompareTransitive | src/js/utils.js:34-44 | "not after" is transitive: the comparator is a total preorder, as `sort` requires |
| UserOrder.Comparison | src/js/utils.js:34-44 | where a call of the comparator runs to the end it returns `Compare`; it throws exactly on a `null` or `undefined` entry, or on two undated entries whose first `id` is not a string or whose second `id` is a symbol |
| UserOrder.SortComparison | src/js/utils.js:34 | one comparison of the sort: an `undefined` entry orders after any other without calling the comparator, so it never throws; two other entries go to the comparator and throw exactly when it does |
| UserOrder.SortCompareFlip | src/js/utils.js:34-44 | with `undefined` last, swapping two entries flips the order's sign and keeps a tie a tie |
| UserOrder.SortCompareTransitive | src/js/utils.js:34-44 | with `undefined` last, "not after" stays transitive |
| UserOrder.PosBounds | src/js/utils.js:34 | stable insertion skips exactly the trailing entries after `x` and lands behind one that is not |
| UserOrder.InsertPermutes | src/js/utils.js:34 | insertion adds `x` once to the entries |
| UserOrder.InsertSortedBy | src/js/utils.js:34 | insertion keeps a list sorted when `x` compares consistently with its entries |
| UserOrder.InsertSorted | src/js/utils.js:34-44 | insertion under the user order keeps a list sorted |
| UserOrder.SortPermutes | src/js/utils.js:34 | the sorted list holds exactly the entries of the list, each as often, whatever the comparator |
| UserOrder.SortSorts | src/js/utils.js:33-45 | the participant list comes out in the comparator's order |
| UserOrder.SortKeepsSorted | src/js/utils.js:33-45 | a list already in order is left as it is (the sort is stable) |
| UserOrder.SortUsersMembers | src/js/utils.js:33-45 | sorting neither adds nor drops an entry |
| UserOrder.SortIdempotent | src/js/utils.js:33-45 | sorting twice is sorting once |
| UserOrder.SortedOrder | src/js/utils.js:34-43 | `undefined` entries come last; before them dated entries come before undated ones, dated ones from the most recent, undated ones in ascending `id` order |
| UserOrder.CheckedPosIsPos | src/js/utils.js:34 | where the insertion scan runs to the end it finds the stable insertion point |
| UserOrder.CheckedPosSucceeds | src/js/utils.js:34 | the scan runs to the end when the new entry compares with every entry |
| UserOrder.CheckedSortIsSort | src/js/utils.js:33-45 | a sort that does not throw gives the stable order of `SortUsers` |
| UserOrder.SortableCompares | src/js/utils.js:34-43 | the sort never throws comparing two entries that are each `undefined`, or readable and dated or carrying a string id |
| UserOrder.SortableSucceeds | src/js/utils.js:33-45 | a list of such entries sorts without throwing |
| UserOrder.CheckedSortPrefix | src/js/utils.js:34 | once a prefix of the list throws, the whole sort throws |
| UserOrder.CheckedSortThrows | src/js/utils.js:34-35 | a list holding a `null` and another entry that is not `undefined` always throws: the `null` meets the comparator once it is compared with such an entry |
| UserOrder.NullMeetsDefined | src/js/utils.js:34-35 | inserting `null` into a list with an entry that is not `undefined` throws |
| UserOrder.DefinedMeetsNull | src/js/utils.js:34-35 | inserting an entry that is not `undefined` into a list of `undefined`s and `null`s holding a `null` throws |
| UserOrder.UndefinedNeverCompared | src/js/utils.js:34 | `[undefined, x]` sorts to `[x, undefined]` without a throw, whatever `x` is, and `[undefined, undefined]` stays as it is |
| UserOrder.UndatedWithoutIdThrows | src/js/utils.js:43 | two undated entries, the second without a string `id` (such as `[{url: "x"}, {url: "y"}]`), throw |
| UserOrder.InsertInPlace | src/js/utils.js:34 | one step of the in-place sort either throws or leaves the prefix as the stable insertion of the next entry; the rest is untouched |
| UserOrder.ShiftUp | src/js/utils.js:34 | the entries that order after `x` move up one place; `j` is where `x` belongs, found exactly when no comparison throws |
| UserOrder.CheckedSortInPlace | src/js/utils.js:34 | the array ends as the sort of its old contents when no comparison throws, and the result says whether one did |
| UserOrder.SortUsersInPlace | src/js/utils.js:33-45 | `sortUsers` leaves the array sorted by the user order (see `SortSorts`, `SortPermutes`) when no comparison throws, and exactly as it was when one does |
| Json.Stringify | js/state.js:29-30 | `JSON.stringify` gives no text exactly for `undefined`, functions and symbols, and throws exactly when a BigInt occurs in the value |
| Json.ValueRoundTrip | lib/state.js:153-182 | parsing the text of a well-formed value gives back its canonical form (what survives JSON) and leaves what follows |
| Json.ItemsRoundTrip | lib/state.js:153-182 | the entries of an array read back as their canonical forms, in order |
| Json.PropsRoundTrip | lib/state.js:153-182 | the fields of an object read back as its canonical fields: skipped values dropped, each key once |
| Json.CanonPropsDistinct | lib/state.js:153-182 | an object read back from text has distinct keys |
| Json.PlainHasText | lib/state.js:153 | plain data always has text: nothing in it is skipped and no BigInt occurs in it |
| Json.PlainCanon | lib/state.js:153-182 | plain data is well formed and survives a trip through text unchanged |
| Json.StringifyParse | js/state.js:29-50 | `JSON.parse(JSON.stringify(v))` is the canonical form of every well-formed value that has text, and `v` itself for plain data |
| Decimal.NatToString | lib/state.js:151 | the decimal numeral of a natural number is non-empty, all digits, and has no leading zero |
| Decimal.ParseNat | lib/state.js:174-180 | a natural number is read exactly from a non-empty run of digits |
| Decimal.NatToStringValue | lib/state.js:151 | the numeral denotes the number |
| Decimal.IntRoundTrip | lib/state.js:151-180 | reading back the decimal text of an integer yields the integer |
| JsValue.LookupIn | js/state.js:100 | a key with no entry reads as `undefined` |
| JsValue.Assign | js/state.js:100 | assigning an existing key keeps the number of properties; a new key is appended last |
| JsValue.AssignLookup | js/state.js:100 | after `o[key] = val`, `key` reads as `val` and every other key reads and is present as before |
| JsValue.AssignDistinct | js/state.js:100 | assignment never creates a repeated key |
| JsValue.AssignAllLookup | js/state.js:100 | with distinct keys, every key of the assigned object reads as its value there, every other key as before |
| JsValue.SpreadLookup | js/state.js:100 | `{...a, ...b}`: every key of `b` reads as in `b`, every other key as in `a`, and no key repeats |
| JsValue.DeleteLookup | src/js/ConfigEditor.js:175-185 | after `delete v[key]` the key is gone and every other key reads and is present as before |
| JsValue.KeysAt | src/js/ImportExport.js:94-101 | a property list with pairwise different keys: each key reads as its own entry and only listed keys are present |
| Browser.LocalStorage.constructor | lib/state.js:117 | the storage holds the given entries |
| Browser.LocalStorage.GetItem | lib/state.js:215-216 | `getItem` gives the stored text exactly when the key is present, and `null` otherwise |
| Browser.LocalStorage.SetItem | lib/state.js:117 | `setItem` writes the key and leaves every other entry |
| Browser.AddListener | lib/state.js:400 | the listener is appended to the event's list and no other event's list changes |
| Browser.Deliver | lib/state.js:121 | one call per listener, in registration order, each with the event and its detail |
| Browser.ListenerCalledLast | lib/state.js:399-402 | a listener registered after the others is called after them, and the earlier ones exactly as before |
| StyleKeys.Lower | lib/htmlBuilder.js:14 | `toLowerCase` of a capital is a lower-case letter |
| StyleKeys.FirstUpper | lib/htmlBuilder.js:13 | `key.match(/[A-Z]/)` finds no capital exactly when there is none, and otherwise the first one |
| StyleKeys.RewriteStep | lib/htmlBuilder.js:13-18 | one iteration of the loop removes one capital and keeps the kebab form, so the loop ends |
| StyleKeys.KebabUnchanged | lib/htmlBuilder.js:13-18 | a key with no capital is kept as it is, and only such a key |
| StyleKeys.KebabLength | lib/htmlBuilder.js:13-18 | every capital adds one character and nothing else is added or lost |
| StyleKeys.KebabNoUpper | lib/htmlBuilder.js:13-18 | the rewritten key contains no capital |
| StyleKeys.KebabIdempotent | lib/htmlBuilder.js:13-18 | rewriting an already rewritten key changes nothing |
| StyleKeys.KebabKey | lib/htmlBuilder.js:13-18 | the `while` loop turns the key into its kebab form |
| StyleKeys.StyleStringAppend | lib/htmlBuilder.js:9-21 | declarations follow key order with no separator: the string of more keys extends the string of fewer |
| StyleKeys.ElementStyle | lib/htmlBuilder.js:8-23 | a falsy `style` sets no style; an empty style object sets the empty string |
| OverlayCss.JoinAppend | src/js/ConfigEditor.js:104 | joining one more part appends the separator and the part: parts keep their order |
| OverlayCss.JoinContains | src/js/ConfigEditor.js:104 | every part appears in the joined text |
| OverlayCss.SkipSpaces | src/js/ConfigEditor.js:82 | the leading run of whitespace is removed and only it |
| OverlayCss.BreaksNoBreak | src/js/ConfigEditor.js:82 | after the first pass no line break is left |
| OverlayCss.BreaksIdentity | src/js/ConfigEditor.js:82 | text without a line break passes the first pass unchanged |
| OverlayCss.BreaksVisible | src/js/ConfigEditor.js:82 | the first pass changes only whitespace |
| OverlayCss.CollapseNoAdjacent | src/js/ConfigEditor.js:82 | after the second pass no two whitespace characters are neighbours |
| OverlayCss.CollapseNoBreak | src/js/ConfigEditor.js:82 | the second pass introduces no line break |
| OverlayCss.CollapseVisible | src/js/ConfigEditor.js:82 | the second pass changes only whitespace |
| OverlayCss.CollapseIdentity | src/js/ConfigEditor.js:82 | text without neighbouring whitespace passes the second pass unchanged |
| OverlayCss.SkipSpacesWords | src/js/ConfigEditor.js:82 | a leading run of whitespace ends no word |
| OverlayCss.CollapseWords | src/js/ConfigEditor.js:82 | the second pass keeps the words (the maximal runs of non-whitespace characters) apart and unchanged |
| OverlayCss.BreaksWords | src/js/ConfigEditor.js:82 | turning line breaks into spaces keeps the words |
| OverlayCss.NormalizeClean | src/js/ConfigEditor.js:82 | normalised CSS is one line without two neighbouring whitespace characters; its words are those of the input after the break pass (the input's own words when breaks become spaces), so each whitespace run between two words becomes exactly one character; its visible characters are the input's, in order |
| OverlayCss.NormalizeIdempotent | src/js/ConfigEditor.js:82 | normalising normalised CSS changes nothing |
| OverlayCss.UserBlockPieces | src/js/ConfigEditor.js:91-102 | a participant block is the thirteen pieces of its template |
| OverlayCss.UserBlockRules | src/js/ConfigEditor.js:91-102 | a block carries the three selectors on the participant's id, the idle and the speaking image, and the forced display |
| OverlayCss.OldestUserBlockRules | components/config/Config.js:4-16 | the oldest block keeps the three selectors and reads the speaking image from `url_speaking` |
| OverlayCss.DefaultUserCss | src/js/ConfigEditor.js:107-124 | the default block is produced exactly for a truthy default user with at least one key, and is then the block of its two images |
| OverlayCss.UsersCss | src/js/ConfigEditor.js:88-105 | the participant blocks throw exactly when an entry is `null` or `undefined`; no participants give the empty string |
| OverlayCss.BlocksJoin | src/js/ConfigEditor.js:104 | joined blocks contain each participant's block, and a participant added last adds its block after the separator |
| OverlayCss.UsersCssBlocks | src/js/ConfigEditor.js:88-105 | each participant's block is in the CSS; a readable participant added last adds exactly its block after a space; an unreadable one makes the generation throw |
| OverlayCss.CustomCss | src/js/ConfigEditor.js:76-86 | the custom CSS throws exactly when the participant blocks do; otherwise it is one line without runs of whitespace, already normalised, whose words are those of base CSS, animation, default block and participant blocks in that order, each whitespace run between them now one character, and whose visible characters are theirs in that order |
| OverlayCss.LegacyCss | js/index.js:519-563 | a falsy default user argument is read from the store when a list was passed and a falsy list is read from the store; the CSS throws exactly when the resolved list is not an array or holds an unreadable entry; otherwise it is normalised with line breaks deleted: one line without runs of whitespace whose words are those of base CSS, default block and participant blocks once the breaks are deleted (words only a break separated run together), and which keeps their visible characters |
| OverlayCss.OldestUsersCss | components/config/Config.js:1-19 | a falsy list gives the empty string; a truthy non-array, or an array with a `null` or `undefined` entry, throws; an empty array gives the empty string |
| OverlayCss.OldestUsersCssBlocks | index.js:30-49 | the blocks are generated exactly when every entry is readable; then one block per participant, each present, in order, joined with a newline; an unreadable participant added last makes the generation throw |
| OverlayCss.OldestUsersCssArr | components/config/Config.js:2 | an array, empty or not, is truthy: its blocks are joined when every entry is readable, and the call throws otherwise |
| OverlayCss.OrPlaceholder | src/js/ConfigEditor.js:66-68 | a non-empty string id is used as it is; a falsy or empty one gives the placeholder |
| OverlayCss.OverlayUrl | src/js/ConfigEditor.js:64-70 | the URL starts with the stream-kit prefix; with both ids present it is the prefix, the server id, `/` and the channel id; with neither it holds both placeholders |
| Editors.TrimEnd | src/js/UsersEditor.js:150-151 | the trailing run of whitespace is removed and only it |
| Editors.Trim | src/js/UsersEditor.js:150-151 | `trim()` is empty exactly for all-whitespace input, and otherwise neither starts nor ends with whitespace |
| Editors.UrlFields | src/js/UsersEditor.js:153-163 | the form's fields: `url` exactly when its input is not empty, `urlSpeaking` likewise, each holding its input, and nothing else |
| Editors.UpdateData | src/js/UsersEditor.js:150-165 | no data (no write) exactly when both trimmed inputs are empty; otherwise an object holding each non-empty trimmed input under its key and no other key |
| Editors.UpdatedUsers | src/js/UsersEditor.js:190-196 | the update keeps the list's length |
| Editors.UpdatedUsersFields | src/js/UsersEditor.js:190-196 | an entry with another id stays as it is, in its place; an entry with the id takes every field the data names and keeps every other field |
| Editors.Filter | src/js/UsersEditor.js:201 | filtering never lengthens the list |
| Editors.FilterAppend | src/js/UsersEditor.js:201 | filtering works entry by entry, so the kept entries keep their relative order |
| Editors.FilterMembers | src/js/UsersEditor.js:201 | the entries kept are exactly the accepted ones |
| Editors.RemovedUsersMembers | src/js/UsersEditor.js:200-203 | the entries kept are exactly those whose id is not the removed one |
| Editors.RemovedUsersAppend | src/js/UsersEditor.js:200-203 | removal works entry by entry, keeping the relative order |
| Editors.RemovedUsersAbsent | src/js/UsersEditor.js:200-203 | removing an id nobody has changes nothing |
| Editors.AddedUser | js/index.js:289-298 | the list gains one entry at the end, with the id, both images and the date, and keeps every earlier entry |
| Editors.DefaultUserUpdatedFields | js/state.js:97-104 | the intended merge: every field the data names takes its new value, every other field is kept; over `null` the data itself is stored |
| Editors.DefaultUserUpdateLosesUrl | src/js/UsersEditor.js:180 | as written, the old `url` is kept and the data lands under a key `data`, where the merge would take the new `url` |
| Editors.DefaultUserRemoval | src/js/UsersEditor.js:183-187 | `null` is written exactly over a truthy default user |
| Editors.ServerWithFieldFields | src/js/ConfigEditor.js:172-190 | the field reads as the input (and is absent for an empty input); every other field is kept |
| UsersEditor.UpdateUserStores | src/js/UsersEditor.js:189-198 | the update throws without writing when the stored list is not an array or holds an unreadable entry, or when sorting the updated list throws; otherwise it completes exactly when the updated list has text, and the slot then holds the updated entries, each as often, sorted |
| UsersEditor.RemoveUserStores | src/js/UsersEditor.js:200-203 | a completed removal leaves in the slot exactly the entries of other ids, sorted; an unreadable list throws without writing |
| UsersEditor.UpdateDefaultUserStores | src/js/UsersEditor.js:178-181 | both updates complete exactly when the new default user has text, and the slot then holds it; as written, every old field (`url` included) keeps its value and the data is stored under `data` (over `null`, `{data}` alone); the merge gives each field the data names its new value and keeps the others |
| UsersEditor.AsWrittenUpdateFields | src/js/UsersEditor.js:180 | `{ ...defaultUser, data }` keeps every old field, `url` included, and reads the data under `data`; over `null` it is `{data}` alone |
| UsersEditor.RemoveDefaultUserStores | src/js/UsersEditor.js:183-187 | removing the default user always completes and leaves the slot falsy |
| UsersEditor.SubmitSpec | src/js/UsersEditor.js:144-172 | with both trimmed inputs empty the submit does nothing; otherwise the form without an id runs the as-written default-user update and an entry's form the update of its id |
| UsersEditor.SubmitUpdatesEntry | src/js/UsersEditor.js:144-196 | a new URL submitted on a participant's form goes to the entries with its id, their other fields are kept (an empty speaking input keeps `urlSpeaking`), every other entry is left alone |
| UsersEditor.MergedEntryField | src/js/UsersEditor.js:192-195 | a merged entry's field is the data's when the data has it, the entry's otherwise |
| UsersEditor.UpdateUser | src/js/UsersEditor.js:189-198 | the new world is the update step (see `UpdateUserStores`) |
| UsersEditor.RemoveUser | src/js/UsersEditor.js:200-203 | the new world is the removal step (see `RemoveUserStores`) |
| UsersEditor.UpdateDefaultUser | src/js/UsersEditor.js:178-181 | the new world is the as-written update `{ ...defaultUser, data }` (see `UpdateDefaultUserStores`) |
| UsersEditor.RemoveDefaultUser | src/js/UsersEditor.js:183-187 | the new world is the removal step (see `RemoveDefaultUserStores`) |
| UsersEditor.Submit | src/js/UsersEditor.js:144-172 | the new world is the submit step: nothing for empty inputs, else the as-written default-user update or the entry's update |
| UsersEditor.RemoveButton | src/js/UsersEditor.js:107-137 | the new world is the default user's removal for the form without an id, else the removal of the entry's id |
| Forms.NewUser | src/js/AddUserForm.js:37 | the entry `{ id, url, urlSpeaking }` reads back each input under its key, has distinct keys, is plain data and is an entry the comparator can always order |
| Forms.NewDefaultUser | src/js/DefaultUserForm.js:35 | the object `{ url, urlSpeaking }` reads back each input under its key, has no `id` and is plain data |
| Forms.AddUserStores | src/js/AddUserForm.js:42-46 | adding throws without writing when the stored value is not an array or sorting the longer list throws (never for a sortable list and entry); otherwise it completes exactly when the sorted list has text, and the slot then holds the old entries plus the new one, each as often, sorted |
| Forms.AddSubmitAdds | src/js/AddUserForm.js:20-46 | a blank trimmed input changes nothing; three non-blank inputs over a sortable list of plain entries always complete, and the slot then holds the old entries plus the trimmed entry, sorted |
| Forms.SortedPlainHasText | src/js/AddUserForm.js:44-45 | plain entries plus one plain entry, sorted, still have text, so persisting them never throws |
| Forms.SetDefaultSubmitStores | src/js/DefaultUserForm.js:20-44 | a blank trimmed input changes nothing; otherwise the submit always completes, the slot holds `{ url, urlSpeaking }` of the trimmed inputs, which is persisted, and nothing else changes |
| Forms.RemoveDefaultStores | src/js/DefaultUserForm.js:46-48 | the remove button always completes, writes and persists `null` whatever the slot held, and leaves the slot falsy |
| Forms.AddUser | src/js/AddUserForm.js:42-46 | the new world is the add step (see `AddUserStores`) |
| Forms.AddSubmit | src/js/AddUserForm.js:20-38 | the new world is the submit step: nothing for a blank input, else the trimmed entry added |
| Forms.SetDefaultUser | src/js/DefaultUserForm.js:42-44 | the new world is the `set` of the given value on `defaultUser` |
| Forms.SetDefaultSubmit | src/js/DefaultUserForm.js:20-36 | the new world is the submit step (see `SetDefaultSubmitStores`) |
| Forms.RemoveDefault | src/js/DefaultUserForm.js:46-48 | the new world is the write of `null` (see `RemoveDefaultStores`) |
| ConfigEditor.SetServerFieldStores | src/js/ConfigEditor.js:172-190 | on a stored record the write completes exactly when the new record has text; then the field reads as the input (absent for an empty input) and every other field is kept |
| ConfigEditor.EnteredIdsMakeUrl | src/js/ConfigEditor.js:172-190 | entering both ids makes the overlay URL the stream-kit address of that server and channel |
| ConfigEditor.SetServerId | src/js/ConfigEditor.js:172-180 | the new world is the field write of `serverId` with the trimmed input |
| ConfigEditor.SetVcId | src/js/ConfigEditor.js:182-190 | the new world is the field write of `vcId` with the trimmed input |
| ConfigEditor.SetServerField | src/js/ConfigEditor.js:172-190 | an empty input on a `null` or `undefined` record throws; otherwise the record with the field deleted or set is written |
| Documents.FileTypeOf | src/js/ImportExport.js:47-54 | a `.dvco` name selects the older reader, a `.dvog` name the current one, and any other name is ignored |
| Documents.DvcoServer | src/js/ImportExport.js:58-61 | the server record holds `serverId` and `vcId` each exactly when truthy in the document, nothing else, and is empty exactly when neither is |
| Documents.RekeyUser | src/js/ImportExport.js:65-69 | a participant becomes `{id, url, urlSpeaking}` with `urlSpeaking` taken from `url_speaking`; reading a field of `null` or `undefined` throws |
| Documents.RekeyItems | src/js/ImportExport.js:65-69 | the re-keying succeeds exactly when every entry does, and then maps the entries one for one |
| Documents.Rekeyed | src/js/ImportExport.js:63-70 | only an array of re-keyable entries maps; anything else throws a TypeError |
| Documents.HasItemsArr | src/js/ImportExport.js:79-97 | an array passes `v && v.length > 0` exactly when it is not empty |
| Documents.ExportDoc | src/js/ImportExport.js:90-101 | the document holds `defaultUser` and `server` exactly when they have own keys, `users` exactly when it has items, and no other key |
| Documents.ExportDocPlain | src/js/ImportExport.js:90-101 | the document of plain values is plain |
| Documents.ExportFileName | src/js/ImportExport.js:89 | the name is `discord-vc-overlay-`, then exactly the first ten characters of the date text (all of a shorter one), then `.dvog`: a name the import reads as `.dvog` |
| Documents.ExportText | src/js/ImportExport.js:103 | the file's text exists exactly when no BigInt occurs in the document, and a BigInt makes `JSON.stringify` throw, the same error the store reports when persisting meets one |
| Documents.ExportReadsBack | src/js/ImportExport.js:36-103 | exporting plain values gives text, and reading it back gives the document again, which is truthy as the import requires |
| ImportExport.SetIfPass | src/js/ImportExport.js:75-85 | a guarded write that completes followed a completed step, and stored the transformed value when its guard held |
| ImportExport.WithSlotsOverwrite | src/js/ImportExport.js:75-85 | a later write of one slot replaces that slot's value and nothing else |
| ImportExport.Import | src/js/ImportExport.js:27-55 | corrected (see Findings): with the component's own reset in place of the missing call, a rejected file (no file, unknown suffix, unreadable or falsy content) leaves the store as it is |
| ImportExport.ImportAsWritten | src/js/ImportExport.js:27-55 | as written, the store never changes, and the handler throws exactly for an accepted file |
| ImportExport.ImportDvogSlots | src/js/ImportExport.js:74-86 | after a completed `.dvog` import each slot holds the document's field when non-empty (`users` sorted) and its default otherwise; every other key is kept |
| ImportExport.ImportDvcoSlots | src/js/ImportExport.js:57-72 | after a completed `.dvco` import `defaultUser` is `null`, `server` holds the truthy ids (or `{}`), `users` the re-keyed participants sorted (or `[]`) |
| ImportExport.ExportImportRoundTrip | src/js/ImportExport.js:27-101 | with the corrected reset, export then import restores all three slots: the exported file imports without error and leaves exactly the exported values (for a list of entries the comparator can read) |
| ImportExport.ExportedSlots | src/js/ImportExport.js:74-101 | what the `.dvog` import makes of each field of an exported document is the exported value |
| ImportExport.ImportUnfold | src/js/ImportExport.js:49-54 | an accepted import resets the three slots, which always completes, and then applies the document by its suffix |
| ImportExport.DvogPasses | src/js/ImportExport.js:74-86 | applying an exported document completes: every write is of the slot's kind and has text |
| ImportExport.PlainWritePasses | src/js/ImportExport.js:76-84 | a write of plain data of the slot's kind (for `users`, a sorted list of entries the comparator can read) completes and stores the value as it is |
| ImportExport.ImportAsWrittenLosesRoundTrip | src/js/ImportExport.js:27-55 | as written, the exported file the corrected import restores leaves the store unchanged and throws |
| ImportExport.HandleDvco | src/js/ImportExport.js:57-72 | the new world is the `.dvco` step (see `ImportDvcoSlots`) |
| ImportExport.HandleDvog | src/js/ImportExport.js:74-86 | the new world is the `.dvog` step (see `ImportDvogSlots`) |
| ImportExport.HandleImport | src/js/ImportExport.js:27-55 | as written: no file, an unknown suffix or falsy content does nothing, and an accepted file throws at the missing `$resetAll` before any write (see `ImportAsWritten`) |
| ImportExport.HandleImportWithReset | src/js/ImportExport.js:27-55 | the new world is the corrected import with the component's own reset (see `Import`) |
| ImportExport.HandleExport | src/js/ImportExport.js:88-121 | the file name and text of the document of the non-empty slots; nothing in the store changes |
| LegacyApp.PutIfPass | js/index.js:225-235 | a guarded write that completes followed a completed step; when its guard held, the key holds the value |
| LegacyApp.PutHolds | js/state.js:25-38 | an element write completes exactly when the value holds no BigInt, and then the key reads as the value |
| LegacyApp.InitKeyQuiet | js/state.js:44-66 | `initKey` never dispatches, so the listeners registered do not affect it |
| LegacyApp.InitStatesFresh | js/index.js:60-84 | on a store without the three keys, start-up holds `{}`, `[]` and `{}`, persists their text and calls no listener |
| LegacyApp.InitKeyFresh | js/state.js:59-64 | a key neither held nor persisted, with a truthy default that has text, is initialised to it and persisted, silently |
| LegacyApp.SortHeldSpec | js/index.js:145-155 | the listeners' sort completes exactly on a held array on whose entries no comparison throws (always for sortable entries), and leaves it sorted and a permutation of itself; storage and listeners see nothing and no other key changes; anything else throws a TypeError and changes nothing |
| LegacyApp.ResetClears | js/index.js:173-180 | the reset always completes: the keys hold `null`, `[]` and `{}`, their text is persisted, and each key's listeners are called once in the order of the writes |
| LegacyApp.ImportSpec | js/index.js:182-204 | no file, an unknown suffix or content that is not a truthy value leaves the store alone |
| LegacyApp.ImportDvogSlots | js/index.js:224-236 | after a completed `.dvog` import each slot holds the document's field when non-empty and the reset value otherwise; it completes exactly when no field written holds a BigInt |
| LegacyApp.ImportDvcoSlots | js/index.js:209-223 | after a `.dvco` import `defaultUser` is `null`; when it completes, `server` holds the truthy ids (or `{}`) and `users` the re-keyed participants (or `[]`) |
| LegacyApp.ExportImportRoundTrip | js/index.js:182-272 | export then import restores all three slots exactly, with no sortedness needed since this store does not sort on write |
| LegacyApp.AddUserAppends | js/index.js:289-299 | adding keeps every entry in place and appends one with the given fields and date; it completes exactly when the old entries hold no BigInt; a non-array throws |
| LegacyApp.NewestUserFirst | js/index.js:295-331 | once the listeners sort the list, an entry added later than every dated entry comes first |
| LegacyApp.RemoveUserStores | js/index.js:301-304 | a completed removal holds exactly the entries of other ids in their old order; removing an absent id writes the list back unchanged |
| LegacyApp.UpdateUserStores | js/index.js:306-317 | a completed update keeps the length and every entry of another id in place, and merges the data into each entry of the id |
| LegacyApp.SubmitDefaultUserSpec | js/index.js:87-101 | nothing is written unless both trimmed inputs are non-empty; then the default user is exactly `{url, urlSpeaking}` |
| LegacyApp.UrlPairFields | js/index.js:100 | the default user's form value has its two distinct fields and no BigInt |
| LegacyApp.UpdateDefaultUserMerges | js/index.js:285-287 | over `null` or an object, a completed update holds the data's fields where it names them and the old ones elsewhere; over `null`, the data itself |
| LegacyApp.RemoveDefaultUserSpec | js/index.js:279-283 | removal always completes and leaves the slot falsy, writing `null` only over a truthy value |
| LegacyApp.SubmitAddUserSpec | js/index.js:103-124 | nothing is written unless all three trimmed inputs are non-empty; then it is `addUser` of the trimmed inputs |
| LegacyApp.SubmitUpdateSpec | js/index.js:390-417 | corrected (see Findings): with the evident id `user.id`, empty inputs write nothing |
| LegacyApp.SubmitUpdateAsWrittenThrows | js/index.js:412-413 | as written, a participant's form with a URL entered throws a ReferenceError and leaves the store as it was |
| LegacyApp.SubmitUpdateEdits | js/index.js:390-417 | with the evident id, a new URL over a readable list completes, keeps the length and every entry of another id, and gives the URL to each entry of the id |
| LegacyApp.SubmitUpdateWrites | js/index.js:390-417 | a participant's form writes the updated list, and it completes exactly when that holds no BigInt |
| LegacyApp.UpdatedNoBigInt | js/index.js:306-317 | merging text-only data into entries without a BigInt adds none |
| LegacyApp.SetServerFieldStores | js/index.js:333-351 | on a held record the field reads as the input (absent for an empty input) and every other field as before; it completes exactly when the record holds no BigInt |
| LegacyApp.App.constructor | js/index.js:60-84 | the three elements are persisted handles on their keys of a store built without options |
| LegacyApp.App.InitStates | js/index.js:60-84 | the three `initKey` calls in order, then each element gets its listener |
| LegacyApp.App.HandleUsers | js/index.js:145-149 | the new state is the listeners' in-place sort (see `SortHeldSpec`); a sort that throws leaves the list as it was |
| LegacyApp.App.HandleReset | js/index.js:173-180 | the new state is the reset step (see `ResetClears`) |
| LegacyApp.App.ImportDvco | js/index.js:209-223 | the new state is the `.dvco` branch |
| LegacyApp.App.ImportDvog | js/index.js:224-236 | the new state is the `.dvog` branch |
| LegacyApp.App.HandleImport | js/index.js:182-237 | the new state is the import step (see `ImportDvogSlots`, `ImportDvcoSlots`) |
| LegacyApp.App.HandleExport | js/index.js:239-272 | the file name and text of the document of the non-empty slots; the store does not change |
| LegacyApp.App.AddUser | js/index.js:289-299 | the new state is the add step (see `AddUserAppends`) |
| LegacyApp.App.RemoveUser | js/index.js:301-304 | the new state is the removal step (see `RemoveUserStores`) |
| LegacyApp.App.UpdateUser | js/index.js:306-317 | the new state is the update step (see `UpdateUserStores`) |
| LegacyApp.App.SubmitDefaultUser | js/index.js:87-101 | the new state is the default user form's step |
| LegacyApp.App.SubmitAddUser | js/index.js:103-124 | the new state is the add-user form's step |
| LegacyApp.App.UpdateDefaultUser | js/index.js:285-287 | the new state is the merge of the default user (see `UpdateDefaultUserMerges`) |
| LegacyApp.App.RemoveDefaultUser | js/index.js:279-283 | the new state is the removal step |
| LegacyApp.App.SubmitUpdate | js/index.js:390-417 | the new state is the entry form's step as written: a participant's form with a URL entered throws a ReferenceError and changes nothing (see `SubmitUpdateAsWrittenThrows`) |
| LegacyApp.App.RemoveButton | js/index.js:377-383 | the new state is the participant's removal by id, or the default user's when the entry has no id |
| LegacyApp.App.SetServerId | js/index.js:333-341 | the new state is the `serverId` field write of the trimmed input |
| LegacyApp.App.SetVcId | js/index.js:343-351 | the new state is the `vcId` field write of the trimmed input |
| LegacyApp.App.SetServerField | js/index.js:333-351 | the new state is the field write (see `SetServerFieldStores`) |
| VueApp.ObjId | index.js:90 | the `obj_id` of a new entry starts with the participant id and continues with decimal digits whose value is the time stamp |
| VueApp.NewUser | index.js:86-91 | the pushed entry is an object with distinct keys whose `id`, `url`, `url_speaking` and `obj_id` read back as the inputs and the generated `obj_id` |
| VueApp.SubmitSpec | index.js:71-92 | a submission changes the list exactly when all three inputs are non-empty, and then appends one entry carrying the inputs after the unchanged old list |
| VueApp.FindIndexFirst | index.js:130 | `findIndex` returns the first entry whose `obj_id` equals the id, all earlier entries being readable and not matching; no match means no entry matches; it throws only when some entry is `null` or `undefined`, and never on readable entries |
| VueApp.RemoveFirstMatch | index.js:129-133 | a removal shortens the list by one exactly when some entry matches; it then drops the first match, keeps the others in order and is a permutation minus that entry; it cannot throw on readable entries |
| VueApp.RemoveAfter | index.js:129-133 | after walking past non-matching readable entries, the end leaves the list unchanged, an unreadable entry throws and a matching entry is spliced out |
| VueApp.SubmitThenRemove | index.js:71-133 | removing by the `obj_id` of the entry just added gives back the list as it was before the submission |
| VueApp.Interpolated | index.js:263 | a string interpolates as itself; `null` and `undefined` interpolate as nothing |
| VueApp.ShareUrl | index.js:263 | the shown URL starts with the stream-kit overlay prefix and, for string ids, is the prefix, the server id, a slash and the channel id |
| VueApp.UpdateSpec | index.js:198-200 | an input event sets exactly the field its element names to the typed string and leaves the list and the other id alone |
| VueApp.TypedIdsMakeUrl | index.js:198-263 | typing both ids, in either order, makes the URL the stream-kit address of that server and channel; typing only the server id leaves the channel placeholder in the URL |
| VueApp.ExportFields | components/import-export/ImportExport.js:10-15 | the exported object has `users` only when the list is non-empty and each id only when it differs from its placeholder |
| VueApp.DatePart | components/import-export/ImportExport.js:7-9 | the date part of the time stamp is exactly its first ten characters, or all of a shorter one |
| VueApp.ExportSpec | components/import-export/ImportExport.js:6-39 | nothing is exported exactly when no field is truthy; `JSON.stringify` throws exactly on a BigInt; otherwise the download carries the dated `.dvco` name and the serialised object |
| VueApp.SpreadItems | components/import-export/ImportExport.js:49 | `push(...v)` receives an array's items or a string's characters one by one, and throws for anything else |
| VueApp.ApplyImport | components/import-export/ImportExport.js:47-60 | a non-object changes nothing; a present `users` replaces the list with its items, and when it cannot be spread the list is left empty and the ids untouched; each present id is assigned as it is; absent keys keep their values |
| VueApp.ImportSpec | components/import-export/ImportExport.js:40-67 | no file, an unreadable file or text that does not parse changes nothing; otherwise the parsed document is applied |
| VueApp.CanonPropsDefined | components/import-export/ImportExport.js:19 | serialising drops exactly the `undefined` fields of the exported object and keeps the others unchanged |
| VueApp.ExportFieldsPlain | components/import-export/ImportExport.js:10-19 | with plain participant entries and ids, the exported object is well formed and serialisable |
| VueApp.ExportParses | components/import-export/ImportExport.js:6-46 | the exported text parses back to an object holding exactly the fields that were exported, each with its value |
| VueApp.ExportImportRoundTrip | components/import-export/ImportExport.js:6-67 | exporting a state with something to export and importing the file into any state restores the non-empty list and the non-placeholder ids, and keeps the target's value for what the file left out |
| VueApp.ImportReplacesUsers | components/import-export/ImportExport.js:47-50 | an imported list replaces the whole list whatever it held before, and applying the same document twice is the same as once |
| VueApp.SharedState.constructor | index.js:21-28 | the shared object starts with no participants, the two placeholder ids and no generated CSS |
| VueApp.SharedState.FormSubmit | index.js:71-92 | the list becomes what `SubmitSpec` gives and the ids and CSS are unchanged |
| VueApp.SharedState.RemoveUser | index.js:129-133 | the loop over the list throws exactly when the removal specification fails and otherwise leaves the list it gives; nothing else changes |
| VueApp.SharedState.Update | index.js:198-200 | the state becomes what `UpdateSpec` gives; the CSS is unchanged |
| VueApp.SharedState.UpdateUserClasses | index.js:227-247 | the regeneration completes exactly when every entry is readable; the CSS then becomes the generated rules for the list, with one rule block for every entry; otherwise it throws and the CSS is unchanged; the list and ids never change |
| VueApp.SharedState.ExportData | components/import-export/ImportExport.js:6-39 | the result is what `ExportSpec` gives for the current state |
| VueApp.SharedState.ImportData | components/import-export/ImportExport.js:40-67 | the state becomes what `ImportSpec` gives and the CSS is unchanged |

## Left out

- The DOM is not modelled: rendering, the editor and preview widgets, and the element, attribute and child handling of `htmlBuilder.js`. Only the style-string assembly is modelled.
- The components in `src/js/UsersPreview.js`, `components/overlay-preview/OverlayPreview.js` and `components/user-input/UserInput.js` are page glue: they render and change no modelled state. The handlers of `src/js/AddUserForm.js` and `src/js/DefaultUserForm.js` are module `Forms`; their element lookups and the clearing of their inputs are not modelled.
- `lib/version.js` is not part of this model.
- Fetching the base `overlay.css` is not modelled. Its text is a parameter of the CSS builders.
- `FileReader`, `Blob`, `URL.createObjectURL` and the download link are not modelled. A chosen file is a name plus the text that reading it gave, or nothing. An export is a file name plus text.
- The clipboard, `selectText`, console logging, image dimension checks, the preview animation and `setInterval` are not modelled. They change no modelled state.
- Numbers are integers plus `NaN`; floating point is not modelled. `parseFloat` is modelled on integer text.
- Dates are integer time stamps, and the ISO date string is a parameter. `UserOrder.Time` reads a `date` that is not a number as time 0. Such a date still counts as dated. This covers the `new Date().toUTCString()` text the legacy tool stores (`js/index.js:295`). Two entries with such text dates therefore tie in the model, where `new Date(...)` in JavaScript would order them by the time the text names. This also applies to a file with text dates imported into the current tool.
- `localeCompare` is modelled as lexicographic order on characters, so locale collation is not modelled.
- `Array.prototype.sort` is modelled as a stable insertion sort. Engines use other stable sorts, and with a total preorder the result is the same.
- The JSON text format is not modelled. `Json` is a length-prefixed encoding with the same semantics on values:
  - at top level, `undefined`, functions and symbols have no text;
  - in objects they are dropped, and in arrays they become `null`;
  - a BigInt throws;
  - parsing gives back the value.
  A file in real JSON syntax is modelled only through what `Json.Parse` makes of its text.
- Listener bodies are not modelled: a listener is an id, and a dispatch records one delivery per listener in registration order. Re-entrant writes from a listener are therefore not modelled.
- Vue reactivity and the timing of watchers and `updated` hooks are not modelled. The watcher on `users` is the method that regenerates the CSS.
- Vue's `{{ }}` interpolation is modelled only for strings, `null` and `undefined`.
- Clearing input boxes after a submission is not modelled.
- The loose `==` in `findIndex` (`index.js:130`) is modelled as value equality, so coercions between strings and numbers are not modelled.
- The listeners' sort at `js/index.js:149` reorders the array the store holds, in place, and writes nothing. The persisted text keeps the old order until the next write, and no listener is told. `LegacyApp.SortHeldSpec` models this by changing only the held `users` value. The aliasing of that array with the store's other readers is not modelled.
- The other in-place mutations of stored values are modelled as the write the following `set` makes: the pushes on the stored array at `js/index.js:291` and `src/js/AddUserForm.js:44`, and the `delete` of a field of the stored server record at `src/js/ConfigEditor.js:175`, `src/js/ConfigEditor.js:185`, `js/index.js:336` and `js/index.js:346`. The aliasing of the stored value with the caller's value is therefore not modelled.
- The reset button of the current version (`src/js/ImportExport.js:22`, `src/js/ImportExport.js:123-125`) calls the same missing `$resetAll` as the import. As written it throws, like `ImportExport.ImportAsWritten`. What it evidently meant is `App.ResetStateIsResetAll`.
- ImportExport.ImportDvcoSlots: this lemma states the three slots only for an import that completes. When a rejected write or a re-keying failure stops the import, only the step function `ImportExport.Import` says what stays written.
- A persisted value that does not parse makes the store's `init` throw, as the code does: `JSON.parse` is not guarded.
- UsersEditor.UpdateDefaultUserSpec: models the corrected merge `{ ...defaultUser, ...data }`, not the code as written. The handler `UsersEditor.UpdateDefaultUser` runs the as-written `UsersEditor.UpdateDefaultUserAsWrittenSpec`.
- ImportExport.Import: models the import with the component's own reset in place of the missing `$resetAll`, not the code as written. The handler `ImportExport.HandleImport` runs the as-written `ImportExport.ImportAsWritten`.
- ImportExport.HandleImportWithReset: runs the corrected `ImportExport.Import`, not the code as written; `ImportExport.HandleImport` is the as-written handler.
- ImportExport.ExportImportRoundTrip: the round trip holds for the corrected import only; as written the import throws (`ImportExport.ImportAsWrittenLosesRoundTrip`).
- LegacyApp.SubmitUpdateSpec: models the edit form with the evident id `user.id`, not the code as written. The handler `LegacyApp.App.SubmitUpdate` runs the as-written `LegacyApp.SubmitUpdateAsWrittenSpec`, which throws a ReferenceError.
- `src/js/ImportExport.js:1` imports `States` from `src/index.js`, which exports nothing, so as written the module graph does not link and the component never loads. The model assumes that the module loads and that `States.DEFAULT_USER`, `States.USERS` and `States.SERVER` (`src/js/ImportExport.js:13`) are the keys `"defaultUser"`, `"users"` and `"server"`. The Findings row about `src/js/ImportExport.js:124` presupposes the same.
- A Symbol in a template literal (the CSS builders' `${user.id}`) throws a TypeError in JavaScript; the model renders it as `Symbol(description)` instead.
- Which comparison throws in a list of undated entries that mixes string and non-string ids depends on the order in which the engine's sort compares them. The model follows an insertion sort that compares each new entry with the sorted ones from the end, new entry first; another engine order can throw for a different subset of such lists. For lists whose entries all have a date or a string id, no comparison throws in any order.
- JavaScript lists integer-like keys (such as `"0"`) before the other keys of an object, in ascending order. The model keeps every key in the order it was added, so objects with integer-like keys are not ordered as in JavaScript.
- `JsValue.Spread` and `JsValue.Get` give arrays and strings no index keys: in JavaScript `{ ...["a"] }` is `{"0": "a"}` and `"ab"[0]` is `"a"`, while the model spreads nothing from them and reads only their `length`.

## Findings

| source | as written | input that shows it | evidently intended | confidence | as-written member | corrected member |
|---|---|---|---|---|---|---|
| lib/state.js:176 | a persisted boolean is restored with `Boolean(str)`, which is `true` for every non-empty string | the boolean `false` is persisted as `"false"` and restored as `true` | the text `"false"` restores as `false`, so that every JSON-able value round-trips | not executed | LibState.BooleanRestoreAsWritten | LibState.PersistRoundTrip |
| src/js/ImportExport.js:124 | the import resets through `this.#app.$resetAll()`, which `App` (`src/index.js`) does not define | any accepted `.dvco` or `.dvog` file: the call throws a TypeError before anything is imported | reset every slot with `StateComponent.$resetAll` (`lib/state.js:479-481`), then apply the file | not executed | ImportExport.ImportAsWrittenLosesRoundTrip | ImportExport.ExportImportRoundTrip |
| src/js/UsersEditor.js:180 | the default-user update writes `{ ...defaultUser, data }`, which adds a key named `data` | default `{url: "a.png", urlSpeaking: "b.png"}` updated with `{url: "c.png"}` keeps `url` as `"a.png"` | `{ ...defaultUser, ...data }`, so the update's fields win | not executed | Editors.DefaultUserUpdateLosesUrl | Editors.DefaultUserUpdatedFields |
| js/index.js:413 | the entry's edit form calls `updateUser(userId, …)`, and `userId` is not defined there | a participant with a truthy id and a non-empty URL input: submitting throws a ReferenceError | `updateUser(user.id, …)` | not executed | LegacyApp.SubmitUpdateAsWrittenThrows | LegacyApp.SubmitUpdateEdits |

=== FILE: app.dfy ===
/**
 * The application shell of the current tool (src/index.js): the three
 * persistent slots it registers on the shared store (`defaultUser`,
 * `users`, whose every write is re-sorted by `sortUsers`, and `server`),
 * and `resetState`, which writes the three defaults in turn.
 */
module App {
  import opened Wrappers
  import opened JsValue
  import opened Json
  import opened Browser
  import opened LibState
  import opened UserOrder

  /**
   * `sortUsers(users)` as `onBeforeSet`: `users.sort(...)` sorts an array
   * and gives it back; any other value has no `sort` method and throws, and
   * so does an array on whose entries a comparison throws.
   */
  function SortUsersValue(v: Value): (r: Result<Value, Error>)
    ensures r.Success? <==> v.Arr? && CheckedSort(v.items).Some?
    ensures r.Failure? ==> r.error == TypeError
    ensures r.Success? ==> r.value == Arr(SortUsers(v.items))
  {
    if !v.Arr? then Failure(TypeError)
    else match CheckedSort(v.items)
      case None => Failure(TypeError)
      case Some(sorted) => CheckedSortIsSort(v.items); Success(Arr(sorted))
  }

  /**
   * What the `users` transform stores: the entries in order, each kept as
   * often as given, a sorted list as it is. A list of sortable entries is
   * always accepted; a list holding a `null` and another entry that is not
   * `undefined` never is (`undefined` entries never reach the comparator).
   */
  lemma SortUsersValueSorts(items: seq<Value>)
    ensures var r := SortUsersValue(Arr(items));
            (Sortable(items) ==> r.Success?) &&
            ((exists i, j :: 0 <= i < |items| && 0 <= j < |items| && i != j && items[i].Null? && !items[j].Undefined?) ==>
               r == Failure(TypeError)) &&
            (r.Success? ==>
               r.value.Arr? && Sorted(r.value.items) && multiset(r.value.items) == multiset(items) &&
               (Sorted(items) ==> r.value == Arr(items)))
  {
    SortSorts(items);
    SortPermutes(SortCompare, items);
    if Sorted(items) {
      SortKeepsSorted(items);
    }
    if Sortable(items) {
      SortableSucceeds(items);
    }
    if i, j :| 0 <= i < |items| && 0 <= j < |items| && i != j && items[i].Null? && !items[j].Undefined? {
      CheckedSortThrows(items, i, j);
    }
  }

  /** The options every slot of the tool uses: persisted, with events. */
  const Persistent := ElementConfig(true, true, None)

  const DefaultUserSlot := Slot("defaultUser", Null, Persistent)
  const UsersSlot := Slot("users", Arr([]), ElementConfig(true, true, Some(SortUsersValue)))
  const ServerSlot := Slot("server", Obj([]), Persistent)

  /** The slots in the order `#initStates` registers them. */
  const AppSlots := [DefaultUserSlot, UsersSlot, ServerSlot]

  /** One `StateElement.set(value)` of a sequence of writes. */
  datatype Write = Write(slot: Slot, value: Value)

  /** Writes performed one after another, stopping at the first that throws. */
  function SetAll(w: World, listeners: map<string, seq<Listener>>, store: StoreConfig, writes: seq<Write>): Step
    decreases |writes|
  {
    if writes == [] then Step(w, Pass)
    else
      var s := ElementSet(w, listeners, store, writes[0].slot, writes[0].value);
      if s.outcome.Fail? then s else SetAll(s.world, listeners, store, writes[1..])
  }

  /** Unfolding one write of a sequence. */
  lemma SetAllFirst(w: World, listeners: map<string, seq<Listener>>, store: StoreConfig, writes: seq<Write>)
    requires writes != []
    ensures var s := ElementSet(w, listeners, store, writes[0].slot, writes[0].value);
            SetAll(w, listeners, store, writes) == if s.outcome.Fail? then s else SetAll(s.world, listeners, store, writes[1..])
  {
  }

  /** `get(key)` on a world: `undefined` for a key never written. */
  function Stored(w: World, key: string): Value
  {
    if key in w.storage then w.storage[key] else Undefined
  }

  /**
   * A `set` that completes had a value of the slot's kind, which
   * `onBeforeSet` accepted, and it stored the transformed value under the
   * slot's key and nowhere else.
   */
  lemma ElementSetPass(w: World, listeners: map<string, seq<Listener>>, store: StoreConfig, slot: Slot, value: Value)
    ensures var s := ElementSet(w, listeners, store, slot, value);
            s.outcome.Pass? ==>
              TypeOf(value) == TypeOf(slot.defaultValue) && BeforeSet(slot.config, value).Success? &&
              s.world.storage == w.storage[slot.key := BeforeSet(slot.config, value).value]
  {
    ElementSetChecksKind(w, listeners, store, slot, value);
  }

  /**
   * A write of an array to `users` always passes the kind check; a sort
   * that throws rejects it with nothing changed; otherwise it completes
   * exactly when the sorted array has text, and then the slot holds the
   * entries sorted, each as often as given.
   */
  lemma UsersSetStores(w: World, listeners: map<string, seq<Listener>>, store: StoreConfig, items: seq<Value>)
    ensures var r := ElementSet(w, listeners, store, UsersSlot, Arr(items));
            var stored := SortUsers(items);
            Sorted(stored) && multiset(stored) == multiset(items) &&
            (CheckedSort(items).None? ==> r == Step(w, Fail(TypeError))) &&
            (r.outcome.Pass? <==> CheckedSort(items).Some? && ValueToString(Arr(stored)).Success?) &&
            (r.outcome.Pass? ==> r.world.storage == w.storage["users" := Arr(stored)])
  {
    SortSorts(items);
    SortPermutes(SortCompare, items);
    CommitStores(w, listeners, store, "users", Arr(SortUsers(items)), true, true);
  }

  /** The write of each slot's own default. */
  function Defaults(slots: seq<Slot>): (r: seq<Write>)
    ensures |r| == |slots|
    ensures forall i :: 0 <= i < |slots| ==> r[i] == Write(slots[i], slots[i].defaultValue)
  {
    if slots == [] then [] else [Write(slots[0], slots[0].defaultValue)] + Defaults(slots[1..])
  }

  /** `$resetAll` over some slots is the sequence of writes of their defaults. */
  lemma {:induction false} ResetAllIsSetAll(w: World, listeners: map<string, seq<Listener>>, store: StoreConfig, slots: seq<Slot>)
    ensures ResetAllSpec(w, listeners, store, slots) == SetAll(w, listeners, store, Defaults(slots))
    decreases |slots|
  {
    if slots != [] {
      var s := ElementSet(w, listeners, store, slots[0], slots[0].defaultValue);
      ResetAllIsSetAll(s.world, listeners, store, slots[1..]);
      assert Defaults(slots)[1..] == Defaults(slots[1..]);
    }
  }

  /** `#initStates`: `init` of each slot in turn; `registered` holds the keys the store already had. */
  function InitAll(w: World, registered: set<string>, listeners: map<string, seq<Listener>>, store: StoreConfig,
                   slots: seq<Slot>): Step
    decreases |slots|
  {
    if slots == [] then Step(w, Pass)
    else
      var s := InitSpec(w, slots[0].key in registered, listeners, store, slots[0].key, slots[0].defaultValue, slots[0].config);
      if s.outcome.Fail? then s else InitAll(s.world, registered, listeners, store, slots[1..])
  }

  /** Unfolding one `init` of a sequence. */
  lemma InitAllFirst(w: World, registered: set<string>, listeners: map<string, seq<Listener>>, store: StoreConfig, slots: seq<Slot>)
    requires slots != []
    ensures var s := InitSpec(w, slots[0].key in registered, listeners, store, slots[0].key, slots[0].defaultValue, slots[0].config);
            InitAll(w, registered, listeners, store, slots) ==
            if s.outcome.Fail? then s else InitAll(s.world, registered, listeners, store, slots[1..])
  {
  }

  /** The three defaults have text, so persisting them never throws. */
  lemma DefaultsSerialize()
    ensures ValueToString(Null) == Success(Enc(Null))
    ensures ValueToString(Arr([])) == Success(Enc(Arr([])))
    ensures ValueToString(Obj([])) == Success(Enc(Obj([])))
  {
    assert !HasBigInt(Arr([])) && !HasBigInt(Obj([]));
  }

  /**
   * A write of the slot's kind that `onBeforeSet` accepts and whose result
   * has text completes: the key holds the transformed value and is persisted.
   */
  lemma SetPasses(w: World, listeners: map<string, seq<Listener>>, store: StoreConfig, slot: Slot, value: Value, stored: Value)
    requires TypeOf(value) == TypeOf(slot.defaultValue)
    requires BeforeSet(slot.config, value) == Success(stored)
    requires slot.config.useLocalStorage ==> ValueToString(stored).Success?
    ensures var s := ElementSet(w, listeners, store, slot, value);
            s.outcome.Pass? && s.world.storage == w.storage[slot.key := stored] &&
            s.world.persisted.Keys == w.persisted.Keys + (if slot.config.useLocalStorage then {slot.key} else {})
  {
    CommitStores(w, listeners, store, slot.key, stored, slot.config.useLocalStorage, slot.config.useEvents);
  }

  /** A write `onBeforeSet` keeps as it is, of the slot's kind and with text when persisted. */
  predicate Accepted(wr: Write)
  {
    TypeOf(wr.value) == TypeOf(wr.slot.defaultValue) &&
    BeforeSet(wr.slot.config, wr.value) == Success(wr.value) &&
    (wr.slot.config.useLocalStorage ==> ValueToString(wr.value).Success?)
  }

  /**
   * Three accepted writes to persisted slots complete one after the other:
   * the storage holds each value in turn and all three keys are persisted.
   */
  lemma SetThreePasses(w: World, listeners: map<string, seq<Listener>>, store: StoreConfig, a: Write, b: Write, c: Write)
    requires Accepted(a) && Accepted(b) && Accepted(c)
    requires a.slot.config.useLocalStorage && b.slot.config.useLocalStorage && c.slot.config.useLocalStorage
    ensures var s := SetAll(w, listeners, store, [a, b, c]);
            s.outcome.Pass? &&
            s.world.storage == w.storage[a.slot.key := a.value][b.slot.key := b.value][c.slot.key := c.value] &&
            s.world.persisted.Keys == w.persisted.Keys + {a.slot.key, b.slot.key, c.slot.key}
  {
    SetPasses(w, listeners, store, a.slot, a.value, a.value);
    var s1 := ElementSet(w, listeners, store, a.slot, a.value);
    SetPasses(s1.world, listeners, store, b.slot, b.value, b.value);
    var s2 := ElementSet(s1.world, listeners, store, b.slot, b.value);
    SetPasses(s2.world, listeners, store, c.slot, c.value, c.value);
    var s3 := ElementSet(s2.world, listeners, store, c.slot, c.value);
    assert [c][1..] == [];
    assert SetAll(s2.world, listeners, store, [c]) == s3;
    assert [b, c][1..] == [c];
    assert SetAll(s1.world, listeners, store, [b, c]) == s3;
    assert [a, b, c][1..] == [b, c];
  }

  /** `init` of a key neither registered nor persisted commits its default. */
  lemma InitPasses(w: World, listeners: map<string, seq<Listener>>, store: StoreConfig, slot: Slot)
    requires slot.key !in w.persisted
    requires !slot.defaultValue.Func? && !slot.defaultValue.Undefined?
    requires slot.config.useLocalStorage ==> ValueToString(slot.defaultValue).Success?
    ensures var s := InitSpec(w, false, listeners, store, slot.key, slot.defaultValue, slot.config);
            s.outcome.Pass? && s.world.storage == w.storage[slot.key := slot.defaultValue] &&
            s.world.persisted.Keys == w.persisted.Keys + (if slot.config.useLocalStorage then {slot.key} else {}) &&
            (!store.useEmitOnInit ==> s.world.log == w.log)
  {
    CommitStores(w, listeners, store, slot.key, slot.defaultValue, slot.config.useLocalStorage, store.useEmitOnInit);
    if !store.useEmitOnInit {
      InitIsSilent(w, false, listeners, store, slot.key, slot.defaultValue, slot.config);
    }
  }

  /**
   * On a store with none of the three keys registered or persisted, the
   * tool starts with `null`, `[]` and `{}`, persists them, and (unless the
   * store emits on init) calls no listener.
   */
  lemma InitStatesFresh(w: World, registered: set<string>, listeners: map<string, seq<Listener>>, store: StoreConfig)
    requires forall i :: 0 <= i < |AppSlots| ==> AppSlots[i].key !in registered && AppSlots[i].key !in w.persisted
    ensures var s := InitAll(w, registered, listeners, store, AppSlots);
            s.outcome.Pass? &&
            s.world.storage == w.storage["defaultUser" := Null]["users" := Arr([])]["server" := Obj([])] &&
            s.world.persisted.Keys == w.persisted.Keys + {"defaultUser", "users", "server"} &&
            (!store.useEmitOnInit ==> s.world.log == w.log)
  {
    assert AppSlots[0] == DefaultUserSlot && AppSlots[1] == UsersSlot && AppSlots[2] == ServerSlot;
    DefaultsSerialize();
    InitThreePasses(w, registered, listeners, store, DefaultUserSlot, UsersSlot, ServerSlot);
  }

  /**
   * Three persisted slots with distinct keys, none registered or persisted
   * yet and each default with text, are all initialised with their
   * defaults.
   */
  lemma InitThreePasses(w: World, registered: set<string>, listeners: map<string, seq<Listener>>, store: StoreConfig,
                        a: Slot, b: Slot, c: Slot)
    requires a.key != b.key && a.key != c.key && b.key != c.key
    requires a.key !in registered && b.key !in registered && c.key !in registered
    requires a.key !in w.persisted && b.key !in w.persisted && c.key !in w.persisted
    requires a.config.useLocalStorage && b.config.useLocalStorage && c.config.useLocalStorage
    requires !a.defaultValue.Func? && !a.defaultValue.Undefined? && ValueToString(a.defaultValue).Success?
    requires !b.defaultValue.Func? && !b.defaultValue.Undefined? && ValueToString(b.defaultValue).Success?
    requires !c.defaultValue.Func? && !c.defaultValue.Undefined? && ValueToString(c.defaultValue).Success?
    ensures var s := InitAll(w, registered, listeners, store, [a, b, c]);
            s.outcome.Pass? &&
            s.world.storage == w.storage[a.key := a.defaultValue][b.key := b.defaultValue][c.key := c.defaultValue] &&
            s.world.persisted.Keys == w.persisted.Keys + {a.key, b.key, c.key} &&
            (!store.useEmitOnInit ==> s.world.log == w.log)
  {
    InitPasses(w, listeners, store, a);
    var s1 := InitSpec(w, false, listeners, store, a.key, a.defaultValue, a.config);
    InitTwoPasses(s1.world, registered, listeners, store, b, c);
    assert [a, b, c][1..] == [b, c];
  }

  /** The last two initialisations of `InitThreePasses`. */
  lemma InitTwoPasses(w: World, registered: set<string>, listeners: map<string, seq<Listener>>, store: StoreConfig,
                      b: Slot, c: Slot)
    requires b.key != c.key && b.key !in registered && c.key !in registered
    requires b.key !in w.persisted && c.key !in w.persisted
    requires b.config.useLocalStorage && c.config.useLocalStorage
    requires !b.defaultValue.Func? && !b.defaultValue.Undefined? && ValueToString(b.defaultValue).Success?
    requires !c.defaultValue.Func? && !c.defaultValue.Undefined? && ValueToString(c.defaultValue).Success?
    ensures var s := InitAll(w, registered, listeners, store, [b, c]);
            s.outcome.Pass? &&
            s.world.storage == w.storage[b.key := b.defaultValue][c.key := c.defaultValue] &&
            s.world.persisted.Keys == w.persisted.Keys + {b.key, c.key} &&
            (!store.useEmitOnInit ==> s.world.log == w.log)
  {
    InitPasses(w, listeners, store, b);
    var s2 := InitSpec(w, false, listeners, store, b.key, b.defaultValue, b.config);
    InitPasses(s2.world, listeners, store, c);
    var s3 := InitSpec(s2.world, false, listeners, store, c.key, c.defaultValue, c.config);
    assert [c][1..] == [];
    assert InitAll(s2.world, registered, listeners, store, [c]) == s3;
    assert [b, c][1..] == [c];
  }

  /** `resetState()`: `null`, `[]` and `{}` written in that order. */
  function ResetStateSpec(w: World, listeners: map<string, seq<Listener>>, store: StoreConfig): Step
  {
    SetAll(w, listeners, store, [Write(DefaultUserSlot, Null), Write(UsersSlot, Arr([])), Write(ServerSlot, Obj([]))])
  }

  /** The three writes of `resetState` are the defaults of the three slots. */
  lemma ResetStateIsResetAll(w: World, listeners: map<string, seq<Listener>>, store: StoreConfig)
    ensures ResetStateSpec(w, listeners, store) == ResetAllSpec(w, listeners, store, AppSlots)
  {
    ResetAllIsSetAll(w, listeners, store, AppSlots);
    assert Defaults(AppSlots) == [Write(DefaultUserSlot, Null), Write(UsersSlot, Arr([])), Write(ServerSlot, Obj([]))];
  }

  /**
   * `resetState` is `$resetAll` over the three slots, and it always
   * completes: afterwards the slots hold `null`, `[]` and `{}`, every
   * other key is untouched, and all three are persisted.
   */
  lemma ResetStateRestores(w: World, listeners: map<string, seq<Listener>>, store: StoreConfig)
    ensures ResetStateSpec(w, listeners, store) == ResetAllSpec(w, listeners, store, AppSlots)
    ensures var s := ResetStateSpec(w, listeners, store);
            s.outcome.Pass? &&
            s.world.storage == w.storage["defaultUser" := Null]["users" := Arr([])]["server" := Obj([])] &&
            s.world.persisted.Keys == w.persisted.Keys + {"defaultUser", "users", "server"}
  {
    var a, b, c := Write(DefaultUserSlot, Null), Write(UsersSlot, Arr([])), Write(ServerSlot, Obj([]));
    ResetStateIsResetAll(w, listeners, store);
    DefaultsSerialize();
    assert SortUsersValue(Arr([])) == Success(Arr([]));
    SetThreePasses(w, listeners, store, a, b, c);
  }

  /** The tool's three slots and the elements `#initStates` keeps for them. */
  class App {
    const state: State
    var defaultUser: StateElement
    var users: StateElement
    var server: StateElement

    ghost predicate Valid()
      reads this, state
    {
      state.Valid() &&
      defaultUser.state == state && users.state == state && server.state == state &&
      defaultUser.AsSlot() == DefaultUserSlot && users.AsSlot() == UsersSlot && server.AsSlot() == ServerSlot
    }

    constructor (state: State, defaultUser: StateElement, users: StateElement, server: StateElement)
      ensures this.state == state && this.defaultUser == defaultUser && this.users == users && this.server == server
    {
      this.state := state;
      this.defaultUser := defaultUser;
      this.users := users;
      this.server := server;
    }

    /** `set(value)` on the element of one of the three slots. */
    method SetSlot(slot: Slot, value: Value) returns (o: Outcome<Error>)
      requires Valid()
      requires slot == DefaultUserSlot || slot == UsersSlot || slot == ServerSlot
      modifies state, state.localStorage
      ensures Valid()
      ensures Step(state.Snapshot(), o) == ElementSet(old(state.Snapshot()), state.listeners, state.config, slot, value)
      ensures state.listeners == old(state.listeners)
    {
      if slot.key == DefaultUserSlot.key {
        o := defaultUser.Set(value);
      } else if slot.key == UsersSlot.key {
        o := users.Set(value);
      } else {
        o := server.Set(value);
      }
    }

    /** `resetState()`. */
    method ResetState() returns (o: Outcome<Error>)
      requires Valid()
      modifies state, state.localStorage
      ensures Valid()
      ensures Step(state.Snapshot(), o) == ResetStateSpec(old(state.Snapshot()), state.listeners, state.config)
      ensures state.listeners == old(state.listeners)
    {
      ghost var writes := [Write(DefaultUserSlot, Null), Write(UsersSlot, Arr([])), Write(ServerSlot, Obj([]))];
      ghost var listeners, store := state.listeners, state.config;
      ghost var spec := ResetStateSpec(state.Snapshot(), listeners, store);
      SetAllFirst(state.Snapshot(), listeners, store, writes);
      o := SetSlot(DefaultUserSlot, Null);
      if o.Fail? {
        return;
      }
      assert spec == SetAll(state.Snapshot(), listeners, store, writes[1..]);
      SetAllFirst(state.Snapshot(), listeners, store, writes[1..]);
      o := SetSlot(UsersSlot, Arr([]));
      if o.Fail? {
        return;
      }
      assert spec == SetAll(state.Snapshot(), listeners, store, writes[1..][1..]);
      SetAllFirst(state.Snapshot(), listeners, store, writes[1..][1..]);
      o := SetSlot(ServerSlot, Obj([]));
      assert writes[1..][1..][1..] == [];
    }
  }

  /**
   * `new App()` up to `#initStates`: the three `init` calls, in order. The
   * first that throws ends the construction.
   */
  method NewApp(state: State) returns (r: Result<App, Error>)
    requires state.Valid()
    modifies state, state.localStorage
    ensures state.Valid()
    ensures Step(state.Snapshot(), if r.Success? then Pass else Fail(r.error)) ==
            InitAll(old(state.Snapshot()), old(state.elements).Keys, state.listeners, state.config, AppSlots)
    ensures state.listeners == old(state.listeners)
    ensures r.Success? ==> fresh(r.value) && r.value.state == state && r.value.Valid()
  {
    ghost var registered := state.elements.Keys;
    ghost var listeners, store := state.listeners, state.config;
    ghost var w0 := state.Snapshot();
    InitAllFirst(w0, registered, listeners, store, AppSlots);
    var d := state.Init("defaultUser", Null, Persistent);
    if d.Failure? {
      return Failure(d.error);
    }
    ghost var w1 := state.Snapshot();
    InitAllFirst(w1, registered, listeners, store, AppSlots[1..]);
    assert ("users" in state.elements) == ("users" in registered);
    var u := state.Init("users", Arr([]), UsersSlot.config);
    if u.Failure? {
      return Failure(u.error);
    }
    ghost var w2 := state.Snapshot();
    InitAllFirst(w2, registered, listeners, store, AppSlots[1..][1..]);
    assert ("server" in state.elements) == ("server" in registered);
    var s := state.Init("server", Obj([]), Persistent);
    if s.Failure? {
      return Failure(s.error);
    }
    assert AppSlots[1..][1..][1..] == [];
    var app := new App(state, d.value, u.value, s.value);
    return Success(app);
  }
}

=== FILE: browser.dfy ===
/**
 * The two browser facilities the stores rely on: `window.localStorage`, a
 * string-to-string map shared by every store of the page, and the listener
 * lists of an `EventTarget`. A listener is an opaque callback; dispatching
 * an event records one delivery per registered listener, in registration
 * order (the listeners' own bodies are not part of the model).
 */
module Browser {
  import opened Wrappers
  import opened JsValue

  /** `window.localStorage`. */
  class LocalStorage {
    var items: map<string, string>

    constructor (items: map<string, string>)
      ensures this.items == items
    {
      this.items := items;
    }

    /** `localStorage.getItem(key)`: `null` (here `None`) for a missing key. */
    function GetItem(key: string): (r: Option<string>)
      reads this
      ensures r.Some? <==> key in items
      ensures r.Some? ==> r.value == items[key]
    {
      if key in items then Some(items[key]) else None
    }

    /** `localStorage.setItem(key, text)`. */
    method SetItem(key: string, text: string)
      modifies this
      ensures items == old(items)[key := text]
    {
      items := items[key := text];
    }
  }

  /** A callback registered with `addEventListener`. */
  datatype Listener = Listener(id: nat)

  /** One call of a listener: which listener, for which event type, with which `detail`. */
  datatype Delivery = Delivery(listener: Listener, event: string, detail: Value)

  /** The listeners registered for `event`, in registration order. */
  function ListenersOf(listeners: map<string, seq<Listener>>, event: string): seq<Listener>
  {
    if event in listeners then listeners[event] else []
  }

  /** `addEventListener(event, l)` with a callback that was never registered before. */
  function AddListener(listeners: map<string, seq<Listener>>, event: string, l: Listener): (r: map<string, seq<Listener>>)
    ensures ListenersOf(r, event) == ListenersOf(listeners, event) + [l]
    ensures forall e :: e != event ==> ListenersOf(r, e) == ListenersOf(listeners, e)
  {
    listeners[event := ListenersOf(listeners, event) + [l]]
  }

  /** The calls made by delivering `detail` to each of `ls`, first to last. */
  function Deliver(ls: seq<Listener>, event: string, detail: Value): (r: seq<Delivery>)
    ensures |r| == |ls|
    ensures forall i :: 0 <= i < |r| ==> r[i] == Delivery(ls[i], event, detail)
  {
    if ls == [] then [] else [Delivery(ls[0], event, detail)] + Deliver(ls[1..], event, detail)
  }

  /** `dispatchEvent(new CustomEvent(event, { detail }))`. */
  function Dispatch(listeners: map<string, seq<Listener>>, event: string, detail: Value): seq<Delivery>
  {
    Deliver(ListenersOf(listeners, event), event, detail)
  }

  lemma {:induction false} DeliverAppend(ls: seq<Listener>, l: Listener, event: string, detail: Value)
    ensures Deliver(ls + [l], event, detail) == Deliver(ls, event, detail) + [Delivery(l, event, detail)]
  {
    if ls != [] {
      assert (ls + [l])[1..] == ls[1..] + [l];
      DeliverAppend(ls[1..], l, event, detail);
    }
  }

  /**
   * A listener registered after the others is called after them, and the
   * earlier listeners are called exactly as before.
   */
  lemma ListenerCalledLast(listeners: map<string, seq<Listener>>, event: string, l: Listener, detail: Value)
    ensures Dispatch(AddListener(listeners, event, l), event, detail) ==
            Dispatch(listeners, event, detail) + [Delivery(l, event, detail)]
  {
    DeliverAppend(ListenersOf(listeners, event), l, event, detail);
  }
}

=== FILE: config_editor.dfy ===
/**
 * The server and voice-channel inputs of the current tool's configuration
 * editor (src/js/ConfigEditor.js): each input, trimmed, sets or clears one
 * id of the `server` slot, and the overlay URL shown follows the slot.
 */
module ConfigEditor {
  import opened Wrappers
  import opened JsValue
  import opened Browser
  import opened LibState
  import opened App
  import opened Editors
  import OverlayCss

  /**
   * `#setServerId` / `#setVcId` with the trimmed input: an empty input
   * deletes the field of the stored record (which throws on `null` or
   * `undefined`) and writes the record back; any other input writes a copy
   * with the field set.
   */
  function SetServerFieldSpec(w: World, listeners: map<string, seq<Listener>>, store: StoreConfig,
                              field: string, input: string): Step
  {
    var server := Stored(w, "server");
    if input == [] && (server.Null? || server.Undefined?) then Step(w, Fail(TypeError))
    else ElementSet(w, listeners, store, ServerSlot, ServerWithField(server, field, input))
  }

  /**
   * On a stored record, the write completes exactly when the new record has
   * text; then the field reads as the input (and is gone for an empty
   * input) and every other field is kept.
   */
  lemma SetServerFieldStores(w: World, listeners: map<string, seq<Listener>>, store: StoreConfig, field: string, input: string)
    requires Stored(w, "server").Obj? && Distinct(Stored(w, "server").props)
    ensures var server := Stored(w, "server");
            var r := SetServerFieldSpec(w, listeners, store, field, input);
            var v := ServerWithField(server, field, input);
            (r.outcome.Pass? <==> ValueToString(v).Success?) &&
            (r.outcome.Pass? ==>
               r.world.storage == w.storage["server" := v] &&
               Get(v, field) == (if input == [] then Undefined else Str(input)) &&
               (input == [] ==> !Has(v, field)) &&
               forall k :: k != field ==> Get(v, k) == Get(server, k))
  {
    var server := Stored(w, "server");
    var v := ServerWithField(server, field, input);
    ServerWithFieldFields(server, field, input);
    CommitStores(w, listeners, store, "server", v, true, true);
  }

  /**
   * Entering both ids, one after the other, makes the overlay URL the
   * stream-kit address of that server and channel.
   */
  lemma EnteredIdsMakeUrl(server: Value, serverId: string, vcId: string)
    requires server.Obj? && Distinct(server.props)
    requires serverId != [] && vcId != []
    ensures var s := ServerWithField(ServerWithField(server, "serverId", serverId), "vcId", vcId);
            OverlayCss.OverlayUrl(s) == OverlayCss.UrlPrefix + serverId + "/" + vcId
  {
    var s1 := ServerWithField(server, "serverId", serverId);
    ServerWithFieldFields(server, "serverId", serverId);
    SpreadLookup(server, Obj([Prop("serverId", Str(serverId))]));
    ServerWithFieldFields(s1, "vcId", vcId);
  }

  /** `#setServerId(input.trim())`. */
  method SetServerId(app: App, input: string) returns (o: Outcome<Error>)
    requires app.Valid()
    modifies app.state, app.state.localStorage
    ensures app.Valid()
    ensures Step(app.state.Snapshot(), o) ==
            SetServerFieldSpec(old(app.state.Snapshot()), app.state.listeners, app.state.config, "serverId", Trim(input))
    ensures app.state.listeners == old(app.state.listeners)
  {
    o := SetServerField(app, "serverId", Trim(input));
  }

  /** `#setVcId(input.trim())`. */
  method SetVcId(app: App, input: string) returns (o: Outcome<Error>)
    requires app.Valid()
    modifies app.state, app.state.localStorage
    ensures app.Valid()
    ensures Step(app.state.Snapshot(), o) ==
            SetServerFieldSpec(old(app.state.Snapshot()), app.state.listeners, app.state.config, "vcId", Trim(input))
    ensures app.state.listeners == old(app.state.listeners)
  {
    o := SetServerField(app, "vcId", Trim(input));
  }

  /** The shared body of the two handlers. */
  method SetServerField(app: App, field: string, input: string) returns (o: Outcome<Error>)
    requires app.Valid()
    modifies app.state, app.state.localStorage
    ensures app.Valid()
    ensures Step(app.state.Snapshot(), o) ==
            SetServerFieldSpec(old(app.state.Snapshot()), app.state.listeners, app.state.config, field, input)
    ensures app.state.listeners == old(app.state.listeners)
  {
    var server := app.server.Get();
    if |input| == 0 {
      if server.Null? || server.Undefined? {
        return Fail(TypeError);
      }
      o := app.SetSlot(ServerSlot, Delete(server, field));
    } else {
      o := app.SetSlot(ServerSlot, Spread(server, Obj([Prop(field, Str(input))])));
    }
  }
}

=== FILE: decimal.dfy ===
/**
 * Decimal text for integers: the `toString()` of a JavaScript integer-valued
 * number or BigInt, and the integer-literal part of `Number.parseFloat` and
 * `BigInt(string)`.
 */
module Decimal {
  import opened Wrappers

  predicate IsDigit(c: char) { '0' <= c <= '9' }

  predicate AllDigits(s: string) { forall i :: 0 <= i < |s| ==> IsDigit(s[i]) }

  function DigitChar(d: nat): (c: char)
    requires d < 10
    ensures IsDigit(c)
  {
    (('0' as int) + d) as char
  }

  function DigitValue(c: char): (d: nat)
    requires IsDigit(c)
    ensures d < 10 && DigitChar(d) == c
  {
    (c as int) - ('0' as int)
  }

  /** The shortest decimal numeral of `n`, most significant digit first. */
  function NatToString(n: nat): (r: string)
    ensures |r| > 0 && AllDigits(r)
    ensures n >= 10 ==> r[0] != '0'
  {
    if n < 10 then [DigitChar(n)] else NatToString(n / 10) + [DigitChar(n % 10)]
  }

  /** The number a string of decimal digits denotes. */
  function DigitsValue(s: string): nat
    requires AllDigits(s)
  {
    if s == [] then 0 else DigitsValue(s[..|s| - 1]) * 10 + DigitValue(s[|s| - 1])
  }

  /** A non-empty run of digits, read as a natural number; anything else is rejected. */
  function ParseNat(s: string): (r: Option<nat>)
    ensures r.Some? <==> |s| > 0 && AllDigits(s)
  {
    if |s| > 0 && AllDigits(s) then Some(DigitsValue(s)) else None
  }

  /** Decimal text of an integer: a minus sign for negatives, then the digits. */
  function IntToString(i: int): (r: string)
    ensures |r| > 0
    ensures forall k :: 0 <= k < |r| ==> IsDigit(r[k]) || (k == 0 && r[k] == '-')
  {
    if i < 0 then "-" + NatToString(-i) else NatToString(i)
  }

  /** An optional minus sign followed by a non-empty run of digits. */
  function ParseInt(s: string): (r: Option<int>)
    ensures r.Some? ==> |s| > 0
  {
    if |s| > 0 && s[0] == '-' then
      match ParseNat(s[1..])
      case Some(n) => Some(0 - n as int)
      case None => None
    else
      match ParseNat(s)
      case Some(n) => Some(n)
      case None => None
  }

  lemma {:induction false} NatToStringValue(n: nat)
    ensures DigitsValue(NatToString(n)) == n
  {
    var r := NatToString(n);
    if n >= 10 {
      NatToStringValue(n / 10);
      assert r[..|r| - 1] == NatToString(n / 10);
    }
  }

  /** Reading back the decimal text of an integer yields the integer. */
  lemma IntRoundTrip(i: int)
    ensures ParseInt(IntToString(i)) == Some(i)
  {
    if i < 0 {
      NatToStringValue(-i);
      assert IntToString(i)[1..] == NatToString(-i);
    } else {
      NatToStringValue(i);
    }
  }

  /** Decimal text never contains a character other than digits and a leading minus. */
  lemma IntToStringOnlyDigitsAndMinus(i: int, c: char)
    requires !IsDigit(c) && c != '-'
    ensures c !in IntToString(i)
  {
  }
}

=== FILE: documents.dfy ===
/**
 * The settings documents of the current and the previous tool
 * (src/js/ImportExport.js, js/index.js): the file-name suffixes that select
 * the reader, the re-keying of the older `.dvco` document's participants,
 * the non-emptiness tests that decide which `.dvog` fields are applied, and
 * the document and file name an export produces.
 */
module Documents {
  import opened Wrappers
  import opened JsValue
  import opened Json
  import LibState

  /** `s.endsWith(suffix)`. */
  predicate EndsWith(s: string, suffix: string)
  {
    |suffix| <= |s| && s[|s| - |suffix|..] == suffix
  }

  /** The two document formats. */
  datatype FileType = Dvco | Dvog

  /** Which reader an import uses: `.dvco` is matched first; any other name is ignored. */
  function FileTypeOf(name: string): (r: Option<FileType>)
    ensures r == Some(Dvco) <==> EndsWith(name, ".dvco")
    ensures r == Some(Dvog) <==> EndsWith(name, ".dvog")
    ensures r.None? <==> !EndsWith(name, ".dvco") && !EndsWith(name, ".dvog")
  {
    if EndsWith(name, ".dvco") then Some(Dvco)
    else if EndsWith(name, ".dvog") then Some(Dvog)
    else None
  }

  /**
   * `await readFile(file).catch(() => null)`: the parsed content, or `null`
   * when the file cannot be read (`content` is None) or its text does not parse.
   */
  function ReadData(content: Option<string>): (r: Value)
    ensures content.None? ==> r == Null
    ensures content.Some? ==> r == (match Parse(content.value) case Some(v) => v case None => Null)
  {
    match content
    case None => Null
    case Some(text) =>
      match Parse(text)
      case Some(v) => v
      case None => Null
  }

  /** `if (data.f) server.f = data.f`. */
  function CopyIfTruthy(ps: seq<Prop>, data: Value, field: string): seq<Prop>
  {
    if Truthy(Get(data, field)) then ps + [Prop(field, Get(data, field))] else ps
  }

  /**
   * The server record of a `.dvco` document: `serverId` and `vcId`, each
   * only when truthy there, in that order.
   */
  function DvcoServer(data: Value): (r: Value)
    ensures r.Obj? && Distinct(r.props)
    ensures Get(r, "serverId") == if Truthy(Get(data, "serverId")) then Get(data, "serverId") else Undefined
    ensures Get(r, "vcId") == if Truthy(Get(data, "vcId")) then Get(data, "vcId") else Undefined
    ensures forall k :: k != "serverId" && k != "vcId" ==> !Has(r, k)
    ensures KeyCount(r) == 0 <==> !Truthy(Get(data, "serverId")) && !Truthy(Get(data, "vcId"))
  {
    var ps := CopyIfTruthy(CopyIfTruthy([], data, "serverId"), data, "vcId");
    KeysAt(ps);
    Obj(ps)
  }

  /** One `.dvco` participant as the current format names its fields; reading a field of `null` or `undefined` throws. */
  function RekeyUser(u: Value): (r: Result<Value, LibState.Error>)
    ensures r.Failure? <==> u.Null? || u.Undefined?
    ensures r.Failure? ==> r.error == LibState.TypeError
    ensures r.Success? ==>
              var n := r.value;
              n.Obj? && Distinct(n.props) && |n.props| == 3 &&
              Get(n, "id") == Get(u, "id") && Get(n, "url") == Get(u, "url") &&
              Get(n, "urlSpeaking") == Get(u, "url_speaking") &&
              forall k :: k != "id" && k != "url" && k != "urlSpeaking" ==> !Has(n, k)
  {
    if u.Null? || u.Undefined? then Failure(LibState.TypeError)
    else
      var ps := [Prop("id", Get(u, "id")), Prop("url", Get(u, "url")), Prop("urlSpeaking", Get(u, "url_speaking"))];
      KeysAt(ps);
      Success(Obj(ps))
  }

  /** `items.map(RekeyUser)`, stopping at the first entry that throws. */
  function RekeyItems(items: seq<Value>): (r: Result<seq<Value>, LibState.Error>)
    ensures r.Success? <==> forall i :: 0 <= i < |items| ==> RekeyUser(items[i]).Success?
    ensures r.Failure? ==> r.error == LibState.TypeError
    ensures r.Success? ==> |r.value| == |items| && forall i :: 0 <= i < |items| ==> r.value[i] == RekeyUser(items[i]).value
  {
    if items == [] then Success([])
    else
      match RekeyUser(items[0])
      case Failure(e) => Failure(e)
      case Success(head) =>
        match RekeyItems(items[1..])
        case Failure(e) => Failure(e)
        case Success(tail) =>
          var r := [head] + tail;
          assert forall i :: 0 <= i < |items| ==> r[i] == RekeyUser(items[i]).value by {
            forall i | 0 <= i < |items|
              ensures r[i] == RekeyUser(items[i]).value
            {
              if i > 0 {
                assert items[i] == items[1..][i - 1] && r[i] == tail[i - 1];
              }
            }
          }
          Success(r)
  }

  /** `data.users.map(...)`: only an array has `map`; anything else throws. */
  function Rekeyed(users: Value): (r: Result<Value, LibState.Error>)
    ensures r.Success? <==> users.Arr? && forall i :: 0 <= i < |users.items| ==> RekeyUser(users.items[i]).Success?
    ensures r.Failure? ==> r.error == LibState.TypeError
    ensures r.Success? ==>
              r.value.Arr? && |r.value.items| == |users.items| &&
              forall i :: 0 <= i < |users.items| ==> r.value.items[i] == RekeyUser(users.items[i]).value
  {
    if users.Arr? then
      match RekeyItems(users.items)
      case Success(items) => Success(Arr(items))
      case Failure(e) => Failure(e)
    else Failure(LibState.TypeError)
  }

  /** `v && v.length > 0`: the test a list must pass to be exported or applied. */
  predicate HasItems(v: Value)
  {
    Truthy(v) && Positive(Get(v, "length"))
  }

  /** An array has items exactly when it is not empty. */
  lemma HasItemsArr(items: seq<Value>)
    ensures HasItems(Arr(items)) <==> items != []
  {
  }

  /** `data.f = v` when `included`, on a document being filled in. */
  function Field(included: bool, key: string, v: Value): seq<Prop>
  {
    if included then [Prop(key, v)] else []
  }

  /**
   * The document `#handleExport` / `handleExport` builds: `defaultUser` and
   * `server` when they have own keys, `users` when it has items; nothing else.
   */
  function ExportDoc(defaultUser: Value, users: Value, server: Value): (r: Value)
    ensures r.Obj? && Distinct(r.props)
    ensures Get(r, "defaultUser") == if NonEmpty(defaultUser) then defaultUser else Undefined
    ensures Get(r, "users") == if HasItems(users) then users else Undefined
    ensures Get(r, "server") == if NonEmpty(server) then server else Undefined
    ensures forall k :: k != "defaultUser" && k != "users" && k != "server" ==> !Has(r, k)
  {
    var a := Field(NonEmpty(defaultUser), "defaultUser", defaultUser);
    var b := Field(HasItems(users), "users", users);
    var c := Field(NonEmpty(server), "server", server);
    assert "defaultUser"[0] == 'd' && "users"[0] == 'u' && "server"[0] == 's';
    Fields3(NonEmpty(defaultUser), "defaultUser", defaultUser, HasItems(users), "users", users,
            NonEmpty(server), "server", server);
    Obj(a + b + c)
  }

  /** Three optional fields of distinct keys: each reads as given when included, and no other key is present. */
  lemma Fields3(pa: bool, ka: string, va: Value, pb: bool, kb: string, vb: Value, pc: bool, kc: string, vc: Value)
    requires ka != kb && ka != kc && kb != kc
    ensures var a, b, c := Field(pa, ka, va), Field(pb, kb, vb), Field(pc, kc, vc);
            var ps := a + b + c;
            Distinct(ps) &&
            LookupIn(ps, ka) == (if pa then va else Undefined) &&
            LookupIn(ps, kb) == (if pb then vb else Undefined) &&
            LookupIn(ps, kc) == (if pc then vc else Undefined) &&
            forall k :: k != ka && k != kb && k != kc ==> !HasKey(ps, k)
  {
    var a, b, c := Field(pa, ka, va), Field(pb, kb, vb), Field(pc, kc, vc);
    var ps := a + b + c;
    KeysAt(ps);
    LookupAppend(a + b, c, ka);
    LookupAppend(a, b, ka);
    LookupAppend(a + b, c, kb);
    LookupAppend(a, b, kb);
    LookupAppend(a + b, c, kc);
    LookupAppend(a, b, kc);
  }

  /** The exported document of plain values is plain itself. */
  lemma ExportDocPlain(defaultUser: Value, users: Value, server: Value)
    requires Plain(defaultUser) && Plain(users) && Plain(server)
    ensures Plain(ExportDoc(defaultUser, users, server))
  {
    var r := ExportDoc(defaultUser, users, server);
    forall i | 0 <= i < |r.props| ensures Plain(r.props[i].val) {
      var a := Field(NonEmpty(defaultUser), "defaultUser", defaultUser);
      var b := Field(HasItems(users), "users", users);
      var c := Field(NonEmpty(server), "server", server);
      assert r.props == a + b + c;
      assert r.props[i] in a || r.props[i] in b || r.props[i] in c;
    }
  }

  /** `discord-vc-overlay-${new Date().toJSON().slice(0, 10)}.dvog`, given the clock's `toJSON()` text. */
  function ExportFileName(isoDate: string): (r: string)
    ensures |r| == 19 + (if |isoDate| < 10 then |isoDate| else 10) + 5
    ensures FileTypeOf(r) == Some(Dvog)
    ensures r[..19] == "discord-vc-overlay-"
    ensures r[19..|r| - 5] == isoDate[..if |isoDate| < 10 then |isoDate| else 10]
    ensures r[|r| - 5..] == ".dvog"
  {
    var day := isoDate[..if |isoDate| < 10 then |isoDate| else 10];
    var r := "discord-vc-overlay-" + day + ".dvog";
    assert r[|r| - 5..] == ".dvog";
    assert r[|r| - 5..] != ".dvco";
    r
  }

  /** `JSON.stringify(data)` of an export: the file's text, or the throw a BigInt raises. */
  function ExportText(doc: Value): (r: Result<string, LibState.Error>)
    requires doc.Obj?
    ensures r.Success? <==> !HasBigInt(doc)
    ensures r.Success? ==> Stringify(doc) == Text(r.value)
    ensures r.Failure? ==> r.error == LibState.NotSerializable
  {
    match Stringify(doc)
    case Text(t) => Success(t)
    case _ => Failure(LibState.NotSerializable)
  }

  /**
   * Exporting plain values gives text, and reading that text back gives
   * the document again, which is truthy, as the import requires.
   */
  lemma ExportReadsBack(defaultUser: Value, users: Value, server: Value)
    requires Plain(defaultUser) && Plain(users) && Plain(server)
    ensures var doc := ExportDoc(defaultUser, users, server);
            ExportText(doc).Success? && ReadData(Some(ExportText(doc).value)) == doc && Truthy(doc)
  {
    var doc := ExportDoc(defaultUser, users, server);
    ExportDocPlain(defaultUser, users, server);
    PlainHasText(doc);
    PlainCanon(doc);
    StringifyParse(doc);
  }
}

=== FILE: editors.dfy ===
/**
 * The value-level edits behind the editors' buttons and forms, shared by the
 * current tool (src/js/UsersEditor.js, src/js/ConfigEditor.js) and the
 * previous one (js/index.js): the update form's data, the participant list's
 * update by id, removal by id and append, the default user's update and
 * removal, and setting or clearing one id of the server record.
 */
module Editors {
  import opened Wrappers
  import opened JsValue
  import opened Text
  import OverlayCss

  // ---------------------------------------------------------------------
  // Form input
  // ---------------------------------------------------------------------

  /** The trailing run of whitespace removed. */
  function TrimEnd(s: string): (r: string)
    ensures |r| <= |s| && r == s[..|r|]
    ensures r == [] || !OverlayCss.IsSpace(r[|r| - 1])
    ensures forall i :: |r| <= i < |s| ==> OverlayCss.IsSpace(s[i])
  {
    if s != [] && OverlayCss.IsSpace(s[|s| - 1]) then TrimEnd(s[..|s| - 1]) else s
  }

  /** `String.prototype.trim`: whitespace and line terminators removed at both ends. */
  function Trim(s: string): (r: string)
    ensures r == [] <==> forall i :: 0 <= i < |s| ==> OverlayCss.IsSpace(s[i])
    ensures r == [] || (!OverlayCss.IsSpace(r[0]) && !OverlayCss.IsSpace(r[|r| - 1]))
  {
    var t := OverlayCss.SkipSpaces(s);
    var r := TrimEnd(t);
    assert r == [] ==> forall i :: 0 <= i < |s| ==> OverlayCss.IsSpace(s[i]) by {
      if r == [] {
        assert t == [];
        SkipSpacesSkipped(s);
      }
    }
    assert r != [] ==> r[0] == t[0];
    r
  }

  lemma {:induction false} SkipSpacesSkipped(s: string)
    ensures forall i :: 0 <= i < |s| - |OverlayCss.SkipSpaces(s)| ==> OverlayCss.IsSpace(s[i])
  {
    if s != [] && OverlayCss.IsSpace(s[0]) {
      SkipSpacesSkipped(s[1..]);
      forall i | 1 <= i < |s| - |OverlayCss.SkipSpaces(s)|
        ensures OverlayCss.IsSpace(s[i])
      {
        assert s[i] == s[1..][i - 1];
      }
    }
  }

  /** The fields the update form writes, given its two trimmed inputs. */
  function UrlFields(u: string, s: string): (r: seq<Prop>)
    ensures r == [] <==> u == [] && s == []
    ensures Distinct(r)
    ensures HasKey(r, "url") <==> u != []
    ensures HasKey(r, "urlSpeaking") <==> s != []
    ensures LookupIn(r, "url") == (if u != [] then Str(u) else Undefined)
    ensures LookupIn(r, "urlSpeaking") == (if s != [] then Str(s) else Undefined)
    ensures forall k :: k != "url" && k != "urlSpeaking" ==> !HasKey(r, k)
    ensures forall i :: 0 <= i < |r| ==> r[i].val.Str?
  {
    var r := (if u != [] then [Prop("url", Str(u))] else []) + (if s != [] then [Prop("urlSpeaking", Str(s))] else []);
    KeysAt(r);
    r
  }

  /** The data object for two trimmed inputs: no object when both are empty. */
  function FieldsData(u: string, s: string): (r: Option<Value>)
    ensures r.None? <==> u == [] && s == []
    ensures r.Some? ==> r.value.Obj? && Distinct(r.value.props) && NonEmpty(r.value)
    ensures r.Some? ==> (Has(r.value, "url") <==> u != []) && (Has(r.value, "urlSpeaking") <==> s != [])
    ensures r.Some? ==> Get(r.value, "url") == (if u != [] then Str(u) else Undefined)
    ensures r.Some? ==> Get(r.value, "urlSpeaking") == (if s != [] then Str(s) else Undefined)
    ensures r.Some? ==> forall k :: k != "url" && k != "urlSpeaking" ==> !Has(r.value, k)
    ensures r.Some? ==> forall i :: 0 <= i < |r.value.props| ==> r.value.props[i].val.Str?
  {
    var props := UrlFields(u, s);
    if props == [] then None
    else
      assert KeyCount(Obj(props)) > 0;
      Some(Obj(props))
  }

  /**
   * The update form's data: `url` and `urlSpeaking` each only when its
   * trimmed input is not empty, in that order; nothing at all (no write)
   * when both are empty.
   */
  function UpdateData(url: string, urlSpeaking: string): (r: Option<Value>)
    ensures r.None? <==> Trim(url) == [] && Trim(urlSpeaking) == []
    ensures r.Some? ==> r.value.Obj? && Distinct(r.value.props) && NonEmpty(r.value)
    ensures r.Some? ==> (Has(r.value, "url") <==> Trim(url) != []) && (Has(r.value, "urlSpeaking") <==> Trim(urlSpeaking) != [])
    ensures r.Some? ==> Get(r.value, "url") == (if Trim(url) != [] then Str(Trim(url)) else Undefined)
    ensures r.Some? ==> Get(r.value, "urlSpeaking") == (if Trim(urlSpeaking) != [] then Str(Trim(urlSpeaking)) else Undefined)
    ensures r.Some? ==> forall k :: k != "url" && k != "urlSpeaking" ==> !Has(r.value, k)
    ensures r.Some? ==> forall i :: 0 <= i < |r.value.props| ==> r.value.props[i].val.Str?
  {
    FieldsData(Trim(url), Trim(urlSpeaking))
  }

  // ---------------------------------------------------------------------
  // The participant list
  // ---------------------------------------------------------------------

  /** `users.map(user => user.id !== userId ? user : { ...user, ...data })`. */
  function UpdatedUsers(users: seq<Value>, userId: Value, data: Value): (r: seq<Value>)
    ensures |r| == |users|
  {
    seq(|users|, i requires 0 <= i < |users| => UpdatedUser(users[i], userId, data))
  }

  /** One entry of the update: merged with the data when its id matches. */
  function UpdatedUser(user: Value, userId: Value, data: Value): Value
  {
    if Get(user, "id") != userId then user else Spread(user, data)
  }

  /**
   * The update leaves every entry with another id as it is, in its place;
   * an entry with the id takes every field the data names and keeps every
   * other field.
   */
  lemma UpdatedUsersFields(users: seq<Value>, userId: Value, data: Value, i: nat)
    requires i < |users|
    requires users[i].Obj? && Distinct(users[i].props) && data.Obj? && Distinct(data.props)
    ensures var r := UpdatedUsers(users, userId, data);
            (Get(users[i], "id") != userId ==> r[i] == users[i]) &&
            (Get(users[i], "id") == userId ==>
               r[i].Obj? && Distinct(r[i].props) &&
               forall k :: Get(r[i], k) == if HasKey(data.props, k) then Get(data, k) else Get(users[i], k))
  {
    if Get(users[i], "id") == userId {
      SpreadLookup(users[i], data);
    }
  }

  /** `Array.prototype.filter`: the entries `keep` accepts, in order. */
  function Filter(s: seq<Value>, keep: Value -> bool): (r: seq<Value>)
    ensures |r| <= |s|
  {
    if s == [] then [] else (if keep(s[0]) then [s[0]] else []) + Filter(s[1..], keep)
  }

  /** Filtering works entry by entry, so the kept entries stay in their relative order. */
  lemma {:induction false} FilterAppend(a: seq<Value>, b: seq<Value>, keep: Value -> bool)
    ensures Filter(a + b, keep) == Filter(a, keep) + Filter(b, keep)
  {
    if a == [] {
      assert a + b == b;
    } else {
      var head := if keep(a[0]) then [a[0]] else [];
      assert Filter(a, keep) == head + Filter(a[1..], keep);
      assert (a + b)[0] == a[0] && (a + b)[1..] == a[1..] + b;
      assert Filter(a + b, keep) == head + Filter(a[1..] + b, keep);
      FilterAppend(a[1..], b, keep);
      AppendAssoc(head, Filter(a[1..], keep), Filter(b, keep));
    }
  }

  /** The entries kept are exactly the accepted ones. */
  lemma {:induction false} FilterMembers(s: seq<Value>, keep: Value -> bool)
    ensures forall u :: u in Filter(s, keep) <==> u in s && keep(u)
  {
    if s != [] {
      FilterMembers(s[1..], keep);
      assert s == [s[0]] + s[1..];
    }
  }

  /** A list whose every entry is accepted comes back whole. */
  lemma {:induction false} FilterKeepsAll(s: seq<Value>, keep: Value -> bool)
    requires forall i :: 0 <= i < |s| ==> keep(s[i])
    ensures Filter(s, keep) == s
  {
    if s != [] {
      FilterKeepsAll(s[1..], keep);
    }
  }

  /** `users.filter(({ id }) => id !== userId)`. */
  function RemovedUsers(users: seq<Value>, userId: Value): (r: seq<Value>)
    ensures |r| <= |users|
  {
    Filter(users, u => Get(u, "id") != userId)
  }

  /** The entries kept are exactly those whose id is not `userId`. */
  lemma RemovedUsersMembers(users: seq<Value>, userId: Value)
    ensures forall u :: u in RemovedUsers(users, userId) <==> u in users && Get(u, "id") != userId
  {
    FilterMembers(users, u => Get(u, "id") != userId);
  }

  /** Removal works entry by entry, so the kept entries stay in their relative order. */
  lemma RemovedUsersAppend(a: seq<Value>, b: seq<Value>, userId: Value)
    ensures RemovedUsers(a + b, userId) == RemovedUsers(a, userId) + RemovedUsers(b, userId)
  {
    FilterAppend(a, b, u => Get(u, "id") != userId);
  }

  /** Removing an id nobody has changes nothing. */
  lemma RemovedUsersAbsent(users: seq<Value>, userId: Value)
    requires forall i :: 0 <= i < |users| ==> Get(users[i], "id") != userId
    ensures RemovedUsers(users, userId) == users
  {
    FilterKeepsAll(users, u => Get(u, "id") != userId);
  }

  /**
   * `users.push({ id, url, urlSpeaking, date })` in js/index.js, `date`
   * being what the clock gives at the call (`new Date().toUTCString()`).
   */
  function AddedUser(users: seq<Value>, id: Value, url: Value, urlSpeaking: Value, date: Value): (r: seq<Value>)
    ensures |r| == |users| + 1 && r[..|users|] == users
    ensures var u := r[|users|];
            u.Obj? && Distinct(u.props) &&
            Get(u, "id") == id && Get(u, "url") == url && Get(u, "urlSpeaking") == urlSpeaking && Get(u, "date") == date
  {
    var ps := [Prop("id", id), Prop("url", url), Prop("urlSpeaking", urlSpeaking), Prop("date", date)];
    KeysAt(ps);
    assert Get(Obj(ps), "date") == LookupIn(ps, ps[3].key);
    users + [Obj(ps)]
  }

  // ---------------------------------------------------------------------
  // The default user
  // ---------------------------------------------------------------------

  /** `{ ...defaultUser, data }` as src/js/UsersEditor.js writes it: one new key named `data`. */
  function DefaultUserUpdatedAsWritten(defaultUser: Value, data: Value): Value
  {
    Spread(defaultUser, Obj([Prop("data", data)]))
  }

  /** `{ ...defaultUser, ...data }`: the update's fields merged over the old ones. */
  function DefaultUserUpdated(defaultUser: Value, data: Value): Value
  {
    Spread(defaultUser, data)
  }

  /**
   * The merge the form means: every field the data names takes its new
   * value, every other field of the old default user is kept; over `null`
   * the data itself is stored.
   */
  lemma DefaultUserUpdatedFields(defaultUser: Value, data: Value)
    requires defaultUser.Null? || (defaultUser.Obj? && Distinct(defaultUser.props))
    requires data.Obj? && Distinct(data.props)
    ensures var r := DefaultUserUpdated(defaultUser, data);
            r.Obj? && Distinct(r.props) &&
            (forall k :: Get(r, k) == if HasKey(data.props, k) then Get(data, k) else Get(defaultUser, k)) &&
            (defaultUser.Null? ==> r == data)
  {
    if defaultUser.Null? {
      AssignAllIntoEmpty(data.props);
      assert AssignAll([], OwnProps(defaultUser)) == [];
    } else {
      SpreadLookup(defaultUser, data);
    }
  }

  /**
   * What the as-written update stores instead: the old fields unchanged and
   * the data under a key `data`, so a new `url` never reaches `url`.
   */
  lemma DefaultUserUpdateLosesUrl()
    ensures var d := Obj([Prop("url", Str("a.png")), Prop("urlSpeaking", Str("b.png"))]);
            var data := Obj([Prop("url", Str("c.png"))]);
            Get(DefaultUserUpdatedAsWritten(d, data), "url") == Str("a.png") &&
            Get(DefaultUserUpdatedAsWritten(d, data), "data") == data &&
            Get(DefaultUserUpdated(d, data), "url") == Str("c.png")
  {
    var d := Obj([Prop("url", Str("a.png")), Prop("urlSpeaking", Str("b.png"))]);
    var data := Obj([Prop("url", Str("c.png"))]);
    SpreadLookup(d, Obj([Prop("data", data)]));
    SpreadLookup(d, data);
  }

  /** `#removeDefaultUser` and `removeDefaultUser`: `null` is written only over a truthy value. */
  function DefaultUserRemoval(current: Value): (r: Option<Value>)
    ensures r.Some? <==> Truthy(current)
    ensures r.Some? ==> r.value == Null
  {
    if Truthy(current) then Some(Null) else None
  }

  // ---------------------------------------------------------------------
  // The server record
  // ---------------------------------------------------------------------

  /**
   * `#setServerId` / `#setVcId` of src/js/ConfigEditor.js: an empty input
   * deletes the field, any other input is spread over the record.
   */
  function ServerWithField(server: Value, field: string, input: string): Value
  {
    if input == [] then Delete(server, field) else Spread(server, Obj([Prop(field, Str(input))]))
  }

  /** The field reads as the input (absent for an empty one) and every other field is kept. */
  lemma ServerWithFieldFields(server: Value, field: string, input: string)
    requires server.Obj? && Distinct(server.props)
    ensures var r := ServerWithField(server, field, input);
            r.Obj? &&
            Get(r, field) == (if input == [] then Undefined else Str(input)) &&
            (input == [] ==> !Has(r, field)) &&
            forall k :: k != field ==> Get(r, k) == Get(server, k)
  {
    if input == [] {
      DeleteLookup(server.props, field);
    } else {
      SpreadLookup(server, Obj([Prop(field, Str(input))]));
      assert forall k :: k != field ==> !HasKey([Prop(field, Str(input))], k);
    }
  }
}

=== FILE: forms.dfy ===
/**
 * The two small forms of the current tool: the participant form
 * (src/js/AddUserForm.js), which appends an entry to `users`, and the
 * default-user form (src/js/DefaultUserForm.js), which replaces
 * `defaultUser` or clears it. Each submit trims its inputs, does nothing
 * when a required one is empty, and otherwise writes through the slot's `set`.
 */
module Forms {
  import opened Wrappers
  import opened JsValue
  import opened Browser
  import opened LibState
  import opened UserOrder
  import opened App
  import opened Editors
  import opened Json

  /** The entry `{ id, url, urlSpeaking }` the participant form builds. */
  function NewUser(id: string, url: string, urlSpeaking: string): (r: Value)
    ensures r.Obj? && Distinct(r.props)
    ensures Get(r, "id") == Str(id) && Get(r, "url") == Str(url) && Get(r, "urlSpeaking") == Str(urlSpeaking)
    ensures SortableEntry(r) && Plain(r)
  {
    var last := [Prop("urlSpeaking", Str(urlSpeaking))];
    assert last[1..] == [] && Distinct(last);
    var tail := [Prop("url", Str(url))] + last;
    assert tail[1..] == last && !HasKey(last, "url") && !HasKey(last, "id");
    assert Distinct(tail) && LookupIn(tail, "url") == Str(url) && LookupIn(tail, "urlSpeaking") == Str(urlSpeaking);
    var ps := [Prop("id", Str(id))] + tail;
    assert ps[1..] == tail && !HasKey(tail, "id");
    assert LookupIn(ps, "url") == Str(url) && LookupIn(ps, "urlSpeaking") == Str(urlSpeaking);
    Obj(ps)
  }

  /** The object `{ url, urlSpeaking }` the default-user form builds. */
  function NewDefaultUser(url: string, urlSpeaking: string): (r: Value)
    ensures r.Obj? && Distinct(r.props)
    ensures Get(r, "url") == Str(url) && Get(r, "urlSpeaking") == Str(urlSpeaking) && !Has(r, "id")
    ensures Plain(r)
  {
    var last := [Prop("urlSpeaking", Str(urlSpeaking))];
    assert last[1..] == [];
    assert Distinct(last) && LookupIn(last, "urlSpeaking") == Str(urlSpeaking);
    var ps := [Prop("url", Str(url))] + last;
    assert ps[1..] == last && !HasKey(last, "url") && !HasKey(last, "id");
    assert LookupIn(ps, "urlSpeaking") == Str(urlSpeaking);
    Obj(ps)
  }

  /**
   * `#addUser(user)`: `push` on the stored list, then `set` of that list. A
   * stored value that is not an array has no `push` and throws.
   */
  function AddUserSpec(w: World, listeners: map<string, seq<Listener>>, store: StoreConfig, user: Value): Step
  {
    var users := Stored(w, "users");
    if !users.Arr? then Step(w, Fail(TypeError))
    else ElementSet(w, listeners, store, UsersSlot, Arr(users.items + [user]))
  }

  /**
   * Adding an entry throws without writing when the stored value is not an
   * array or when sorting the longer list throws; otherwise it completes
   * exactly when the sorted list has text, and then the slot holds the old
   * entries and the new one, each as often as before, sorted. A sortable
   * list with a sortable new entry never makes the sort throw.
   */
  lemma AddUserStores(w: World, listeners: map<string, seq<Listener>>, store: StoreConfig, user: Value)
    ensures var users := Stored(w, "users");
            var r := AddUserSpec(w, listeners, store, user);
            (!users.Arr? ==> r == Step(w, Fail(TypeError))) &&
            (users.Arr? ==>
               var added := users.items + [user];
               var stored := SortUsers(added);
               (CheckedSort(added).None? ==> r == Step(w, Fail(TypeError))) &&
               (Sortable(users.items) && SortableEntry(user) ==> CheckedSort(added).Some?) &&
               (r.outcome.Pass? <==> CheckedSort(added).Some? && ValueToString(Arr(stored)).Success?) &&
               (r.outcome.Pass? ==>
                  r.world.storage == w.storage["users" := Arr(stored)] &&
                  Sorted(stored) && multiset(stored) == multiset(users.items) + multiset{user}))
  {
    var users := Stored(w, "users");
    if users.Arr? {
      var added := users.items + [user];
      UsersSetStores(w, listeners, store, added);
      if Sortable(users.items) && SortableEntry(user) {
        assert Sortable(added) by {
          forall i | 0 <= i < |added| ensures SortableEntry(added[i]) {
            if i < |users.items| {
              assert added[i] == users.items[i];
            }
          }
        }
        SortableSucceeds(added);
      }
    }
  }

  /**
   * The participant form's submit: nothing when a trimmed input is empty,
   * otherwise the trimmed entry added.
   */
  function AddSubmitSpec(w: World, listeners: map<string, seq<Listener>>, store: StoreConfig,
                         id: string, url: string, urlSpeaking: string): Step
  {
    if Trim(id) == [] || Trim(url) == [] || Trim(urlSpeaking) == [] then Step(w, Pass)
    else AddUserSpec(w, listeners, store, NewUser(Trim(id), Trim(url), Trim(urlSpeaking)))
  }

  /**
   * A submit with a blank input changes nothing; one with three non-blank
   * inputs over a sortable list of plain entries completes and the list
   * then holds the trimmed entry besides the old ones, sorted.
   */
  lemma AddSubmitAdds(w: World, listeners: map<string, seq<Listener>>, store: StoreConfig,
                      id: string, url: string, urlSpeaking: string)
    ensures Trim(id) == [] || Trim(url) == [] || Trim(urlSpeaking) == [] ==>
              AddSubmitSpec(w, listeners, store, id, url, urlSpeaking) == Step(w, Pass)
    ensures var users := Stored(w, "users");
            var r := AddSubmitSpec(w, listeners, store, id, url, urlSpeaking);
            Trim(id) != [] && Trim(url) != [] && Trim(urlSpeaking) != [] &&
            users.Arr? && Sortable(users.items) && Plain(users) ==>
              var user := NewUser(Trim(id), Trim(url), Trim(urlSpeaking));
              var stored := SortUsers(users.items + [user]);
              r.outcome.Pass? && r.world.storage == w.storage["users" := Arr(stored)] &&
              Sorted(stored) && multiset(stored) == multiset(users.items) + multiset{user}
  {
    var users := Stored(w, "users");
    if Trim(id) != [] && Trim(url) != [] && Trim(urlSpeaking) != [] && users.Arr? && Sortable(users.items) && Plain(users) {
      var user := NewUser(Trim(id), Trim(url), Trim(urlSpeaking));
      AddUserStores(w, listeners, store, user);
      SortedPlainHasText(users.items, user);
    }
  }

  /** Sorting plain entries with one more plain entry keeps the list plain, so it has text. */
  lemma SortedPlainHasText(items: seq<Value>, user: Value)
    requires Plain(Arr(items)) && Plain(user)
    ensures ValueToString(Arr(SortUsers(items + [user]))).Success?
  {
    var added := items + [user];
    var stored := SortUsers(added);
    SortPermutes(SortCompare, added);
    forall i | 0 <= i < |stored|
      ensures Plain(stored[i])
    {
      assert stored[i] in multiset(added);
      var j :| 0 <= j < |added| && added[j] == stored[i];
      if j < |items| {
        assert added[j] == items[j];
      }
    }
    assert Plain(Arr(stored));
    PlainHasText(Arr(stored));
  }

  /** `#setDefaultUser(defaultUser)`: `set` of the given object. */
  function SetDefaultUserSpec(w: World, listeners: map<string, seq<Listener>>, store: StoreConfig, defaultUser: Value): Step
  {
    ElementSet(w, listeners, store, DefaultUserSlot, defaultUser)
  }

  /**
   * The default-user form's submit: nothing when either trimmed input is
   * empty, otherwise `{ url, urlSpeaking }` of the trimmed inputs written.
   */
  function SetDefaultSubmitSpec(w: World, listeners: map<string, seq<Listener>>, store: StoreConfig,
                                url: string, urlSpeaking: string): Step
  {
    if Trim(url) == [] || Trim(urlSpeaking) == [] then Step(w, Pass)
    else SetDefaultUserSpec(w, listeners, store, NewDefaultUser(Trim(url), Trim(urlSpeaking)))
  }

  /**
   * A submit with a blank input changes nothing; otherwise it always
   * completes, replaces the default user by the trimmed pair, persists it,
   * and leaves every other slot as it was.
   */
  lemma SetDefaultSubmitStores(w: World, listeners: map<string, seq<Listener>>, store: StoreConfig, url: string, urlSpeaking: string)
    ensures Trim(url) == [] || Trim(urlSpeaking) == [] ==>
              SetDefaultSubmitSpec(w, listeners, store, url, urlSpeaking) == Step(w, Pass)
    ensures var r := SetDefaultSubmitSpec(w, listeners, store, url, urlSpeaking);
            var v := NewDefaultUser(Trim(url), Trim(urlSpeaking));
            Trim(url) != [] && Trim(urlSpeaking) != [] ==>
              r.outcome.Pass? && r.world.storage == w.storage["defaultUser" := v] &&
              r.world.persisted.Keys == w.persisted.Keys + {"defaultUser"} &&
              Get(Stored(r.world, "defaultUser"), "url") == Str(Trim(url)) &&
              Get(Stored(r.world, "defaultUser"), "urlSpeaking") == Str(Trim(urlSpeaking))
  {
    if Trim(url) != [] && Trim(urlSpeaking) != [] {
      ObjectWritePasses(w, listeners, store, NewDefaultUser(Trim(url), Trim(urlSpeaking)));
    }
  }

  /** A plain object written to `defaultUser` is stored as it is and persisted. */
  lemma ObjectWritePasses(w: World, listeners: map<string, seq<Listener>>, store: StoreConfig, v: Value)
    requires v.Obj? && Plain(v)
    ensures var r := SetDefaultUserSpec(w, listeners, store, v);
            r.outcome.Pass? && r.world.storage == w.storage["defaultUser" := v] &&
            r.world.persisted.Keys == w.persisted.Keys + {"defaultUser"}
  {
    PlainHasText(v);
    SetPasses(w, listeners, store, DefaultUserSlot, v, v);
  }

  /** `#removeDefaultUser()`: `set(null)`, whatever the slot holds. */
  function RemoveDefaultSpec(w: World, listeners: map<string, seq<Listener>>, store: StoreConfig): Step
  {
    ElementSet(w, listeners, store, DefaultUserSlot, Null)
  }

  /** The remove button always completes and leaves `null` in the slot, persisted. */
  lemma RemoveDefaultStores(w: World, listeners: map<string, seq<Listener>>, store: StoreConfig)
    ensures var r := RemoveDefaultSpec(w, listeners, store);
            r.outcome.Pass? && r.world.storage == w.storage["defaultUser" := Null] &&
            r.world.persisted.Keys == w.persisted.Keys + {"defaultUser"} &&
            !Truthy(Stored(r.world, "defaultUser"))
  {
    DefaultsSerialize();
    SetPasses(w, listeners, store, DefaultUserSlot, Null, Null);
  }

  /** `#addUser(user)`. */
  method AddUser(app: App, user: Value) returns (o: Outcome<Error>)
    requires app.Valid()
    modifies app.state, app.state.localStorage
    ensures app.Valid()
    ensures Step(app.state.Snapshot(), o) == AddUserSpec(old(app.state.Snapshot()), app.state.listeners, app.state.config, user)
    ensures app.state.listeners == old(app.state.listeners)
  {
    var users := app.users.Get();
    assert users == Stored(app.state.Snapshot(), "users");
    if !users.Arr? {
      return Fail(TypeError);
    }
    o := app.SetSlot(UsersSlot, Arr(users.items + [user]));
  }

  /** The participant form's `onsubmit`. */
  method AddSubmit(app: App, id: string, url: string, urlSpeaking: string) returns (o: Outcome<Error>)
    requires app.Valid()
    modifies app.state, app.state.localStorage
    ensures app.Valid()
    ensures Step(app.state.Snapshot(), o) == AddSubmitSpec(old(app.state.Snapshot()), app.state.listeners, app.state.config, id, url, urlSpeaking)
    ensures app.state.listeners == old(app.state.listeners)
  {
    var i, u, s := Trim(id), Trim(url), Trim(urlSpeaking);
    if |i| == 0 || |u| == 0 || |s| == 0 {
      return Pass;
    }
    o := AddUser(app, NewUser(i, u, s));
  }

  /** `#setDefaultUser(defaultUser)`. */
  method SetDefaultUser(app: App, defaultUser: Value) returns (o: Outcome<Error>)
    requires app.Valid()
    modifies app.state, app.state.localStorage
    ensures app.Valid()
    ensures Step(app.state.Snapshot(), o) == SetDefaultUserSpec(old(app.state.Snapshot()), app.state.listeners, app.state.config, defaultUser)
    ensures app.state.listeners == old(app.state.listeners)
  {
    o := app.SetSlot(DefaultUserSlot, defaultUser);
  }

  /** The default-user form's `onsubmit`. */
  method SetDefaultSubmit(app: App, url: string, urlSpeaking: string) returns (o: Outcome<Error>)
    requires app.Valid()
    modifies app.state, app.state.localStorage
    ensures app.Valid()
    ensures Step(app.state.Snapshot(), o) == SetDefaultSubmitSpec(old(app.state.Snapshot()), app.state.listeners, app.state.config, url, urlSpeaking)
    ensures app.state.listeners == old(app.state.listeners)
  {
    var u, s := Trim(url), Trim(urlSpeaking);
    if |u| == 0 || |s| == 0 {
      return Pass;
    }
    o := SetDefaultUser(app, NewDefaultUser(u, s));
  }

  /** `#removeDefaultUser()`, the remove button's `onclick`. */
  method RemoveDefault(app: App) returns (o: Outcome<Error>)
    requires app.Valid()
    modifies app.state, app.state.localStorage
    ensures app.Valid()
    ensures Step(app.state.Snapshot(), o) == RemoveDefaultSpec(old(app.state.Snapshot()), app.state.listeners, app.state.config)
    ensures app.state.listeners == old(app.state.listeners)
  {
    o := app.SetSlot(DefaultUserSlot, Null);
  }
}

=== FILE: import_export.dfy ===
/**
 * The import, export and reset buttons of the current tool
 * (src/js/ImportExport.js). An import is ignored unless a file is chosen,
 * its name ends in `.dvco` or `.dvog`, and its text parses to a truthy
 * value; then every slot is reset, and the document's fields are applied:
 * the older `.dvco` format through re-keying, the `.dvog` format field by
 * field when non-empty. An export writes the non-empty slots.
 *
 * The component's attached elements are the three the application
 * registered (`attach` returns the registry's element), so the methods
 * here work on `App`.
 */
module ImportExport {
  import opened Wrappers
  import opened JsValue
  import opened Json
  import opened Browser
  import opened LibState
  import opened UserOrder
  import opened App
  import opened Documents

  /** A file chosen in the import input: its name and its text, None when reading it fails. */
  datatype ImportFile = ImportFile(name: string, content: Option<string>)

  /** `slot.set(v)` when `cond` holds and nothing has thrown yet. */
  function SetIf(s: Step, listeners: map<string, seq<Listener>>, store: StoreConfig, cond: bool, slot: Slot, v: Value): Step
  {
    if s.outcome.Fail? || !cond then s else ElementSet(s.world, listeners, store, slot, v)
  }

  /** A guarded write that completes followed a completed step, and stored what `onBeforeSet` gave when its guard held. */
  lemma SetIfPass(s: Step, listeners: map<string, seq<Listener>>, store: StoreConfig, cond: bool, slot: Slot, v: Value)
    ensures var r := SetIf(s, listeners, store, cond, slot, v);
            r.outcome.Pass? ==>
              s.outcome.Pass? &&
              (!cond ==> r == s) &&
              (cond ==> TypeOf(v) == TypeOf(slot.defaultValue) && BeforeSet(slot.config, v).Success? &&
                        r.world.storage == s.world.storage[slot.key := BeforeSet(slot.config, v).value])
  {
    if s.outcome.Pass? && cond {
      ElementSetPass(s.world, listeners, store, slot, v);
    }
  }

  /** The store with its three slots set to the given values. */
  function WithSlots(m: map<string, Value>, defaultUser: Value, users: Value, server: Value): map<string, Value>
  {
    m["defaultUser" := defaultUser]["users" := users]["server" := server]
  }

  /** A later write of one slot replaces that slot's value and nothing else. */
  lemma WithSlotsOverwrite(m: map<string, Value>, defaultUser: Value, users: Value, server: Value, v: Value)
    ensures WithSlots(m, defaultUser, users, server)["defaultUser" := v] == WithSlots(m, v, users, server)
    ensures WithSlots(m, defaultUser, users, server)["users" := v] == WithSlots(m, defaultUser, v, server)
    ensures WithSlots(m, defaultUser, users, server)["server" := v] == WithSlots(m, defaultUser, users, v)
  {
    var d, u, s := "defaultUser", "users", "server";
    assert d != u && d != s && u != s by {
      assert d[0] != u[0] && d[0] != s[0] && u[0] != s[0];
    }
    ThreeKeysOverwrite(m, d, u, s, defaultUser, users, server, v);
  }

  /** Writing one of three distinct keys again replaces its earlier value in place. */
  lemma ThreeKeysOverwrite<K, V>(m: map<K, V>, a: K, b: K, c: K, x: V, y: V, z: V, v: V)
    requires a != b && a != c && b != c
    ensures m[a := x][b := y][c := z][a := v] == m[a := v][b := y][c := z]
    ensures m[a := x][b := y][c := z][b := v] == m[a := x][b := v][c := z]
    ensures m[a := x][b := y][c := z][c := v] == m[a := x][b := y][c := v]
  {
  }

  /**
   * `#handleDVCO(data)`: `server` receives the truthy ids and is written
   * when it has one; then a truthy `users` is re-keyed and written.
   */
  function DvcoSpec(w: World, listeners: map<string, seq<Listener>>, store: StoreConfig, data: Value): Step
  {
    var server := DvcoServer(data);
    var s := SetIf(Step(w, Pass), listeners, store, KeyCount(server) > 0, ServerSlot, server);
    var users := Get(data, "users");
    if s.outcome.Fail? || !Truthy(users) then s
    else match Rekeyed(users)
      case Failure(e) => Step(s.world, Fail(e))
      case Success(rekeyed) => ElementSet(s.world, listeners, store, UsersSlot, rekeyed)
  }

  /** `#handleDVOG(data)`: each field written in turn when it is non-empty. */
  function DvogSpec(w: World, listeners: map<string, seq<Listener>>, store: StoreConfig, data: Value): Step
  {
    var defaultUser := Get(data, "defaultUser");
    var users := Get(data, "users");
    var server := Get(data, "server");
    var s1 := SetIf(Step(w, Pass), listeners, store, NonEmpty(defaultUser), DefaultUserSlot, defaultUser);
    var s2 := SetIf(s1, listeners, store, HasItems(users), UsersSlot, users);
    SetIf(s2, listeners, store, NonEmpty(server), ServerSlot, server)
  }

  /** Whether an import gets past its three gates: a file, a known suffix, and truthy parsed content. */
  predicate Accepted(files: seq<ImportFile>)
  {
    files != [] && FileTypeOf(files[0].name).Some? && Truthy(ReadData(files[0].content))
  }

  /**
   * `#handleImport` with the reset the component evidently intends, its own
   * `$resetAll` over the three slots. A rejected file leaves the store as it is.
   */
  function Import(w: World, listeners: map<string, seq<Listener>>, store: StoreConfig, files: seq<ImportFile>): (r: Step)
    ensures !Accepted(files) ==> r == Step(w, Pass)
  {
    if !Accepted(files) then Step(w, Pass)
    else
      var data := ReadData(files[0].content);
      var reset := ResetAllSpec(w, listeners, store, AppSlots);
      if reset.outcome.Fail? then reset
      else match FileTypeOf(files[0].name).value
        case Dvco => DvcoSpec(reset.world, listeners, store, data)
        case Dvog => DvogSpec(reset.world, listeners, store, data)
  }

  /**
   * `#handleImport` as written: `this.#app.$resetAll()` calls a method the
   * application does not have, so every accepted file ends in a TypeError
   * before anything is written.
   */
  function ImportAsWritten(w: World, files: seq<ImportFile>): (r: Step)
    ensures r.world == w
    ensures r.outcome.Fail? <==> Accepted(files)
  {
    if !Accepted(files) then Step(w, Pass) else Step(w, Fail(TypeError))
  }

  /**
   * After an accepted `.dvog` import that completes, each slot holds the
   * document's field when that field is non-empty (`users` as sorted by the
   * store) and its default otherwise; every other key keeps its value.
   */
  lemma ImportDvogSlots(w: World, listeners: map<string, seq<Listener>>, store: StoreConfig, file: ImportFile)
    requires FileTypeOf(file.name) == Some(Dvog) && Truthy(ReadData(file.content))
    ensures var data := ReadData(file.content);
            var du, u, sv := Get(data, "defaultUser"), Get(data, "users"), Get(data, "server");
            var r := Import(w, listeners, store, [file]);
            r.outcome.Pass? ==>
              (HasItems(u) ==> u.Arr?) &&
              r.world.storage ==
                WithSlots(w.storage, if NonEmpty(du) then du else Null,
                          if HasItems(u) then Arr(SortUsers(u.items)) else Arr([]),
                          if NonEmpty(sv) then sv else Obj([]))
  {
    var data := ReadData(file.content);
    ResetStateRestores(w, listeners, store);
    var reset := ResetAllSpec(w, listeners, store, AppSlots);
    var s := Step(reset.world, Pass);
    assert Import(w, listeners, store, [file]) == DvogWrites(s, listeners, store, data);
    DvogAfterReset(s, listeners, store, data, w.storage);
  }

  /** The three guarded writes of a `.dvog` import, in the order the handler makes them. */
  function DvogWrites(s: Step, listeners: map<string, seq<Listener>>, store: StoreConfig, data: Value): Step
  {
    var du, u, sv := Get(data, "defaultUser"), Get(data, "users"), Get(data, "server");
    var s1 := SetIf(s, listeners, store, NonEmpty(du), DefaultUserSlot, du);
    var s2 := SetIf(s1, listeners, store, HasItems(u), UsersSlot, u);
    SetIf(s2, listeners, store, NonEmpty(sv), ServerSlot, sv)
  }

  /**
   * From the reset store, the three writes that complete leave each slot
   * with the document's field when it is non-empty and its default
   * otherwise.
   */
  lemma DvogAfterReset(s: Step, listeners: map<string, seq<Listener>>, store: StoreConfig, data: Value, m: map<string, Value>)
    requires s.outcome == Pass && s.world.storage == WithSlots(m, Null, Arr([]), Obj([]))
    ensures var du, u, sv := Get(data, "defaultUser"), Get(data, "users"), Get(data, "server");
            var r := DvogWrites(s, listeners, store, data);
            r.outcome.Pass? ==>
              (HasItems(u) ==> u.Arr?) &&
              r.world.storage ==
                WithSlots(m, if NonEmpty(du) then du else Null,
                          if HasItems(u) then Arr(SortUsers(u.items)) else Arr([]),
                          if NonEmpty(sv) then sv else Obj([]))
  {
    var du, u, sv := Get(data, "defaultUser"), Get(data, "users"), Get(data, "server");
    var s1 := SetIf(s, listeners, store, NonEmpty(du), DefaultUserSlot, du);
    var s2 := SetIf(s1, listeners, store, HasItems(u), UsersSlot, u);
    var s3 := SetIf(s2, listeners, store, NonEmpty(sv), ServerSlot, sv);
    if s3.outcome.Pass? {
      var d1 := if NonEmpty(du) then du else Null;
      var u1 := if HasItems(u) then Arr(SortUsers(u.items)) else Arr([]);
      SetIfPass(s, listeners, store, NonEmpty(du), DefaultUserSlot, du);
      WithSlotsOverwrite(m, Null, Arr([]), Obj([]), du);
      assert s1.world.storage == WithSlots(m, d1, Arr([]), Obj([]));
      SetIfPass(s1, listeners, store, HasItems(u), UsersSlot, u);
      WithSlotsOverwrite(m, d1, Arr([]), Obj([]), u1);
      assert s2.world.storage == WithSlots(m, d1, u1, Obj([]));
      SetIfPass(s2, listeners, store, NonEmpty(sv), ServerSlot, sv);
      WithSlotsOverwrite(m, d1, u1, Obj([]), sv);
    }
  }

  /**
   * After an accepted `.dvco` import that completes, `defaultUser` is
   * `null`, `server` holds the document's truthy ids (or `{}` when it has
   * none), and `users` holds the re-keyed participants, sorted (or `[]`
   * when the document has none).
   */
  lemma ImportDvcoSlots(w: World, listeners: map<string, seq<Listener>>, store: StoreConfig, file: ImportFile)
    requires FileTypeOf(file.name) == Some(Dvco) && Truthy(ReadData(file.content))
    ensures var data := ReadData(file.content);
            var u := Get(data, "users");
            var server := DvcoServer(data);
            var r := Import(w, listeners, store, [file]);
            r.outcome.Pass? ==>
              (Truthy(u) ==> Rekeyed(u).Success?) &&
              r.world.storage ==
                WithSlots(w.storage, Null,
                          if Truthy(u) then Arr(SortUsers(Rekeyed(u).value.items)) else Arr([]),
                          if KeyCount(server) > 0 then server else Obj([]))
  {
    var data := ReadData(file.content);
    var u := Get(data, "users");
    var server := DvcoServer(data);
    ResetStateRestores(w, listeners, store);
    var reset := ResetAllSpec(w, listeners, store, AppSlots);
    var s := SetIf(Step(reset.world, Pass), listeners, store, KeyCount(server) > 0, ServerSlot, server);
    var r := DvcoSpec(reset.world, listeners, store, data);
    assert Import(w, listeners, store, [file]) == r;
    if r.outcome.Pass? {
      var v1 := if KeyCount(server) > 0 then server else Obj([]);
      assert reset.world.storage == WithSlots(w.storage, Null, Arr([]), Obj([]));
      SetIfPass(Step(reset.world, Pass), listeners, store, KeyCount(server) > 0, ServerSlot, server);
      WithSlotsOverwrite(w.storage, Null, Arr([]), Obj([]), server);
      assert s.world.storage == WithSlots(w.storage, Null, Arr([]), v1);
      if Truthy(u) {
        var rekeyed := Rekeyed(u).value;
        ElementSetPass(s.world, listeners, store, UsersSlot, rekeyed);
        WithSlotsOverwrite(w.storage, Null, Arr([]), v1, Arr(SortUsers(rekeyed.items)));
      }
    }
  }

  /**
   * Export followed by import restores all three slots: given the default
   * user `null` or an object with fields, a sorted participant list and a
   * server object (as the store holds them), the exported `.dvog` file
   * imports without error and leaves exactly those values.
   */
  lemma ExportImportRoundTrip(w: World, listeners: map<string, seq<Listener>>, store: StoreConfig,
                              defaultUser: Value, users: Value, server: Value, isoDate: string)
    requires Plain(defaultUser) && Plain(users) && Plain(server)
    requires defaultUser.Null? || (defaultUser.Obj? && defaultUser.props != [])
    requires users.Arr? && Sorted(users.items) && Sortable(users.items)
    requires server.Obj?
    ensures var doc := ExportDoc(defaultUser, users, server);
            ExportText(doc).Success? &&
            var r := Import(w, listeners, store, [ImportFile(ExportFileName(isoDate), Some(ExportText(doc).value))]);
            r.outcome.Pass? &&
            r.world.storage == WithSlots(w.storage, defaultUser, users, server)
  {
    var doc := ExportDoc(defaultUser, users, server);
    ExportReadsBack(defaultUser, users, server);
    var file := ImportFile(ExportFileName(isoDate), Some(ExportText(doc).value));
    assert ReadData(file.content) == doc;
    ExportedSlots(defaultUser, users, server);
    ImportDvogSlots(w, listeners, store, file);
    ImportUnfold(w, listeners, store, file);
    DvogPasses(ResetAllSpec(w, listeners, store, AppSlots).world, listeners, store, defaultUser, users, server);
  }

  /** What the `.dvog` import makes of each field of an exported document is the exported value itself. */
  lemma ExportedSlots(defaultUser: Value, users: Value, server: Value)
    requires defaultUser.Null? || (defaultUser.Obj? && defaultUser.props != [])
    requires users.Arr? && Sorted(users.items)
    requires server.Obj?
    ensures var doc := ExportDoc(defaultUser, users, server);
            var du, u, sv := Get(doc, "defaultUser"), Get(doc, "users"), Get(doc, "server");
            (if NonEmpty(du) then du else Null) == defaultUser &&
            (HasItems(u) ==> u.Arr?) &&
            (if HasItems(u) then Arr(SortUsers(u.items)) else Arr([])) == users &&
            (if NonEmpty(sv) then sv else Obj([])) == server
  {
    var doc := ExportDoc(defaultUser, users, server);
    HasItemsArr(users.items);
    if HasItems(users) {
      SortKeepsSorted(users.items);
    }
    if !NonEmpty(server) {
      assert server.props == [];
    }
  }

  /** An accepted import resets the three slots, which always completes, and then applies the document. */
  lemma ImportUnfold(w: World, listeners: map<string, seq<Listener>>, store: StoreConfig, file: ImportFile)
    requires FileTypeOf(file.name).Some? && Truthy(ReadData(file.content))
    ensures var reset := ResetAllSpec(w, listeners, store, AppSlots);
            var data := ReadData(file.content);
            reset.outcome.Pass? &&
            reset.world.storage == WithSlots(w.storage, Null, Arr([]), Obj([])) &&
            Import(w, listeners, store, [file]) ==
              if FileTypeOf(file.name) == Some(Dvco) then DvcoSpec(reset.world, listeners, store, data)
              else DvogSpec(reset.world, listeners, store, data)
  {
    ResetStateRestores(w, listeners, store);
  }

  /** Applying an exported document completes: every write it makes is of the slot's kind and has text. */
  lemma DvogPasses(w: World, listeners: map<string, seq<Listener>>, store: StoreConfig,
                   defaultUser: Value, users: Value, server: Value)
    requires Plain(defaultUser) && Plain(users) && Plain(server)
    requires defaultUser.Null? || defaultUser.Obj?
    requires users.Arr? && Sorted(users.items) && Sortable(users.items)
    requires server.Obj?
    ensures DvogSpec(w, listeners, store, ExportDoc(defaultUser, users, server)).outcome.Pass?
  {
    var doc := ExportDoc(defaultUser, users, server);
    var du, u, sv := Get(doc, "defaultUser"), Get(doc, "users"), Get(doc, "server");
    var s1 := SetIf(Step(w, Pass), listeners, store, NonEmpty(du), DefaultUserSlot, du);
    if NonEmpty(du) {
      PlainWritePasses(w, listeners, store, DefaultUserSlot, defaultUser);
    }
    var s2 := SetIf(s1, listeners, store, HasItems(u), UsersSlot, u);
    if HasItems(u) {
      PlainWritePasses(s1.world, listeners, store, UsersSlot, users);
    }
    if NonEmpty(sv) {
      PlainWritePasses(s2.world, listeners, store, ServerSlot, server);
    }
  }

  /**
   * Writing plain data of a slot's kind (for `users`, a sorted list of
   * entries the comparator can read) to that slot completes and stores
   * the value as it is.
   */
  lemma PlainWritePasses(w: World, listeners: map<string, seq<Listener>>, store: StoreConfig, slot: Slot, v: Value)
    requires Plain(v)
    requires (slot == DefaultUserSlot && v.Obj?) || (slot == UsersSlot && v.Arr? && Sorted(v.items) && Sortable(v.items)) ||
             (slot == ServerSlot && v.Obj?)
    ensures var r := ElementSet(w, listeners, store, slot, v);
            r.outcome.Pass? && r.world.storage == w.storage[slot.key := v]
  {
    PlainHasText(v);
    if slot == UsersSlot {
      SortUsersValueSorts(v.items);
      assert v == Arr(v.items);
    }
    assert ValueToString(v).Success?;
    SetPasses(w, listeners, store, slot, v, v);
  }

  /**
   * The same file the corrected import restores is rejected as written:
   * the store is left exactly as it was and the handler throws.
   */
  lemma ImportAsWrittenLosesRoundTrip(w: World, defaultUser: Value, users: Value, server: Value, isoDate: string)
    requires Plain(defaultUser) && Plain(users) && Plain(server)
    ensures var doc := ExportDoc(defaultUser, users, server);
            ExportText(doc).Success? &&
            ImportAsWritten(w, [ImportFile(ExportFileName(isoDate), Some(ExportText(doc).value))]) == Step(w, Fail(TypeError))
  {
    ExportReadsBack(defaultUser, users, server);
  }

  /** `#handleDVCO(data)` on the application's slots. */
  method HandleDvco(app: App, data: Value) returns (o: Outcome<Error>)
    requires app.Valid()
    modifies app.state, app.state.localStorage
    ensures app.Valid()
    ensures Step(app.state.Snapshot(), o) == DvcoSpec(old(app.state.Snapshot()), app.state.listeners, app.state.config, data)
    ensures app.state.listeners == old(app.state.listeners)
  {
    var props: seq<Prop> := [];
    if Truthy(Get(data, "serverId")) {
      props := props + [Prop("serverId", Get(data, "serverId"))];
    }
    if Truthy(Get(data, "vcId")) {
      props := props + [Prop("vcId", Get(data, "vcId"))];
    }
    assert Obj(props) == DvcoServer(data);
    o := Pass;
    if |props| > 0 {
      o := app.SetSlot(ServerSlot, Obj(props));
      if o.Fail? {
        return;
      }
    }
    var users := Get(data, "users");
    if Truthy(users) {
      var rekeyed := Rekeyed(users);
      if rekeyed.Failure? {
        return Fail(rekeyed.error);
      }
      o := app.SetSlot(UsersSlot, rekeyed.value);
    }
  }

  /** `#handleDVOG(data)` on the application's slots. */
  method HandleDvog(app: App, data: Value) returns (o: Outcome<Error>)
    requires app.Valid()
    modifies app.state, app.state.localStorage
    ensures app.Valid()
    ensures Step(app.state.Snapshot(), o) == DvogSpec(old(app.state.Snapshot()), app.state.listeners, app.state.config, data)
    ensures app.state.listeners == old(app.state.listeners)
  {
    var defaultUser := Get(data, "defaultUser");
    var users := Get(data, "users");
    var server := Get(data, "server");
    ghost var listeners, store := app.state.listeners, app.state.config;
    ghost var w0 := app.state.Snapshot();
    o := Pass;
    if NonEmpty(defaultUser) {
      o := app.SetSlot(DefaultUserSlot, defaultUser);
      if o.Fail? {
        return;
      }
    }
    ghost var s1 := Step(app.state.Snapshot(), o);
    assert s1 == SetIf(Step(w0, Pass), listeners, store, NonEmpty(defaultUser), DefaultUserSlot, defaultUser);
    if HasItems(users) {
      o := app.SetSlot(UsersSlot, users);
      if o.Fail? {
        return;
      }
    }
    ghost var s2 := Step(app.state.Snapshot(), o);
    assert s2 == SetIf(s1, listeners, store, HasItems(users), UsersSlot, users);
    if NonEmpty(server) {
      o := app.SetSlot(ServerSlot, server);
    }
  }

  /**
   * `#handleImport(e)` as written: a file that passes the three gates
   * reaches `this.#app.$resetAll()`, which throws before anything is written.
   */
  method HandleImport(app: App, files: seq<ImportFile>) returns (o: Outcome<Error>)
    requires app.Valid()
    ensures Step(app.state.Snapshot(), o) == ImportAsWritten(app.state.Snapshot(), files)
  {
    if files == [] {
      return Pass;
    }
    var file := files[0];
    if FileTypeOf(file.name).None? || !Truthy(ReadData(file.content)) {
      return Pass;
    }
    return Fail(TypeError);
  }

  /** `#handleImport(e)` with the component's own reset, as `Import` specifies it. */
  method HandleImportWithReset(app: App, files: seq<ImportFile>) returns (o: Outcome<Error>)
    requires app.Valid()
    modifies app.state, app.state.localStorage
    ensures app.Valid()
    ensures Step(app.state.Snapshot(), o) == Import(old(app.state.Snapshot()), app.state.listeners, app.state.config, files)
    ensures app.state.listeners == old(app.state.listeners)
  {
    if files == [] {
      return Pass;
    }
    var file := files[0];
    var fileType := FileTypeOf(file.name);
    if fileType.None? {
      return Pass;
    }
    var data := ReadData(file.content);
    if !Truthy(data) {
      return Pass;
    }
    ResetStateRestores(app.state.Snapshot(), app.state.listeners, app.state.config);
    o := app.ResetState();
    if fileType.value == Dvco {
      o := HandleDvco(app, data);
    } else {
      o := HandleDvog(app, data);
    }
  }

  /**
   * `#handleExport()`: the file name for the clock's `toJSON()` text and
   * the text of the document holding the non-empty slots. Nothing in the
   * store changes.
   */
  method HandleExport(app: App, isoDate: string) returns (name: string, text: Result<string, Error>)
    requires app.Valid()
    ensures name == ExportFileName(isoDate)
    ensures text == ExportText(ExportDoc(app.state.Get("defaultUser"), app.state.Get("users"), app.state.Get("server")))
  {
    name := "discord-vc-overlay-" + isoDate[..if |isoDate| < 10 then |isoDate| else 10] + ".dvog";
    var props: seq<Prop> := [];
    var defaultUser := app.defaultUser.Get();
    if NonEmpty(defaultUser) {
      props := props + [Prop("defaultUser", defaultUser)];
    }
    var users := app.users.Get();
    if HasItems(users) {
      props := props + [Prop("users", users)];
    }
    var server := app.server.Get();
    if NonEmpty(server) {
      props := props + [Prop("server", server)];
    }
    assert Obj(props) == ExportDoc(defaultUser, users, server);
    text := ExportText(Obj(props));
  }
}

=== FILE: js_value.dfy ===
/**
 * The JavaScript values the overlay tool stores and passes around, with the
 * handful of language operations its code relies on: `typeof`, truthiness,
 * property lookup, `Object.keys(...).length`, object spread, `delete` and the
 * string conversion of a template-literal interpolation.
 */
module JsValue {
  import opened Decimal

  /** The result of `typeof`. */
  datatype Kind =
    | BigIntKind | BooleanKind | SymbolKind | NumberKind
    | ObjectKind | StringKind | UndefinedKind | FunctionKind

  /**
   * A JavaScript value. Numbers are integers or NaN; an object is the
   * sequence of its own properties in insertion order; a symbol or a function
   * is represented by its description or name.
   */
  datatype Value =
    | Undefined
    | Null
    | Bool(b: bool)
    | Num(n: int)
    | NaN
    | BigInt(i: int)
    | Str(s: string)
    | Sym(description: string)
    | Func(name: string)
    | Arr(items: seq<Value>)
    | Obj(props: seq<Prop>)

  datatype Prop = Prop(key: string, val: Value)

  function TypeOf(v: Value): Kind
  {
    match v
    case Undefined => UndefinedKind
    case Null => ObjectKind
    case Bool(_) => BooleanKind
    case Num(_) => NumberKind
    case NaN => NumberKind
    case BigInt(_) => BigIntKind
    case Str(_) => StringKind
    case Sym(_) => SymbolKind
    case Func(_) => FunctionKind
    case Arr(_) => ObjectKind
    case Obj(_) => ObjectKind
  }

  /** JavaScript truthiness (`if (v)`). */
  predicate Truthy(v: Value)
  {
    match v
    case Undefined => false
    case Null => false
    case Bool(b) => b
    case Num(n) => n != 0
    case NaN => false
    case BigInt(i) => i != 0
    case Str(s) => s != ""
    case _ => true
  }

  /** Whether a property list has an entry for `key`. */
  predicate HasKey(ps: seq<Prop>, key: string)
  {
    ps != [] && (ps[0].key == key || HasKey(ps[1..], key))
  }

  /** No key occurs twice: every object the program builds has this shape. */
  predicate Distinct(ps: seq<Prop>)
  {
    ps == [] || (!HasKey(ps[1..], ps[0].key) && Distinct(ps[1..]))
  }

  /** The value of the entry for `key`, or `undefined`. */
  function LookupIn(ps: seq<Prop>, key: string): (r: Value)
    ensures !HasKey(ps, key) ==> r == Undefined
  {
    if ps == [] then Undefined
    else if ps[0].key == key then ps[0].val
    else LookupIn(ps[1..], key)
  }

  /** The own enumerable properties of an object, in insertion order. */
  function OwnProps(v: Value): seq<Prop>
  {
    if v.Obj? then v.props else []
  }

  /** `Object.keys(v).length` for the values the tool applies it to. */
  function KeyCount(v: Value): nat
  {
    match v
    case Obj(props) => |props|
    case Arr(items) => |items|
    case Str(s) => |s|
    case _ => 0
  }

  /** The guard `v && Object.keys(v).length > 0` the tool writes before using an object. */
  predicate NonEmpty(v: Value)
  {
    Truthy(v) && KeyCount(v) > 0
  }

  /**
   * Property access `v.key`: an object's own entry, the `length` of an array
   * or a string, and `undefined` for everything else.
   */
  function Get(v: Value, key: string): Value
  {
    match v
    case Obj(props) => LookupIn(props, key)
    case Arr(items) => if key == "length" then Num(|items|) else Undefined
    case Str(s) => if key == "length" then Num(|s|) else Undefined
    case _ => Undefined
  }

  /** Whether `v.key` can be read at all: on `null` and `undefined` it throws a TypeError. */
  predicate Readable(v: Value)
  {
    !v.Null? && !v.Undefined?
  }

  /** Whether a callback that reads a property of every entry can run over the whole list. */
  predicate AllReadable(items: seq<Value>)
  {
    forall i :: 0 <= i < |items| ==> Readable(items[i])
  }

  /** The comparison `v > 0` for the values a `length` read yields. */
  predicate Positive(v: Value)
  {
    match v
    case Num(n) => n > 0
    case BigInt(i) => i > 0
    case Bool(b) => b
    case Str(s) => ParseInt(s).Some? && ParseInt(s).value > 0
    case _ => false
  }

  /** Whether `key in v` holds for an object. */
  predicate Has(v: Value, key: string)
  {
    v.Obj? && HasKey(v.props, key)
  }

  /** Assignment `o[key] = val` on a property list: overwrite the entry in place, or append one. */
  function Assign(ps: seq<Prop>, key: string, val: Value): (r: seq<Prop>)
    ensures HasKey(ps, key) ==> |r| == |ps|
    ensures !HasKey(ps, key) ==> r == ps + [Prop(key, val)]
  {
    if ps == [] then [Prop(key, val)]
    else if ps[0].key == key then [Prop(key, val)] + ps[1..]
    else [ps[0]] + Assign(ps[1..], key, val)
  }

  /** Assigning every entry of `extra`, left to right, as `Object.assign` and spread do. */
  function AssignAll(ps: seq<Prop>, extra: seq<Prop>): seq<Prop>
    decreases extra
  {
    if extra == [] then ps else AssignAll(Assign(ps, extra[0].key, extra[0].val), extra[1..])
  }

  /** Object spread `{...a, ...b}`. */
  function Spread(a: Value, b: Value): Value
  {
    Obj(AssignAll(AssignAll([], OwnProps(a)), OwnProps(b)))
  }

  /** `delete o[key]` on a property list. */
  function DeleteKey(ps: seq<Prop>, key: string): seq<Prop>
  {
    if ps == [] then []
    else if ps[0].key == key then DeleteKey(ps[1..], key)
    else [ps[0]] + DeleteKey(ps[1..], key)
  }

  /** `delete v[key]` on the value held in a slot; non-objects are left as they are. */
  function Delete(v: Value, key: string): Value
  {
    if v.Obj? then Obj(DeleteKey(v.props, key)) else v
  }

  lemma {:induction false} HasKeyAppend(a: seq<Prop>, b: seq<Prop>, key: string)
    ensures HasKey(a + b, key) <==> HasKey(a, key) || HasKey(b, key)
    ensures Distinct(a + b) && HasKey(a, key) ==> !HasKey(b, key)
  {
    if a == [] {
      assert a + b == b;
    } else {
      assert (a + b)[1..] == a[1..] + b;
      HasKeyAppend(a[1..], b, key);
    }
  }

  /** Reading a key of two property lists one after the other: the first list's entry wins. */
  lemma {:induction false} LookupAppend(a: seq<Prop>, b: seq<Prop>, key: string)
    ensures LookupIn(a + b, key) == if HasKey(a, key) then LookupIn(a, key) else LookupIn(b, key)
  {
    if a == [] {
      assert a + b == b;
    } else {
      assert (a + b)[0] == a[0];
      assert (a + b)[1..] == a[1..] + b;
      LookupAppend(a[1..], b, key);
    }
  }

  /** Two lists without repeated keys and with no key in common make one without repeated keys. */
  lemma {:induction false} DistinctAppend(a: seq<Prop>, b: seq<Prop>)
    requires Distinct(a) && Distinct(b)
    requires forall k :: HasKey(a, k) ==> !HasKey(b, k)
    ensures Distinct(a + b)
  {
    if a == [] {
      assert a + b == b;
    } else {
      assert (a + b)[0] == a[0];
      assert (a + b)[1..] == a[1..] + b;
      assert forall k :: HasKey(a[1..], k) ==> HasKey(a, k);
      DistinctAppend(a[1..], b);
      HasKeyAppend(a[1..], b, a[0].key);
    }
  }

  /** Three entries under three different keys: each key reads as its own entry. */
  lemma Props3(a: string, x: Value, b: string, y: Value, c: string, z: Value)
    requires a != b && a != c && b != c
    ensures var ps := [Prop(a, x), Prop(b, y), Prop(c, z)];
            Distinct(ps) && LookupIn(ps, a) == x && LookupIn(ps, b) == y && LookupIn(ps, c) == z
  {
    var ps := [Prop(a, x), Prop(b, y), Prop(c, z)];
    KeysAt(ps);
    assert ps[0].key == a && ps[1].key == b && ps[2].key == c;
  }

  /**
   * A property list whose keys are pairwise different: no key repeats, each
   * key reads as its own entry, and the keys present are exactly the listed ones.
   */
  lemma {:induction false} KeysAt(ps: seq<Prop>)
    requires forall i, j :: 0 <= i < j < |ps| ==> ps[i].key != ps[j].key
    ensures Distinct(ps)
    ensures forall i :: 0 <= i < |ps| ==> HasKey(ps, ps[i].key) && LookupIn(ps, ps[i].key) == ps[i].val
    ensures forall k :: HasKey(ps, k) <==> exists i :: 0 <= i < |ps| && ps[i].key == k
  {
    if ps != [] {
      var tail := ps[1..];
      assert forall i, j :: 0 <= i < j < |tail| ==> tail[i].key != tail[j].key by {
        forall i, j | 0 <= i < j < |tail| ensures tail[i].key != tail[j].key {
          assert tail[i] == ps[i + 1] && tail[j] == ps[j + 1];
        }
      }
      KeysAt(tail);
      forall k ensures HasKey(ps, k) <==> exists i :: 0 <= i < |ps| && ps[i].key == k {
        if HasKey(tail, k) {
          var i :| 0 <= i < |tail| && tail[i].key == k;
          assert ps[i + 1].key == k;
        }
        if exists i :: 0 <= i < |ps| && ps[i].key == k {
          var i :| 0 <= i < |ps| && ps[i].key == k;
          if i > 0 { assert tail[i - 1].key == k; }
        }
      }
      forall i | 0 <= i < |ps| ensures HasKey(ps, ps[i].key) && LookupIn(ps, ps[i].key) == ps[i].val {
        if i > 0 { assert ps[i] == tail[i - 1]; }
      }
    }
  }

  /** After `o[key] = val`, reading `key` gives `val` and every other key reads as before. */
  lemma {:induction false} AssignLookup(ps: seq<Prop>, key: string, val: Value)
    ensures HasKey(Assign(ps, key, val), key) && LookupIn(Assign(ps, key, val), key) == val
    ensures forall k :: k != key ==> LookupIn(Assign(ps, key, val), k) == LookupIn(ps, k)
    ensures forall k :: k != key ==> (HasKey(Assign(ps, key, val), k) <==> HasKey(ps, k))
  {
    if ps != [] && ps[0].key != key {
      AssignLookup(ps[1..], key, val);
      assert Assign(ps, key, val)[1..] == Assign(ps[1..], key, val);
    } else if ps != [] {
      assert Assign(ps, key, val)[1..] == ps[1..];
    }
  }

  lemma {:induction false} AssignDistinct(ps: seq<Prop>, key: string, val: Value)
    requires Distinct(ps)
    ensures Distinct(Assign(ps, key, val))
  {
    if ps == [] {
    } else if ps[0].key == key {
      assert Assign(ps, key, val)[1..] == ps[1..];
    } else {
      AssignDistinct(ps[1..], key, val);
      AssignLookup(ps[1..], key, val);
      assert Assign(ps, key, val)[1..] == Assign(ps[1..], key, val);
    }
  }

  /** With distinct keys, an entry of `extra` wins over the one of `ps`; other keys read as in `ps`. */
  lemma {:induction false} AssignAllLookup(ps: seq<Prop>, extra: seq<Prop>)
    requires Distinct(extra)
    ensures forall k :: LookupIn(AssignAll(ps, extra), k) ==
                        if HasKey(extra, k) then LookupIn(extra, k) else LookupIn(ps, k)
    ensures Distinct(ps) ==> Distinct(AssignAll(ps, extra))
    decreases extra
  {
    if extra != [] {
      var e := extra[0];
      var ps' := Assign(ps, e.key, e.val);
      AssignLookup(ps, e.key, e.val);
      if Distinct(ps) { AssignDistinct(ps, e.key, e.val); }
      AssignAllLookup(ps', extra[1..]);
    }
  }

  /** Spread copies distinct properties verbatim. */
  lemma AssignAllIntoEmpty(extra: seq<Prop>)
    requires Distinct(extra)
    ensures AssignAll([], extra) == extra
  {
    assert [] + extra == extra;
    AssignAllAppend([], extra);
  }

  lemma {:induction false} AssignAllAppend(ps: seq<Prop>, extra: seq<Prop>)
    requires Distinct(ps + extra)
    ensures AssignAll(ps, extra) == ps + extra
    decreases extra
  {
    if extra != [] {
      assert ps + extra == (ps + [extra[0]]) + extra[1..];
      HasKeyAppend(ps, extra, extra[0].key);
      HasKeyAppend(ps + [extra[0]], extra[1..], extra[0].key);
      AssignAllAppend(ps + [extra[0]], extra[1..]);
    }
  }

  /**
   * Object spread `{...a, ...b}` of two objects: every key of `b` reads as in
   * `b`, every other key as in `a`, and the result has no repeated key.
   */
  lemma SpreadLookup(a: Value, b: Value)
    requires a.Obj? && b.Obj? && Distinct(a.props) && Distinct(b.props)
    ensures Spread(a, b).Obj? && Distinct(Spread(a, b).props)
    ensures forall k :: Get(Spread(a, b), k) == if HasKey(b.props, k) then Get(b, k) else Get(a, k)
  {
    AssignAllIntoEmpty(a.props);
    AssignAllLookup(a.props, b.props);
  }

  /** After `delete v[key]` the key is gone and every other key reads as before. */
  lemma {:induction false} DeleteLookup(ps: seq<Prop>, key: string)
    ensures !HasKey(DeleteKey(ps, key), key)
    ensures forall k :: k != key ==> LookupIn(DeleteKey(ps, key), k) == LookupIn(ps, k)
    ensures forall k :: k != key ==> (HasKey(DeleteKey(ps, key), k) <==> HasKey(ps, k))
  {
    if ps != [] {
      DeleteLookup(ps[1..], key);
    }
  }

  /** The text a `${v}` interpolation produces. */
  function Display(v: Value): string
  {
    match v
    case Undefined => "undefined"
    case Null => "null"
    case Bool(b) => if b then "true" else "false"
    case Num(n) => IntToString(n)
    case NaN => "NaN"
    case BigInt(i) => IntToString(i)
    case Str(s) => s
    case Sym(d) => "Symbol(" + d + ")"
    case Func(name) => "function " + name + "() { [native code] }"
    case Arr(items) => JoinDisplay(items)
    case Obj(_) => "[object Object]"
  }

  /** `Array.prototype.toString`: elements joined by commas, null and undefined as empty. */
  function JoinDisplay(items: seq<Value>): string
    decreases items, 0
  {
    if items == [] then ""
    else
      var head := if items[0].Undefined? || items[0].Null? then "" else Display(items[0]);
      if |items| == 1 then head else head + "," + JoinDisplay(items[1..])
  }
}

=== FILE: json.dfy ===
/**
 * A stand-in for `JSON.stringify` and `JSON.parse`. The text format is not
 * JSON's (it is a length-prefixed encoding, so that parsing needs no
 * escaping), but it treats values the way JSON does: `undefined`, functions
 * and symbols yield no text at top level, are dropped from objects and become
 * `null` inside arrays; NaN becomes `null`; a repeated key keeps its last value;
 * a BigInt anywhere in the value makes `JSON.stringify` throw a TypeError.
 */
module Json {
  import opened Wrappers
  import opened Decimal
  import opened JsValue
  import opened Text

  /** The values `JSON.stringify` has no text for. */
  predicate Skipped(v: Value) { v.Undefined? || v.Func? || v.Sym? }

  /** Every object inside `v` has distinct keys, as every object built by a program does. */
  predicate WellFormed(v: Value)
  {
    match v
    case Arr(items) => forall i :: 0 <= i < |items| ==> WellFormed(items[i])
    case Obj(props) => Distinct(props) && forall i :: 0 <= i < |props| ==> WellFormed(props[i].val)
    case _ => true
  }

  /** The values that come back from parse unchanged: plain data. */
  predicate Plain(v: Value)
  {
    match v
    case Null => true
    case Bool(_) => true
    case Num(_) => true
    case Str(_) => true
    case Arr(items) => forall i :: 0 <= i < |items| ==> Plain(items[i])
    case Obj(props) => Distinct(props) && forall i :: 0 <= i < |props| ==> Plain(props[i].val)
    case _ => false
  }

  /** What a value looks like after a trip through text. */
  function Canon(v: Value): Value
  {
    match v
    case NaN => Null
    case BigInt(i) => Num(i)
    case Arr(items) => Arr(CanonItems(items))
    case Obj(props) => Obj(CanonProps(props))
    case _ => if Skipped(v) then Null else v
  }

  function CanonItems(items: seq<Value>): (r: seq<Value>)
    ensures |r| == |items|
    decreases items, 0
  {
    if items == [] then [] else [Canon(items[0])] + CanonItems(items[1..])
  }

  function CanonProps(props: seq<Prop>): seq<Prop>
    decreases props, 0
  {
    if props == [] then []
    else if Skipped(props[0].val) then CanonProps(props[1..])
    else [Prop(props[0].key, Canon(props[0].val))] + CanonProps(props[1..])
  }

  function EncStr(s: string): string
  {
    "s" + NatToString(|s|) + ":" + s
  }

  function Enc(v: Value): string
  {
    match v
    case Bool(b) => if b then "t" else "f"
    case Num(n) => "i" + IntToString(n) + ";"
    case BigInt(i) => "i" + IntToString(i) + ";"
    case Str(s) => EncStr(s)
    case Arr(items) => "a" + NatToString(|items|) + ":" + EncItems(items)
    case Obj(props) => "o" + NatToString(|CanonProps(props)|) + ":" + EncProps(props)
    case _ => "n"
  }

  function EncItems(items: seq<Value>): string
    decreases items, 0
  {
    if items == [] then "" else Enc(items[0]) + EncItems(items[1..])
  }

  function EncProps(props: seq<Prop>): string
    decreases props, 0
  {
    if props == [] then ""
    else if Skipped(props[0].val) then EncProps(props[1..])
    else EncStr(props[0].key) + Enc(props[0].val) + EncProps(props[1..])
  }

  /** Whether a BigInt occurs in `v`, which makes `JSON.stringify` throw a TypeError. */
  predicate HasBigInt(v: Value)
  {
    match v
    case BigInt(_) => true
    case Arr(items) => exists i :: 0 <= i < |items| && HasBigInt(items[i])
    case Obj(props) => exists i :: 0 <= i < |props| && HasBigInt(props[i].val)
    case _ => false
  }

  /** What `JSON.stringify` gives: text, `undefined`, or a thrown TypeError. */
  datatype Stringified = Text(text: string) | NoText | Throws

  /** `JSON.stringify(v)`. */
  function Stringify(v: Value): (r: Stringified)
    ensures r.NoText? <==> Skipped(v)
    ensures r.Throws? <==> HasBigInt(v)
  {
    if Skipped(v) then NoText else if HasBigInt(v) then Throws else Text(Enc(v))
  }

  /** The text before the first `c`, and the text after it. */
  function SplitAt(s: string, c: char): (r: Option<(string, string)>)
    ensures r.Some? ==> |r.value.1| < |s|
  {
    if s == [] then None
    else if s[0] == c then Some(([], s[1..]))
    else match SplitAt(s[1..], c)
      case Some((p, rest)) => Some(([s[0]] + p, rest))
      case None => None
  }

  function ParseCount(s: string): (r: Option<(nat, string)>)
    ensures r.Some? ==> |r.value.1| < |s|
  {
    match SplitAt(s, ':')
    case Some((digits, rest)) =>
      (match ParseNat(digits)
       case Some(n) => Some((n, rest))
       case None => None)
    case None => None
  }

  function ParseStrBody(s: string): (r: Option<(string, string)>)
    ensures r.Some? ==> |r.value.1| < |s|
  {
    match ParseCount(s)
    case Some((n, rest)) => if n <= |rest| then Some((rest[..n], rest[n..])) else None
    case None => None
  }

  /** One encoded value at the front of `s`, and what follows it. */
  function ParseValue(s: string): (r: Option<(Value, string)>)
    ensures r.Some? ==> |r.value.1| < |s|
    decreases |s|, 2
  {
    if s == [] then None
    else match s[0]
      case 'n' => Some((Null, s[1..]))
      case 't' => Some((Bool(true), s[1..]))
      case 'f' => Some((Bool(false), s[1..]))
      case 'i' => ParseNum(s[1..])
      case 's' => ParseStr(s[1..])
      case 'a' => ParseArr(s[1..])
      case 'o' => ParseObj(s[1..])
      case _ => None
  }

  function ParseNum(body: string): (r: Option<(Value, string)>)
    ensures r.Some? ==> |r.value.1| < |body|
  {
    match SplitAt(body, ';')
    case Some((digits, rest)) =>
      (match ParseInt(digits)
       case Some(n) => Some((Num(n), rest))
       case None => None)
    case None => None
  }

  function ParseStr(body: string): (r: Option<(Value, string)>)
    ensures r.Some? ==> |r.value.1| < |body|
  {
    match ParseStrBody(body)
    case Some((str, rest)) => Some((Str(str), rest))
    case None => None
  }

  function ParseArr(body: string): (r: Option<(Value, string)>)
    ensures r.Some? ==> |r.value.1| < |body|
    decreases |body| + 1, 1
  {
    match ParseCount(body)
    case Some((n, rest)) =>
      (match ParseItems(rest, n)
       case Some((items, rest')) => Some((Arr(items), rest'))
       case None => None)
    case None => None
  }

  function ParseObj(body: string): (r: Option<(Value, string)>)
    ensures r.Some? ==> |r.value.1| < |body|
    decreases |body| + 1, 1
  {
    match ParseCount(body)
    case Some((n, rest)) =>
      (match ParseProps(rest, n)
       case Some((props, rest')) => Some((Obj(AssignAll([], props)), rest'))
       case None => None)
    case None => None
  }

  function ParseItems(s: string, n: nat): (r: Option<(seq<Value>, string)>)
    ensures r.Some? ==> |r.value.1| <= |s|
    decreases |s|, 3, n
  {
    if n == 0 then Some(([], s))
    else match ParseValue(s)
      case Some((v, rest)) =>
        (match ParseItems(rest, n - 1)
         case Some((vs, rest')) => Some(([v] + vs, rest'))
         case None => None)
      case None => None
  }

  function ParseProps(s: string, n: nat): (r: Option<(seq<Prop>, string)>)
    ensures r.Some? ==> |r.value.1| <= |s|
    decreases |s|, 3, n
  {
    if n == 0 then Some(([], s))
    else if s == [] || s[0] != 's' then None
    else match ParseStrBody(s[1..])
      case Some((key, rest)) =>
        (match ParseValue(rest)
         case Some((v, rest')) =>
           (match ParseProps(rest', n - 1)
            case Some((ps, rest'')) => Some(([Prop(key, v)] + ps, rest''))
            case None => None)
         case None => None)
      case None => None
  }

  /** `JSON.parse(s)`: `None` where JSON.parse throws a SyntaxError. */
  function Parse(s: string): Option<Value>
  {
    match ParseValue(s)
    case Some((v, rest)) => if rest == [] then Some(v) else None
    case None => None
  }

  lemma {:induction false} SplitAtFirst(p: string, c: char, rest: string)
    requires c !in p
    ensures SplitAt(p + [c] + rest, c) == Some((p, rest))
  {
    if p != [] {
      assert p[0] in p;
      assert (p + [c] + rest)[1..] == p[1..] + [c] + rest;
      SplitAtFirst(p[1..], c, rest);
      assert [p[0]] + p[1..] == p;
    } else {
      assert p + [c] + rest == [c] + rest;
    }
  }

  lemma CountRoundTrip(n: nat, rest: string)
    ensures ParseCount(NatToString(n) + ":" + rest) == Some((n, rest))
  {
    SplitAtFirst(NatToString(n), ':', rest);
    NatToStringValue(n);
  }

  lemma StrRoundTrip(s: string, rest: string)
    ensures ParseStrBody(NatToString(|s|) + ":" + s + rest) == Some((s, rest))
  {
    var t := s + rest;
    AppendAssoc(NatToString(|s|) + ":", s, rest);
    CountRoundTrip(|s|, t);
    assert t[..|s|] == s;
    assert t[|s|..] == rest;
  }

  lemma {:induction false} CanonPropsKey(props: seq<Prop>, k: string)
    requires HasKey(CanonProps(props), k)
    ensures HasKey(props, k)
  {
    if props != [] && props[0].key != k {
      if Skipped(props[0].val) {
        CanonPropsKey(props[1..], k);
      } else {
        assert CanonProps(props)[1..] == CanonProps(props[1..]);
        CanonPropsKey(props[1..], k);
      }
    }
  }

  lemma {:induction false} CanonPropsDistinct(props: seq<Prop>)
    requires Distinct(props)
    ensures Distinct(CanonProps(props))
  {
    if props != [] {
      CanonPropsDistinct(props[1..]);
      if !Skipped(props[0].val) {
        var c := CanonProps(props);
        assert c[1..] == CanonProps(props[1..]);
        if HasKey(c[1..], props[0].key) {
          CanonPropsKey(props[1..], props[0].key);
        }
      }
    }
  }

  lemma IntRoundTripAt(n: int, rest: string)
    ensures ParseValue(Enc(Num(n)) + rest) == Some((Num(n), rest))
    ensures ParseValue(Enc(BigInt(n)) + rest) == Some((Num(n), rest))
  {
    var body := IntToString(n) + [';'] + rest;
    assert Enc(Num(n)) + rest == ['i'] + body;
    assert Enc(BigInt(n)) + rest == ['i'] + body;
    IntToStringOnlyDigitsAndMinus(n, ';');
    SplitAtFirst(IntToString(n), ';', rest);
    IntRoundTrip(n);
    assert ParseNum(body) == Some((Num(n), rest));
  }

  lemma StrRoundTripAt(str: string, rest: string)
    ensures ParseValue(Enc(Str(str)) + rest) == Some((Str(str), rest))
  {
    var body := NatToString(|str|) + ":" + str + rest;
    assert Enc(Str(str)) + rest == ['s'] + body;
    StrRoundTrip(str, rest);
    assert ParseStr(body) == Some((Str(str), rest));
  }

  lemma ArrRoundTripAt(items: seq<Value>, rest: string)
    requires ParseItems(EncItems(items) + rest, |items|) == Some((CanonItems(items), rest))
    ensures ParseValue(Enc(Arr(items)) + rest) == Some((Canon(Arr(items)), rest))
  {
    var after := EncItems(items) + rest;
    var body := NatToString(|items|) + ":" + after;
    EncArrText(items, rest);
    CountRoundTrip(|items|, after);
    ParseArrStep(body, |items|, after, CanonItems(items), rest);
    ParseValueTagged(body);
    CanonShape(items, []);
  }

  lemma CanonShape(items: seq<Value>, props: seq<Prop>)
    ensures Canon(Arr(items)) == Arr(CanonItems(items))
    ensures Canon(Obj(props)) == Obj(CanonProps(props))
  {
  }

  lemma EncArrText(items: seq<Value>, rest: string)
    ensures Enc(Arr(items)) + rest == ['a'] + (NatToString(|items|) + ":" + (EncItems(items) + rest))
  {
  }

  lemma EncObjText(props: seq<Prop>, rest: string)
    ensures Enc(Obj(props)) + rest == ['o'] + (NatToString(|CanonProps(props)|) + ":" + (EncProps(props) + rest))
  {
  }

  lemma ParseArrStep(body: string, n: nat, after: string, vs: seq<Value>, rest: string)
    requires ParseCount(body) == Some((n, after))
    requires ParseItems(after, n) == Some((vs, rest))
    ensures ParseArr(body) == Some((Arr(vs), rest))
  {
  }

  lemma ParseObjStep(body: string, n: nat, after: string, ps: seq<Prop>, rest: string)
    requires ParseCount(body) == Some((n, after))
    requires ParseProps(after, n) == Some((ps, rest))
    requires Distinct(ps)
    ensures ParseObj(body) == Some((Obj(ps), rest))
  {
    AssignAllIntoEmpty(ps);
  }

  /** The tag of an array or an object hands the rest of the text to its parser. */
  lemma ParseValueTagged(body: string)
    ensures ParseValue(['a'] + body) == ParseArr(body)
    ensures ParseValue(['o'] + body) == ParseObj(body)
  {
    assert (['a'] + body)[1..] == body;
    assert (['o'] + body)[1..] == body;
  }

  lemma ObjRoundTripAt(props: seq<Prop>, rest: string)
    requires Distinct(props)
    requires ParseProps(EncProps(props) + rest, |CanonProps(props)|) == Some((CanonProps(props), rest))
    ensures ParseValue(Enc(Obj(props)) + rest) == Some((Canon(Obj(props)), rest))
  {
    var c := CanonProps(props);
    var after := EncProps(props) + rest;
    var body := NatToString(|c|) + ":" + after;
    assert ParseObj(body) == Some((Obj(c), rest)) by {
      CountRoundTrip(|c|, after);
      CanonPropsDistinct(props);
      ParseObjStep(body, |c|, after, c, rest);
    }
    assert ParseValue(Enc(Obj(props)) + rest) == ParseObj(body) by {
      EncObjText(props, rest);
      ParseValueTagged(body);
    }
    CanonShape([], props);
  }

  /** Parsing the text of a well-formed value gives back its canonical form and leaves what follows. */
  lemma {:induction false} ValueRoundTrip(v: Value, rest: string)
    requires WellFormed(v)
    ensures ParseValue(Enc(v) + rest) == Some((Canon(v), rest))
    decreases v, 1
  {
    match v
    case Num(n) => IntRoundTripAt(n, rest);
    case BigInt(n) => IntRoundTripAt(n, rest);
    case Str(s) => StrRoundTripAt(s, rest);
    case Arr(items) =>
      ItemsRoundTrip(items, rest);
      ArrRoundTripAt(items, rest);
    case Obj(props) =>
      PropsRoundTrip(props, rest);
      ObjRoundTripAt(props, rest);
    case _ =>
  }

  lemma {:induction false} ItemsRoundTrip(items: seq<Value>, rest: string)
    requires forall i :: 0 <= i < |items| ==> WellFormed(items[i])
    ensures ParseItems(EncItems(items) + rest, |items|) == Some((CanonItems(items), rest))
    decreases items, 0
  {
    if items == [] {
      assert EncItems(items) + rest == rest;
    } else {
      var tail := EncItems(items[1..]) + rest;
      assert EncItems(items) + rest == Enc(items[0]) + tail;
      ValueRoundTrip(items[0], tail);
      assert forall i :: 0 <= i < |items[1..]| ==> items[1..][i] == items[i + 1];
      ItemsRoundTrip(items[1..], rest);
      var s := Enc(items[0]) + tail;
      assert ParseValue(s) == Some((Canon(items[0]), tail));
      assert ParseItems(tail, |items| - 1) == Some((CanonItems(items[1..]), rest));
      assert ParseItems(s, |items|) == Some(([Canon(items[0])] + CanonItems(items[1..]), rest));
      assert CanonItems(items) == [Canon(items[0])] + CanonItems(items[1..]);
      assert EncItems(items) + rest == s;
    }
  }

  lemma ParsePropsStep(s: string, n: nat, key: string, v: Value, ps: seq<Prop>, rest: string)
    requires n > 0 && s != [] && s[0] == 's'
    requires ParseStrBody(s[1..]).Some? && ParseStrBody(s[1..]).value.0 == key
    requires ParseValue(ParseStrBody(s[1..]).value.1).Some?
    requires ParseValue(ParseStrBody(s[1..]).value.1).value.0 == v
    requires ParseProps(ParseValue(ParseStrBody(s[1..]).value.1).value.1, n - 1) == Some((ps, rest))
    ensures ParseProps(s, n) == Some(([Prop(key, v)] + ps, rest))
  {
  }

  lemma {:induction false} PropsRoundTrip(props: seq<Prop>, rest: string)
    requires forall i :: 0 <= i < |props| ==> WellFormed(props[i].val)
    ensures ParseProps(EncProps(props) + rest, |CanonProps(props)|) == Some((CanonProps(props), rest))
    decreases props, 0
  {
    if props == [] {
      assert EncProps(props) + rest == rest;
    } else {
      var p := props[0];
      assert forall i :: 0 <= i < |props[1..]| ==> props[1..][i] == props[i + 1];
      PropsRoundTrip(props[1..], rest);
      if Skipped(p.val) {
        assert EncProps(props) == EncProps(props[1..]);
        assert CanonProps(props) == CanonProps(props[1..]);
      } else {
        var tail := EncProps(props[1..]) + rest;
        ValueRoundTrip(p.val, tail);
        var e := EncProps(props);
        assert e == EncStr(p.key) + Enc(p.val) + EncProps(props[1..]);
        AppendAssoc3(EncStr(p.key), Enc(p.val), EncProps(props[1..]), rest);
        var c := CanonProps(props);
        assert c == [Prop(p.key, Canon(p.val))] + CanonProps(props[1..]);
        assert |c| - 1 == |CanonProps(props[1..])|;
        PropStep(p.key, p.val, Canon(p.val), tail, CanonProps(props[1..]), rest, |c|);
      }
    }
  }

  lemma AppendAssoc3(a: string, b: string, c: string, d: string)
    ensures a + b + c + d == a + (b + (c + d))
  {
  }

  /** One encoded entry followed by the rest of the entries parses as that entry, then the rest. */
  lemma PropStep(key: string, v: Value, cv: Value, tail: string, ps: seq<Prop>, rest: string, n: nat)
    requires n > 0
    requires ParseValue(Enc(v) + tail) == Some((cv, tail))
    requires ParseProps(tail, n - 1) == Some((ps, rest))
    ensures ParseProps(EncStr(key) + (Enc(v) + tail), n) == Some(([Prop(key, cv)] + ps, rest))
  {
    var valText := Enc(v) + tail;
    var s := EncStr(key) + valText;
    var c := NatToString(|key|);
    assert EncStr(key) == "s" + (c + ":" + key) by {
      AppendAssoc("s", c, ":");
      AppendAssoc("s", c + ":", key);
    }
    AppendAssoc("s", c + ":" + key, valText);
    StrRoundTrip(key, valText);
    assert s[1..] == c + ":" + key + valText;
    ParsePropsStep(s, n, key, cv, ps, rest);
  }

  /** Plain data has text: nothing in it is skipped at top level and no BigInt occurs in it. */
  lemma {:induction false} PlainHasText(v: Value)
    requires Plain(v)
    ensures !Skipped(v) && !HasBigInt(v)
    decreases v
  {
    match v
    case Arr(items) =>
      forall i | 0 <= i < |items| ensures !HasBigInt(items[i]) {
        PlainHasText(items[i]);
      }
    case Obj(props) =>
      forall i | 0 <= i < |props| ensures !HasBigInt(props[i].val) {
        assert props[i] in props;
        PlainHasText(props[i].val);
      }
    case _ =>
  }

  /** Plain data is well formed and is its own canonical form. */
  lemma {:induction false} PlainCanon(v: Value)
    ensures Plain(v) ==> WellFormed(v) && Canon(v) == v
    decreases v, 1
  {
    match v
    case Arr(items) => PlainCanonItems(items);
    case Obj(props) => PlainCanonProps(props);
    case _ =>
  }

  lemma {:induction false} PlainCanonItems(items: seq<Value>)
    ensures (forall i :: 0 <= i < |items| ==> Plain(items[i])) ==>
              (forall i :: 0 <= i < |items| ==> WellFormed(items[i])) && CanonItems(items) == items
    decreases items, 0
  {
    if items != [] && forall i :: 0 <= i < |items| ==> Plain(items[i]) {
      PlainCanon(items[0]);
      assert forall i :: 0 <= i < |items[1..]| ==> items[1..][i] == items[i + 1];
      PlainCanonItems(items[1..]);
      forall i | 0 <= i < |items| ensures WellFormed(items[i]) {
        if i > 0 { assert items[i] == items[1..][i - 1]; }
      }
    }
  }

  lemma {:induction false} PlainCanonProps(props: seq<Prop>)
    ensures (forall i :: 0 <= i < |props| ==> Plain(props[i].val)) ==>
              (forall i :: 0 <= i < |props| ==> WellFormed(props[i].val)) && CanonProps(props) == props
    decreases props, 0
  {
    if props != [] && forall i :: 0 <= i < |props| ==> Plain(props[i].val) {
      PlainCanon(props[0].val);
      assert forall i :: 0 <= i < |props[1..]| ==> props[1..][i] == props[i + 1];
      PlainCanonProps(props[1..]);
      forall i | 0 <= i < |props| ensures WellFormed(props[i].val) {
        if i > 0 { assert props[i] == props[1..][i - 1]; }
      }
    }
  }

  /**
   * `JSON.parse(JSON.stringify(v))` is the canonical form of `v` for every
   * well-formed value that has text, and `v` itself for plain data.
   */
  lemma StringifyParse(v: Value)
    requires WellFormed(v) && !Skipped(v) && !HasBigInt(v)
    ensures Stringify(v).Text? && Parse(Stringify(v).text) == Some(Canon(v))
    ensures Plain(v) ==> Parse(Stringify(v).text) == Some(v)
  {
    ValueRoundTrip(v, []);
    assert Enc(v) + [] == Enc(v);
    PlainCanon(v);
  }
}

=== FILE: legacy_app.dfy ===
/**
 * The application of the previous tool (js/index.js) over the first store
 * (js/state.js): three persisted elements `defaultUser`, `users` and
 * `server` on a store built without options; the forms and buttons that
 * edit them; the listeners' in-place sort of the stored list; and the
 * import, export and reset buttons.
 *
 * Every write goes through an element's `set`, which persists the value
 * and dispatches the key's event. The listeners' DOM work is not part of
 * this model; their one effect on the store, the in-place sort of the held
 * participant list, is the method `HandleUsers`.
 */
module LegacyApp {
  import opened Wrappers
  import opened JsValue
  import opened Json
  import opened Browser
  import opened LegacyState
  import opened UserOrder
  import opened Editors
  import opened Documents
  import LibState
  import UsersEditor
  import ImportExport

  /** `element.set(v)` on one of the three elements: the value persisted and the key's event dispatched. */
  function Put(w: World, listeners: map<string, seq<Listener>>, key: string, v: Value): Step
  {
    SetSpec(w, listeners, DefaultConfig, key, v, true, false)
  }

  /** `element.set(v)` when `cond` holds and nothing has thrown yet. */
  function PutIf(s: Step, listeners: map<string, seq<Listener>>, cond: bool, key: string, v: Value): Step
  {
    if s.outcome.Fail? || !cond then s else Put(s.world, listeners, key, v)
  }

  /**
   * A guarded write that completes followed a completed step; when its
   * guard held, the key now holds the value.
   */
  lemma PutIfPass(s: Step, listeners: map<string, seq<Listener>>, cond: bool, key: string, v: Value)
    ensures var r := PutIf(s, listeners, cond, key, v);
            (r.outcome.Pass? ==> s.outcome.Pass?) &&
            (s.outcome.Pass? ==> (r.outcome.Pass? <==> !(cond && HasBigInt(v)))) &&
            (r.outcome.Pass? && !cond ==> r == s) &&
            (r.outcome.Pass? && cond ==> r.world.storage == s.world.storage[key := v])
  {
  }

  /** A write completes exactly when the value holds no BigInt, and then the key reads as the value. */
  lemma PutHolds(w: World, listeners: map<string, seq<Listener>>, key: string, v: Value)
    ensures var r := Put(w, listeners, key, v);
            (r.outcome.Pass? <==> !HasBigInt(v)) &&
            (r.outcome.Pass? ==> Lookup(r.world.storage, key) == v)
  {
    PutIfPass(LibState.Step(w, Pass), listeners, true, key, v);
  }

  /** The store with its three slots written in the order the reset writes them. */
  lemma ResetOrder(m: map<string, Value>, defaultUser: Value, users: Value, server: Value)
    ensures m["defaultUser" := defaultUser]["server" := server]["users" := users] ==
            ImportExport.WithSlots(m, defaultUser, users, server)
  {
    var d, u, s := "defaultUser", "users", "server";
    assert d != u && d != s && u != s by {
      assert d[0] != u[0] && d[0] != s[0] && u[0] != s[0];
    }
  }

  // ---------------------------------------------------------------------
  // Start-up
  // ---------------------------------------------------------------------

  /** `initStates`: the three keys, each initialised to an empty value and persisted. */
  const SlotDefaults: seq<DefaultEntry> :=
    [DefaultEntry("defaultUser", Given(Obj([])), true),
     DefaultEntry("users", Given(Arr([])), true),
     DefaultEntry("server", Given(Obj([])), true)]

  /** `initKey` never dispatches, so which listeners are registered does not matter to it. */
  lemma InitKeyQuiet(w: World, l1: map<string, seq<Listener>>, l2: map<string, seq<Listener>>,
                     key: string, init: Initial, useLocalStorage: bool)
    ensures InitKeySpec(w, l1, DefaultConfig, key, init, useLocalStorage) ==
            InitKeySpec(w, l2, DefaultConfig, key, init, useLocalStorage)
  {
  }

  /**
   * On a store where none of the three keys is held or persisted, start-up
   * holds `{}`, `[]` and `{}`, persists their text, and calls no listener.
   */
  lemma InitStatesFresh(w: World, listeners: map<string, seq<Listener>>)
    requires forall i :: 0 <= i < |SlotDefaults| ==>
               Lookup(w.storage, SlotDefaults[i].key) == Undefined && SlotDefaults[i].key !in w.persisted
    ensures var r := InitDefaultsSpec(w, listeners, DefaultConfig, SlotDefaults);
            r.outcome == Pass &&
            r.world.storage == w.storage["defaultUser" := Obj([])]["users" := Arr([])]["server" := Obj([])] &&
            r.world.persisted == w.persisted["defaultUser" := Enc(Obj([]))]["users" := Enc(Arr([]))]["server" := Enc(Obj([]))] &&
            r.world.log == w.log
  {
    var d, u, s := SlotDefaults[0], SlotDefaults[1], SlotDefaults[2];
    assert d.key == "defaultUser" && u.key == "users" && s.key == "server";
    assert !HasBigInt(Arr([])) && !HasBigInt(Obj([]));
    var w1 := LibState.World(w.storage[d.key := Obj([])], w.persisted[d.key := Enc(Obj([]))], w.log);
    var w2 := LibState.World(w1.storage[u.key := Arr([])], w1.persisted[u.key := Enc(Arr([]))], w.log);
    var w3 := LibState.World(w2.storage[s.key := Obj([])], w2.persisted[s.key := Enc(Obj([]))], w.log);
    InitKeyFresh(w, listeners, d.key, Obj([]));
    InitKeyFresh(w1, listeners, u.key, Arr([]));
    InitKeyFresh(w2, listeners, s.key, Obj([]));
    var tail := SlotDefaults[1..];
    assert tail[0] == u && tail[1..][0] == s && tail[1..][1..] == [];
    assert InitDefaultsSpec(w2, listeners, DefaultConfig, tail[1..]) == LibState.Step(w3, Pass);
    assert InitDefaultsSpec(w1, listeners, DefaultConfig, tail) == LibState.Step(w3, Pass);
  }

  /**
   * A key neither held nor persisted, with a truthy default that has JSON
   * text, is initialised to that default and its text persisted, silently.
   */
  lemma InitKeyFresh(w: World, listeners: map<string, seq<Listener>>, key: string, v: Data)
    requires Lookup(w.storage, key) == Undefined && key !in w.persisted
    requires Present(Given(v)) && Stringify(v) == Text(Enc(v))
    ensures InitKeySpec(w, listeners, DefaultConfig, key, Given(v), true) ==
            LibState.Step(LibState.World(w.storage[key := v], w.persisted[key := Enc(v)], w.log), Pass)
  {
  }

  // ---------------------------------------------------------------------
  // The listeners' sort
  // ---------------------------------------------------------------------

  /**
   * `handleUsers` as the listeners run it: `sortUsers` sorts the array the
   * store holds, in place, so the held list changes while neither the
   * persisted text nor any listener sees it. Anything but an array has no
   * `sort` and throws, and so does a comparison of entries the comparator
   * cannot read, which leaves the list as it was.
   */
  function SortHeldSpec(w: World): (r: Step)
    ensures r.outcome.Pass? <==> Lookup(w.storage, "users").Arr? && CheckedSort(Lookup(w.storage, "users").items).Some?
    ensures Lookup(w.storage, "users").Arr? && Sortable(Lookup(w.storage, "users").items) ==> r.outcome.Pass?
    ensures r.outcome.Fail? ==> r == LibState.Step(w, Fail(LibState.TypeError))
    ensures r.world.persisted == w.persisted && r.world.log == w.log
    ensures forall k :: k != "users" ==> Lookup(r.world.storage, k) == Lookup(w.storage, k)
    ensures r.outcome.Pass? ==>
              var before := Lookup(w.storage, "users").items;
              var after := Lookup(r.world.storage, "users");
              after.Arr? && Sorted(after.items) && multiset(after.items) == multiset(before)
  {
    match Lookup(w.storage, "users")
    case Arr(items) =>
      if CheckedSort(items).None? then
        (if Sortable(items) then SortableSucceeds(items); LibState.Step(w, Fail(LibState.TypeError))
         else LibState.Step(w, Fail(LibState.TypeError)))
      else
        SortSorts(items);
        SortPermutes(SortCompare, items);
        LibState.Step(LibState.World(w.storage["users" := Arr(SortUsers(items))], w.persisted, w.log), Pass)
    case _ => LibState.Step(w, Fail(LibState.TypeError))
  }

  // ---------------------------------------------------------------------
  // Reset
  // ---------------------------------------------------------------------

  /** `handleReset()`: `null`, `{}` and `[]` written in that order (the input boxes are cleared too). */
  function ResetSpec(w: World, listeners: map<string, seq<Listener>>): Step
  {
    var s1 := Put(w, listeners, "defaultUser", Null);
    var s2 := PutIf(s1, listeners, true, "server", Obj([]));
    PutIf(s2, listeners, true, "users", Arr([]))
  }

  /**
   * The reset always completes: the three keys hold `null`, `[]` and `{}`,
   * their text is persisted, and each key's listeners are called once, in
   * the order of the writes.
   */
  lemma ResetClears(w: World, listeners: map<string, seq<Listener>>)
    ensures var r := ResetSpec(w, listeners);
            r.outcome == Pass &&
            r.world.storage == ImportExport.WithSlots(w.storage, Null, Arr([]), Obj([])) &&
            r.world.persisted == w.persisted["defaultUser" := Enc(Null)]["server" := Enc(Obj([]))]["users" := Enc(Arr([]))] &&
            r.world.log == w.log + Dispatch(listeners, "defaultUser", Null) + Dispatch(listeners, "server", Obj([])) +
                           Dispatch(listeners, "users", Arr([]))
  {
    assert !HasBigInt(Arr([])) && !HasBigInt(Obj([]));
    ResetOrder(w.storage, Null, Arr([]), Obj([]));
  }

  // ---------------------------------------------------------------------
  // Import
  // ---------------------------------------------------------------------

  /**
   * The `.dvco` branch: `server` receives the truthy ids and is written when
   * it has one; then a truthy `users` is re-keyed and written as it is.
   */
  function DvcoSpec(s: Step, listeners: map<string, seq<Listener>>, data: Value): Step
  {
    var server := DvcoServer(data);
    var s1 := PutIf(s, listeners, KeyCount(server) > 0, "server", server);
    var users := Get(data, "users");
    if s1.outcome.Fail? || !Truthy(users) then s1
    else match Rekeyed(users)
      case Failure(e) => LibState.Step(s1.world, Fail(e))
      case Success(rekeyed) => Put(s1.world, listeners, "users", rekeyed)
  }

  /** The `.dvog` branch: each field written in turn when it is non-empty. */
  function DvogSpec(s: Step, listeners: map<string, seq<Listener>>, data: Value): Step
  {
    var defaultUser := Get(data, "defaultUser");
    var users := Get(data, "users");
    var server := Get(data, "server");
    var s1 := PutIf(s, listeners, NonEmpty(defaultUser), "defaultUser", defaultUser);
    var s2 := PutIf(s1, listeners, HasItems(users), "users", users);
    PutIf(s2, listeners, NonEmpty(server), "server", server)
  }

  /**
   * `handleImport(e)`: a missing file, an unknown suffix or content that
   * does not read as a truthy value leaves the store alone; otherwise the
   * reset runs and the document is applied.
   */
  function ImportSpec(w: World, listeners: map<string, seq<Listener>>, files: seq<ImportExport.ImportFile>): (r: Step)
    ensures !ImportExport.Accepted(files) ==> r == LibState.Step(w, Pass)
  {
    if !ImportExport.Accepted(files) then LibState.Step(w, Pass)
    else
      var data := ReadData(files[0].content);
      var reset := ResetSpec(w, listeners);
      match FileTypeOf(files[0].name).value
      case Dvco => DvcoSpec(reset, listeners, data)
      case Dvog => DvogSpec(reset, listeners, data)
  }

  /**
   * After an accepted `.dvog` import that completes, each slot holds the
   * document's field when that field is non-empty and the reset value
   * otherwise; every other key keeps its value. It completes exactly when
   * no field it writes holds a BigInt.
   */
  lemma ImportDvogSlots(w: World, listeners: map<string, seq<Listener>>, file: ImportExport.ImportFile)
    requires FileTypeOf(file.name) == Some(Dvog) && Truthy(ReadData(file.content))
    ensures var data := ReadData(file.content);
            var du, u, sv := Get(data, "defaultUser"), Get(data, "users"), Get(data, "server");
            var r := ImportSpec(w, listeners, [file]);
            (r.outcome.Pass? <==>
               !(NonEmpty(du) && HasBigInt(du)) && !(HasItems(u) && HasBigInt(u)) && !(NonEmpty(sv) && HasBigInt(sv))) &&
            (r.outcome.Pass? ==>
               r.world.storage == ImportExport.WithSlots(w.storage, if NonEmpty(du) then du else Null,
                                                         if HasItems(u) then u else Arr([]),
                                                         if NonEmpty(sv) then sv else Obj([])))
  {
    var data := ReadData(file.content);
    var du, u, sv := Get(data, "defaultUser"), Get(data, "users"), Get(data, "server");
    ResetClears(w, listeners);
    var reset := ResetSpec(w, listeners);
    var s1 := PutIf(reset, listeners, NonEmpty(du), "defaultUser", du);
    var s2 := PutIf(s1, listeners, HasItems(u), "users", u);
    var s3 := PutIf(s2, listeners, NonEmpty(sv), "server", sv);
    assert ImportSpec(w, listeners, [file]) == s3;
    PutIfPass(reset, listeners, NonEmpty(du), "defaultUser", du);
    PutIfPass(s1, listeners, HasItems(u), "users", u);
    PutIfPass(s2, listeners, NonEmpty(sv), "server", sv);
    if s3.outcome.Pass? {
      var d1 := if NonEmpty(du) then du else Null;
      var u1 := if HasItems(u) then u else Arr([]);
      ImportExport.WithSlotsOverwrite(w.storage, Null, Arr([]), Obj([]), du);
      assert s1.world.storage == ImportExport.WithSlots(w.storage, d1, Arr([]), Obj([]));
      ImportExport.WithSlotsOverwrite(w.storage, d1, Arr([]), Obj([]), u);
      assert s2.world.storage == ImportExport.WithSlots(w.storage, d1, u1, Obj([]));
      ImportExport.WithSlotsOverwrite(w.storage, d1, u1, Obj([]), sv);
    }
  }

  /**
   * After an accepted `.dvco` import, `defaultUser` is `null`; when it
   * completes, `server` holds the document's truthy ids (or `{}` when it
   * has none) and `users` the re-keyed participants (or `[]` when the
   * document has none). A participant list that cannot be re-keyed makes
   * the import throw after the reset and the server write, which stay done.
   */
  lemma ImportDvcoSlots(w: World, listeners: map<string, seq<Listener>>, file: ImportExport.ImportFile)
    requires FileTypeOf(file.name) == Some(Dvco) && Truthy(ReadData(file.content))
    ensures var data := ReadData(file.content);
            var u := Get(data, "users");
            var server := DvcoServer(data);
            var v1 := if KeyCount(server) > 0 then server else Obj([]);
            var r := ImportSpec(w, listeners, [file]);
            (Truthy(u) && Rekeyed(u).Failure? ==>
               r.outcome.Fail? &&
               r.world.storage == ImportExport.WithSlots(w.storage, Null, Arr([]), v1)) &&
            (r.outcome.Pass? ==>
               (Truthy(u) ==> Rekeyed(u).Success?) &&
               r.world.storage == ImportExport.WithSlots(w.storage, Null, if Truthy(u) then Rekeyed(u).value else Arr([]), v1))
  {
    var data := ReadData(file.content);
    ResetClears(w, listeners);
    var reset := ResetSpec(w, listeners);
    assert ImportSpec(w, listeners, [file]) == DvcoSpec(reset, listeners, data);
    DvcoAfterReset(reset, listeners, data, w.storage);
  }

  /** The `.dvco` branch run on a store whose three slots were just reset. */
  lemma DvcoAfterReset(s: Step, listeners: map<string, seq<Listener>>, data: Value, m: map<string, Value>)
    requires s.outcome == Pass && s.world.storage == ImportExport.WithSlots(m, Null, Arr([]), Obj([]))
    ensures var u := Get(data, "users");
            var server := DvcoServer(data);
            var v1 := if KeyCount(server) > 0 then server else Obj([]);
            var r := DvcoSpec(s, listeners, data);
            (Truthy(u) && Rekeyed(u).Failure? ==>
               r.outcome.Fail? && r.world.storage == ImportExport.WithSlots(m, Null, Arr([]), v1)) &&
            (r.outcome.Pass? ==>
               (Truthy(u) ==> Rekeyed(u).Success?) &&
               r.world.storage == ImportExport.WithSlots(m, Null, if Truthy(u) then Rekeyed(u).value else Arr([]), v1))
  {
    var u := Get(data, "users");
    var server := DvcoServer(data);
    var v1 := if KeyCount(server) > 0 then server else Obj([]);
    var s1 := PutIf(s, listeners, KeyCount(server) > 0, "server", server);
    ImportExport.WithSlotsOverwrite(m, Null, Arr([]), Obj([]), server);
    assert s1.world.storage == ImportExport.WithSlots(m, Null, Arr([]), v1);
    if s1.outcome.Pass? && Truthy(u) && Rekeyed(u).Success? {
      ImportExport.WithSlotsOverwrite(m, Null, Arr([]), v1, Rekeyed(u).value);
    }
  }

  /**
   * Export followed by import restores all three slots: given the default
   * user `null` or a value with keys, a participant list and a server
   * object, the exported `.dvog` file imports without error and leaves
   * exactly those values. Unlike the current tool, the list need not be
   * sorted, because this store does not sort on write.
   */
  lemma ExportImportRoundTrip(w: World, listeners: map<string, seq<Listener>>,
                              defaultUser: Value, users: Value, server: Value, isoDate: string)
    requires Plain(defaultUser) && Plain(users) && Plain(server)
    requires defaultUser.Null? || NonEmpty(defaultUser)
    requires users.Arr? && server.Obj?
    ensures var doc := ExportDoc(defaultUser, users, server);
            ExportText(doc).Success? &&
            var r := ImportSpec(w, listeners, [ImportExport.ImportFile(ExportFileName(isoDate), Some(ExportText(doc).value))]);
            r.outcome == Pass &&
            r.world.storage == ImportExport.WithSlots(w.storage, defaultUser, users, server)
  {
    var doc := ExportDoc(defaultUser, users, server);
    ExportReadsBack(defaultUser, users, server);
    var file := ImportExport.ImportFile(ExportFileName(isoDate), Some(ExportText(doc).value));
    assert ReadData(file.content) == doc;
    var du, u, sv := Get(doc, "defaultUser"), Get(doc, "users"), Get(doc, "server");
    assert NonEmpty(du) == NonEmpty(defaultUser) && (NonEmpty(du) ==> du == defaultUser);
    assert HasItems(u) == HasItems(users) && (HasItems(u) ==> u == users);
    assert NonEmpty(sv) == NonEmpty(server) && (NonEmpty(sv) ==> sv == server);
    assert (if HasItems(u) then u else Arr([])) == users by {
      if !HasItems(users) {
        assert users.items == [];
      }
    }
    assert (if NonEmpty(sv) then sv else Obj([])) == server by {
      if !NonEmpty(server) {
        assert server.props == [];
      }
    }
    PlainHasText(defaultUser);
    PlainHasText(users);
    PlainHasText(server);
    ImportDvogSlots(w, listeners, file);
  }

  // ---------------------------------------------------------------------
  // The participant list
  // ---------------------------------------------------------------------

  /**
   * `addUser({ id, url, urlSpeaking })`: the entry, dated by the clock, is
   * pushed onto the held array, which is then written. Anything but an
   * array has no `push` and throws.
   */
  function AddUserSpec(w: World, listeners: map<string, seq<Listener>>, id: string, url: string, urlSpeaking: string, now: int): Step
  {
    var users := Lookup(w.storage, "users");
    if !users.Arr? then LibState.Step(w, Fail(LibState.TypeError))
    else Put(w, listeners, "users", Arr(AddedUser(users.items, Str(id), Str(url), Str(urlSpeaking), Num(now))))
  }

  /**
   * Adding keeps every entry in place and appends exactly one, with the
   * given fields and date; it completes exactly when the old entries hold
   * no BigInt.
   */
  lemma AddUserAppends(w: World, listeners: map<string, seq<Listener>>, id: string, url: string, urlSpeaking: string, now: int)
    ensures var users := Lookup(w.storage, "users");
            var r := AddUserSpec(w, listeners, id, url, urlSpeaking, now);
            (!users.Arr? ==> r == LibState.Step(w, Fail(LibState.TypeError))) &&
            (users.Arr? ==>
               (r.outcome.Pass? <==> !HasBigInt(users)) &&
               var held := Lookup(r.world.storage, "users");
               held.Arr? && |held.items| == |users.items| + 1 && held.items[..|users.items|] == users.items &&
               var entry := held.items[|users.items|];
               Get(entry, "id") == Str(id) && Get(entry, "url") == Str(url) &&
               Get(entry, "urlSpeaking") == Str(urlSpeaking) && Get(entry, "date") == Num(now))
  {
    var users := Lookup(w.storage, "users");
    if users.Arr? {
      var added := AddedUser(users.items, Str(id), Str(url), Str(urlSpeaking), Num(now));
      AddedUserBigInt(users.items, id, url, urlSpeaking, now);
      assert AddUserSpec(w, listeners, id, url, urlSpeaking, now) ==
             PutIf(LibState.Step(w, Pass), listeners, true, "users", Arr(added));
      PutIfPass(LibState.Step(w, Pass), listeners, true, "users", Arr(added));
    }
  }

  /** The added entry holds no BigInt, so the list holds one exactly when the old entries did. */
  lemma AddedUserBigInt(items: seq<Value>, id: string, url: string, urlSpeaking: string, now: int)
    ensures HasBigInt(Arr(AddedUser(items, Str(id), Str(url), Str(urlSpeaking), Num(now)))) <==> HasBigInt(Arr(items))
  {
    var added := AddedUser(items, Str(id), Str(url), Str(urlSpeaking), Num(now));
    var entry := added[|items|];
    assert !HasBigInt(entry) by {
      assert entry.Obj? && Distinct(entry.props);
      forall i | 0 <= i < |entry.props| ensures !HasBigInt(entry.props[i].val) {
        assert entry.props[i].val == Get(entry, entry.props[i].key);
      }
    }
    assert forall i :: 0 <= i < |items| ==> added[i] == items[i];
    if HasBigInt(Arr(added)) {
      var i :| 0 <= i < |added| && HasBigInt(added[i]);
      assert i < |items|;
    }
  }

  /**
   * Once the listeners have sorted the held list, an entry added with a
   * date later than every other dated entry comes first.
   */
  lemma NewestUserFirst(items: seq<Value>, id: string, url: string, urlSpeaking: string, now: int)
    requires now != 0
    requires forall i :: 0 <= i < |items| && Dated(items[i]) ==> Time(items[i]) < now
    ensures var added := AddedUser(items, Str(id), Str(url), Str(urlSpeaking), Num(now));
            SortUsers(added)[0] == added[|items|]
  {
    var added := AddedUser(items, Str(id), Str(url), Str(urlSpeaking), Num(now));
    var x := added[|items|];
    var r := SortUsers(added);
    SortSorts(added);
    SortPermutes(SortCompare, added);
    assert Dated(x) && Time(x) == now;
    assert x in multiset(r) by {
      assert x in multiset(added);
    }
    var j :| 0 <= j < |r| && r[j] == x;
    assert added == items + [x];
    assert forall k :: 0 <= k < |items| ==> SortCompare(items[k], x) > 0;
    assert r[0] in added by {
      assert r[0] in multiset(added);
    }
    FirstNotAfter(r, j);
  }

  /** In a sorted list the first entry is not after any other. */
  lemma FirstNotAfter(r: seq<Value>, j: nat)
    requires Sorted(r) && j < |r|
    ensures SortCompare(r[0], r[j]) <= 0
  {
    if j == 0 {
      SortCompareFlip(r[0], r[0]);
    } else {
      assert SortedBy(SortCompare, r);
    }
  }

  /**
   * `removeUser(userId)`: the held list without the entries of that id,
   * written. `filter` reads `id` of every entry, which throws on `null` and
   * `undefined`; anything but an array has no `filter`.
   */
  function RemoveUserSpec(w: World, listeners: map<string, seq<Listener>>, userId: Value): Step
  {
    var users := Lookup(w.storage, "users");
    if !users.Arr? || !AllReadable(users.items) then LibState.Step(w, Fail(LibState.TypeError))
    else Put(w, listeners, "users", Arr(RemovedUsers(users.items, userId)))
  }

  /**
   * A completed removal holds exactly the entries of other ids, in their
   * old order; a removal of an id nobody has writes the list back as it was.
   */
  lemma RemoveUserStores(w: World, listeners: map<string, seq<Listener>>, userId: Value)
    ensures var users := Lookup(w.storage, "users");
            var r := RemoveUserSpec(w, listeners, userId);
            (!users.Arr? || !AllReadable(users.items) ==> r == LibState.Step(w, Fail(LibState.TypeError))) &&
            (r.outcome.Pass? ==>
               users.Arr? &&
               Lookup(r.world.storage, "users") == Arr(RemovedUsers(users.items, userId)) &&
               (forall u :: u in Lookup(r.world.storage, "users").items <==> u in users.items && Get(u, "id") != userId) &&
               ((forall i :: 0 <= i < |users.items| ==> Get(users.items[i], "id") != userId) ==>
                  Lookup(r.world.storage, "users") == users))
  {
    var users := Lookup(w.storage, "users");
    if users.Arr? && AllReadable(users.items) {
      var kept := RemovedUsers(users.items, userId);
      assert RemoveUserSpec(w, listeners, userId) == Put(w, listeners, "users", Arr(kept));
      PutHolds(w, listeners, "users", Arr(kept));
      RemovedUsersMembers(users.items, userId);
      if forall i :: 0 <= i < |users.items| ==> Get(users.items[i], "id") != userId {
        RemovedUsersAbsent(users.items, userId);
      }
    }
  }

  /**
   * `updateUser(userId, data)`: the held list with the matching entries
   * merged, written. Length and order are kept.
   */
  function UpdateUserSpec(w: World, listeners: map<string, seq<Listener>>, userId: Value, data: Value): Step
  {
    var users := Lookup(w.storage, "users");
    if !users.Arr? || !AllReadable(users.items) then LibState.Step(w, Fail(LibState.TypeError))
    else Put(w, listeners, "users", Arr(UpdatedUsers(users.items, userId, data)))
  }

  /**
   * A completed update keeps the length and every entry of another id in
   * its place, and merges the data into each entry of the id.
   */
  lemma UpdateUserStores(w: World, listeners: map<string, seq<Listener>>, userId: Value, data: Value, i: nat)
    requires data.Obj? && Distinct(data.props)
    ensures var users := Lookup(w.storage, "users");
            var r := UpdateUserSpec(w, listeners, userId, data);
            (!users.Arr? || !AllReadable(users.items) ==> r == LibState.Step(w, Fail(LibState.TypeError))) &&
            (r.outcome.Pass? ==>
               users.Arr? &&
               var held := Lookup(r.world.storage, "users");
               held.Arr? && |held.items| == |users.items| &&
               (i < |users.items| && Get(users.items[i], "id") != userId ==> held.items[i] == users.items[i]) &&
               (i < |users.items| && Get(users.items[i], "id") == userId && users.items[i].Obj? && Distinct(users.items[i].props) ==>
                  forall k :: Get(held.items[i], k) == if HasKey(data.props, k) then Get(data, k) else Get(users.items[i], k)))
  {
    var users := Lookup(w.storage, "users");
    if users.Arr? && i < |users.items| && users.items[i].Obj? && Distinct(users.items[i].props) {
      UpdatedUsersFields(users.items, userId, data, i);
    }
  }

  // ---------------------------------------------------------------------
  // The default user
  // ---------------------------------------------------------------------

  /**
   * The default user's form: both inputs trimmed, nothing written unless
   * both are non-empty, then `{ url, urlSpeaking }` written.
   */
  function SubmitDefaultUserSpec(w: World, listeners: map<string, seq<Listener>>, url: string, urlSpeaking: string): (r: Step)
    ensures Trim(url) == [] || Trim(urlSpeaking) == [] ==> r == LibState.Step(w, Pass)
    ensures Trim(url) != [] && Trim(urlSpeaking) != [] ==>
              var held := Lookup(r.world.storage, "defaultUser");
              r.outcome == Pass && held.Obj? && Distinct(held.props) && |held.props| == 2 &&
              Get(held, "url") == Str(Trim(url)) && Get(held, "urlSpeaking") == Str(Trim(urlSpeaking))
  {
    var u := Trim(url);
    var s := Trim(urlSpeaking);
    if u == [] || s == [] then LibState.Step(w, Pass)
    else
      var v := Obj([Prop("url", Str(u)), Prop("urlSpeaking", Str(s))]);
      UrlPairFields(u, s);
      Put(w, listeners, "defaultUser", v)
  }

  /** The default user's form value has its two fields, distinct, and no BigInt. */
  lemma UrlPairFields(u: string, s: string)
    ensures var v := Obj([Prop("url", Str(u)), Prop("urlSpeaking", Str(s))]);
            Distinct(v.props) && |v.props| == 2 && !HasBigInt(v) &&
            Get(v, "url") == Str(u) && Get(v, "urlSpeaking") == Str(s)
  {
    var ps := [Prop("url", Str(u)), Prop("urlSpeaking", Str(s))];
    assert ps[0].key != ps[1].key by {
      assert |ps[0].key| != |ps[1].key|;
    }
    KeysAt(ps);
    assert forall i :: 0 <= i < |ps| ==> ps[i].val.Str?;
  }

  /** `updateDefaultUser(data)`: `update`, a shallow merge over the held value. */
  function UpdateDefaultUserSpec(w: World, listeners: map<string, seq<Listener>>, data: Value): Step
  {
    Put(w, listeners, "defaultUser", Merged(Lookup(w.storage, "defaultUser"), data))
  }

  /**
   * Over `null` or an object, a completed update holds an object whose
   * fields are the data's where the data names them and the old ones
   * elsewhere; over `null` it holds the data itself.
   */
  lemma UpdateDefaultUserMerges(w: World, listeners: map<string, seq<Listener>>, data: Value)
    requires var d := Lookup(w.storage, "defaultUser"); d.Null? || (d.Obj? && Distinct(d.props))
    requires data.Obj? && Distinct(data.props)
    ensures var d := Lookup(w.storage, "defaultUser");
            var r := UpdateDefaultUserSpec(w, listeners, data);
            var held := Lookup(r.world.storage, "defaultUser");
            held.Obj? && Distinct(held.props) &&
            (forall k :: Get(held, k) == if HasKey(data.props, k) then Get(data, k) else Get(d, k)) &&
            (d.Null? ==> held == data)
  {
    var d := Lookup(w.storage, "defaultUser");
    assert Merged(d, data) == DefaultUserUpdated(d, data);
    DefaultUserUpdatedFields(d, data);
  }

  /** `removeDefaultUser()`: `null` written over a truthy value, nothing done otherwise. */
  function RemoveDefaultUserSpec(w: World, listeners: map<string, seq<Listener>>): (r: Step)
    ensures r.outcome == Pass
    ensures !Truthy(Lookup(r.world.storage, "defaultUser"))
    ensures Truthy(Lookup(w.storage, "defaultUser")) ==> r.world.storage == w.storage["defaultUser" := Null]
    ensures !Truthy(Lookup(w.storage, "defaultUser")) ==> r == LibState.Step(w, Pass)
  {
    match DefaultUserRemoval(Lookup(w.storage, "defaultUser"))
    case None => LibState.Step(w, Pass)
    case Some(v) => Put(w, listeners, "defaultUser", v)
  }

  // ---------------------------------------------------------------------
  // The editor forms
  // ---------------------------------------------------------------------

  /**
   * The add-user form: the three inputs trimmed, nothing written unless all
   * three are non-empty, then `addUser` with the clock's time.
   */
  function SubmitAddUserSpec(w: World, listeners: map<string, seq<Listener>>, id: string, url: string, urlSpeaking: string, now: int): (r: Step)
    ensures Trim(id) == [] || Trim(url) == [] || Trim(urlSpeaking) == [] ==> r == LibState.Step(w, Pass)
    ensures Trim(id) != [] && Trim(url) != [] && Trim(urlSpeaking) != [] ==>
              r == AddUserSpec(w, listeners, Trim(id), Trim(url), Trim(urlSpeaking), now)
  {
    var i := Trim(id);
    var u := Trim(url);
    var s := Trim(urlSpeaking);
    if i == [] || u == [] || s == [] then LibState.Step(w, Pass)
    else AddUserSpec(w, listeners, i, u, s, now)
  }

  /**
   * An entry's update form as js/index.js writes it: for a participant the
   * handler passes `userId`, a name declared nowhere in its scope, so reading
   * it throws a ReferenceError before anything is written.
   */
  function SubmitUpdateAsWrittenSpec(w: World, listeners: map<string, seq<Listener>>, user: Value, url: string, urlSpeaking: string): Step
  {
    match UpdateData(url, urlSpeaking)
    case None => LibState.Step(w, Pass)
    case Some(data) =>
      if Truthy(Get(user, "id")) then LibState.Step(w, Fail(LibState.ReferenceError))
      else UpdateDefaultUserSpec(w, listeners, data)
  }

  /** An entry's update form with the id the handler evidently means, `user.id`. */
  function SubmitUpdateSpec(w: World, listeners: map<string, seq<Listener>>, user: Value, url: string, urlSpeaking: string): (r: Step)
    ensures Trim(url) == [] && Trim(urlSpeaking) == [] ==> r == LibState.Step(w, Pass)
  {
    match UpdateData(url, urlSpeaking)
    case None => LibState.Step(w, Pass)
    case Some(data) =>
      if Truthy(Get(user, "id")) then UpdateUserSpec(w, listeners, Get(user, "id"), data)
      else UpdateDefaultUserSpec(w, listeners, data)
  }

  /**
   * As written, a participant's form with any URL entered throws and leaves
   * the store exactly as it was.
   */
  lemma SubmitUpdateAsWrittenThrows(w: World, listeners: map<string, seq<Listener>>, user: Value, url: string, urlSpeaking: string)
    requires Truthy(Get(user, "id")) && (Trim(url) != [] || Trim(urlSpeaking) != [])
    ensures SubmitUpdateAsWrittenSpec(w, listeners, user, url, urlSpeaking) == LibState.Step(w, Fail(LibState.ReferenceError))
  {
  }

  /**
   * With the evident id, a participant's form with a new URL over a
   * readable list completes, keeps the length and every entry of another
   * id, and gives the URL to each entry of the participant's id.
   */
  lemma SubmitUpdateEdits(w: World, listeners: map<string, seq<Listener>>, user: Value, url: string, urlSpeaking: string, i: nat)
    requires Truthy(Get(user, "id")) && Trim(url) != []
    requires var users := Lookup(w.storage, "users"); users.Arr? && AllReadable(users.items) && !HasBigInt(users)
    requires var users := Lookup(w.storage, "users"); i < |users.items| && users.items[i].Obj? && Distinct(users.items[i].props)
    ensures var items := Lookup(w.storage, "users").items;
            var r := SubmitUpdateSpec(w, listeners, user, url, urlSpeaking);
            var held := Lookup(r.world.storage, "users");
            r.outcome == Pass && held.Arr? && |held.items| == |items| &&
            (Get(items[i], "id") != Get(user, "id") ==> held.items[i] == items[i]) &&
            (Get(items[i], "id") == Get(user, "id") ==> Get(held.items[i], "url") == Str(Trim(url)))
  {
    var items := Lookup(w.storage, "users").items;
    var data := UpdateData(url, urlSpeaking).value;
    var updated := UpdatedUsers(items, Get(user, "id"), data);
    UpdatedNoBigInt(items, Get(user, "id"), data);
    SubmitUpdateWrites(w, listeners, user, url, urlSpeaking);
    UsersEditor.SubmitUpdatesEntry(items, user, url, urlSpeaking, i);
  }

  /** A participant's form writes the updated list, and nothing fails when it holds no BigInt. */
  lemma SubmitUpdateWrites(w: World, listeners: map<string, seq<Listener>>, user: Value, url: string, urlSpeaking: string)
    requires Truthy(Get(user, "id")) && Trim(url) != []
    requires var users := Lookup(w.storage, "users"); users.Arr? && AllReadable(users.items)
    ensures var items := Lookup(w.storage, "users").items;
            var updated := UpdatedUsers(items, Get(user, "id"), UpdateData(url, urlSpeaking).value);
            var r := SubmitUpdateSpec(w, listeners, user, url, urlSpeaking);
            (r.outcome == Pass <==> !HasBigInt(Arr(updated))) &&
            Lookup(r.world.storage, "users") == Arr(updated)
  {
  }

  /** Merging text-only data into entries without a BigInt adds none. */
  lemma UpdatedNoBigInt(items: seq<Value>, userId: Value, data: Value)
    requires !HasBigInt(Arr(items))
    requires data.Obj? && forall i :: 0 <= i < |data.props| ==> data.props[i].val.Str?
    ensures !HasBigInt(Arr(UpdatedUsers(items, userId, data)))
  {
    var r := UpdatedUsers(items, userId, data);
    assert !HasBigInt(data);
    forall i | 0 <= i < |r| ensures !HasBigInt(r[i]) {
      assert !HasBigInt(items[i]);
      if Get(items[i], "id") == userId {
        assert r[i] == Spread(items[i], data);
        SpreadNoBigInt(items[i], data);
      } else {
        assert r[i] == items[i];
      }
    }
  }

  /** A spread of two values without a BigInt holds none. */
  lemma SpreadNoBigInt(a: Value, b: Value)
    requires !HasBigInt(a) && !HasBigInt(b)
    ensures !HasBigInt(Spread(a, b))
  {
    AssignAllNoBigInt([], OwnProps(a));
    AssignAllNoBigInt(AssignAll([], OwnProps(a)), OwnProps(b));
  }

  /** No property list built by assignment from values without a BigInt holds one. */
  lemma {:induction false} AssignAllNoBigInt(ps: seq<Prop>, extra: seq<Prop>)
    requires forall i :: 0 <= i < |ps| ==> !HasBigInt(ps[i].val)
    requires forall i :: 0 <= i < |extra| ==> !HasBigInt(extra[i].val)
    ensures forall i :: 0 <= i < |AssignAll(ps, extra)| ==> !HasBigInt(AssignAll(ps, extra)[i].val)
    decreases extra
  {
    if extra != [] {
      AssignNoBigInt(ps, extra[0].key, extra[0].val);
      assert forall i :: 0 <= i < |extra[1..]| ==> extra[1..][i] == extra[i + 1];
      AssignAllNoBigInt(Assign(ps, extra[0].key, extra[0].val), extra[1..]);
    }
  }

  /** One assignment of a value without a BigInt adds none. */
  lemma {:induction false} AssignNoBigInt(ps: seq<Prop>, key: string, val: Value)
    requires forall i :: 0 <= i < |ps| ==> !HasBigInt(ps[i].val)
    requires !HasBigInt(val)
    ensures forall i :: 0 <= i < |Assign(ps, key, val)| ==> !HasBigInt(Assign(ps, key, val)[i].val)
    decreases ps
  {
    if ps != [] && ps[0].key != key {
      assert forall i :: 0 <= i < |ps[1..]| ==> ps[1..][i] == ps[i + 1];
      AssignNoBigInt(ps[1..], key, val);
    }
  }

  /** The remove button: the participant's by its id, or the default user's. */
  function RemoveButtonSpec(w: World, listeners: map<string, seq<Listener>>, user: Value): Step
  {
    if Truthy(Get(user, "id")) then RemoveUserSpec(w, listeners, Get(user, "id"))
    else RemoveDefaultUserSpec(w, listeners)
  }

  // ---------------------------------------------------------------------
  // The server record
  // ---------------------------------------------------------------------

  /**
   * `setServerId` / `setVcId` with the trimmed input: an empty input
   * deletes the field of the held record in place (which throws on `null`
   * or `undefined`) and writes the record; any other input goes through
   * `update`, a merge over the held value.
   */
  function SetServerFieldSpec(w: World, listeners: map<string, seq<Listener>>, field: string, input: string): Step
  {
    var server := Lookup(w.storage, "server");
    if input == [] then
      if server.Null? || server.Undefined? then LibState.Step(w, Fail(LibState.TypeError))
      else Put(w, listeners, "server", Delete(server, field))
    else Put(w, listeners, "server", Merged(server, Obj([Prop(field, Str(input))])))
  }

  /**
   * On a held record, the write leaves the field reading as the input (and
   * absent for an empty input) and every other field as it was; it
   * completes exactly when the new record holds no BigInt.
   */
  lemma SetServerFieldStores(w: World, listeners: map<string, seq<Listener>>, field: string, input: string)
    requires var server := Lookup(w.storage, "server"); server.Obj? && Distinct(server.props)
    ensures var server := Lookup(w.storage, "server");
            var r := SetServerFieldSpec(w, listeners, field, input);
            var v := Lookup(r.world.storage, "server");
            v == ServerWithField(server, field, input) &&
            (r.outcome.Pass? <==> !HasBigInt(v)) &&
            Get(v, field) == (if input == [] then Undefined else Str(input)) &&
            (input == [] ==> !Has(v, field)) &&
            forall k :: k != field ==> Get(v, k) == Get(server, k)
  {
    var server := Lookup(w.storage, "server");
    ServerWithFieldFields(server, field, input);
  }

  // ---------------------------------------------------------------------
  // The application
  // ---------------------------------------------------------------------

  /** js/index.js's `App` over `window.state`. */
  class App {
    const state: State
    const defaultUser: StateElement
    const users: StateElement
    const server: StateElement

    /** The three elements are persisted handles on their keys of a store built without options. */
    ghost predicate Valid()
      reads this
    {
      state.config == DefaultConfig &&
      defaultUser.state == state && defaultUser.key == "defaultUser" && defaultUser.useLocalStorage &&
      users.state == state && users.key == "users" && users.useLocalStorage &&
      server.state == state && server.key == "server" && server.useLocalStorage
    }

    /** The elements `initStates` attaches, each persisted. */
    constructor (state: State)
      requires state.config == DefaultConfig
      ensures Valid() && this.state == state
    {
      var d := state.Attach("defaultUser", Some(true));
      var u := state.Attach("users", Some(true));
      var s := state.Attach("server", Some(true));
      this.state := state;
      defaultUser := d;
      users := u;
      server := s;
    }

    /** `initStates()`: each element initialised to its empty default, then given its listener. */
    method InitStates(onDefaultUser: Listener, onUsers: Listener, onServer: Listener) returns (o: Outcome<Error>)
      requires Valid()
      modifies state, state.localStorage
      ensures LibState.Step(state.Snapshot(), o) == InitDefaultsSpec(old(state.Snapshot()), old(state.listeners), DefaultConfig, SlotDefaults)
      ensures o.Pass? ==>
                state.listeners == AddListener(AddListener(AddListener(old(state.listeners), "defaultUser", onDefaultUser),
                                                           "users", onUsers), "server", onServer)
    {
      ghost var l0 := state.listeners;
      ghost var w0 := state.Snapshot();
      var tail := SlotDefaults[1..];
      assert tail[0] == SlotDefaults[1] && tail[1..][0] == SlotDefaults[2] && tail[1..][1..] == [];
      o := defaultUser.Init(Given(Obj([])));
      InitKeyQuiet(w0, l0, state.listeners, "defaultUser", Given(Obj([])), true);
      if o.Fail? {
        return;
      }
      defaultUser.AddEventListener(onDefaultUser);
      ghost var l1 := state.listeners;
      ghost var w1 := state.Snapshot();
      o := users.Init(Given(Arr([])));
      InitKeyQuiet(w1, l0, l1, "users", Given(Arr([])), true);
      if o.Fail? {
        return;
      }
      users.AddEventListener(onUsers);
      ghost var l2 := state.listeners;
      ghost var w2 := state.Snapshot();
      o := server.Init(Given(Obj([])));
      InitKeyQuiet(w2, l0, l2, "server", Given(Obj([])), true);
      if o.Fail? {
        return;
      }
      server.AddEventListener(onServer);
    }

    /** The listeners' `handleUsers`: the held list sorted in place. */
    method HandleUsers() returns (o: Outcome<Error>)
      requires Valid()
      modifies state
      ensures LibState.Step(state.Snapshot(), o) == SortHeldSpec(old(state.Snapshot()))
      ensures state.listeners == old(state.listeners)
    {
      var held := users.Get();
      if !held.Arr? {
        return Fail(LibState.TypeError);
      }
      var a := new Value[|held.items|](i requires 0 <= i < |held.items| => held.items[i]);
      assert a[..] == held.items;
      var sorted := SortUsersInPlace(a);
      if !sorted {
        return Fail(LibState.TypeError);
      }
      state.storage := state.storage["users" := Arr(a[..])];
      return Pass;
    }

    /** `handleReset()`. */
    method HandleReset() returns (o: Outcome<Error>)
      requires Valid()
      modifies state, state.localStorage
      ensures LibState.Step(state.Snapshot(), o) == ResetSpec(old(state.Snapshot()), state.listeners)
      ensures state.listeners == old(state.listeners)
    {
      o := defaultUser.Set(Null);
      if o.Fail? {
        return;
      }
      o := server.Set(Obj([]));
      if o.Fail? {
        return;
      }
      o := users.Set(Arr([]));
    }

    /** The `.dvco` branch of `handleImport`. */
    method ImportDvco(data: Value) returns (o: Outcome<Error>)
      requires Valid()
      modifies state, state.localStorage
      ensures LibState.Step(state.Snapshot(), o) == DvcoSpec(LibState.Step(old(state.Snapshot()), Pass), state.listeners, data)
      ensures state.listeners == old(state.listeners)
    {
      var props: seq<Prop> := [];
      if Truthy(Get(data, "serverId")) {
        props := props + [Prop("serverId", Get(data, "serverId"))];
      }
      if Truthy(Get(data, "vcId")) {
        props := props + [Prop("vcId", Get(data, "vcId"))];
      }
      assert Obj(props) == DvcoServer(data);
      o := Pass;
      if |props| > 0 {
        o := server.Set(Obj(props));
        if o.Fail? {
          return;
        }
      }
      var list := Get(data, "users");
      if Truthy(list) {
        var rekeyed := Rekeyed(list);
        if rekeyed.Failure? {
          return Fail(rekeyed.error);
        }
        o := users.Set(rekeyed.value);
      }
    }

    /** The `.dvog` branch of `handleImport`. */
    method ImportDvog(data: Value) returns (o: Outcome<Error>)
      requires Valid()
      modifies state, state.localStorage
      ensures LibState.Step(state.Snapshot(), o) == DvogSpec(LibState.Step(old(state.Snapshot()), Pass), state.listeners, data)
      ensures state.listeners == old(state.listeners)
    {
      var du := Get(data, "defaultUser");
      var list := Get(data, "users");
      var sv := Get(data, "server");
      ghost var listeners := state.listeners;
      ghost var w0 := state.Snapshot();
      o := Pass;
      if NonEmpty(du) {
        o := defaultUser.Set(du);
        if o.Fail? {
          return;
        }
      }
      ghost var s1 := LibState.Step(state.Snapshot(), o);
      assert s1 == PutIf(LibState.Step(w0, Pass), listeners, NonEmpty(du), "defaultUser", du);
      if HasItems(list) {
        o := users.Set(list);
        if o.Fail? {
          return;
        }
      }
      ghost var s2 := LibState.Step(state.Snapshot(), o);
      assert s2 == PutIf(s1, listeners, HasItems(list), "users", list);
      if NonEmpty(sv) {
        o := server.Set(sv);
      }
    }

    /** `handleImport(e)`, given the chosen files and what reading each gives. */
    method HandleImport(files: seq<ImportExport.ImportFile>) returns (o: Outcome<Error>)
      requires Valid()
      modifies state, state.localStorage
      ensures LibState.Step(state.Snapshot(), o) == ImportSpec(old(state.Snapshot()), state.listeners, files)
      ensures state.listeners == old(state.listeners)
    {
      if files == [] {
        return Pass;
      }
      var file := files[0];
      var fileType := FileTypeOf(file.name);
      if fileType.None? {
        return Pass;
      }
      var data := ReadData(file.content);
      if !Truthy(data) {
        return Pass;
      }
      o := HandleReset();
      if o.Fail? {
        return;
      }
      if fileType.value == Dvco {
        o := ImportDvco(data);
      } else {
        o := ImportDvog(data);
      }
    }

    /**
     * `handleExport()`: the file name for the clock's `toJSON()` text and
     * the text of the document holding the non-empty slots. Nothing in the
     * store changes.
     */
    method HandleExport(isoDate: string) returns (name: string, text: Result<string, Error>)
      requires Valid()
      ensures name == ExportFileName(isoDate)
      ensures text == ExportText(ExportDoc(state.Get("defaultUser"), state.Get("users"), state.Get("server")))
    {
      name := "discord-vc-overlay-" + isoDate[..if |isoDate| < 10 then |isoDate| else 10] + ".dvog";
      var props: seq<Prop> := [];
      var du := defaultUser.Get();
      if NonEmpty(du) {
        props := props + [Prop("defaultUser", du)];
      }
      var list := users.Get();
      if HasItems(list) {
        props := props + [Prop("users", list)];
      }
      var sv := server.Get();
      if NonEmpty(sv) {
        props := props + [Prop("server", sv)];
      }
      assert Obj(props) == ExportDoc(du, list, sv);
      text := ExportText(Obj(props));
    }

    /** `addUser({ id, url, urlSpeaking })`, dated `now`: a push onto the held array, then `set`. */
    method AddUser(id: string, url: string, urlSpeaking: string, now: int) returns (o: Outcome<Error>)
      requires Valid()
      modifies state, state.localStorage
      ensures LibState.Step(state.Snapshot(), o) == AddUserSpec(old(state.Snapshot()), state.listeners, id, url, urlSpeaking, now)
      ensures state.listeners == old(state.listeners)
    {
      var held := users.Get();
      if !held.Arr? {
        return Fail(LibState.TypeError);
      }
      o := users.Set(Arr(AddedUser(held.items, Str(id), Str(url), Str(urlSpeaking), Num(now))));
    }

    /** `removeUser(userId)`. */
    method RemoveUser(userId: Value) returns (o: Outcome<Error>)
      requires Valid()
      modifies state, state.localStorage
      ensures LibState.Step(state.Snapshot(), o) == RemoveUserSpec(old(state.Snapshot()), state.listeners, userId)
      ensures state.listeners == old(state.listeners)
    {
      ghost var w := state.Snapshot();
      var held := users.Get();
      if !held.Arr? || !AllReadable(held.items) {
        return Fail(LibState.TypeError);
      }
      var list := RemovedUsers(held.items, userId);
      assert RemoveUserSpec(w, state.listeners, userId) == Put(w, state.listeners, "users", Arr(list));
      o := users.Set(Arr(list));
    }

    /** `updateUser(userId, data)`. */
    method UpdateUser(userId: Value, data: Value) returns (o: Outcome<Error>)
      requires Valid()
      modifies state, state.localStorage
      ensures LibState.Step(state.Snapshot(), o) == UpdateUserSpec(old(state.Snapshot()), state.listeners, userId, data)
      ensures state.listeners == old(state.listeners)
    {
      ghost var w := state.Snapshot();
      var held := users.Get();
      if !held.Arr? || !AllReadable(held.items) {
        return Fail(LibState.TypeError);
      }
      var list := UpdatedUsers(held.items, userId, data);
      assert UpdateUserSpec(w, state.listeners, userId, data) == Put(w, state.listeners, "users", Arr(list));
      o := users.Set(Arr(list));
    }

    /** The default user's form `onsubmit`, with `setDefaultUser`. */
    method SubmitDefaultUser(url: string, urlSpeaking: string) returns (o: Outcome<Error>)
      requires Valid()
      modifies state, state.localStorage
      ensures LibState.Step(state.Snapshot(), o) == SubmitDefaultUserSpec(old(state.Snapshot()), state.listeners, url, urlSpeaking)
      ensures state.listeners == old(state.listeners)
    {
      var u := Trim(url);
      var s := Trim(urlSpeaking);
      if |u| == 0 || |s| == 0 {
        return Pass;
      }
      o := defaultUser.Set(Obj([Prop("url", Str(u)), Prop("urlSpeaking", Str(s))]));
    }

    /** The add-user form `onsubmit`, the clock giving `now`. */
    method SubmitAddUser(id: string, url: string, urlSpeaking: string, now: int) returns (o: Outcome<Error>)
      requires Valid()
      modifies state, state.localStorage
      ensures LibState.Step(state.Snapshot(), o) == SubmitAddUserSpec(old(state.Snapshot()), state.listeners, id, url, urlSpeaking, now)
      ensures state.listeners == old(state.listeners)
    {
      var i := Trim(id);
      var u := Trim(url);
      var s := Trim(urlSpeaking);
      if |i| == 0 || |u| == 0 || |s| == 0 {
        return Pass;
      }
      o := AddUser(i, u, s, now);
    }

    /** `updateDefaultUser(data)`. */
    method UpdateDefaultUser(data: Value) returns (o: Outcome<Error>)
      requires Valid()
      modifies state, state.localStorage
      ensures LibState.Step(state.Snapshot(), o) == UpdateDefaultUserSpec(old(state.Snapshot()), state.listeners, data)
      ensures state.listeners == old(state.listeners)
    {
      o := defaultUser.Update(data);
    }

    /** `removeDefaultUser()`. */
    method RemoveDefaultUser() returns (o: Outcome<Error>)
      requires Valid()
      modifies state, state.localStorage
      ensures LibState.Step(state.Snapshot(), o) == RemoveDefaultUserSpec(old(state.Snapshot()), state.listeners)
      ensures state.listeners == old(state.listeners)
    {
      if Truthy(defaultUser.Get()) {
        o := defaultUser.Set(Null);
      } else {
        o := Pass;
      }
    }

    /** An entry's update form `onsubmit` as written: an entry with a truthy id throws a ReferenceError. */
    method SubmitUpdate(user: Value, url: string, urlSpeaking: string) returns (o: Outcome<Error>)
      requires Valid()
      modifies state, state.localStorage
      ensures LibState.Step(state.Snapshot(), o) == SubmitUpdateAsWrittenSpec(old(state.Snapshot()), state.listeners, user, url, urlSpeaking)
      ensures state.listeners == old(state.listeners)
    {
      var data := UpdateData(url, urlSpeaking);
      if data.None? {
        return Pass;
      }
      if Truthy(Get(user, "id")) {
        // `userId` is not defined in the form's handler
        return Fail(LibState.ReferenceError);
      } else {
        o := UpdateDefaultUser(data.value);
      }
    }

    /** An entry's remove button `onclick`. */
    method RemoveButton(user: Value) returns (o: Outcome<Error>)
      requires Valid()
      modifies state, state.localStorage
      ensures LibState.Step(state.Snapshot(), o) == RemoveButtonSpec(old(state.Snapshot()), state.listeners, user)
      ensures state.listeners == old(state.listeners)
    {
      if Truthy(Get(user, "id")) {
        o := RemoveUser(Get(user, "id"));
      } else {
        o := RemoveDefaultUser();
      }
    }

    /** The server id input's `oninput`, with `setServerId`. */
    method SetServerId(input: string) returns (o: Outcome<Error>)
      requires Valid()
      modifies state, state.localStorage
      ensures LibState.Step(state.Snapshot(), o) == SetServerFieldSpec(old(state.Snapshot()), state.listeners, "serverId", Trim(input))
      ensures state.listeners == old(state.listeners)
    {
      o := SetServerField("serverId", Trim(input));
    }

    /** The voice channel input's `oninput`, with `setVcId`. */
    method SetVcId(input: string) returns (o: Outcome<Error>)
      requires Valid()
      modifies state, state.localStorage
      ensures LibState.Step(state.Snapshot(), o) == SetServerFieldSpec(old(state.Snapshot()), state.listeners, "vcId", Trim(input))
      ensures state.listeners == old(state.listeners)
    {
      o := SetServerField("vcId", Trim(input));
    }

    /** The shared body of `setServerId` and `setVcId`. */
    method SetServerField(field: string, input: string) returns (o: Outcome<Error>)
      requires Valid()
      modifies state, state.localStorage
      ensures LibState.Step(state.Snapshot(), o) == SetServerFieldSpec(old(state.Snapshot()), state.listeners, field, input)
      ensures state.listeners == old(state.listeners)
    {
      if |input| == 0 {
        var held := server.Get();
        if held.Null? || held.Undefined? {
          return Fail(LibState.TypeError);
        }
        o := server.Set(Delete(held, field));
      } else {
        o := server.Update(Obj([Prop(field, Str(input))]));
      }
    }
  }
}

=== FILE: legacy_state.dfy ===
/**
 * The first version of the store (js/state.js): a `State` that is an
 * `EventTarget` over a `Map` of values, with optional mirroring to
 * `localStorage` through `JSON.stringify`/`JSON.parse`, and `StateElement`
 * handles that read, write, merge and initialise one key. Unlike the later
 * store it keeps no registry of elements and checks no kinds.
 */
module LegacyState {
  import opened Wrappers
  import opened JsValue
  import opened Json
  import opened Browser
  import LibState

  type World = LibState.World
  type Step = LibState.Step
  type Error = LibState.Error

  /** The store's `#config`; a store built without one mirrors to storage and fires events. */
  datatype Config = Config(useLocalStorage: bool, useEvents: bool)

  const DefaultConfig := Config(true, true)

  /** A value that is not a function. */
  type Data = v: Value | !v.Func? witness Undefined

  /** The `value` given to `initKey`: a value, or a function that computes it. */
  datatype Initial = Given(value: Data) | Factory(f: Value -> Value)

  /** Whether `if (value)` takes the branch: a function always does. */
  predicate Present(init: Initial)
  {
    init.Factory? || Truthy(init.value)
  }

  /** The value committed from a stored entry: the parsed value, or the function applied to it. */
  function Restore(init: Initial, parsed: Value): Value
  {
    match init
    case Given(_) => parsed
    case Factory(f) => f(parsed)
  }

  /** The value committed from the default: itself, or the function applied to `undefined`. */
  function Default(init: Initial): Value
  {
    match init
    case Given(v) => v
    case Factory(f) => f(Undefined)
  }

  /** `Map.prototype.get`: the value held for `key`, or `undefined`. */
  function Lookup(storage: map<string, Value>, key: string): (r: Value)
    ensures key !in storage ==> r == Undefined
    ensures key in storage ==> r == storage[key]
  {
    if key in storage then storage[key] else Undefined
  }

  /**
   * `set(key, value, { useLocalStorage, disableEvent })`: the map is written
   * first, so a value `JSON.stringify` throws on is still held; the event is
   * dispatched only after a write that did not throw.
   */
  function SetSpec(w: World, listeners: map<string, seq<Listener>>, config: Config,
                   key: string, value: Value, useLocalStorage: bool, disableEvent: bool): Step
  {
    var storage := w.storage[key := value];
    var text := if useLocalStorage && config.useLocalStorage then Stringify(value) else NoText;
    if text.Throws? then LibState.Step(LibState.World(storage, w.persisted, w.log), Fail(LibState.NotSerializable))
    else
      var persisted := if text.Text? then w.persisted[key := text.text] else w.persisted;
      var fired := if !disableEvent && config.useEvents then Dispatch(listeners, key, value) else [];
      LibState.Step(LibState.World(storage, persisted, w.log + fired), Pass)
  }

  /**
   * A write always replaces the key's value and no other; it persists
   * exactly when both the call and the store ask for it and the value has
   * JSON text; it throws exactly when persisting meets a BigInt; the key's
   * listeners are called, in registration order, exactly when it completes
   * with events enabled by both the call and the store.
   */
  lemma SetWrites(w: World, listeners: map<string, seq<Listener>>, config: Config,
                  key: string, value: Value, useLocalStorage: bool, disableEvent: bool)
    ensures var r := SetSpec(w, listeners, config, key, value, useLocalStorage, disableEvent);
            var asked := useLocalStorage && config.useLocalStorage;
            Lookup(r.world.storage, key) == value &&
            (forall k :: k != key ==> Lookup(r.world.storage, k) == Lookup(w.storage, k)) &&
            (r.outcome.Fail? <==> asked && HasBigInt(value)) &&
            (r.outcome.Fail? ==> r.outcome.error == LibState.NotSerializable) &&
            (r.world.persisted ==
               if asked && !Skipped(value) && !HasBigInt(value) then w.persisted[key := Stringify(value).text]
               else w.persisted) &&
            (r.world.log ==
               w.log + if r.outcome.Pass? && !disableEvent && config.useEvents then Dispatch(listeners, key, value) else [])
  {
  }

  /**
   * `initKey(key, value, { useLocalStorage })`: nothing when the key holds a
   * defined value; otherwise the stored entry (parsed with `JSON.parse`,
   * which throws on malformed text) when asked to look, committed silently
   * and not persisted again; otherwise a truthy default, committed silently
   * and persisted when asked; otherwise nothing.
   */
  function InitKeySpec(w: World, listeners: map<string, seq<Listener>>, config: Config,
                       key: string, init: Initial, useLocalStorage: bool): Step
  {
    if Lookup(w.storage, key) != Undefined then LibState.Step(w, Pass)
    else if useLocalStorage && key in w.persisted then
      match Parse(w.persisted[key])
      case None => LibState.Step(w, Fail(LibState.SyntaxError))
      case Some(parsed) => SetSpec(w, listeners, config, key, Restore(init, parsed), false, true)
    else if Present(init) then SetSpec(w, listeners, config, key, Default(init), useLocalStorage, true)
    else LibState.Step(w, Pass)
  }

  /** A key that already holds a defined value is left alone. */
  lemma InitKeyKeepsDefined(w: World, listeners: map<string, seq<Listener>>, config: Config,
                            key: string, init: Initial, useLocalStorage: bool)
    requires Lookup(w.storage, key) != Undefined
    ensures InitKeySpec(w, listeners, config, key, init, useLocalStorage) == LibState.Step(w, Pass)
  {
  }

  /**
   * A stored entry wins over the default: its parsed value, passed through a
   * function default, is held; storage is not written and no listener runs.
   */
  lemma InitKeyRestores(w: World, listeners: map<string, seq<Listener>>, config: Config,
                        key: string, init: Initial, parsed: Value)
    requires Lookup(w.storage, key) == Undefined && key in w.persisted
    requires Parse(w.persisted[key]) == Some(parsed)
    ensures var r := InitKeySpec(w, listeners, config, key, init, true);
            r.outcome == Pass && Lookup(r.world.storage, key) == Restore(init, parsed) &&
            r.world.persisted == w.persisted && r.world.log == w.log
  {
  }

  /** A stored entry that is not valid text makes `initKey` throw before anything is written. */
  lemma InitKeyMalformed(w: World, listeners: map<string, seq<Listener>>, config: Config, key: string, init: Initial)
    requires Lookup(w.storage, key) == Undefined && key in w.persisted
    requires Parse(w.persisted[key]).None?
    ensures InitKeySpec(w, listeners, config, key, init, true) == LibState.Step(w, Fail(LibState.SyntaxError))
  {
  }

  /**
   * With nothing to restore, a falsy default leaves the key unset and a
   * truthy one is committed without an event, persisted when asked.
   */
  lemma InitKeyDefault(w: World, listeners: map<string, seq<Listener>>, config: Config,
                       key: string, init: Initial, useLocalStorage: bool)
    requires Lookup(w.storage, key) == Undefined
    requires !(useLocalStorage && key in w.persisted)
    ensures var r := InitKeySpec(w, listeners, config, key, init, useLocalStorage);
            r.world.log == w.log &&
            (!Present(init) ==> r == LibState.Step(w, Pass)) &&
            (Present(init) ==> Lookup(r.world.storage, key) == Default(init) &&
                               r == SetSpec(w, listeners, config, key, Default(init), useLocalStorage, true))
  {
  }

  /**
   * What a persisting write leaves in `localStorage` is what `initKey` brings
   * back in the next session: the JSON image of the value, and the value
   * itself when it is plain data.
   */
  lemma ReloadRestores(w: World, listeners: map<string, seq<Listener>>, config: Config,
                       key: string, value: Value, disableEvent: bool, init: Initial)
    requires config.useLocalStorage && WellFormed(value) && !Skipped(value) && !HasBigInt(value)
    ensures var saved := SetSpec(w, listeners, config, key, value, true, disableEvent).world.persisted;
            var r := InitKeySpec(LibState.World(map[], saved, []), listeners, config, key, init, true);
            r.outcome == Pass && Lookup(r.world.storage, key) == Restore(init, Canon(value)) &&
            (Plain(value) ==> Lookup(r.world.storage, key) == Restore(init, value))
  {
    StringifyParse(value);
  }

  /** `update(value)`: `{...oldValue, ...value}` over a defined old value, `value` itself otherwise. */
  function Merged(oldValue: Value, value: Value): Value
  {
    if oldValue != Undefined then Spread(oldValue, value) else value
  }

  /**
   * Updating an object with an object keeps every old field the update does
   * not name and takes the update's value for every field it names; over an
   * undefined value the update is stored as given.
   */
  lemma MergedFields(oldValue: Value, value: Value)
    ensures oldValue == Undefined ==> Merged(oldValue, value) == value
    ensures oldValue.Obj? && value.Obj? && Distinct(oldValue.props) && Distinct(value.props) ==>
              Merged(oldValue, value).Obj? && Distinct(Merged(oldValue, value).props) &&
              forall k :: Get(Merged(oldValue, value), k) == if HasKey(value.props, k) then Get(value, k) else Get(oldValue, k)
  {
    if oldValue.Obj? && value.Obj? && Distinct(oldValue.props) && Distinct(value.props) {
      SpreadLookup(oldValue, value);
    }
  }

  /** One entry of the constructor's `defaultValues`. */
  datatype DefaultEntry = DefaultEntry(key: string, value: Initial, localStorage: bool)

  /** The constructor's `defaultValues.forEach(initKey)`, stopping at the first that throws. */
  function InitDefaultsSpec(w: World, listeners: map<string, seq<Listener>>, config: Config, entries: seq<DefaultEntry>): Step
    decreases |entries|
  {
    if entries == [] then LibState.Step(w, Pass)
    else
      var r := InitKeySpec(w, listeners, config, entries[0].key, entries[0].value, entries[0].localStorage);
      if r.outcome.Fail? then r else InitDefaultsSpec(r.world, listeners, config, entries[1..])
  }

  /** Initialising the defaults never calls a listener, whatever is stored. */
  lemma {:induction false} InitDefaultsSilent(w: World, listeners: map<string, seq<Listener>>, config: Config, entries: seq<DefaultEntry>)
    decreases |entries|
    ensures InitDefaultsSpec(w, listeners, config, entries).world.log == w.log
  {
    if entries != [] {
      var r := InitKeySpec(w, listeners, config, entries[0].key, entries[0].value, entries[0].localStorage);
      assert r.world.log == w.log;
      InitDefaultsSilent(r.world, listeners, config, entries[1..]);
    }
  }

  /** `State`. */
  class State {
    const config: Config
    const localStorage: LocalStorage
    /** The `#state` map. */
    var storage: map<string, Value>
    var listeners: map<string, seq<Listener>>
    var log: seq<Delivery>

    /** `new State(config)`: a missing config gives the default one; `defaultValues` go through `InitDefaults`. */
    constructor (config: Option<Config>, localStorage: LocalStorage)
      ensures this.config == if config.Some? then config.value else DefaultConfig
      ensures this.localStorage == localStorage
      ensures storage == map[] && listeners == map[] && log == []
    {
      this.config := if config.Some? then config.value else DefaultConfig;
      this.localStorage := localStorage;
      storage := map[];
      listeners := map[];
      log := [];
    }

    function Snapshot(): World
      reads this, localStorage
    {
      LibState.World(storage, localStorage.items, log)
    }

    /** `get(key)`. */
    function Get(key: string): (r: Value)
      reads this
      ensures key !in storage ==> r == Undefined
      ensures key in storage ==> r == storage[key]
    {
      Lookup(storage, key)
    }

    /** `set(key, value, { useLocalStorage, disableEvent })`. */
    method Set(key: string, value: Value, useLocalStorage: bool, disableEvent: bool) returns (o: Outcome<Error>)
      modifies this, localStorage
      ensures LibState.Step(Snapshot(), o) ==
              SetSpec(old(Snapshot()), listeners, config, key, value, useLocalStorage, disableEvent)
      ensures listeners == old(listeners)
    {
      storage := storage[key := value];
      if useLocalStorage && config.useLocalStorage {
        var text := Stringify(value);
        if text.Throws? {
          return Fail(LibState.NotSerializable);
        }
        if text.Text? {
          localStorage.SetItem(key, text.text);
        }
      }
      if !disableEvent && config.useEvents {
        log := log + Dispatch(listeners, key, value);
      }
      return Pass;
    }

    /** `initKey(key, value, { useLocalStorage })`. */
    method InitKey(key: string, init: Initial, useLocalStorage: bool) returns (o: Outcome<Error>)
      modifies this, localStorage
      ensures LibState.Step(Snapshot(), o) ==
              InitKeySpec(old(Snapshot()), listeners, config, key, init, useLocalStorage)
      ensures listeners == old(listeners)
    {
      if Get(key) != Undefined {
        return Pass;
      }
      if useLocalStorage {
        var stored := localStorage.GetItem(key);
        if stored.Some? {
          var parsed := Parse(stored.value);
          if parsed.None? {
            return Fail(LibState.SyntaxError);
          }
          o := Set(key, Restore(init, parsed.value), false, true);
          return;
        }
      }
      if Present(init) {
        o := Set(key, Default(init), useLocalStorage, true);
        return;
      }
      return Pass;
    }

    /** The constructor's `defaultValues`, initialised in order. */
    method InitDefaults(entries: seq<DefaultEntry>) returns (o: Outcome<Error>)
      modifies this, localStorage
      ensures LibState.Step(Snapshot(), o) == InitDefaultsSpec(old(Snapshot()), listeners, config, entries)
      ensures listeners == old(listeners)
    {
      var i := 0;
      while i < |entries|
        invariant 0 <= i <= |entries|
        invariant listeners == old(listeners)
        invariant InitDefaultsSpec(Snapshot(), listeners, config, entries[i..]) ==
                  InitDefaultsSpec(old(Snapshot()), listeners, config, entries)
      {
        assert entries[i..][0] == entries[i] && entries[i..][1..] == entries[i + 1..];
        var r := InitKey(entries[i].key, entries[i].value, entries[i].localStorage);
        if r.Fail? {
          return r;
        }
        i := i + 1;
      }
      return Pass;
    }

    /**
     * `attach(key, config)`: a new handle on every call, with no check that
     * the key was ever initialised; it persists when its config says so.
     */
    method Attach(key: string, persist: Option<bool>) returns (e: StateElement)
      ensures fresh(e)
      ensures e.state == this && e.key == key && e.useLocalStorage == (persist.Some? && persist.value)
    {
      e := new StateElement(this, key, persist.Some? && persist.value);
    }

    /** `addEventListener(event, l)`. */
    method AddEventListener(event: string, l: Listener)
      modifies this
      ensures listeners == AddListener(old(listeners), event, l)
      ensures storage == old(storage) && log == old(log)
    {
      listeners := AddListener(listeners, event, l);
    }
  }

  /** `StateElement`: a handle on one key of a legacy store. */
  class StateElement {
    const state: State
    const key: string
    const useLocalStorage: bool

    constructor (state: State, key: string, useLocalStorage: bool)
      ensures this.state == state && this.key == key && this.useLocalStorage == useLocalStorage
    {
      this.state := state;
      this.key := key;
      this.useLocalStorage := useLocalStorage;
    }

    /** `get()`. */
    function Get(): Value
      reads state
    {
      state.Get(key)
    }

    /** `set(value)`: a write with the element's persistence flag and events on. */
    method Set(value: Value) returns (o: Outcome<Error>)
      modifies state, state.localStorage
      ensures LibState.Step(state.Snapshot(), o) ==
              SetSpec(old(state.Snapshot()), state.listeners, state.config, key, value, useLocalStorage, false)
      ensures state.listeners == old(state.listeners)
    {
      o := state.Set(key, value, useLocalStorage, false);
    }

    /** `update(value)`: a shallow merge over the current value. */
    method Update(value: Value) returns (o: Outcome<Error>)
      modifies state, state.localStorage
      ensures LibState.Step(state.Snapshot(), o) ==
              SetSpec(old(state.Snapshot()), state.listeners, state.config, key, Merged(old(Get()), value), useLocalStorage, false)
      ensures state.listeners == old(state.listeners)
    {
      var oldValue := Get();
      if oldValue != Undefined {
        o := Set(Spread(oldValue, value));
      } else {
        o := Set(value);
      }
    }

    /** `addEventListener(l)`: `l` is registered for the key's event and receives its `detail`. */
    method AddEventListener(l: Listener)
      modifies state
      ensures state.listeners == AddListener(old(state.listeners), key, l)
      ensures state.storage == old(state.storage) && state.log == old(state.log)
    {
      state.AddEventListener(key, l);
    }

    /** `init(value)`. */
    method Init(init: Initial) returns (o: Outcome<Error>)
      modifies state, state.localStorage
      ensures LibState.Step(state.Snapshot(), o) ==
              InitKeySpec(old(state.Snapshot()), state.listeners, state.config, key, init, useLocalStorage)
      ensures state.listeners == old(state.listeners)
    {
      o := state.InitKey(key, init, useLocalStorage);
    }
  }
}

=== FILE: lib_state.dfy ===
/**
 * The keyed reactive store of lib/state.js: a `State` holding one value per
 * key, the `StateElement` handle of each key (its kind is fixed by the
 * `typeof` of its default value), and the `StateComponent` base class that
 * attaches to several elements at once.
 *
 * Every state-changing method is proved against a pure step function on a
 * `World` (the store's values, the persistent string map and the record of
 * listener calls); the lemmas below state what those steps promise.
 */
module LibState {
  import opened Wrappers
  import opened Decimal
  import opened JsValue
  import opened Json
  import opened Browser
  import opened Text

  /** The store-level options. */
  datatype StoreConfig = StoreConfig(useEmitOnInit: bool, useChangeEvent: bool, useLogs: bool)

  /** The options of `new State()` called without any. */
  const DefaultStoreConfig := StoreConfig(false, false, true)

  /** The per-key options given to `init`. */
  datatype ElementConfig = ElementConfig(useLocalStorage: bool, useEvents: bool, onBeforeSet: Option<Value -> Result<Value, Error>>)

  /** The errors the store throws. */
  datatype Error =
    | AlreadyInitialized                      // "Element already initialized"
    | NotInitialized                          // "Element not initialized"
    | Unsupported(kind: Kind)                 // `Value type "…" is not supported`
    | TypeMismatch(expected: Kind, got: Kind) // `Expected value type "…" but got "…"`
    | SyntaxError                             // BigInt(text) or JSON.parse(text) rejected the text
    | NotSerializable                         // JSON.stringify threw on a BigInt inside an object
    | TypeError                               // a method called on a value that lacks it
    | ReferenceError                          // a name read that was never declared

  /** `#valueToString`: the text a value is persisted as. */
  function ValueToString(v: Value): (r: Result<string, Error>)
    ensures r.Failure? <==> v.Undefined? || v.Func? || (TypeOf(v) == ObjectKind && HasBigInt(v))
  {
    match v
    case BigInt(i) => Success(IntToString(i))
    case Bool(b) => Success(if b then "true" else "false")
    case Sym(d) => Success("Symbol(" + d + ")")
    case Num(n) => Success(IntToString(n))
    case NaN => Success("NaN")
    case Str(s) => Success(s)
    case Undefined => Failure(Unsupported(UndefinedKind))
    case Func(_) => Failure(Unsupported(FunctionKind))
    case _ =>
      match Stringify(v)
      case Text(t) => Success(t)
      case _ => Failure(NotSerializable)
  }

  /** `Number.parseFloat(text)` on integer literals; any other text gives NaN. */
  function ParseFloat(text: string): (r: Value)
    ensures r.Num? || r.NaN?
    ensures forall n :: ParseInt(text) == Some(n) ==> r == Num(n)
  {
    match ParseInt(text)
    case Some(n) => Num(n)
    case None => NaN
  }

  /** `BigInt(text)`: the empty string is 0n, a malformed one throws. */
  function ParseBigInt(text: string): (r: Result<Value, Error>)
    ensures r.Success? ==> r.value.BigInt?
    ensures r.Failure? <==> text != "" && ParseInt(text).None?
  {
    if text == "" then Success(BigInt(0))
    else match ParseInt(text)
      case Some(n) => Success(BigInt(n))
      case None => Failure(SyntaxError)
  }

  /** `#valueFromString` for every kind but boolean, which the two variants below treat differently. */
  function FromStringNonBoolean(text: string, kind: Kind): (r: Result<Value, Error>)
    requires kind != BooleanKind
  {
    match kind
    case BigIntKind => ParseBigInt(text)
    case SymbolKind => Success(Sym(text))
    case NumberKind => Success(ParseFloat(text))
    case ObjectKind =>
      (match Parse(text)
       case Some(v) => Success(v)
       case None => Failure(SyntaxError))
    case StringKind => Success(Str(text))
    case _ => Failure(Unsupported(kind))
  }

  /** `#valueFromString` as written: `Boolean(text)` is true for every non-empty text, "false" included. */
  function ValueFromStringAsWritten(text: string, kind: Kind): (r: Result<Value, Error>)
    ensures kind == BooleanKind ==> r == Success(Bool(text != ""))
  {
    if kind == BooleanKind then Success(Bool(text != "")) else FromStringNonBoolean(text, kind)
  }

  /**
   * `#valueFromString` with the boolean case reading back what
   * `#valueToString` wrote. A restored value has the requested kind, except
   * that `JSON.parse` may give any plain value for the object kind.
   */
  function ValueFromString(text: string, kind: Kind): (r: Result<Value, Error>)
    ensures r.Success? && kind != ObjectKind ==> TypeOf(r.value) == kind
    ensures r.Failure? <==>
              kind == UndefinedKind || kind == FunctionKind ||
              (kind == BigIntKind && text != "" && ParseInt(text).None?) ||
              (kind == ObjectKind && Parse(text).None?)
  {
    if kind == BooleanKind then Success(Bool(text == "true")) else FromStringNonBoolean(text, kind)
  }

  /**
   * Persisting a value and reading it back under its own kind gives the value
   * again: strings, booleans, integers, NaN and BigInts exactly, objects
   * after a trip through JSON (exactly, for plain data).
   */
  lemma PersistRoundTrip(v: Value)
    requires ValueToString(v).Success? && TypeOf(v) != SymbolKind && WellFormed(v)
    ensures TypeOf(v) != ObjectKind ==> ValueFromString(ValueToString(v).value, TypeOf(v)) == Success(v)
    ensures TypeOf(v) == ObjectKind ==> ValueFromString(ValueToString(v).value, TypeOf(v)) == Success(Canon(v))
    ensures Plain(v) ==> ValueFromString(ValueToString(v).value, TypeOf(v)) == Success(v)
  {
    match v
    case Num(n) => IntRoundTrip(n);
    case BigInt(i) => IntRoundTrip(i);
    case NaN =>
    case Bool(_) =>
    case Str(_) =>
    case _ =>
      StringifyParse(v);
  }

  /** The as-written restore turns a persisted `false` into `true`. */
  lemma BooleanRestoreAsWritten()
    ensures ValueToString(Bool(false)) == Success("false")
    ensures ValueFromStringAsWritten(ValueToString(Bool(false)).value, BooleanKind) == Success(Bool(true))
  {
  }

  /** A symbol does not survive persistence: it comes back as a symbol whose description is its text. */
  lemma SymbolRestore(d: string)
    ensures ValueFromString(ValueToString(Sym(d)).value, SymbolKind) == Success(Sym("Symbol(" + d + ")"))
  {
  }

  // ---------------------------------------------------------------------
  // The step functions that specify the store's methods.

  /** Everything a store operation can change outside the element registry. */
  datatype World = World(storage: map<string, Value>, persisted: map<string, string>, log: seq<Delivery>)

  /** The new world, and whether the operation completed or threw. */
  datatype Step = Step(world: World, outcome: Outcome<Error>)

  /** The `detail` of a `"change"` event. */
  function ChangeDetail(key: string, value: Value): Value
  {
    Obj([Prop("key", Str(key)), Prop("value", value)])
  }

  /** The listener calls of one committed write: the key's event, then `"change"` when enabled. */
  function Events(listeners: map<string, seq<Listener>>, config: StoreConfig, key: string, value: Value): seq<Delivery>
  {
    Dispatch(listeners, key, value) +
    (if config.useChangeEvent then Dispatch(listeners, "change", ChangeDetail(key, value)) else [])
  }

  /** `State.set(key, value, { useLocalStorage, useEvents })`. */
  function Commit(w: World, listeners: map<string, seq<Listener>>, config: StoreConfig,
                  key: string, value: Value, useLocalStorage: bool, useEvents: bool): Step
  {
    var storage := w.storage[key := value];
    var fired := if useEvents then Events(listeners, config, key, value) else [];
    if !useLocalStorage then Step(World(storage, w.persisted, w.log + fired), Pass)
    else match ValueToString(value)
      case Success(text) => Step(World(storage, w.persisted[key := text], w.log + fired), Pass)
      case Failure(e) => Step(World(storage, w.persisted, w.log), Fail(e))
  }

  /**
   * A write always updates the key's value, even when persisting it throws;
   * it persists exactly when asked to and the value has text; no other key
   * changes.
   */
  lemma CommitStores(w: World, listeners: map<string, seq<Listener>>, config: StoreConfig,
                     key: string, value: Value, useLocalStorage: bool, useEvents: bool)
    ensures var s := Commit(w, listeners, config, key, value, useLocalStorage, useEvents);
            s.world.storage == w.storage[key := value] &&
            (s.outcome.Fail? <==> useLocalStorage && ValueToString(value).Failure?) &&
            (useLocalStorage && s.outcome.Pass? ==> s.world.persisted == w.persisted[key := ValueToString(value).value]) &&
            (!useLocalStorage || s.outcome.Fail? ==> s.world.persisted == w.persisted)
  {
  }

  /**
   * With events on, a completed write calls every listener of the key, in
   * registration order, with the value, and then, when change events are
   * enabled, every `"change"` listener with `{key, value}`; nothing else is
   * called. With events off, or when the write throws, no listener is called.
   */
  lemma CommitDelivers(w: World, listeners: map<string, seq<Listener>>, config: StoreConfig,
                       key: string, value: Value, useLocalStorage: bool, useEvents: bool)
    ensures var s := Commit(w, listeners, config, key, value, useLocalStorage, useEvents);
            var nk := |ListenersOf(listeners, key)|;
            var nc := if config.useChangeEvent then |ListenersOf(listeners, "change")| else 0;
            (!useEvents || s.outcome.Fail? ==> s.world.log == w.log) &&
            (useEvents && s.outcome.Pass? ==>
               |s.world.log| == |w.log| + nk + nc &&
               s.world.log[..|w.log|] == w.log &&
               (forall i :: 0 <= i < nk ==>
                  s.world.log[|w.log| + i] == Delivery(ListenersOf(listeners, key)[i], key, value)) &&
               (forall i :: 0 <= i < nc ==>
                  s.world.log[|w.log| + nk + i] ==
                  Delivery(ListenersOf(listeners, "change")[i], "change", ChangeDetail(key, value))))
  {
    var s := Commit(w, listeners, config, key, value, useLocalStorage, useEvents);
    if useEvents && s.outcome.Pass? {
      var dk := Dispatch(listeners, key, value);
      var dc := if config.useChangeEvent then Dispatch(listeners, "change", ChangeDetail(key, value)) else [];
      assert Events(listeners, config, key, value) == dk + dc;
      var log := s.world.log;
      assert log == w.log + (dk + dc);
      assert log[..|w.log|] == w.log;
      forall i | 0 <= i < |dk| ensures log[|w.log| + i] == dk[i] { }
      forall i | 0 <= i < |dc| ensures log[|w.log| + |dk| + i] == dc[i] { }
    }
  }

  /**
   * What `init` commits: the persisted text read back as written (a
   * boolean through `Boolean(text)`) when asked and present, else the default.
   */
  function Restored(w: World, key: string, defaultValue: Value, config: ElementConfig): Result<Value, Error>
  {
    if config.useLocalStorage && key in w.persisted then ValueFromStringAsWritten(w.persisted[key], TypeOf(defaultValue))
    else Success(defaultValue)
  }

  /** `State.init(key, defaultValue, config)`, `registered` telling whether the key already has an element. */
  function InitSpec(w: World, registered: bool, listeners: map<string, seq<Listener>>, store: StoreConfig,
                    key: string, defaultValue: Value, config: ElementConfig): Step
  {
    var kind := TypeOf(defaultValue);
    if registered then Step(w, Fail(AlreadyInitialized))
    else if kind == FunctionKind || kind == UndefinedKind then Step(w, Fail(Unsupported(kind)))
    else match Restored(w, key, defaultValue, config)
      case Failure(e) => Step(w, Fail(e))
      case Success(v) => Commit(w, listeners, store, key, v, config.useLocalStorage, store.useEmitOnInit)
  }

  /**
   * `init` rejects a key that already has an element, then a function or
   * `undefined` default, and in both cases changes nothing.
   */
  lemma InitChecksFirst(w: World, registered: bool, listeners: map<string, seq<Listener>>, store: StoreConfig,
                        key: string, defaultValue: Value, config: ElementConfig)
    ensures var s := InitSpec(w, registered, listeners, store, key, defaultValue, config);
            (registered ==> s == Step(w, Fail(AlreadyInitialized))) &&
            (!registered && (defaultValue.Func? || defaultValue.Undefined?) ==>
               s == Step(w, Fail(Unsupported(TypeOf(defaultValue)))))
  {
  }

  /**
   * An accepted `init` commits the restored text when persistence is on and
   * the key is present (with no check of the restored value's kind), and the
   * default otherwise; a value that has text is written back to the
   * persistent map; a restore that throws changes nothing.
   */
  lemma InitCommits(w: World, listeners: map<string, seq<Listener>>, store: StoreConfig,
                    key: string, defaultValue: Value, config: ElementConfig)
    requires !defaultValue.Func? && !defaultValue.Undefined?
    ensures var s := InitSpec(w, false, listeners, store, key, defaultValue, config);
            var restoring := config.useLocalStorage && key in w.persisted;
            var r := ValueFromStringAsWritten(if restoring then w.persisted[key] else "", TypeOf(defaultValue));
            var v := if restoring && r.Success? then r.value else defaultValue;
            (restoring && r.Failure? ==> s == Step(w, Fail(r.error))) &&
            (!restoring || r.Success? ==>
               s.world.storage == w.storage[key := v] &&
               (config.useLocalStorage && ValueToString(v).Success? ==>
                  s.world.persisted == w.persisted[key := ValueToString(v).value]))
  {
    var restoring := config.useLocalStorage && key in w.persisted;
    if !restoring || ValueFromStringAsWritten(if restoring then w.persisted[key] else "", TypeOf(defaultValue)).Success? {
      var v := if restoring then ValueFromStringAsWritten(w.persisted[key], TypeOf(defaultValue)).value else defaultValue;
      CommitStores(w, listeners, store, key, v, config.useLocalStorage, store.useEmitOnInit);
    }
  }

  /** Unless the store emits on init (it does not by default), `init` calls no listener. */
  lemma InitIsSilent(w: World, registered: bool, listeners: map<string, seq<Listener>>, store: StoreConfig,
                     key: string, defaultValue: Value, config: ElementConfig)
    requires !store.useEmitOnInit
    ensures InitSpec(w, registered, listeners, store, key, defaultValue, config).world.log == w.log
  {
    var kind := TypeOf(defaultValue);
    if !registered && kind != FunctionKind && kind != UndefinedKind {
      match Restored(w, key, defaultValue, config)
      case Failure(_) =>
      case Success(v) => CommitDelivers(w, listeners, store, key, v, config.useLocalStorage, false);
    }
  }

  /**
   * A value persisted by a completed write is what a later `init` of the
   * same key (in a new page session, say) commits, given a default of the
   * same kind: objects after a trip through JSON, other kinds but symbols
   * and booleans exactly (see `ReloadFlipsFalse` for booleans).
   */
  lemma ReloadRestores(w: World, listeners: map<string, seq<Listener>>, store: StoreConfig,
                       key: string, value: Value, useEvents: bool,
                       later: World, laterListeners: map<string, seq<Listener>>, laterStore: StoreConfig,
                       defaultValue: Value, config: ElementConfig)
    requires Commit(w, listeners, store, key, value, true, useEvents).outcome.Pass?
    requires later.persisted == Commit(w, listeners, store, key, value, true, useEvents).world.persisted
    requires TypeOf(defaultValue) == TypeOf(value) && TypeOf(value) != SymbolKind && TypeOf(value) != BooleanKind
    requires WellFormed(value) && config.useLocalStorage
    ensures var s := InitSpec(later, false, laterListeners, laterStore, key, defaultValue, config);
            key in s.world.storage &&
            s.world.storage[key] == if TypeOf(value) == ObjectKind then Canon(value) else value
  {
    CommitStores(w, listeners, store, key, value, true, useEvents);
    PersistRoundTrip(value);
    var v := if TypeOf(value) == ObjectKind then Canon(value) else value;
    assert Restored(later, key, defaultValue, config) == Success(v);
    CommitStores(later, laterListeners, laterStore, key, v, true, laterStore.useEmitOnInit);
  }

  /**
   * A boolean persisted by a completed write comes back from a later `init`
   * of the key as `true`, whichever it was: a stored `false` does not survive
   * a reload.
   */
  lemma ReloadFlipsFalse(w: World, listeners: map<string, seq<Listener>>, store: StoreConfig,
                         key: string, b: bool, useEvents: bool,
                         later: World, laterListeners: map<string, seq<Listener>>, laterStore: StoreConfig,
                         defaultValue: Value, config: ElementConfig)
    requires Commit(w, listeners, store, key, Bool(b), true, useEvents).outcome.Pass?
    requires later.persisted == Commit(w, listeners, store, key, Bool(b), true, useEvents).world.persisted
    requires defaultValue.Bool? && config.useLocalStorage
    ensures var s := InitSpec(later, false, laterListeners, laterStore, key, defaultValue, config);
            s.outcome.Pass? && key in s.world.storage && s.world.storage[key] == Bool(true)
  {
    CommitStores(w, listeners, store, key, Bool(b), true, useEvents);
    assert later.persisted[key] == if b then "true" else "false";
    assert Restored(later, key, defaultValue, config) == Success(Bool(true));
    CommitStores(later, laterListeners, laterStore, key, Bool(true), true, laterStore.useEmitOnInit);
  }

  /** The fixed data of an element: its key, its default value and its options. */
  datatype Slot = Slot(key: string, defaultValue: Value, config: ElementConfig)

  /** The value a write stores once `onBeforeSet`, when configured, has transformed it, or what the callback threw. */
  function BeforeSet(config: ElementConfig, value: Value): (r: Result<Value, Error>)
    ensures config.onBeforeSet.None? ==> r == Success(value)
  {
    match config.onBeforeSet
    case Some(f) => f(value)
    case None => Success(value)
  }

  /** `StateElement.set(value)`. */
  function ElementSet(w: World, listeners: map<string, seq<Listener>>, store: StoreConfig, slot: Slot, value: Value): Step
  {
    var kind := TypeOf(slot.defaultValue);
    if TypeOf(value) != kind then Step(w, Fail(TypeMismatch(kind, TypeOf(value))))
    else match BeforeSet(slot.config, value)
      case Failure(e) => Step(w, Fail(e))
      case Success(v) => Commit(w, listeners, store, slot.key, v, slot.config.useLocalStorage, slot.config.useEvents)
  }

  /**
   * A value whose `typeof` differs from the default's is rejected before
   * anything changes, and so is one `onBeforeSet` throws on; an accepted one
   * is stored, persisted and delivered to the key's listeners in the form
   * `onBeforeSet` gives it.
   */
  lemma ElementSetChecksKind(w: World, listeners: map<string, seq<Listener>>, store: StoreConfig, slot: Slot, value: Value)
    ensures var s := ElementSet(w, listeners, store, slot, value);
            var t := BeforeSet(slot.config, value);
            (TypeOf(value) != TypeOf(slot.defaultValue) ==>
               s == Step(w, Fail(TypeMismatch(TypeOf(slot.defaultValue), TypeOf(value))))) &&
            (TypeOf(value) == TypeOf(slot.defaultValue) && t.Failure? ==> s == Step(w, Fail(t.error))) &&
            (TypeOf(value) == TypeOf(slot.defaultValue) && t.Success? ==>
               s.world.storage == w.storage[slot.key := t.value] &&
               (slot.config.useLocalStorage && s.outcome.Pass? ==>
                  s.world.persisted == w.persisted[slot.key := ValueToString(t.value).value]) &&
               (slot.config.useEvents && s.outcome.Pass? ==>
                  forall i :: 0 <= i < |ListenersOf(listeners, slot.key)| ==>
                    s.world.log[|w.log| + i] == Delivery(ListenersOf(listeners, slot.key)[i], slot.key, t.value)))
  {
    var t := BeforeSet(slot.config, value);
    if TypeOf(value) == TypeOf(slot.defaultValue) && t.Success? {
      CommitStores(w, listeners, store, slot.key, t.value, slot.config.useLocalStorage, slot.config.useEvents);
      CommitDelivers(w, listeners, store, slot.key, t.value, slot.config.useLocalStorage, slot.config.useEvents);
    }
  }

  /** `$resetAll`: `reset()` on each slot in turn, stopping at the first that throws. */
  function ResetAllSpec(w: World, listeners: map<string, seq<Listener>>, store: StoreConfig, slots: seq<Slot>): Step
    decreases |slots|
  {
    if slots == [] then Step(w, Pass)
    else
      var s := ElementSet(w, listeners, store, slots[0], slots[0].defaultValue);
      if s.outcome.Fail? then s else ResetAllSpec(s.world, listeners, store, slots[1..])
  }

  /**
   * When `$resetAll` completes, every attached key holds its default (as
   * `onBeforeSet` transforms it) and every other key keeps its value.
   */
  lemma {:induction false} ResetAllRestores(w: World, listeners: map<string, seq<Listener>>, store: StoreConfig, slots: seq<Slot>)
    requires forall i, j :: 0 <= i < j < |slots| ==> slots[i].key != slots[j].key
    ensures var s := ResetAllSpec(w, listeners, store, slots);
            s.outcome.Pass? ==>
              (forall i :: 0 <= i < |slots| ==>
                 slots[i].key in s.world.storage &&
                 BeforeSet(slots[i].config, slots[i].defaultValue) == Success(s.world.storage[slots[i].key])) &&
              (forall k :: k in w.storage && (forall i :: 0 <= i < |slots| ==> slots[i].key != k) ==>
                 k in s.world.storage && s.world.storage[k] == w.storage[k])
    decreases |slots|
  {
    if slots != [] {
      var first := ElementSet(w, listeners, store, slots[0], slots[0].defaultValue);
      ElementSetChecksKind(w, listeners, store, slots[0], slots[0].defaultValue);
      if first.outcome.Pass? {
        var rest := slots[1..];
        assert forall i, j :: 0 <= i < j < |rest| ==> rest[i].key != rest[j].key by {
          forall i, j | 0 <= i < j < |rest| ensures rest[i].key != rest[j].key {
            assert rest[i] == slots[i + 1] && rest[j] == slots[j + 1];
          }
        }
        ResetAllRestores(first.world, listeners, store, rest);
        var s := ResetAllSpec(w, listeners, store, slots);
        assert s == ResetAllSpec(first.world, listeners, store, rest);
        if s.outcome.Pass? {
          ResetStepHolds(w.storage, first.world.storage, s.world.storage, slots);
        }
      }
    }
  }

  /**
   * The step of `ResetAllRestores` on the stores alone: the first key
   * written with its transformed default, then the rest restored.
   */
  lemma ResetStepHolds(m0: map<string, Value>, m1: map<string, Value>, m: map<string, Value>, slots: seq<Slot>)
    requires slots != []
    requires forall i, j :: 0 <= i < j < |slots| ==> slots[i].key != slots[j].key
    requires BeforeSet(slots[0].config, slots[0].defaultValue).Success?
    requires m1 == m0[slots[0].key := BeforeSet(slots[0].config, slots[0].defaultValue).value]
    requires forall i :: 1 <= i < |slots| ==>
               slots[i].key in m && BeforeSet(slots[i].config, slots[i].defaultValue) == Success(m[slots[i].key])
    requires forall k :: k in m1 && (forall i :: 1 <= i < |slots| ==> slots[i].key != k) ==> k in m && m[k] == m1[k]
    ensures forall i :: 0 <= i < |slots| ==>
              slots[i].key in m && BeforeSet(slots[i].config, slots[i].defaultValue) == Success(m[slots[i].key])
    ensures forall k :: k in m0 && (forall i :: 0 <= i < |slots| ==> slots[i].key != k) ==> k in m && m[k] == m0[k]
  {
    var k0 := slots[0].key;
    assert forall i :: 1 <= i < |slots| ==> slots[i].key != k0;
    assert k0 in m1;
  }

  // ---------------------------------------------------------------------
  // The classes.

  /** `State`: the values by key, the registered elements and the listeners of its events. */
  class State {
    const config: StoreConfig
    const localStorage: LocalStorage
    var storage: map<string, Value>
    var elements: map<string, StateElement>
    /** The keys of `elements` in registration order (a JavaScript `Map` iterates in that order). */
    var order: seq<string>
    var listeners: map<string, seq<Listener>>
    var log: seq<Delivery>

    ghost predicate Valid()
      reads this
    {
      (forall k :: k in elements <==> k in order) &&
      (forall i, j :: 0 <= i < j < |order| ==> order[i] != order[j]) &&
      (forall k :: k in elements ==> elements[k].state == this && elements[k].key == k)
    }

    /** `new State(config)`; the optional initial elements are given to `Init` one by one instead. */
    constructor (config: StoreConfig, localStorage: LocalStorage)
      ensures this.config == config && this.localStorage == localStorage
      ensures storage == map[] && elements == map[] && order == [] && listeners == map[] && log == []
      ensures Valid()
    {
      this.config := config;
      this.localStorage := localStorage;
      storage := map[];
      elements := map[];
      order := [];
      listeners := map[];
      log := [];
    }

    /** The part of the world the step functions speak about. */
    function Snapshot(): World
      reads this, localStorage
    {
      World(storage, localStorage.items, log)
    }

    /** `get(key)`: `Map.get`, so a key never written reads as `undefined`. */
    function Get(key: string): (r: Value)
      reads this
      ensures key !in storage ==> r == Undefined
      ensures key in storage ==> r == storage[key]
    {
      if key in storage then storage[key] else Undefined
    }

    /** `set(key, value, config)`. */
    method Set(key: string, value: Value, useLocalStorage: bool, useEvents: bool) returns (o: Outcome<Error>)
      modifies this, localStorage
      ensures Step(Snapshot(), o) == Commit(old(Snapshot()), listeners, config, key, value, useLocalStorage, useEvents)
      ensures elements == old(elements) && order == old(order) && listeners == old(listeners)
    {
      storage := storage[key := value];
      if useLocalStorage {
        var text := ValueToString(value);
        if text.Failure? {
          return Fail(text.error);
        }
        localStorage.SetItem(key, text.value);
      }
      if useEvents {
        log := log + Events(listeners, config, key, value);
      }
      return Pass;
    }

    /** `init(key, defaultValue, config)`: the new element, or the error it throws. */
    method Init(key: string, defaultValue: Value, ec: ElementConfig) returns (r: Result<StateElement, Error>)
      requires Valid()
      modifies this, localStorage
      ensures Valid()
      ensures var s := InitSpec(old(Snapshot()), key in old(elements), old(listeners), config, key, defaultValue, ec);
              Snapshot() == s.world && (r.Success? <==> s.outcome.Pass?) &&
              (r.Failure? ==> s.outcome.Fail? && r.error == s.outcome.error)
      ensures r.Success? ==>
                fresh(r.value) && r.value.state == this && r.value.key == key &&
                r.value.defaultValue == defaultValue && r.value.config == ec &&
                elements == old(elements)[key := r.value] && order == old(order) + [key]
      ensures r.Failure? ==> elements == old(elements) && order == old(order)
      ensures listeners == old(listeners)
    {
      if key in elements {
        return Failure(AlreadyInitialized);
      }
      var kind := TypeOf(defaultValue);
      if kind == FunctionKind || kind == UndefinedKind {
        return Failure(Unsupported(kind));
      }
      // the persisted text, when persistence is on and the key is present, else the default
      var restored := Restored(Snapshot(), key, defaultValue, ec);
      if restored.Failure? {
        return Failure(restored.error);
      }
      var value := restored.value;
      var o := Set(key, value, ec.useLocalStorage, config.useEmitOnInit);
      if o.Fail? {
        return Failure(o.error);
      }
      var element := new StateElement(this, key, defaultValue, ec);
      Register(element);
      return Success(element);
    }

    /** Recording a new element under its key, last in iteration order. */
    method Register(element: StateElement)
      requires Valid() && element.state == this && element.key !in elements
      modifies this
      ensures Valid()
      ensures elements == old(elements)[element.key := element] && order == old(order) + [element.key]
      ensures storage == old(storage) && listeners == old(listeners) && log == old(log)
    {
      ghost var order0 := order;
      elements := elements[element.key := element];
      order := order + [element.key];
      assert forall i :: 0 <= i < |order0| ==> order[i] == order0[i] && order0[i] != element.key;
    }

    /** `attach(key)`: the element `init` registered, or "Element not initialized". */
    method Attach(key: string) returns (r: Result<StateElement, Error>)
      ensures key in elements ==> r == Success(elements[key])
      ensures key !in elements ==> r == Failure(NotInitialized)
    {
      if key in elements {
        return Success(elements[key]);
      }
      return Failure(NotInitialized);
    }

    /** `addEventListener(event, l)` with a fresh callback. */
    method AddEventListener(event: string, l: Listener)
      modifies this
      ensures listeners == AddListener(old(listeners), event, l)
      ensures storage == old(storage) && elements == old(elements) && order == old(order) && log == old(log)
    {
      listeners := AddListener(listeners, event, l);
    }
  }

  /** `StateElement`: the handle of one key. */
  class StateElement {
    const state: State
    const key: string
    const defaultValue: Value
    const config: ElementConfig

    constructor (state: State, key: string, defaultValue: Value, config: ElementConfig)
      ensures this.state == state && this.key == key && this.defaultValue == defaultValue && this.config == config
    {
      this.state := state;
      this.key := key;
      this.defaultValue := defaultValue;
      this.config := config;
    }

    /** The recorded kind: `typeof` of the default value. */
    function Type(): Kind
    {
      TypeOf(defaultValue)
    }

    function AsSlot(): Slot
    {
      Slot(key, defaultValue, config)
    }

    /** `get()`. */
    function Get(): Value
      reads state
    {
      state.Get(key)
    }

    /** `set(value)`. */
    method Set(value: Value) returns (o: Outcome<Error>)
      modifies state, state.localStorage
      ensures Step(state.Snapshot(), o) == ElementSet(old(state.Snapshot()), state.listeners, state.config, AsSlot(), value)
      ensures state.elements == old(state.elements) && state.order == old(state.order)
      ensures state.listeners == old(state.listeners)
    {
      if TypeOf(value) != Type() {
        return Fail(TypeMismatch(Type(), TypeOf(value)));
      }
      var transformed := BeforeSet(config, value);
      if transformed.Failure? {
        return Fail(transformed.error);
      }
      o := state.Set(key, transformed.value, config.useLocalStorage, config.useEvents);
    }

    /** `reset()`: `set` of the default value. */
    method Reset() returns (o: Outcome<Error>)
      modifies state, state.localStorage
      ensures Step(state.Snapshot(), o) == ElementSet(old(state.Snapshot()), state.listeners, state.config, AsSlot(), defaultValue)
      ensures state.elements == old(state.elements) && state.order == old(state.order)
      ensures state.listeners == old(state.listeners)
    {
      o := Set(defaultValue);
    }

    /** `addListener(listener)`: registers for the key's event, after the listeners already there. */
    method AddListener(l: Listener)
      modifies state
      ensures state.listeners == Browser.AddListener(old(state.listeners), key, l)
      ensures state.storage == old(state.storage) && state.elements == old(state.elements)
      ensures state.order == old(state.order) && state.log == old(state.log)
    {
      state.AddEventListener(key, l);
    }
  }

  // ---------------------------------------------------------------------
  // StateComponent.

  /** The `elements` argument of a component: `true`, a list of keys, or nothing. */
  datatype Selection = AllElements | Keys(keys: seq<string>) | NoElements

  /** `Object.keys` of an object after assigning the keys `ks` in turn: first occurrences, in order. */
  function KeysOf(ks: seq<string>): seq<string>
  {
    if ks == [] then [] else KeysAdd(KeysOf(ks[..|ks| - 1]), ks[|ks| - 1])
  }

  /** Assigning one more key: it goes last unless the object already has it. */
  function KeysAdd(keys: seq<string>, k: string): seq<string>
  {
    if k in keys then keys else keys + [k]
  }

  /** Every key given appears among the keys, and nothing else does. */
  lemma {:induction false} KeysOfElements(ks: seq<string>, k: string)
    ensures k in KeysOf(ks) <==> k in ks
  {
    if ks != [] {
      KeysOfElements(ks[..|ks| - 1], k);
      assert ks == ks[..|ks| - 1] + [ks[|ks| - 1]];
    }
  }

  /** Each key appears once, however often it was given. */
  lemma {:induction false} KeysOfDistinct(ks: seq<string>)
    ensures forall i, j :: 0 <= i < j < |KeysOf(ks)| ==> KeysOf(ks)[i] != KeysOf(ks)[j]
  {
    if ks != [] {
      KeysOfDistinct(ks[..|ks| - 1]);
    }
  }

  lemma KeysOfStep(ks: seq<string>, k: string)
    ensures KeysOf(ks + [k]) == KeysAdd(KeysOf(ks), k)
  {
    assert (ks + [k])[..|ks|] == ks;
  }

  /** The keys of `ks` that `forEach` gets through before `attach` throws. */
  function AttachablePrefix(registered: set<string>, ks: seq<string>): (r: seq<string>)
    ensures |r| <= |ks| && r == ks[..|r|]
    ensures forall k :: k in r ==> k in registered
    ensures |r| < |ks| ==> ks[|r|] !in registered
  {
    if ks == [] || ks[0] !in registered then []
    else [ks[0]] + AttachablePrefix(registered, ks[1..])
  }

  /** The listener lists after `addListener(l)` on the element of each key of `ks`, in turn. */
  function ListenEach(listeners: map<string, seq<Listener>>, ks: seq<string>, l: Listener): map<string, seq<Listener>>
  {
    if ks == [] then listeners
    else AddListener(ListenEach(listeners, ks[..|ks| - 1], l), ks[|ks| - 1], l)
  }

  /** The listener lists after a component attached to `ks`, with `handler` when `$onStateChange` is overridden. */
  function Listened(listeners: map<string, seq<Listener>>, ks: seq<string>, handler: Option<Listener>): map<string, seq<Listener>>
  {
    if handler.Some? then ListenEach(listeners, ks, handler.value) else listeners
  }

  lemma ListenedStep(listeners: map<string, seq<Listener>>, ks: seq<string>, k: string, handler: Option<Listener>)
    ensures Listened(listeners, ks + [k], handler) ==
            if handler.Some? then AddListener(Listened(listeners, ks, handler), k, handler.value)
            else Listened(listeners, ks, handler)
  {
    assert (ks + [k])[..|ks|] == ks;
  }

  /** How many times `k` occurs in `ks`. */
  function Occurrences(ks: seq<string>, k: string): nat
  {
    if ks == [] then 0 else Occurrences(ks[..|ks| - 1], k) + (if ks[|ks| - 1] == k then 1 else 0)
  }

  /** `l` repeated `n` times. */
  function Repeat(l: Listener, n: nat): (r: seq<Listener>)
    ensures |r| == n && forall i :: 0 <= i < n ==> r[i] == l
  {
    if n == 0 then [] else Repeat(l, n - 1) + [l]
  }

  /**
   * Attaching a handler to several keys leaves every event's earlier
   * listeners first and adds the handler once per occurrence of the key.
   */
  lemma {:induction false} ListenEachAppends(listeners: map<string, seq<Listener>>, ks: seq<string>, l: Listener, e: string)
    ensures ListenersOf(ListenEach(listeners, ks, l), e) == ListenersOf(listeners, e) + Repeat(l, Occurrences(ks, e))
  {
    if ks != [] {
      ListenEachAppends(listeners, ks[..|ks| - 1], l, e);
      if ks[|ks| - 1] == e {
        assert Repeat(l, Occurrences(ks, e)) == Repeat(l, Occurrences(ks[..|ks| - 1], e)) + [l];
      }
    }
  }

  /** `StateComponent`: the elements it attached to, by key, in attachment order. */
  class StateComponent {
    const state: State
    var keys: seq<string>
    var states: map<string, StateElement>

    ghost predicate Valid()
      reads this
    {
      (forall k :: k in states <==> k in keys) &&
      (forall i, j :: 0 <= i < j < |keys| ==> keys[i] != keys[j]) &&
      (forall k :: k in states ==> states[k].state == state && states[k].key == k)
    }

    constructor (state: State)
      ensures this.state == state && keys == [] && states == map[] && Valid()
    {
      this.state := state;
      keys := [];
      states := map[];
    }

    /** The fixed data of the attached elements, in `Object.keys` order. */
    function Slots(): (r: seq<Slot>)
      requires Valid()
      reads this
      ensures |r| == |keys|
      ensures forall i :: 0 <= i < |keys| ==> r[i] == states[keys[i]].AsSlot()
    {
      seq(|keys|, i requires 0 <= i < |keys| && keys[i] in states reads this => states[keys[i]].AsSlot())
    }

    /** `elements === true`: every registered element, in registration order. */
    method AttachAll(handler: Option<Listener>)
      requires Valid() && keys == [] && states == map[] && state.Valid()
      modifies this, state
      ensures Valid() && state.Valid()
      ensures keys == state.order && states == state.elements
      ensures state.listeners == Listened(old(state.listeners), state.order, handler)
      ensures state.storage == old(state.storage) && state.elements == old(state.elements)
      ensures state.order == old(state.order) && state.log == old(state.log)
    {
      var order := state.order;
      var found: seq<string> := [];
      var attached: map<string, StateElement> := map[];
      var i := 0;
      while i < |order|
        invariant 0 <= i <= |order|
        invariant state.storage == old(state.storage) && state.elements == old(state.elements)
        invariant state.order == order && state.log == old(state.log)
        invariant keys == [] && states == map[]
        invariant found == order[..i]
        invariant forall k :: k in attached <==> k in found
        invariant forall k :: k in attached ==> k in state.elements && attached[k] == state.elements[k]
        invariant state.Valid()
        invariant state.listeners == Listened(old(state.listeners), order[..i], handler)
      {
        var k := order[i];
        var e := AttachOne(k, handler);
        attached := attached[k := e.value];
        found := found + [k];
        ListenedStep(old(state.listeners), order[..i], k, handler);
        TakeNext(order, i);
        i := i + 1;
      }
      assert order[..i] == order;
      keys, states := found, attached;
    }

    /** One key of the list: `attach(k)` and, when `$onStateChange` is overridden, `addListener` on it. */
    method AttachOne(k: string, handler: Option<Listener>) returns (r: Result<StateElement, Error>)
      requires forall x :: x in state.elements ==> state.elements[x].state == state && state.elements[x].key == x
      modifies state
      ensures k in state.elements ==> r == Success(state.elements[k])
      ensures k !in state.elements ==> r == Failure(NotInitialized)
      ensures state.listeners ==
                if r.Success? && handler.Some? then AddListener(old(state.listeners), k, handler.value) else old(state.listeners)
      ensures state.storage == old(state.storage) && state.elements == old(state.elements)
      ensures state.order == old(state.order) && state.log == old(state.log)
    {
      r := state.Attach(k);
      if r.Success? && handler.Some? {
        r.value.AddListener(handler.value);
      }
    }

    /** The `forEach` over a list of keys, with the component's fields kept in locals. */
    method AttachEach(ks: seq<string>, handler: Option<Listener>)
      returns (o: Outcome<Error>, found: seq<string>, attached: map<string, StateElement>)
      requires state.Valid()
      modifies state
      ensures var p := AttachablePrefix(state.elements.Keys, ks);
              (o.Pass? <==> p == ks) && (o.Fail? ==> o.error == NotInitialized) &&
              state.listeners == Listened(old(state.listeners), p, handler)
      ensures o.Pass? ==> found == KeysOf(ks) && forall k :: k in attached <==> k in ks
      ensures forall k :: k in attached ==> k in state.elements && attached[k] == state.elements[k]
      ensures state.storage == old(state.storage) && state.elements == old(state.elements)
      ensures state.order == old(state.order) && state.log == old(state.log)
    {
      var elems := state.elements;
      found, attached := [], map[];
      var i := 0;
      while i < |ks|
        invariant 0 <= i <= |ks|
        invariant state.storage == old(state.storage) && state.elements == elems
        invariant state.order == old(state.order) && state.log == old(state.log)
        invariant forall k :: k in elems ==> elems[k].state == state && elems[k].key == k
        invariant found == KeysOf(ks[..i])
        invariant forall j :: 0 <= j < i ==> ks[j] in attached
        invariant forall k :: k in attached ==> k in ks[..i] && k in elems && attached[k] == elems[k]
        invariant state.listeners == Listened(old(state.listeners), ks[..i], handler)
      {
        var a := AttachOne(ks[i], handler);
        if a.Failure? {
          PrefixEnds(elems.Keys, ks, i);
          return Fail(a.error), found, attached;
        }
        ListenedStep(old(state.listeners), ks[..i], ks[i], handler);
        KeysOfStep(ks[..i], ks[i]);
        TakeNext(ks, i);
        found := KeysAdd(found, ks[i]);
        attached := attached[ks[i] := a.value];
        i := i + 1;
      }
      assert ks[..i] == ks;
      PrefixEnds(elems.Keys, ks, i);
      o := Pass;
    }

    /** A list of keys: `attach` each in turn, stopping with "Element not initialized". */
    method AttachKeys(ks: seq<string>, handler: Option<Listener>) returns (o: Outcome<Error>)
      requires Valid() && keys == [] && states == map[] && state.Valid()
      modifies this, state
      ensures Valid() && state.Valid()
      ensures var p := AttachablePrefix(state.elements.Keys, ks);
              (o.Pass? <==> p == ks) && (o.Fail? ==> o.error == NotInitialized) &&
              state.listeners == Listened(old(state.listeners), p, handler)
      ensures o.Pass? ==> keys == KeysOf(ks)
      ensures forall k :: k in states ==> k in state.elements && states[k] == state.elements[k]
      ensures state.storage == old(state.storage) && state.elements == old(state.elements)
      ensures state.order == old(state.order) && state.log == old(state.log)
    {
      var found, attached;
      o, found, attached := AttachEach(ks, handler);
      if o.Pass? {
        KeysOfDistinct(ks);
        forall k
          ensures k in attached <==> k in found
        {
          KeysOfElements(ks, k);
        }
        keys, states := found, attached;
      }
    }

    /** No elements: a handler, when overridden, listens to `"change"`. */
    method ListenToChanges(handler: Option<Listener>)
      requires Valid()
      modifies state
      ensures Valid()
      ensures state.listeners ==
                if handler.Some? then AddListener(old(state.listeners), "change", handler.value) else old(state.listeners)
      ensures state.storage == old(state.storage) && state.elements == old(state.elements)
      ensures state.order == old(state.order) && state.log == old(state.log)
    {
      if handler.Some? {
        state.AddEventListener("change", handler.value);
      }
    }

    /** `$resetAll()`: `reset()` on every attached element, in key order, stopping at the first that throws. */
    method ResetAll() returns (o: Outcome<Error>)
      requires Valid()
      modifies state, state.localStorage
      ensures Step(state.Snapshot(), o) == ResetAllSpec(old(state.Snapshot()), state.listeners, state.config, Slots())
      ensures o.Pass? ==> forall k :: k in states ==>
                k in state.storage && BeforeSet(states[k].config, states[k].defaultValue) == Success(state.storage[k])
      ensures state.listeners == old(state.listeners) && state.elements == old(state.elements)
      ensures state.order == old(state.order)
    {
      ghost var slots := Slots();
      ghost var start := state.Snapshot();
      var i := 0;
      while i < |keys|
        invariant 0 <= i <= |keys|
        invariant state.listeners == old(state.listeners) && state.elements == old(state.elements)
        invariant state.order == old(state.order)
        invariant ResetAllSpec(state.Snapshot(), state.listeners, state.config, slots[i..]) ==
                  ResetAllSpec(start, state.listeners, state.config, slots)
      {
        assert slots[i..][0] == slots[i] && slots[i..][1..] == slots[i + 1..];
        var r := states[keys[i]].Reset();
        if r.Fail? {
          return r;
        }
        i := i + 1;
      }
      o := Pass;
      SlotKeysDistinct();
      ResetAllRestores(start, state.listeners, state.config, slots);
      RestoredByKey(state.storage);
    }

    /** The attached keys are distinct, so the slots are. */
    lemma SlotKeysDistinct()
      requires Valid()
      ensures forall a, b :: 0 <= a < b < |Slots()| ==> Slots()[a].key != Slots()[b].key
    {
    }

    /** A store holding every slot's transformed default holds every attached element's. */
    lemma RestoredByKey(m: map<string, Value>)
      requires Valid()
      requires forall i :: 0 <= i < |Slots()| ==>
                 Slots()[i].key in m && BeforeSet(Slots()[i].config, Slots()[i].defaultValue) == Success(m[Slots()[i].key])
      ensures forall k :: k in states ==> k in m && BeforeSet(states[k].config, states[k].defaultValue) == Success(m[k])
    {
      var slots := Slots();
      forall k | k in states
        ensures k in m && BeforeSet(states[k].config, states[k].defaultValue) == Success(m[k])
      {
        var j :| 0 <= j < |keys| && keys[j] == k;
        assert slots[j].key == k;
      }
    }
  }

  lemma {:induction false} PrefixEnds(registered: set<string>, ks: seq<string>, i: nat)
    requires i <= |ks|
    requires forall j :: 0 <= j < i ==> ks[j] in registered
    requires i < |ks| ==> ks[i] !in registered
    ensures AttachablePrefix(registered, ks) == ks[..i]
  {
    if i > 0 {
      PrefixEnds(registered, ks[1..], i - 1);
      assert ks[..i] == [ks[0]] + ks[1..][..i - 1];
    }
  }

  /**
   * `new StateComponent(state, elements)` of a subclass; `handler` is the
   * listener standing for its `$onStateChange` when the subclass overrides it.
   * With a list of keys, the handler stays registered for the keys attached
   * before a missing one makes the constructor throw.
   */
  method NewComponent(state: State, selection: Selection, handler: Option<Listener>) returns (r: Result<StateComponent, Error>)
    requires state.Valid()
    modifies state
    ensures state.Valid()
    ensures state.storage == old(state.storage) && state.elements == old(state.elements)
    ensures state.order == old(state.order) && state.log == old(state.log)
    ensures r.Success? ==> fresh(r.value) && r.value.state == state && r.value.Valid()
    ensures selection.AllElements? ==>
              r.Success? && r.value.keys == state.order && r.value.states == state.elements &&
              state.listeners == Listened(old(state.listeners), state.order, handler)
    ensures selection.Keys? ==>
              var p := AttachablePrefix(state.elements.Keys, selection.keys);
              (r.Success? <==> p == selection.keys) && (r.Failure? ==> r.error == NotInitialized) &&
              (r.Success? ==> r.value.keys == KeysOf(selection.keys)) &&
              (r.Success? ==> forall k :: k in r.value.states ==> k in state.elements && r.value.states[k] == state.elements[k]) &&
              state.listeners == Listened(old(state.listeners), p, handler)
    ensures selection.NoElements? ==>
              r.Success? && r.value.keys == [] &&
              state.listeners ==
                if handler.Some? then AddListener(old(state.listeners), "change", handler.value) else old(state.listeners)
  {
    var c := new StateComponent(state);
    match selection
    case AllElements =>
      c.AttachAll(handler);
      return Success(c);
    case Keys(ks) =>
      var o := c.AttachKeys(ks, handler);
      if o.Fail? {
        return Failure(o.error);
      }
      return Success(c);
    case NoElements =>
      c.ListenToChanges(handler);
      return Success(c);
  }
}

=== FILE: overlay_css.dfy ===
/**
 * The custom CSS the tool derives for Discord's voice overlay, in its three
 * generations:
 *   - src/js/ConfigEditor.js: base CSS, the constant animation block, the
 *     default-user block and one block per participant joined with " ", then
 *     normalised with line breaks turned into spaces;
 *   - js/index.js `updateCss`: base CSS, default-user block and participant
 *     blocks, normalised with line breaks deleted;
 *   - `generateUsersCss` of components/config/Config.js and index.js: the
 *     participant blocks alone, joined with "\n", on the old `url_speaking`
 *     field.
 * Each participant block targets the overlay's elements whose `data-reactid`
 * contains the participant's id (the `*=` substring attribute selector of
 * section 6.3.2 of Selectors Level 3). The overlay URL with its placeholders
 * is modelled here as well.
 */
module OverlayCss {
  import opened Wrappers
  import opened JsValue
  import opened Text

  // ---------------------------------------------------------------------
  // Strings: joining and containment
  // ---------------------------------------------------------------------

  /** `parts.join(sep)`. */
  function Join(parts: seq<string>, sep: string): string
  {
    if parts == [] then ""
    else if |parts| == 1 then parts[0]
    else parts[0] + sep + Join(parts[1..], sep)
  }

  /** Whether `t` occurs in `s` as a contiguous piece. */
  predicate IsInfix(t: string, s: string)
    decreases |s|
  {
    |t| <= |s| && (s[..|t|] == t || (s != [] && IsInfix(t, s[1..])))
  }

  lemma {:induction false} InfixOf(a: string, t: string, b: string)
    ensures IsInfix(t, a + t + b)
  {
    if a == [] {
      assert (a + t + b)[..|t|] == t;
    } else {
      InfixOf(a[1..], t, b);
      assert (a + t + b)[1..] == a[1..] + t + b;
    }
  }

  lemma {:induction false} InfixExtendRight(t: string, s: string, b: string)
    requires IsInfix(t, s)
    ensures IsInfix(t, s + b)
    decreases |s|
  {
    if s[..|t|] == t {
      assert (s + b)[..|t|] == t;
    } else {
      InfixExtendRight(t, s[1..], b);
      assert (s + b)[1..] == s[1..] + b;
    }
  }

  lemma {:induction false} InfixExtendLeft(t: string, a: string, s: string)
    requires IsInfix(t, s)
    ensures IsInfix(t, a + s)
  {
    if a == [] {
      assert a + s == s;
    } else {
      InfixExtendLeft(t, a[1..], s);
      assert (a + s)[1..] == a[1..] + s;
      assert |t| <= |a + s| && a + s != [];
    }
  }

  /** Joining one more part appends the separator and that part: parts keep their order. */
  lemma {:induction false} JoinAppend(parts: seq<string>, p: string, sep: string)
    requires parts != []
    ensures Join(parts + [p], sep) == Join(parts, sep) + sep + p
  {
    if |parts| > 1 {
      JoinAppend(parts[1..], p, sep);
      assert (parts + [p])[1..] == parts[1..] + [p];
    }
  }

  /** Every part appears in the joined text. */
  lemma {:induction false} JoinContains(parts: seq<string>, sep: string, i: nat)
    requires i < |parts|
    ensures IsInfix(parts[i], Join(parts, sep))
  {
    if |parts| == 1 {
      InfixOf("", parts[0], "");
      assert "" + parts[0] + "" == parts[0];
    } else if i == 0 {
      InfixOf("", parts[0], sep + Join(parts[1..], sep));
      assert "" + parts[0] + (sep + Join(parts[1..], sep)) == Join(parts, sep);
    } else {
      JoinContains(parts[1..], sep, i - 1);
      InfixExtendLeft(parts[i], parts[0] + sep, Join(parts[1..], sep));
    }
  }

  // ---------------------------------------------------------------------
  // Whitespace normalisation
  // ---------------------------------------------------------------------

  /** The class `\s` of JavaScript regular expressions. */
  predicate IsSpace(c: char)
  {
    var n := c as int;
    (9 <= n <= 13) || n == 32 || n == 0xA0 || n == 0x1680 || (0x2000 <= n <= 0x200A)
    || n == 0x2028 || n == 0x2029 || n == 0x202F || n == 0x205F || n == 0x3000 || n == 0xFEFF
  }

  predicate IsBreak(c: char)
  {
    c == '\n' || c == '\r'
  }

  predicate NoBreak(s: string)
  {
    forall i :: 0 <= i < |s| ==> !IsBreak(s[i])
  }

  /** No two neighbouring characters are both whitespace. */
  predicate NoAdjacentSpace(s: string)
  {
    forall i :: 0 < i < |s| ==> !(IsSpace(s[i - 1]) && IsSpace(s[i]))
  }

  /** A character as it counts for `Visible`. */
  function Keep(c: char): string
  {
    if IsSpace(c) then [] else [c]
  }

  /** The text with its whitespace removed: what normalisation must not touch. */
  function Visible(s: string): string
  {
    MapJoin(s, Keep)
  }

  /** What `replace(/(\r\n|\n|\r)/gm, …)` puts in place of a line break. */
  datatype BreakMode = BreakToSpace | BreakRemoved

  function Replacement(mode: BreakMode): string
  {
    if mode == BreakToSpace then " " else ""
  }

  /** The first pass: each `\r\n`, `\n` or `\r`, matched left to right, becomes the replacement. */
  function Breaks(s: string, mode: BreakMode): string
  {
    if s == [] then []
    else if |s| >= 2 && s[0] == '\r' && s[1] == '\n' then Replacement(mode) + Breaks(s[2..], mode)
    else if IsBreak(s[0]) then Replacement(mode) + Breaks(s[1..], mode)
    else [s[0]] + Breaks(s[1..], mode)
  }

  /** The leading run of whitespace removed. */
  function SkipSpaces(s: string): (r: string)
    ensures |r| <= |s| && r == s[|s| - |r|..]
    ensures r == [] || !IsSpace(r[0])
    ensures s != [] && IsSpace(s[0]) ==> |r| < |s|
  {
    if s != [] && IsSpace(s[0]) then SkipSpaces(s[1..]) else s
  }

  /** The second pass, `replace(/\s{2,}/g, " ")`: each maximal run of two or more whitespace characters becomes one space. */
  function Collapse(s: string): string
    decreases |s|
  {
    if s == [] then []
    else if |s| >= 2 && IsSpace(s[0]) && IsSpace(s[1]) then " " + Collapse(SkipSpaces(s))
    else [s[0]] + Collapse(s[1..])
  }

  /** The word `cur` has ended: it counts when it is not empty. */
  function Flush(cur: string): seq<string>
  {
    if cur == [] then [] else [cur]
  }

  /** The maximal runs of non-whitespace characters of `s`, in order, the first continuing `cur`. */
  function WordsFrom(s: string, cur: string): seq<string>
    decreases |s|
  {
    if s == [] then Flush(cur)
    else if IsSpace(s[0]) then Flush(cur) + WordsFrom(s[1..], [])
    else WordsFrom(s[1..], cur + [s[0]])
  }

  /** The words of the text: what whitespace keeps apart, and normalisation must keep apart. */
  function Words(s: string): seq<string>
  {
    WordsFrom(s, [])
  }

  /** Both passes, as the CSS generators apply them. */
  function Normalize(s: string, mode: BreakMode): string
  {
    Collapse(Breaks(s, mode))
  }

  lemma {:induction false} BreaksNoBreak(s: string, mode: BreakMode)
    ensures NoBreak(Breaks(s, mode))
  {
    if s != [] {
      if |s| >= 2 && s[0] == '\r' && s[1] == '\n' {
        BreaksNoBreak(s[2..], mode);
      } else {
        BreaksNoBreak(s[1..], mode);
      }
    }
  }

  lemma {:induction false} BreaksIdentity(s: string, mode: BreakMode)
    requires NoBreak(s)
    ensures Breaks(s, mode) == s
  {
    if s != [] {
      BreaksIdentity(s[1..], mode);
    }
  }

  lemma {:induction false} BreaksVisible(s: string, mode: BreakMode)
    ensures Visible(Breaks(s, mode)) == Visible(s)
  {
    if s != [] {
      var rep := Replacement(mode);
      assert Visible(rep) == [] by {
        if rep != [] {
          assert Visible(rep) == Visible(rep[1..]);
        }
      }
      if |s| >= 2 && s[0] == '\r' && s[1] == '\n' {
        BreaksVisible(s[2..], mode);
        VisibleAppend(rep, Breaks(s[2..], mode));
        assert Visible(s) == Visible(s[1..]);
        assert s[1..][1..] == s[2..];
      } else if IsBreak(s[0]) {
        BreaksVisible(s[1..], mode);
        VisibleAppend(rep, Breaks(s[1..], mode));
      } else {
        BreaksVisible(s[1..], mode);
        VisibleAppend([s[0]], Breaks(s[1..], mode));
      }
    }
  }

  lemma VisibleAppend(a: string, b: string)
    ensures Visible(a + b) == Visible(a) + Visible(b)
  {
    MapJoinAppend(a, b, Keep);
  }

  lemma {:induction false} SkipSpacesVisible(s: string)
    ensures Visible(SkipSpaces(s)) == Visible(s)
  {
    if s != [] && IsSpace(s[0]) {
      SkipSpacesVisible(s[1..]);
    }
  }

  lemma NoAdjacentJoin(a: string, b: string)
    requires NoAdjacentSpace(a) && NoAdjacentSpace(b)
    requires a == [] || b == [] || !IsSpace(a[|a| - 1]) || !IsSpace(b[0])
    ensures NoAdjacentSpace(a + b)
  {
    var s := a + b;
    forall i | 0 < i < |s|
      ensures !(IsSpace(s[i - 1]) && IsSpace(s[i]))
    {
      if i < |a| {
        assert s[i - 1] == a[i - 1] && s[i] == a[i];
      } else if i > |a| {
        assert s[i - 1] == b[i - 1 - |a|] && s[i] == b[i - |a|];
      }
    }
  }

  /** The collapsed text is empty only for empty input and starts with whitespace exactly when the input does. */
  lemma CollapseHead(s: string)
    requires s != []
    ensures Collapse(s) != [] && (IsSpace(Collapse(s)[0]) <==> IsSpace(s[0]))
  {
  }

  /** After the second pass no two whitespace characters are neighbours. */
  lemma {:induction false} CollapseNoAdjacent(s: string)
    ensures NoAdjacentSpace(Collapse(s))
    decreases |s|
  {
    if s != [] {
      if |s| >= 2 && IsSpace(s[0]) && IsSpace(s[1]) {
        var t := SkipSpaces(s);
        CollapseNoAdjacent(t);
        if t != [] {
          CollapseHead(t);
        }
        NoAdjacentJoin(" ", Collapse(t));
      } else {
        CollapseNoAdjacent(s[1..]);
        if |s| >= 2 {
          CollapseHead(s[1..]);
        }
        NoAdjacentJoin([s[0]], Collapse(s[1..]));
      }
    }
  }

  /** The second pass introduces no line break. */
  lemma {:induction false} CollapseNoBreak(s: string)
    requires NoBreak(s)
    ensures NoBreak(Collapse(s))
    decreases |s|
  {
    if s != [] {
      if |s| >= 2 && IsSpace(s[0]) && IsSpace(s[1]) {
        var t := SkipSpaces(s);
        assert NoBreak(t) by {
          forall i | 0 <= i < |t| ensures !IsBreak(t[i]) {
            assert t[i] == s[|s| - |t| + i];
          }
        }
        CollapseNoBreak(t);
      } else {
        assert NoBreak(s[1..]) by {
          forall i | 0 <= i < |s| - 1 ensures !IsBreak(s[1..][i]) {
            assert s[1..][i] == s[i + 1];
          }
        }
        CollapseNoBreak(s[1..]);
      }
    }
  }

  /** The second pass changes only whitespace. */
  lemma {:induction false} CollapseVisible(s: string)
    ensures Visible(Collapse(s)) == Visible(s)
    decreases |s|
  {
    if s != [] {
      if |s| >= 2 && IsSpace(s[0]) && IsSpace(s[1]) {
        var t := SkipSpaces(s);
        CollapseVisible(t);
        SkipSpacesVisible(s);
        VisibleAppend(" ", Collapse(t));
        assert Visible(" ") == [];
      } else {
        CollapseVisible(s[1..]);
        VisibleAppend([s[0]], Collapse(s[1..]));
      }
    }
  }

  /** Text without neighbouring whitespace passes the second pass unchanged. */
  lemma {:induction false} CollapseIdentity(s: string)
    requires NoAdjacentSpace(s)
    ensures Collapse(s) == s
  {
    if s != [] {
      assert NoAdjacentSpace(s[1..]) by {
        forall i | 0 < i < |s| - 1 ensures !(IsSpace(s[1..][i - 1]) && IsSpace(s[1..][i])) {
          assert s[1..][i - 1] == s[i] && s[1..][i] == s[i + 1];
        }
      }
      if |s| >= 2 {
        assert !(IsSpace(s[0]) && IsSpace(s[1]));
      }
      CollapseIdentity(s[1..]);
    }
  }

  /** A leading run of whitespace ends no word. */
  lemma {:induction false} SkipSpacesWords(s: string)
    ensures Words(SkipSpaces(s)) == Words(s)
  {
    if s != [] && IsSpace(s[0]) {
      SkipSpacesWords(s[1..]);
    }
  }

  /** The second pass keeps the words: each run it shortens still separates the same two words. */
  lemma {:induction false} CollapseWords(s: string, cur: string)
    ensures WordsFrom(Collapse(s), cur) == WordsFrom(s, cur)
    decreases |s|
  {
    if s != [] {
      if |s| >= 2 && IsSpace(s[0]) && IsSpace(s[1]) {
        var t := SkipSpaces(s);
        var c := Collapse(t);
        assert (" " + c)[0] == ' ' && (" " + c)[1..] == c;
        CollapseWords(t, []);
        SkipSpacesWords(s[1..]);
      } else {
        var c := Collapse(s[1..]);
        assert ([s[0]] + c)[0] == s[0] && ([s[0]] + c)[1..] == c;
        if IsSpace(s[0]) {
          CollapseWords(s[1..], []);
        } else {
          CollapseWords(s[1..], cur + [s[0]]);
        }
      }
    }
  }

  /** Turning line breaks into spaces keeps the words: a break already separates them. */
  lemma {:induction false} BreaksWords(s: string, cur: string)
    ensures WordsFrom(Breaks(s, BreakToSpace), cur) == WordsFrom(s, cur)
  {
    if s != [] {
      if |s| >= 2 && s[0] == '\r' && s[1] == '\n' {
        var b := Breaks(s[2..], BreakToSpace);
        assert (" " + b)[0] == ' ' && (" " + b)[1..] == b;
        assert s[1..][0] == '\n' && s[1..][1..] == s[2..];
        BreaksWords(s[2..], []);
      } else {
        var b := Breaks(s[1..], BreakToSpace);
        if IsBreak(s[0]) {
          assert (" " + b)[0] == ' ' && (" " + b)[1..] == b;
          BreaksWords(s[1..], []);
        } else {
          assert ([s[0]] + b)[0] == s[0] && ([s[0]] + b)[1..] == b;
          if IsSpace(s[0]) {
            BreaksWords(s[1..], []);
          } else {
            BreaksWords(s[1..], cur + [s[0]]);
          }
        }
      }
    }
  }

  /**
   * Normalised CSS is a single line without runs of whitespace; its words
   * are those of the input once the line breaks are replaced (with breaks
   * turned into spaces, those of the input itself), so every run of
   * whitespace between two words is now exactly one character; and its
   * visible characters are those of the input, in order.
   */
  lemma NormalizeClean(s: string, mode: BreakMode)
    ensures NoBreak(Normalize(s, mode))
    ensures NoAdjacentSpace(Normalize(s, mode))
    ensures Words(Normalize(s, mode)) == Words(Breaks(s, mode))
    ensures Words(Normalize(s, BreakToSpace)) == Words(s)
    ensures Visible(Normalize(s, mode)) == Visible(s)
  {
    BreaksNoBreak(s, mode);
    CollapseNoBreak(Breaks(s, mode));
    CollapseNoAdjacent(Breaks(s, mode));
    CollapseWords(Breaks(s, mode), []);
    CollapseWords(Breaks(s, BreakToSpace), []);
    BreaksWords(s, []);
    BreaksVisible(s, mode);
    CollapseVisible(Breaks(s, mode));
  }

  /** Normalising normalised CSS changes nothing. */
  lemma NormalizeIdempotent(s: string, mode: BreakMode)
    ensures Normalize(Normalize(s, mode), mode) == Normalize(s, mode)
  {
    var r := Normalize(s, mode);
    NormalizeClean(s, mode);
    BreaksIdentity(r, mode);
    CollapseIdentity(r);
  }

  // ---------------------------------------------------------------------
  // The blocks
  // ---------------------------------------------------------------------

  /** The attribute selector `<cls>[data-reactid*="<id>"]`. */
  function Selector(cls: string, id: string): string
  {
    cls + "[data-reactid*=\"" + id + "\"]"
  }

  /** The idle image rule. */
  function Idle(url: string): string
  {
    "content: url(" + url + ");"
  }

  /** The speaking image rule, which overrides the idle one. */
  function Speaking(url: string): string
  {
    "content: url(" + url + ") !important;"
  }

  const Flex: string := "display: flex !important;"

  /**
   * The participant block of src/js/ConfigEditor.js, as the pieces of its
   * template literal; `indent` is the template's indentation, six spaces
   * there and eight in js/index.js, and `last` the text before its closing
   * backtick.
   */
  function UserBlockPieces(user: Value, indent: string, last: string): (r: seq<string>)
    ensures |r| == 13
  {
    var id := Display(Get(user, "id"));
    var open := " {\n" + indent + "  ";
    var close := "\n" + indent + "}\n" + indent;
    ["\n" + indent, Selector(".voice-state", id), open, Flex, "\n" + indent + "  margin-right: 6px !important;" + close,
     Selector(".avatar", id), open, Idle(Display(Get(user, "url"))), close,
     Selector(".speaking", id), open, Speaking(Display(Get(user, "urlSpeaking"))),
     "\n" + indent + "}\n" + last]
  }

  const Indent6: string := "      "
  const Indent8: string := "        "

  /** The participant block of src/js/ConfigEditor.js. */
  function UserBlock(user: Value): string
  {
    Join(UserBlockPieces(user, Indent6, "    "), "")
  }

  /** The same block with the deeper indentation of js/index.js. */
  function LegacyUserBlock(user: Value): string
  {
    Join(UserBlockPieces(user, Indent8, Indent8), "")
  }

  /** The oldest block: no `!important` on the container, speaking image from `url_speaking`. */
  function OldestUserBlockPieces(user: Value): (r: seq<string>)
    ensures |r| == 11
  {
    var id := Display(Get(user, "id"));
    ["\n    ", Selector(".voice-state", id), " {\n      display: flex;\n      margin-right: 6px;\n    }\n    \n    ",
     Selector(".avatar", id), " {\n      ", Idle(Display(Get(user, "url"))), "\n    }\n  \n    ",
     Selector(".speaking", id), " {\n      ", Speaking(Display(Get(user, "url_speaking"))), "\n    }\n  "]
  }

  function OldestUserBlock(user: Value): string
  {
    Join(OldestUserBlockPieces(user), "")
  }

  /** The rules a block carries for one participant: the three selectors on its id, the idle and the speaking image, and the forced display. */
  lemma UserBlockRules(user: Value)
    ensures var id := Display(Get(user, "id"));
            IsInfix(Selector(".voice-state", id), UserBlock(user)) &&
            IsInfix(Selector(".avatar", id), UserBlock(user)) &&
            IsInfix(Selector(".speaking", id), UserBlock(user)) &&
            IsInfix(Flex, UserBlock(user)) &&
            IsInfix(Idle(Display(Get(user, "url"))), UserBlock(user)) &&
            IsInfix(Speaking(Display(Get(user, "urlSpeaking"))), UserBlock(user))
  {
    var ps := UserBlockPieces(user, Indent6, "    ");
    JoinContains(ps, "", 1);
    JoinContains(ps, "", 3);
    JoinContains(ps, "", 5);
    JoinContains(ps, "", 7);
    JoinContains(ps, "", 9);
    JoinContains(ps, "", 11);
  }

  /** The oldest block keeps the same three selectors and reads the speaking image from `url_speaking`. */
  lemma OldestUserBlockRules(user: Value)
    ensures var id := Display(Get(user, "id"));
            IsInfix(Selector(".voice-state", id), OldestUserBlock(user)) &&
            IsInfix(Selector(".avatar", id), OldestUserBlock(user)) &&
            IsInfix(Selector(".speaking", id), OldestUserBlock(user)) &&
            IsInfix(Idle(Display(Get(user, "url"))), OldestUserBlock(user)) &&
            IsInfix(Speaking(Display(Get(user, "url_speaking"))), OldestUserBlock(user))
  {
    var ps := OldestUserBlockPieces(user);
    JoinContains(ps, "", 1);
    JoinContains(ps, "", 3);
    JoinContains(ps, "", 5);
    JoinContains(ps, "", 7);
    JoinContains(ps, "", 9);
  }

  /** The opening of the default block, up to the idle image's address. */
  const DefaultOpen: string :=
    "\n      .voice-state {\n        display: flex !important;\n        margin-right: 6px !important;\n      }\n      .avatar {\n        content: url("

  /** The block for the default look, without any selector on an id. */
  function DefaultBlock(defaultUser: Value): string
  {
    DefaultOpen
    + Display(Get(defaultUser, "url")) + ");\n      }\n      .speaking {\n        content: url("
    + Display(Get(defaultUser, "urlSpeaking")) + ") !important;\n      }\n      "
  }

  /** `#generateDefaultUserCss`: the block only for a truthy default with at least one key. */
  function DefaultUserCss(defaultUser: Value): (r: string)
    ensures r == "" <==> !NonEmpty(defaultUser)
    ensures NonEmpty(defaultUser) ==> r == DefaultBlock(defaultUser)
  {
    if NonEmpty(defaultUser) then
      var b := DefaultBlock(defaultUser);
      assert b[..|DefaultOpen|] == DefaultOpen;
      b
    else ""
  }

  /** `#generateAnimationCss`: always the third of the three animations written in the source. */
  const Anim3: string :=
    "\n      .avatar {\n        filter: brightness(50%);\n        transform: scale(0.95);\n        transition: filter 250ms, transform 250ms;\n      }\n      .speaking {\n        transform: scale(1);\n        filter: brightness(100%);\n      }\n    "

  function Blocks(users: seq<Value>, block: Value -> string): (r: seq<string>)
    ensures |r| == |users| && forall i :: 0 <= i < |users| ==> r[i] == block(users[i])
  {
    seq(|users|, i requires 0 <= i < |users| => block(users[i]))
  }

  /** Every entry of a list with one more entry readable: the list's and the new one. */
  lemma AllReadableAppend(users: seq<Value>, u: Value)
    ensures AllReadable(users + [u]) <==> AllReadable(users) && Readable(u)
  {
    if AllReadable(users + [u]) {
      assert (users + [u])[|users|] == u;
      forall i | 0 <= i < |users| ensures Readable(users[i]) {
        assert (users + [u])[i] == users[i];
      }
    }
  }

  /**
   * `#generateUsersCss`: one block per participant, in list order, joined
   * with " ". Reading `user.id` of a `null` or `undefined` entry throws (`None`).
   */
  function UsersCss(users: seq<Value>): (r: Option<string>)
    ensures r.None? <==> !AllReadable(users)
    ensures users == [] ==> r == Some("")
  {
    if AllReadable(users) then Some(Join(Blocks(users, UserBlock), " ")) else None
  }

  /** Joined blocks contain each participant's block, and a participant added at the end adds its block after the separator. */
  lemma BlocksJoin(users: seq<Value>, u: Value, block: Value -> string, sep: string)
    ensures forall i :: 0 <= i < |users| ==> IsInfix(block(users[i]), Join(Blocks(users, block), sep))
    ensures users != [] ==> Join(Blocks(users + [u], block), sep) == Join(Blocks(users, block), sep) + sep + block(u)
  {
    var blocks := Blocks(users, block);
    forall i | 0 <= i < |users|
      ensures IsInfix(block(users[i]), Join(blocks, sep))
    {
      JoinContains(blocks, sep, i);
    }
    if users != [] {
      assert Blocks(users + [u], block) == blocks + [block(u)];
      JoinAppend(blocks, block(u), sep);
    }
  }

  /**
   * Each participant's block is in the CSS, and a participant added at the
   * end adds exactly its block after a space; an unreadable participant
   * added at the end makes the generation throw.
   */
  lemma UsersCssBlocks(users: seq<Value>, u: Value)
    ensures AllReadable(users) ==> forall i :: 0 <= i < |users| ==> IsInfix(UserBlock(users[i]), UsersCss(users).value)
    ensures AllReadable(users) && Readable(u) && users != [] ==>
              UsersCss(users + [u]) == Some(UsersCss(users).value + " " + UserBlock(u))
    ensures !Readable(u) ==> UsersCss(users + [u]).None?
    ensures Readable(u) ==> UsersCss([u]) == Some(UserBlock(u))
  {
    BlocksJoin(users, u, UserBlock, " ");
    AllReadableAppend(users, u);
  }

  /**
   * `#updateCustomCss`: the four parts in order, normalised with line breaks
   * turned into spaces; it throws exactly when the participant blocks do.
   * The words of the parts stay apart, each whitespace run now one character.
   */
  function CustomCss(baseCss: string, defaultUser: Value, users: seq<Value>): (r: Option<string>)
    ensures r.None? <==> !AllReadable(users)
    ensures r.Some? ==> NoBreak(r.value) && NoAdjacentSpace(r.value)
    ensures r.Some? ==> Words(r.value) == Words(baseCss + Anim3 + DefaultUserCss(defaultUser) + UsersCss(users).value)
    ensures r.Some? ==> Visible(r.value) == Visible(baseCss + Anim3 + DefaultUserCss(defaultUser) + UsersCss(users).value)
    ensures r.Some? ==> Normalize(r.value, BreakToSpace) == r.value
  {
    match UsersCss(users)
    case None => None
    case Some(blocks) =>
      var css := baseCss + Anim3 + DefaultUserCss(defaultUser) + blocks;
      NormalizeClean(css, BreakToSpace);
      NormalizeIdempotent(css, BreakToSpace);
      Some(Normalize(css, BreakToSpace))
  }

  /**
   * The arguments of `updateCss` of js/index.js once resolved: a falsy
   * default user argument is read from the store when a participant list was
   * passed, and a falsy list is read from the store.
   */
  function ResolveCssArgs(defaultUser: Value, users: Value, storedDefault: Value, storedUsers: Value): (r: (Value, Value))
    ensures r.0 == (if !Truthy(defaultUser) && Truthy(users) then storedDefault else defaultUser)
    ensures r.1 == (if Truthy(users) then users else storedUsers)
  {
    var d := if !Truthy(defaultUser) && Truthy(users) then storedDefault else defaultUser;
    var u := if !Truthy(users) then storedUsers else users;
    (d, u)
  }

  /**
   * `updateCss(defaultUser, users)` of js/index.js, given what the store
   * holds: base CSS, default block and participant blocks, with line breaks
   * deleted, so words that only a line break separated run together. It
   * throws when the resolved list is not an array or holds an unreadable
   * entry.
   */
  function LegacyCss(baseCss: string, defaultUser: Value, users: Value, storedDefault: Value, storedUsers: Value): (r: Option<string>)
    ensures var u := if Truthy(users) then users else storedUsers;
            r.None? <==> !u.Arr? || !AllReadable(u.items)
    ensures r.Some? ==>
              var d := if !Truthy(defaultUser) && Truthy(users) then storedDefault else defaultUser;
              var u := if Truthy(users) then users else storedUsers;
              var css := baseCss + DefaultUserCss(d) + Join(Blocks(u.items, LegacyUserBlock), " ");
              NoBreak(r.value) && NoAdjacentSpace(r.value) && Normalize(r.value, BreakRemoved) == r.value &&
              Words(r.value) == Words(Breaks(css, BreakRemoved)) &&
              Visible(r.value) == Visible(css)
  {
    var (d, u) := ResolveCssArgs(defaultUser, users, storedDefault, storedUsers);
    if !u.Arr? || !AllReadable(u.items) then None
    else
      var css := baseCss + DefaultUserCss(d) + Join(Blocks(u.items, LegacyUserBlock), " ");
      NormalizeClean(css, BreakRemoved);
      NormalizeIdempotent(css, BreakRemoved);
      Some(Normalize(css, BreakRemoved))
  }

  /**
   * `generateUsersCss` of components/config/Config.js and index.js:
   * `(users || [])` mapped and joined with "\n". A truthy value that is not
   * an array has no `map`, and an unreadable entry has no `id`: both throw
   * (`None`).
   */
  function OldestUsersCss(users: Value): (r: Option<string>)
    ensures !Truthy(users) ==> r == Some("")
    ensures r.None? <==> Truthy(users) && (!users.Arr? || !AllReadable(users.items))
    ensures users.Arr? && users.items == [] ==> r == Some("")
  {
    if !Truthy(users) then Some("")
    else if users.Arr? && AllReadable(users.items) then Some(Join(Blocks(users.items, OldestUserBlock), "\n"))
    else None
  }

  /**
   * One block per participant, each present, in order, joined with "\n";
   * an unreadable participant added at the end makes the generation throw.
   */
  lemma OldestUsersCssBlocks(items: seq<Value>, u: Value)
    ensures OldestUsersCss(Arr(items)).Some? <==> AllReadable(items)
    ensures AllReadable(items) ==>
              forall i :: 0 <= i < |items| ==> IsInfix(OldestUserBlock(items[i]), OldestUsersCss(Arr(items)).value)
    ensures AllReadable(items) && Readable(u) && items != [] ==>
              OldestUsersCss(Arr(items + [u])) == Some(OldestUsersCss(Arr(items)).value + "\n" + OldestUserBlock(u))
    ensures !Readable(u) ==> OldestUsersCss(Arr(items + [u])).None?
  {
    OldestUsersCssArr(items);
    OldestUsersCssArr(items + [u]);
    BlocksJoin(items, u, OldestUserBlock, "\n");
    AllReadableAppend(items, u);
  }

  /** An array, empty or not, is truthy: its blocks are joined when every entry is readable. */
  lemma OldestUsersCssArr(items: seq<Value>)
    ensures OldestUsersCss(Arr(items)) == if AllReadable(items) then Some(Join(Blocks(items, OldestUserBlock), "\n")) else None
  {
    assert Truthy(Arr(items));
  }

  // ---------------------------------------------------------------------
  // The overlay URL
  // ---------------------------------------------------------------------

  const UrlPrefix: string := "https://streamkit.discord.com/overlay/voice/"

  /** `if (!v || v.length === 0) v = placeholder`. */
  function OrPlaceholder(v: Value, placeholder: string): (r: string)
    ensures (v.Str? && v.s != []) ==> r == v.s
    ensures (!Truthy(v) || Get(v, "length") == Num(0)) ==> r == placeholder
  {
    if !Truthy(v) || Get(v, "length") == Num(0) then placeholder else Display(v)
  }

  /**
   * `#updateUrl` and `handleServer`: the stream-kit URL of the server and
   * voice channel, with a placeholder for each missing or empty id.
   */
  function OverlayUrl(server: Value): (r: string)
    ensures |UrlPrefix| <= |r| && r[..|UrlPrefix|] == UrlPrefix
    ensures forall sid, vid :: sid != [] && vid != [] && Get(server, "serverId") == Str(sid) && Get(server, "vcId") == Str(vid) ==>
              r == UrlPrefix + sid + "/" + vid
    ensures !Truthy(Get(server, "serverId")) && !Truthy(Get(server, "vcId")) ==>
              r == UrlPrefix + "<SERVER ID>/<VOICE CHAT ID>"
  {
    UrlPrefix + OrPlaceholder(Get(server, "serverId"), "<SERVER ID>") + "/" + OrPlaceholder(Get(server, "vcId"), "<VOICE CHAT ID>")
  }
}

=== FILE: style_keys.dfy ===
/**
 * The inline style string the `HTML` element builder assembles
 * (lib/htmlBuilder.js and js/htmlBuilder.js carry the same code): each
 * camelCase key of the `style` object is rewritten to kebab-case by a loop
 * that replaces the first ASCII capital with `-` and its lower-case letter
 * until none is left, and the declarations `key: value;` are concatenated
 * in key order.
 */
module StyleKeys {
  import opened Wrappers
  import opened JsValue
  import opened Text

  /** The class `[A-Z]`. */
  predicate IsUpper(c: char)
  {
    'A' <= c <= 'Z'
  }

  /** `toLowerCase()` on a capital. */
  function Lower(c: char): (r: char)
    requires IsUpper(c)
    ensures 'a' <= r <= 'z' && !IsUpper(r)
  {
    (c as int + 32) as char
  }

  predicate NoUpper(s: string)
  {
    forall i :: 0 <= i < |s| ==> !IsUpper(s[i])
  }

  function CountUpper(s: string): nat
  {
    if s == [] then 0 else (if IsUpper(s[0]) then 1 else 0) + CountUpper(s[1..])
  }

  /** The key every iteration of the loop together produces: each capital becomes `-` and its lower case. */
  function Kebab(s: string): string
  {
    if s == [] then []
    else (if IsUpper(s[0]) then ['-', Lower(s[0])] else [s[0]]) + Kebab(s[1..])
  }

  /** `key.match(/[A-Z]/)`: the index of the first capital, if any. */
  function FirstUpper(s: string): (r: Option<nat>)
    ensures r.None? <==> NoUpper(s)
    ensures r.Some? ==> r.value < |s| && IsUpper(s[r.value]) && NoUpper(s[..r.value])
  {
    if s == [] then None
    else if IsUpper(s[0]) then Some(0)
    else match FirstUpper(s[1..])
      case None => None
      case Some(i) => Some(i + 1)
  }

  lemma {:induction false} KebabAppend(a: string, b: string)
    ensures Kebab(a + b) == Kebab(a) + Kebab(b)
    ensures CountUpper(a + b) == CountUpper(a) + CountUpper(b)
  {
    if a != [] {
      KebabAppend(a[1..], b);
      assert (a + b)[0] == a[0];
      assert (a + b)[1..] == a[1..] + b;
    } else {
      assert a + b == b;
    }
  }

  /** One iteration: the rewritten key has one capital fewer and the same kebab form. */
  lemma RewriteStep(s: string, i: nat)
    requires i < |s| && IsUpper(s[i])
    ensures var t := s[..i] + ['-', Lower(s[i])] + s[i + 1..];
            Kebab(t) == Kebab(s) && CountUpper(t) == CountUpper(s) - 1
  {
    var t := s[..i] + ['-', Lower(s[i])] + s[i + 1..];
    KebabAppend(s[..i] + ['-', Lower(s[i])], s[i + 1..]);
    KebabAppend(s[..i], ['-', Lower(s[i])]);
    KebabAppend(s[..i] + [s[i]], s[i + 1..]);
    KebabAppend(s[..i], [s[i]]);
    assert s == s[..i] + [s[i]] + s[i + 1..];
    KebabUnchanged(['-', Lower(s[i])]);
  }

  /** A key with no capital is its own kebab form, and only such a key is. */
  lemma {:induction false} KebabUnchanged(s: string)
    ensures Kebab(s) == s <==> NoUpper(s)
  {
    if s != [] {
      KebabUnchanged(s[1..]);
      KebabLength(s[1..]);
      if IsUpper(s[0]) {
        assert Kebab(s)[0] == '-' != s[0];
      }
    }
  }

  /** Every capital adds one character and nothing else is added or lost. */
  lemma {:induction false} KebabLength(s: string)
    ensures |Kebab(s)| == |s| + CountUpper(s)
  {
    if s != [] {
      KebabLength(s[1..]);
    }
  }

  /** The result contains no capital. */
  lemma {:induction false} KebabNoUpper(s: string)
    ensures NoUpper(Kebab(s))
  {
    if s != [] {
      KebabNoUpper(s[1..]);
      var head := if IsUpper(s[0]) then ['-', Lower(s[0])] else [s[0]];
      assert NoUpper(head);
      assert Kebab(s) == head + Kebab(s[1..]);
    }
  }

  /** Converting an already converted key changes nothing. */
  lemma KebabIdempotent(s: string)
    ensures Kebab(Kebab(s)) == Kebab(s)
  {
    KebabNoUpper(s);
    KebabUnchanged(Kebab(s));
  }

  /** The `while` loop over one key. */
  method KebabKey(key: string) returns (r: string)
    ensures r == Kebab(key)
  {
    r := key;
    var match_ := FirstUpper(r);
    while match_.Some?
      invariant Kebab(r) == Kebab(key)
      invariant match_ == FirstUpper(r)
      decreases CountUpper(r)
    {
      var i := match_.value;
      RewriteStep(r, i);
      r := r[..i] + ['-', Lower(r[i])] + r[i + 1..];
      match_ := FirstUpper(r);
    }
    KebabUnchanged(r);
  }

  /** One declaration of the style string. */
  function Declaration(p: Prop): string
  {
    Kebab(p.key) + ": " + Display(p.val) + ";"
  }

  /** `Object.keys(style).map(...).join("")`. */
  function StyleString(props: seq<Prop>): string
  {
    MapJoin(props, Declaration)
  }

  /** The style string of a longer style object extends the shorter one's: declarations follow key order with no separator. */
  lemma StyleStringAppend(a: seq<Prop>, b: seq<Prop>)
    ensures StyleString(a + b) == StyleString(a) + StyleString(b)
  {
    MapJoinAppend(a, b, Declaration);
  }

  /**
   * The style the element receives: nothing when `style` is falsy,
   * otherwise the declarations of its own keys.
   */
  function ElementStyle(style: Value): (r: Option<string>)
    ensures r.None? <==> !Truthy(style)
    ensures style.Obj? && style.props == [] ==> r == Some("")
  {
    if Truthy(style) then Some(StyleString(OwnProps(style))) else None
  }
}

=== FILE: text.dfy ===
/** Sequence and string building shared by the other modules. */
module Text {

  /** Concatenation regroups freely. */
  lemma AppendAssoc<T>(x: seq<T>, y: seq<T>, z: seq<T>)
    ensures x + (y + z) == (x + y) + z
  {
  }

  /** A prefix one longer is the prefix and the next element. */
  lemma TakeNext<T>(s: seq<T>, i: nat)
    requires i < |s|
    ensures s[..i + 1] == s[..i] + [s[i]]
  {
  }

  /** `s.map(f).join("")`: each element replaced by its text, the texts concatenated. */
  function MapJoin<T>(s: seq<T>, f: T -> string): string
  {
    if s == [] then [] else f(s[0]) + MapJoin(s[1..], f)
  }

  /** Mapping then joining distributes over appending the lists. */
  lemma {:induction false} MapJoinAppend<T>(a: seq<T>, b: seq<T>, f: T -> string)
    ensures MapJoin(a + b, f) == MapJoin(a, f) + MapJoin(b, f)
  {
    if a == [] {
      assert a + b == b;
    } else {
      MapJoinAppend(a[1..], b, f);
      assert (a + b)[1..] == a[1..] + b;
      AppendAssoc(f(a[0]), MapJoin(a[1..], f), MapJoin(b, f));
    }
  }
}

=== FILE: user_order.dfy ===
/**
 * The order of the participant list (`sortUsers`, src/js/utils.js,
 * src/index.js and js/index.js): entries that carry a truthy `date` come
 * first, the most recent first; the others follow in ascending order of
 * their `id`. Dates are integer timestamps (a `date` that is not a number
 * counts as time 0); `localeCompare` is lexicographic comparison of
 * character codes. `Array.prototype.sort` is stable, so the list is modelled
 * by a stable insertion sort, both as a function and as the in-place method
 * the source calls. As ECMAScript's `SortCompare` prescribes, `undefined`
 * entries order after all others and never reach the comparator. The
 * comparator throws on some entries (a `null` entry, an undated entry
 * without a string `id`); `CheckedSort` says when, and `SortUsers` is what a
 * sort that does not throw leaves.
 */
module UserOrder {
  import opened Wrappers
  import opened JsValue

  /** Whether `u.date` is truthy. */
  predicate Dated(u: Value)
  {
    Truthy(Get(u, "date"))
  }

  /** `new Date(u.date)` as a timestamp. */
  function Time(u: Value): int
  {
    match Get(u, "date")
    case Num(n) => n
    case _ => 0
  }

  /** `String(u.id)`: the text `localeCompare` compares (`"undefined"` for a missing `id`). */
  function Id(u: Value): string
  {
    Display(Get(u, "id"))
  }

  /** `s.localeCompare(t)`, taken as lexicographic order on character codes. */
  function StrCompare(s: string, t: string): (r: int)
    ensures -1 <= r <= 1
  {
    if s == [] && t == [] then 0
    else if s == [] then -1
    else if t == [] then 1
    else if s[0] < t[0] then -1
    else if s[0] > t[0] then 1
    else StrCompare(s[1..], t[1..])
  }

  /** The comparator passed to `sort`, on entries it runs to the end on. */
  function Compare(a: Value, b: Value): int
  {
    if Dated(a) && Dated(b) then Time(b) - Time(a)
    else if Dated(a) then -1
    else if Dated(b) then 1
    else StrCompare(Id(a), Id(b))
  }

  /**
   * One call of the comparator as the source runs it, `None` where it
   * throws: `a.date` and then `b.date` are read of every pair, and
   * `a.id.localeCompare(b.id)` needs a string `a.id` and a `b.id` with a
   * string form (a symbol has none).
   */
  function Comparison(a: Value, b: Value): (r: Option<int>)
    ensures r.Some? ==> r.value == Compare(a, b)
    ensures r.None? <==>
              !Readable(a) || !Readable(b) ||
              (!Dated(a) && !Dated(b) && (!Get(a, "id").Str? || Get(b, "id").Sym?))
  {
    if !Readable(a) || !Readable(b) then None
    else if Dated(a) && Dated(b) then Some(Time(b) - Time(a))
    else if Dated(a) then Some(-1)
    else if Dated(b) then Some(1)
    else if !Get(a, "id").Str? || Get(b, "id").Sym? then None
    else Some(StrCompare(Get(a, "id").s, Display(Get(b, "id"))))
  }

  /**
   * ECMAScript's `SortCompare` with the comparator: `undefined` orders after
   * every other entry, two `undefined`s tie, and only two other entries
   * reach the comparator.
   */
  function SortCompare(a: Value, b: Value): int
  {
    if a.Undefined? && b.Undefined? then 0
    else if a.Undefined? then 1
    else if b.Undefined? then -1
    else Compare(a, b)
  }

  /** One `SortCompare` as the engine runs it, `None` where the comparator it calls throws. */
  function SortComparison(a: Value, b: Value): (r: Option<int>)
    ensures r.Some? ==> r.value == SortCompare(a, b)
    ensures r.None? <==> !a.Undefined? && !b.Undefined? && Comparison(a, b).None?
  {
    if a.Undefined? || b.Undefined? then Some(SortCompare(a, b)) else Comparison(a, b)
  }

  /**
   * An entry the sort never throws on: `undefined`, which is never passed to
   * the comparator, or a readable entry that is dated or has a string `id`.
   */
  predicate SortableEntry(u: Value)
  {
    u.Undefined? || (Readable(u) && (Dated(u) || Get(u, "id").Str?))
  }

  /** A list every entry of which is sortable. */
  predicate Sortable(s: seq<Value>)
  {
    forall i :: 0 <= i < |s| ==> SortableEntry(s[i])
  }

  lemma {:induction false} StrCompareFlip(s: string, t: string)
    ensures StrCompare(s, t) == -StrCompare(t, s)
    ensures StrCompare(s, t) == 0 <==> s == t
  {
    if s != [] && t != [] && s[0] == t[0] {
      StrCompareFlip(s[1..], t[1..]);
      assert s == [s[0]] + s[1..] && t == [t[0]] + t[1..];
    }
  }

  lemma {:induction false} StrCompareTransitive(s: string, t: string, u: string)
    requires StrCompare(s, t) <= 0 && StrCompare(t, u) <= 0
    ensures StrCompare(s, u) <= 0
  {
    if s != [] && t != [] && u != [] && s[0] == t[0] && t[0] == u[0] {
      StrCompareTransitive(s[1..], t[1..], u[1..]);
    }
  }

  /**
   * Swapping the arguments flips the comparator's sign and keeps a tie a
   * tie, wherever it runs to the end (see `Comparison`).
   */
  lemma CompareFlip(a: Value, b: Value)
    ensures Compare(a, b) > 0 <==> Compare(b, a) < 0
    ensures Compare(a, b) == 0 <==> Compare(b, a) == 0
  {
    StrCompareFlip(Id(a), Id(b));
  }

  /** "Not after" is transitive, so the comparator is a total preorder. */
  lemma CompareTransitive(a: Value, b: Value, c: Value)
    requires Compare(a, b) <= 0 && Compare(b, c) <= 0
    ensures Compare(a, c) <= 0
  {
    if !Dated(a) && !Dated(b) && !Dated(c) {
      StrCompareTransitive(Id(a), Id(b), Id(c));
    }
  }

  /** Putting `undefined` last keeps the order antisymmetric. */
  lemma SortCompareFlip(a: Value, b: Value)
    ensures SortCompare(a, b) > 0 <==> SortCompare(b, a) < 0
    ensures SortCompare(a, b) == 0 <==> SortCompare(b, a) == 0
  {
    CompareFlip(a, b);
  }

  /** Putting `undefined` last keeps the order a total preorder. */
  lemma SortCompareTransitive(a: Value, b: Value, c: Value)
    requires SortCompare(a, b) <= 0 && SortCompare(b, c) <= 0
    ensures SortCompare(a, c) <= 0
  {
    if !a.Undefined? && !b.Undefined? && !c.Undefined? {
      CompareTransitive(a, b, c);
    }
  }

  /** No entry is followed by one that `cmp` puts before it. */
  predicate SortedBy(cmp: Comparator, s: seq<Value>)
  {
    forall i, j :: 0 <= i < j < |s| ==> cmp(s[i], s[j]) <= 0
  }

  /** No entry is followed by one that `SortCompare` puts before it. */
  predicate Sorted(s: seq<Value>)
  {
    SortedBy(SortCompare, s)
  }

  /** A comparator as `Array.prototype.sort` takes it. */
  type Comparator = (Value, Value) -> int

  /**
   * Where stable insertion puts `x`: just after the last entry, scanning
   * back from the end, that is not after it.
   */
  function Pos(cmp: Comparator, sorted: seq<Value>, x: Value): (k: nat)
    ensures k <= |sorted|
  {
    if sorted == [] || cmp(sorted[|sorted| - 1], x) <= 0 then |sorted|
    else Pos(cmp, sorted[..|sorted| - 1], x)
  }

  /** Stable insertion of `x` into a sorted list. */
  function Insert(cmp: Comparator, sorted: seq<Value>, x: Value): seq<Value>
  {
    var k := Pos(cmp, sorted, x);
    sorted[..k] + [x] + sorted[k..]
  }

  /** `Array.prototype.sort(cmp)`, a stable sort, on the array's entries. */
  function SortBy(cmp: Comparator, s: seq<Value>): seq<Value>
  {
    if s == [] then [] else Insert(cmp, SortBy(cmp, s[..|s| - 1]), s[|s| - 1])
  }

  /** `sortUsers(users)` on the list's entries. */
  function SortUsers(s: seq<Value>): seq<Value>
  {
    SortBy(SortCompare, s)
  }

  /** Every entry skipped over is after `x`, and the one `x` lands behind is not. */
  lemma {:induction false} PosBounds(cmp: Comparator, sorted: seq<Value>, x: Value)
    ensures forall m :: Pos(cmp, sorted, x) <= m < |sorted| ==> cmp(sorted[m], x) > 0
    ensures Pos(cmp, sorted, x) > 0 ==> cmp(sorted[Pos(cmp, sorted, x) - 1], x) <= 0
  {
    if sorted != [] && cmp(sorted[|sorted| - 1], x) > 0 {
      PosBounds(cmp, sorted[..|sorted| - 1], x);
    }
  }

  /** The insertion point is the first of a run of entries, up to the end, that are all after `x`. */
  lemma {:induction false} PosIs(cmp: Comparator, sorted: seq<Value>, x: Value, j: nat)
    requires j <= |sorted|
    requires forall m :: j <= m < |sorted| ==> cmp(sorted[m], x) > 0
    requires j == 0 || cmp(sorted[j - 1], x) <= 0
    ensures Pos(cmp, sorted, x) == j
    decreases |sorted|
  {
    if j < |sorted| {
      PosIs(cmp, sorted[..|sorted| - 1], x, j);
    }
  }

  lemma InsertPermutes(cmp: Comparator, sorted: seq<Value>, x: Value)
    ensures multiset(Insert(cmp, sorted, x)) == multiset(sorted) + multiset{x}
  {
    var k := Pos(cmp, sorted, x);
    assert sorted == sorted[..k] + sorted[k..];
  }

  /**
   * Stable insertion keeps a list sorted when `x` compares consistently with
   * its entries: an entry before one not after `x` is not after `x` either,
   * and `x` is not after any entry that is after it.
   */
  lemma InsertSortedBy(cmp: Comparator, sorted: seq<Value>, x: Value)
    requires SortedBy(cmp, sorted)
    requires forall i, m :: 0 <= i < m < |sorted| && cmp(sorted[m], x) <= 0 ==> cmp(sorted[i], x) <= 0
    requires forall m :: 0 <= m < |sorted| && cmp(sorted[m], x) > 0 ==> cmp(x, sorted[m]) <= 0
    ensures SortedBy(cmp, Insert(cmp, sorted, x))
  {
    var k := Pos(cmp, sorted, x);
    var r := Insert(cmp, sorted, x);
    PosBounds(cmp, sorted, x);
    forall i, j | 0 <= i < j < |r|
      ensures cmp(r[i], r[j]) <= 0
    {
      if j < k {
        assert r[i] == sorted[i] && r[j] == sorted[j];
      } else if j == k {
        assert r[i] == sorted[i] && r[j] == x;
      } else if i < k {
        assert r[i] == sorted[i] && r[j] == sorted[j - 1];
      } else if i == k {
        assert r[i] == x && r[j] == sorted[j - 1];
      } else {
        assert r[i] == sorted[i - 1] && r[j] == sorted[j - 1];
      }
    }
  }

  lemma InsertSorted(sorted: seq<Value>, x: Value)
    requires Sorted(sorted)
    ensures Sorted(Insert(SortCompare, sorted, x))
  {
    forall i, m | 0 <= i < m < |sorted| && SortCompare(sorted[m], x) <= 0
      ensures SortCompare(sorted[i], x) <= 0
    {
      SortCompareTransitive(sorted[i], sorted[m], x);
    }
    forall m | 0 <= m < |sorted| && SortCompare(sorted[m], x) > 0
      ensures SortCompare(x, sorted[m]) <= 0
    {
      SortCompareFlip(sorted[m], x);
    }
    InsertSortedBy(SortCompare, sorted, x);
  }

  /** The result holds exactly the entries of the list, each as often, whatever the comparator. */
  lemma {:induction false} SortPermutes(cmp: Comparator, s: seq<Value>)
    ensures multiset(SortBy(cmp, s)) == multiset(s)
  {
    if s != [] {
      var n := |s| - 1;
      SortPermutes(cmp, s[..n]);
      InsertPermutes(cmp, SortBy(cmp, s[..n]), s[n]);
      assert s == s[..n] + [s[n]];
    }
  }

  /** The participant list comes out in the comparator's order. */
  lemma {:induction false} SortSorts(s: seq<Value>)
    ensures Sorted(SortUsers(s))
  {
    if s != [] {
      SortSorts(s[..|s| - 1]);
      InsertSorted(SortUsers(s[..|s| - 1]), s[|s| - 1]);
    }
  }

  /** A list already in order is left as it is. */
  lemma {:induction false} SortKeepsSorted(s: seq<Value>)
    requires Sorted(s)
    ensures SortUsers(s) == s
  {
    if s != [] {
      var n := |s| - 1;
      assert Sorted(s[..n]);
      SortKeepsSorted(s[..n]);
      PosIs(SortCompare, s[..n], s[n], n);
      assert s == s[..n] + [s[n]];
    }
  }

  /** Sorting neither adds nor drops an entry. */
  lemma SortUsersMembers(s: seq<Value>)
    ensures forall u :: u in SortUsers(s) <==> u in s
  {
    SortPermutes(SortCompare, s);
    forall u
      ensures u in SortUsers(s) <==> u in s
    {
      assert u in SortUsers(s) <==> u in multiset(SortUsers(s));
      assert u in s <==> u in multiset(s);
    }
  }

  /** Sorting twice is sorting once. */
  lemma SortIdempotent(s: seq<Value>)
    ensures SortUsers(SortUsers(s)) == SortUsers(s)
  {
    SortSorts(s);
    SortKeepsSorted(SortUsers(s));
  }

  /**
   * In the sorted list the `undefined` entries come last; before them every
   * dated entry comes before every undated one, dated entries run from the
   * most recent to the oldest, and undated ones in ascending `id` order.
   */
  lemma SortedOrder(s: seq<Value>)
    ensures var r := SortUsers(s);
            forall i, j :: 0 <= i < j < |r| ==>
              (r[i].Undefined? ==> r[j].Undefined?) &&
              (!r[j].Undefined? ==>
                 (Dated(r[j]) ==> Dated(r[i])) &&
                 (Dated(r[i]) && Dated(r[j]) ==> Time(r[i]) >= Time(r[j])) &&
                 (!Dated(r[i]) && !Dated(r[j]) ==> StrCompare(Id(r[i]), Id(r[j])) <= 0))
  {
    SortSorts(s);
  }

  /** An entry written at `j` with the entries from `j` on moved up by one. */
  lemma Shifted(b: seq<Value>, p: seq<Value>, x: Value, j: nat)
    requires j <= |p| && |b| == |p| + 1
    requires forall k :: 0 <= k < j ==> b[k] == p[k]
    requires b[j] == x
    requires forall k :: j < k <= |p| ==> b[k] == p[k - 1]
    ensures b == p[..j] + [x] + p[j..]
  {
  }

  /**
   * Where the engine's insertion puts `x`, scanning back from the end and
   * comparing with `x` first; `None` when a comparator call throws.
   */
  function CheckedPos(sorted: seq<Value>, x: Value): (r: Option<nat>)
    ensures r.Some? ==> r.value <= |sorted|
  {
    if sorted == [] then Some(0)
    else match SortComparison(x, sorted[|sorted| - 1])
      case None => None
      case Some(c) => if c >= 0 then Some(|sorted|) else CheckedPos(sorted[..|sorted| - 1], x)
  }

  /** `users.sort(compare)` as the source runs it: the sorted entries, or `None` when a comparison throws. */
  function CheckedSort(s: seq<Value>): (r: Option<seq<Value>>)
    ensures r.Some? ==> |r.value| == |s|
  {
    if s == [] then Some([])
    else match CheckedSort(s[..|s| - 1])
      case None => None
      case Some(p) =>
        (match CheckedPos(p, s[|s| - 1])
         case None => None
         case Some(k) => Some(p[..k] + [s[|s| - 1]] + p[k..]))
  }

  /** Where the scan runs to the end it finds the insertion point of `Pos`. */
  lemma {:induction false} CheckedPosIsPos(sorted: seq<Value>, x: Value)
    ensures CheckedPos(sorted, x).Some? ==> CheckedPos(sorted, x).value == Pos(SortCompare, sorted, x)
  {
    if sorted != [] && SortComparison(x, sorted[|sorted| - 1]).Some? {
      SortCompareFlip(x, sorted[|sorted| - 1]);
      CheckedPosIsPos(sorted[..|sorted| - 1], x);
    }
  }

  /** The scan runs to the end when `x` compares with every entry. */
  lemma {:induction false} CheckedPosSucceeds(sorted: seq<Value>, x: Value)
    requires forall i :: 0 <= i < |sorted| ==> SortComparison(x, sorted[i]).Some?
    ensures CheckedPos(sorted, x).Some?
  {
    if sorted != [] && SortComparison(x, sorted[|sorted| - 1]).value < 0 {
      CheckedPosSucceeds(sorted[..|sorted| - 1], x);
    }
  }

  /** A sort that does not throw gives the stable order of `SortUsers`. */
  lemma {:induction false} CheckedSortIsSort(s: seq<Value>)
    ensures CheckedSort(s).Some? ==> CheckedSort(s).value == SortUsers(s)
  {
    if s != [] && CheckedSort(s).Some? {
      var n := |s| - 1;
      CheckedSortIsSort(s[..n]);
      CheckedPosIsPos(CheckedSort(s[..n]).value, s[n]);
    }
  }

  /** The sort never throws comparing two sortable entries. */
  lemma SortableCompares(a: Value, b: Value)
    requires SortableEntry(a) && SortableEntry(b)
    ensures SortComparison(a, b).Some?
  {
  }

  /** A list of sortable entries sorts without throwing. */
  lemma {:induction false} SortableSucceeds(s: seq<Value>)
    requires Sortable(s)
    ensures CheckedSort(s).Some?
  {
    if s != [] {
      var n := |s| - 1;
      assert Sortable(s[..n]);
      SortableSucceeds(s[..n]);
      CheckedSortIsSort(s[..n]);
      var p := CheckedSort(s[..n]).value;
      SortPermutes(SortCompare, s[..n]);
      PermutationCompares(s[..n], p, s[n]);
      CheckedPosSucceeds(p, s[n]);
    }
  }

  /** A sortable entry compares without throwing with every entry of a rearranged sortable list. */
  lemma PermutationCompares(s: seq<Value>, p: seq<Value>, x: Value)
    requires Sortable(s) && SortableEntry(x) && multiset(p) == multiset(s)
    ensures forall i :: 0 <= i < |p| ==> SortComparison(x, p[i]).Some?
  {
    forall i | 0 <= i < |p|
      ensures SortComparison(x, p[i]).Some?
    {
      assert p[i] in multiset(s);
      var j :| 0 <= j < |s| && s[j] == p[i];
      SortableCompares(x, p[i]);
    }
  }

  /** Once a prefix of the list throws, so does the whole list. */
  lemma {:induction false} CheckedSortPrefix(s: seq<Value>, k: nat)
    requires k <= |s| && CheckedSort(s[..k]).None?
    ensures CheckedSort(s).None?
    decreases |s|
  {
    if k == |s| {
      assert s[..k] == s;
    } else {
      var init := s[..|s| - 1];
      assert init[..k] == s[..k];
      CheckedSortPrefix(init, k);
      assert s != [] && CheckedSort(s[..|s| - 1]).None?;
    }
  }

  /**
   * A list holding a `null` and another entry that is not `undefined`
   * throws: `null` meets the comparator as soon as it is compared with an
   * entry other than `undefined`.
   */
  lemma {:induction false} CheckedSortThrows(s: seq<Value>, i: nat, j: nat)
    requires i < |s| && j < |s| && i != j
    requires s[i].Null? && !s[j].Undefined?
    ensures CheckedSort(s).None?
    decreases |s|
  {
    var n := |s| - 1;
    var init := s[..n];
    if i < n && j < n {
      CheckedSortThrows(init, i, j);
    } else if CheckedSort(init).Some? {
      var p := CheckedSort(init).value;
      SortedPermutes(init);
      if i == n {
        var k := EntryOf(init, p, j);
        NullMeetsDefined(p, s[n], k);
      } else if m :| 0 <= m < n && m != i && !init[m].Undefined? {
        CheckedSortThrows(init, i, m);
      } else {
        var k := EntryOf(init, p, i);
        OnlyUndefinedOrNull(init, p);
        DefinedMeetsNull(p, s[n], k);
      }
    }
  }

  /** A sort that does not throw permutes the entries. */
  lemma SortedPermutes(s: seq<Value>)
    requires CheckedSort(s).Some?
    ensures multiset(CheckedSort(s).value) == multiset(s)
  {
    CheckedSortIsSort(s);
    SortPermutes(SortCompare, s);
  }

  /** Where the entry `s[m]` sits in a permutation `p` of `s`. */
  lemma EntryOf(s: seq<Value>, p: seq<Value>, m: nat) returns (k: nat)
    requires multiset(p) == multiset(s) && m < |s|
    ensures k < |p| && p[k] == s[m]
  {
    assert s[m] in multiset(p);
    k :| 0 <= k < |p| && p[k] == s[m];
  }

  /** A permutation of entries that are all `undefined` or `null` holds only such entries. */
  lemma OnlyUndefinedOrNull(s: seq<Value>, p: seq<Value>)
    requires multiset(p) == multiset(s)
    requires forall m :: 0 <= m < |s| ==> s[m].Undefined? || s[m].Null?
    ensures forall q :: 0 <= q < |p| ==> p[q].Undefined? || p[q].Null?
  {
    forall q | 0 <= q < |p|
      ensures p[q].Undefined? || p[q].Null?
    {
      assert p[q] in multiset(s);
    }
  }

  /** Inserting `null` throws once the scan reaches an entry that is not `undefined`. */
  lemma {:induction false} NullMeetsDefined(p: seq<Value>, x: Value, k: nat)
    requires x.Null? && k < |p| && !p[k].Undefined?
    ensures CheckedPos(p, x).None?
  {
    if !p[|p| - 1].Undefined? {
      return;
    }
    NullMeetsDefined(p[..|p| - 1], x, k);
  }

  /** Inserting an entry other than `undefined` behind `undefined`s and a `null` throws. */
  lemma {:induction false} DefinedMeetsNull(p: seq<Value>, x: Value, k: nat)
    requires !x.Undefined? && k < |p| && p[k].Null?
    requires forall q :: 0 <= q < |p| ==> p[q].Undefined? || p[q].Null?
    ensures CheckedPos(p, x).None?
  {
    if p[|p| - 1].Null? {
      return;
    }
    DefinedMeetsNull(p[..|p| - 1], x, k);
  }

  /** `undefined` entries never reach the comparator, so `[undefined, null]` sorts to `[null, undefined]`. */
  lemma UndefinedNeverCompared(a: Value)
    ensures CheckedSort([Undefined, a]) == Some([a, Undefined])
    ensures CheckedSort([Undefined, Undefined]) == Some([Undefined, Undefined])
  {
    var e: seq<Value> := [];
    var one: seq<Value> := [Undefined];
    assert one[..0] == e && [Undefined, a][..1] == one && [Undefined, Undefined][..1] == one;
    assert CheckedPos(e, Undefined) == Some(0);
    assert e[..0] + [Undefined] + e[0..] == one;
    assert CheckedSort(one) == Some(one);
    if a.Undefined? {
      assert CheckedPos(one, a) == Some(1);
      assert one[..1] + [a] + one[1..] == [a, Undefined];
    } else {
      assert CheckedPos(e, a) == Some(0);
      assert CheckedPos(one, a) == Some(0);
      assert one[..0] + [a] + one[0..] == [a, Undefined];
    }
    assert CheckedPos(one, Undefined) == Some(1);
    assert one[..1] + [Undefined] + one[1..] == [Undefined, Undefined];
  }

  /** Two undated entries, the second without a string `id`, throw as `[{url: "x"}, {url: "y"}]` does. */
  lemma UndatedWithoutIdThrows(a: Value, b: Value)
    requires Readable(a) && Readable(b) && !Dated(a) && !Dated(b) && !Get(b, "id").Str?
    ensures CheckedSort([a, b]).None?
  {
    assert [a, b][..1] == [a] && [a][..0] == [];
  }

  /**
   * The entries before `i` that order after `x`, moved up by one from the
   * end; `j` is where `x` belongs, unless a comparison threw (`!ok`).
   */
  method ShiftUp(a: array<Value>, i: nat, x: Value) returns (j: nat, ok: bool)
    requires i < a.Length
    modifies a
    ensures j <= i
    ensures ok <==> CheckedPos(old(a[..i]), x).Some?
    ensures ok ==> j == CheckedPos(old(a[..i]), x).value
    ensures forall k :: 0 <= k < j ==> a[k] == old(a[k])
    ensures forall k :: j < k <= i ==> a[k] == old(a[k - 1])
    ensures a[i + 1..] == old(a[i + 1..])
  {
    ghost var p := a[..i];
    assert p[..i] == p;
    j, ok := i, true;
    while j > 0
      invariant 0 <= j <= i
      invariant forall k :: 0 <= k < j ==> a[k] == p[k]
      invariant forall k :: j < k <= i ==> a[k] == p[k - 1]
      invariant a[i + 1..] == old(a[i + 1..])
      invariant CheckedPos(p, x) == CheckedPos(p[..j], x)
    {
      var c := SortComparison(x, a[j - 1]);
      if c.None? || c.value >= 0 {
        ok := c.Some?;
        return;
      }
      assert p[..j][..j - 1] == p[..j - 1];
      a[j] := a[j - 1];
      j := j - 1;
    }
  }

  /** One step of the sort: the entry at `i` moves back past every entry after it in order. */
  method InsertInPlace(a: array<Value>, i: nat) returns (ok: bool)
    requires i < a.Length
    modifies a
    ensures ok <==> CheckedPos(old(a[..i]), old(a[i])).Some?
    ensures ok ==> var k := CheckedPos(old(a[..i]), old(a[i])).value;
                   a[..i + 1] == old(a[..i])[..k] + [old(a[i])] + old(a[..i])[k..]
    ensures a[i + 1..] == old(a[i + 1..])
  {
    var x := a[i];
    ghost var p := a[..i];
    var j;
    j, ok := ShiftUp(a, i, x);
    if ok {
      a[j] := x;
      Shifted(a[..i + 1], p, x, j);
    }
  }

  /** The insertion sort on the array itself, stopping at the first comparison that throws. */
  method CheckedSortInPlace(a: array<Value>) returns (ok: bool)
    modifies a
    ensures ok <==> CheckedSort(old(a[..])).Some?
    ensures ok ==> a[..] == CheckedSort(old(a[..])).value
  {
    ghost var input := a[..];
    var i := 0;
    ok := true;
    while i < a.Length
      invariant 0 <= i <= a.Length
      invariant CheckedSort(input[..i]) == Some(a[..i])
      invariant a[i..] == input[i..]
    {
      assert a[i] == input[i];
      assert input[..i + 1][..i] == input[..i];
      ok := InsertInPlace(a, i);
      if !ok {
        CheckedSortPrefix(input, i + 1);
        return;
      }
      i := i + 1;
    }
    assert input[..i] == input;
  }

  /**
   * `sortUsers(users)`: `sort` sorts a copy of the entries and writes them
   * back only when no comparison threw, so a throwing sort leaves the list
   * as it was.
   */
  method SortUsersInPlace(users: array<Value>) returns (ok: bool)
    modifies users
    ensures ok <==> CheckedSort(old(users[..])).Some?
    ensures ok ==> users[..] == SortUsers(old(users[..]))
    ensures !ok ==> users[..] == old(users[..])
  {
    var work := new Value[users.Length];
    Copy(users, work);
    ok := CheckedSortInPlace(work);
    CheckedSortIsSort(old(users[..]));
    if ok {
      Copy(work, users);
    }
  }

  /** The entries of `source` written over those of `target`. */
  method Copy(source: array<Value>, target: array<Value>)
    requires source.Length == target.Length && source != target
    modifies target
    ensures target[..] == source[..]
  {
    var i := 0;
    while i < target.Length
      invariant 0 <= i <= target.Length
      invariant target[..i] == source[..i]
    {
      target[i] := source[i];
      i := i + 1;
    }
    assert target[..i] == target[..] && source[..i] == source[..];
  }
}

=== FILE: users_editor.dfy ===
/**
 * The participant editor of the current tool (src/js/UsersEditor.js): the
 * update form of each entry and of the default user, and their remove
 * buttons. Each action reads a slot, computes the new value with the edits
 * of module Editors and writes it back through the slot's `set`.
 */
module UsersEditor {
  import opened Wrappers
  import opened JsValue
  import opened Browser
  import opened LibState
  import opened UserOrder
  import opened App
  import opened Editors

  /** `#updateUser(userId, data)`: the list with the matching entries merged, written back. */
  function UpdateUserSpec(w: World, listeners: map<string, seq<Listener>>, store: StoreConfig, userId: Value, data: Value): Step
  {
    var users := Stored(w, "users");
    if !users.Arr? || !AllReadable(users.items) then Step(w, Fail(TypeError))
    else ElementSet(w, listeners, store, UsersSlot, Arr(UpdatedUsers(users.items, userId, data)))
  }

  /**
   * The update throws without writing when the stored list is not an array
   * or holds an unreadable entry, or when sorting the updated list throws;
   * otherwise it completes exactly when the updated list has text, and then
   * the slot holds the updated entries, each as often as before the update,
   * sorted by the store.
   */
  lemma UpdateUserStores(w: World, listeners: map<string, seq<Listener>>, store: StoreConfig, userId: Value, data: Value)
    ensures var users := Stored(w, "users");
            var r := UpdateUserSpec(w, listeners, store, userId, data);
            (!users.Arr? || !AllReadable(users.items) ==> r == Step(w, Fail(TypeError))) &&
            (users.Arr? && AllReadable(users.items) ==>
               var updated := UpdatedUsers(users.items, userId, data);
               var stored := SortUsers(updated);
               (CheckedSort(updated).None? ==> r == Step(w, Fail(TypeError))) &&
               (r.outcome.Pass? <==> CheckedSort(updated).Some? && ValueToString(Arr(stored)).Success?) &&
               (r.outcome.Pass? ==>
                  r.world.storage == w.storage["users" := Arr(stored)] &&
                  Sorted(stored) && multiset(stored) == multiset(UpdatedUsers(users.items, userId, data))))
  {
    var users := Stored(w, "users");
    if users.Arr? && AllReadable(users.items) {
      var updated := UpdatedUsers(users.items, userId, data);
      assert UpdateUserSpec(w, listeners, store, userId, data) == ElementSet(w, listeners, store, UsersSlot, Arr(updated));
      UsersSetStores(w, listeners, store, updated);
    }
  }

  /** `#removeUser(userId)`: the list without the entries of that id, written back. */
  function RemoveUserSpec(w: World, listeners: map<string, seq<Listener>>, store: StoreConfig, userId: Value): Step
  {
    var users := Stored(w, "users");
    if !users.Arr? || !AllReadable(users.items) then Step(w, Fail(TypeError))
    else ElementSet(w, listeners, store, UsersSlot, Arr(RemovedUsers(users.items, userId)))
  }

  /**
   * A completed removal leaves in the slot exactly the entries of other
   * ids, sorted; an unreadable list throws without writing.
   */
  lemma RemoveUserStores(w: World, listeners: map<string, seq<Listener>>, store: StoreConfig, userId: Value)
    ensures var users := Stored(w, "users");
            var r := RemoveUserSpec(w, listeners, store, userId);
            (!users.Arr? || !AllReadable(users.items) ==> r == Step(w, Fail(TypeError))) &&
            (r.outcome.Pass? ==>
               users.Arr? &&
               var stored := SortUsers(RemovedUsers(users.items, userId));
               r.world.storage == w.storage["users" := Arr(stored)] && Sorted(stored) &&
               forall u :: u in stored <==> u in users.items && Get(u, "id") != userId)
  {
    var users := Stored(w, "users");
    if users.Arr? && AllReadable(users.items) {
      var kept := RemovedUsers(users.items, userId);
      UsersSetStores(w, listeners, store, kept);
      RemovedUsersMembers(users.items, userId);
      SortUsersMembers(kept);
    }
  }

  /** `#updateDefaultUser(data)` as src/js/UsersEditor.js writes it: the data under a key `data`. */
  function UpdateDefaultUserAsWrittenSpec(w: World, listeners: map<string, seq<Listener>>, store: StoreConfig, data: Value): Step
  {
    ElementSet(w, listeners, store, DefaultUserSlot, DefaultUserUpdatedAsWritten(Stored(w, "defaultUser"), data))
  }

  /** `#updateDefaultUser(data)` with the merge the form means. */
  function UpdateDefaultUserSpec(w: World, listeners: map<string, seq<Listener>>, store: StoreConfig, data: Value): Step
  {
    ElementSet(w, listeners, store, DefaultUserSlot, DefaultUserUpdated(Stored(w, "defaultUser"), data))
  }

  /**
   * Both versions always pass the slot's kind check; they complete exactly
   * when the new default user has text, and then the slot holds it. The
   * as-written version keeps every old field, `url` included, and adds the
   * data under `data`; over `null` it stores `{data}` alone. The merge gives
   * every field the data names its new value and keeps the others.
   */
  lemma UpdateDefaultUserStores(w: World, listeners: map<string, seq<Listener>>, store: StoreConfig, data: Value)
    ensures var r := UpdateDefaultUserSpec(w, listeners, store, data);
            var d := Stored(w, "defaultUser");
            var v := DefaultUserUpdated(d, data);
            (r.outcome.Pass? <==> ValueToString(v).Success?) &&
            (r.outcome.Pass? ==> r.world.storage == w.storage["defaultUser" := v]) &&
            ((d.Null? || (d.Obj? && Distinct(d.props))) && data.Obj? && Distinct(data.props) ==>
               v.Obj? && forall k :: Get(v, k) == if HasKey(data.props, k) then Get(data, k) else Get(d, k))
    ensures var r := UpdateDefaultUserAsWrittenSpec(w, listeners, store, data);
            var d := Stored(w, "defaultUser");
            var v := DefaultUserUpdatedAsWritten(d, data);
            (r.outcome.Pass? <==> ValueToString(v).Success?) &&
            (r.outcome.Pass? ==> r.world.storage == w.storage["defaultUser" := v]) &&
            (d.Null? ==> v == Obj([Prop("data", data)])) &&
            (d.Obj? && Distinct(d.props) ==>
               v.Obj? && Get(v, "data") == data && forall k :: k != "data" ==> Get(v, k) == Get(d, k))
  {
    var d := Stored(w, "defaultUser");
    CommitStores(w, listeners, store, "defaultUser", DefaultUserUpdated(d, data), true, true);
    CommitStores(w, listeners, store, "defaultUser", DefaultUserUpdatedAsWritten(d, data), true, true);
    if (d.Null? || (d.Obj? && Distinct(d.props))) && data.Obj? && Distinct(data.props) {
      DefaultUserUpdatedFields(d, data);
    }
    AsWrittenUpdateFields(d, data);
  }

  /** The fields of `{ ...d, data }`: those of `d`, and the data under `data`. */
  lemma AsWrittenUpdateFields(d: Value, data: Value)
    ensures var v := DefaultUserUpdatedAsWritten(d, data);
            (d.Null? ==> v == Obj([Prop("data", data)])) &&
            (d.Obj? && Distinct(d.props) ==>
               v.Obj? && Get(v, "data") == data && forall k :: k != "data" ==> Get(v, k) == Get(d, k))
  {
    if d.Null? {
      var e: seq<Prop> := [];
      assert AssignAll(e, OwnProps(d)) == e;
      assert [Prop("data", data)][1..] == [];
      assert AssignAll(e, [Prop("data", data)]) == AssignAll([Prop("data", data)], []);
    } else if d.Obj? && Distinct(d.props) {
      var one := [Prop("data", data)];
      assert one[1..] == [] && Distinct(one);
      SpreadLookup(d, Obj(one));
      forall k | k != "data"
        ensures !HasKey(one, k)
      {
        assert one[1..] == [];
      }
    }
  }

  /** `#removeDefaultUser()`: `null` written over a truthy default user, nothing done otherwise. */
  function RemoveDefaultUserSpec(w: World, listeners: map<string, seq<Listener>>, store: StoreConfig): Step
  {
    match DefaultUserRemoval(Stored(w, "defaultUser"))
    case None => Step(w, Pass)
    case Some(v) => ElementSet(w, listeners, store, DefaultUserSlot, v)
  }

  /** Removing the default user always completes, and afterwards the slot is falsy. */
  lemma RemoveDefaultUserStores(w: World, listeners: map<string, seq<Listener>>, store: StoreConfig)
    ensures var r := RemoveDefaultUserSpec(w, listeners, store);
            r.outcome.Pass? &&
            r.world.storage == (if Truthy(Stored(w, "defaultUser")) then w.storage["defaultUser" := Null] else w.storage) &&
            !Truthy(Stored(r.world, "defaultUser"))
  {
    DefaultsSerialize();
    if Truthy(Stored(w, "defaultUser")) {
      SetPasses(w, listeners, store, DefaultUserSlot, Null, Null);
    }
  }

  /** The default user's form is the one whose entry has no truthy `id`. */
  predicate IsDefaultUser(user: Value)
  {
    !Truthy(Get(user, "id"))
  }

  /**
   * The update form's submit: nothing when both trimmed inputs are empty,
   * otherwise the default user's update as written or the entry's update.
   */
  function SubmitSpec(w: World, listeners: map<string, seq<Listener>>, store: StoreConfig,
                      user: Value, url: string, urlSpeaking: string): (r: Step)
    ensures Trim(url) == [] && Trim(urlSpeaking) == [] ==> r == Step(w, Pass)
    ensures Trim(url) != [] || Trim(urlSpeaking) != [] ==>
              r == if IsDefaultUser(user) then UpdateDefaultUserAsWrittenSpec(w, listeners, store, UpdateData(url, urlSpeaking).value)
                   else UpdateUserSpec(w, listeners, store, Get(user, "id"), UpdateData(url, urlSpeaking).value)
  {
    match UpdateData(url, urlSpeaking)
    case None => Step(w, Pass)
    case Some(data) =>
      if IsDefaultUser(user) then UpdateDefaultUserAsWrittenSpec(w, listeners, store, data)
      else UpdateUserSpec(w, listeners, store, Get(user, "id"), data)
  }

  /** The remove button: the default user's, or the entry's by its id. */
  function RemoveButtonSpec(w: World, listeners: map<string, seq<Listener>>, store: StoreConfig, user: Value): Step
  {
    if IsDefaultUser(user) then RemoveDefaultUserSpec(w, listeners, store)
    else RemoveUserSpec(w, listeners, store, Get(user, "id"))
  }

  /**
   * Submitting a participant's form with a new URL gives that URL to the
   * entries with the participant's id, keeps their other fields (an empty
   * speaking input keeps `urlSpeaking`), and leaves every other entry as it is.
   */
  lemma SubmitUpdatesEntry(items: seq<Value>, user: Value, url: string, urlSpeaking: string, i: nat)
    requires !IsDefaultUser(user) && Trim(url) != []
    requires i < |items| && items[i].Obj? && Distinct(items[i].props)
    ensures var updated := UpdatedUsers(items, Get(user, "id"), UpdateData(url, urlSpeaking).value);
            (Get(items[i], "id") != Get(user, "id") ==> updated[i] == items[i]) &&
            (Get(items[i], "id") == Get(user, "id") ==>
               Get(updated[i], "url") == Str(Trim(url)) &&
               Get(updated[i], "id") == Get(items[i], "id") &&
               (Trim(urlSpeaking) == [] ==> Get(updated[i], "urlSpeaking") == Get(items[i], "urlSpeaking")))
  {
    MergeFields(items, Get(user, "id"), Trim(url), Trim(urlSpeaking), i);
  }

  /** The merge of the form's data for the trimmed inputs `u` (not empty) and `s`. */
  lemma MergeFields(items: seq<Value>, id: Value, u: string, s: string, i: nat)
    requires u != [] && i < |items| && items[i].Obj? && Distinct(items[i].props)
    ensures var updated := UpdatedUsers(items, id, FieldsData(u, s).value);
            (Get(items[i], "id") != id ==> updated[i] == items[i]) &&
            (Get(items[i], "id") == id ==>
               Get(updated[i], "url") == Str(u) &&
               Get(updated[i], "id") == Get(items[i], "id") &&
               (s == [] ==> Get(updated[i], "urlSpeaking") == Get(items[i], "urlSpeaking")))
  {
    var data := FieldsData(u, s).value;
    assert "id"[0] == 'i' && "url"[0] == 'u' && "urlSpeaking"[0] == 'u';
    assert !Has(data, "id") && Has(data, "url") && (s == [] ==> !Has(data, "urlSpeaking"));
    UpdatedUsersFields(items, id, data, i);
    if Get(items[i], "id") == id {
      MergedEntryField(items, id, data, i, "url");
      MergedEntryField(items, id, data, i, "id");
      MergedEntryField(items, id, data, i, "urlSpeaking");
    }
  }

  /** One field of a merged entry: the data's when the data has it, the entry's otherwise. */
  lemma MergedEntryField(items: seq<Value>, id: Value, data: Value, i: nat, k: string)
    requires i < |items| && items[i].Obj? && Distinct(items[i].props) && data.Obj? && Distinct(data.props)
    requires Get(items[i], "id") == id
    ensures Get(UpdatedUsers(items, id, data)[i], k) == if HasKey(data.props, k) then Get(data, k) else Get(items[i], k)
  {
    UpdatedUsersFields(items, id, data, i);
  }

  /** `#updateUser(userId, data)`. */
  method UpdateUser(app: App, userId: Value, data: Value) returns (o: Outcome<Error>)
    requires app.Valid()
    modifies app.state, app.state.localStorage
    ensures app.Valid()
    ensures Step(app.state.Snapshot(), o) == UpdateUserSpec(old(app.state.Snapshot()), app.state.listeners, app.state.config, userId, data)
    ensures app.state.listeners == old(app.state.listeners)
  {
    ghost var w := app.state.Snapshot();
    var users := app.users.Get();
    assert users == Stored(w, "users");
    if !users.Arr? || !AllReadable(users.items) {
      return Fail(TypeError);
    }
    var updated := UpdatedUsers(users.items, userId, data);
    assert UpdateUserSpec(w, app.state.listeners, app.state.config, userId, data) ==
           ElementSet(w, app.state.listeners, app.state.config, UsersSlot, Arr(updated));
    o := app.SetSlot(UsersSlot, Arr(updated));
  }

  /** `#removeUser(userId)`. */
  method RemoveUser(app: App, userId: Value) returns (o: Outcome<Error>)
    requires app.Valid()
    modifies app.state, app.state.localStorage
    ensures app.Valid()
    ensures Step(app.state.Snapshot(), o) == RemoveUserSpec(old(app.state.Snapshot()), app.state.listeners, app.state.config, userId)
    ensures app.state.listeners == old(app.state.listeners)
  {
    ghost var w := app.state.Snapshot();
    var users := app.users.Get();
    assert users == Stored(w, "users");
    if !users.Arr? || !AllReadable(users.items) {
      return Fail(TypeError);
    }
    var kept := RemovedUsers(users.items, userId);
    assert RemoveUserSpec(w, app.state.listeners, app.state.config, userId) ==
           ElementSet(w, app.state.listeners, app.state.config, UsersSlot, Arr(kept));
    o := app.SetSlot(UsersSlot, Arr(kept));
  }

  /** `#updateDefaultUser(data)`, writing `{ ...defaultUser, data }`. */
  method UpdateDefaultUser(app: App, data: Value) returns (o: Outcome<Error>)
    requires app.Valid()
    modifies app.state, app.state.localStorage
    ensures app.Valid()
    ensures Step(app.state.Snapshot(), o) == UpdateDefaultUserAsWrittenSpec(old(app.state.Snapshot()), app.state.listeners, app.state.config, data)
    ensures app.state.listeners == old(app.state.listeners)
  {
    var defaultUser := app.defaultUser.Get();
    o := app.SetSlot(DefaultUserSlot, DefaultUserUpdatedAsWritten(defaultUser, data));
  }

  /** `#removeDefaultUser()`. */
  method RemoveDefaultUser(app: App) returns (o: Outcome<Error>)
    requires app.Valid()
    modifies app.state, app.state.localStorage
    ensures app.Valid()
    ensures Step(app.state.Snapshot(), o) == RemoveDefaultUserSpec(old(app.state.Snapshot()), app.state.listeners, app.state.config)
    ensures app.state.listeners == old(app.state.listeners)
  {
    if Truthy(app.defaultUser.Get()) {
      o := app.SetSlot(DefaultUserSlot, Null);
    } else {
      o := Pass;
    }
  }

  /** The update form's `onsubmit` for the given entry. */
  method Submit(app: App, user: Value, url: string, urlSpeaking: string) returns (o: Outcome<Error>)
    requires app.Valid()
    modifies app.state, app.state.localStorage
    ensures app.Valid()
    ensures Step(app.state.Snapshot(), o) == SubmitSpec(old(app.state.Snapshot()), app.state.listeners, app.state.config, user, url, urlSpeaking)
    ensures app.state.listeners == old(app.state.listeners)
  {
    var data := UpdateData(url, urlSpeaking);
    if data.None? {
      return Pass;
    }
    if IsDefaultUser(user) {
      o := UpdateDefaultUser(app, data.value);
    } else {
      o := UpdateUser(app, Get(user, "id"), data.value);
    }
  }

  /** The remove button's `onclick` for the given entry. */
  method RemoveButton(app: App, user: Value) returns (o: Outcome<Error>)
    requires app.Valid()
    modifies app.state, app.state.localStorage
    ensures app.Valid()
    ensures Step(app.state.Snapshot(), o) == RemoveButtonSpec(old(app.state.Snapshot()), app.state.listeners, app.state.config, user)
    ensures app.state.listeners == old(app.state.listeners)
  {
    if IsDefaultUser(user) {
      o := RemoveDefaultUser(app);
    } else {
      o := RemoveUser(app, Get(user, "id"));
    }
  }
}

=== FILE: vue_app.dfy ===
/**
 * The oldest version of the tool (index.js with
 * components/import-export/ImportExport.js): a single shared object that
 * every component reads and changes in place. It holds the participant list,
 * the two ids shown in the overlay URL and the generated CSS; nothing is
 * persisted, and an import overwrites only the fields its file carries.
 */
module VueApp {
  import opened Wrappers
  import opened Decimal
  import opened JsValue
  import opened Json
  import LibState
  import ImportExport
  import OverlayCss

  const ServerPlaceholder: string := "<INSERT SERVER ID>"
  const VcPlaceholder: string := "<INSERT VC ID>"

  /** The fields of the shared object that the model follows. */
  datatype Shared = Shared(users: seq<Value>, serverId: Value, vcId: Value)

  /** `sharedState` as the page loads. */
  const InitialShared: Shared := Shared([], Str(ServerPlaceholder), Str(VcPlaceholder))

  // ---------------------------------------------------------------------
  // Adding a participant (`formSubmit`)
  // ---------------------------------------------------------------------

  /** The four keys of a new entry are pairwise different. */
  lemma NewUserKeys(ps: seq<Prop>)
    requires |ps| == 4 && ps[0].key == "id" && ps[1].key == "url" && ps[2].key == "url_speaking" && ps[3].key == "obj_id"
    ensures Distinct(ps)
    ensures forall i :: 0 <= i < |ps| ==> LookupIn(ps, ps[i].key) == ps[i].val
  {
    assert ps[0].key[0] == 'i' && ps[1].key[0] == 'u' && ps[2].key[0] == 'u' && ps[3].key[0] == 'o';
    assert |ps[1].key| == 3 && |ps[2].key| == 12;
    assert ps[0].key != ps[1].key && ps[0].key != ps[2].key && ps[0].key != ps[3].key;
    assert ps[1].key != ps[2].key && ps[1].key != ps[3].key && ps[2].key != ps[3].key;
    KeysAt(ps);
  }

  /** The `obj_id` of an entry made at time `now`: the id, then the decimal digits of the time stamp. */
  function ObjId(id: string, now: nat): (r: string)
    ensures |r| > |id| && r[..|id|] == id && AllDigits(r[|id|..])
    ensures DigitsValue(r[|id|..]) == now
  {
    var r := id + NatToString(now);
    assert r[..|id|] == id && r[|id|..] == NatToString(now);
    NatToStringValue(now);
    r
  }

  /** The entry `formSubmit` pushes; `obj_id` is the id followed by the decimal time stamp. */
  function NewUser(id: string, url: string, urlSpeaking: string, now: nat): (r: Value)
    ensures r.Obj? && Distinct(r.props)
    ensures Get(r, "id") == Str(id) && Get(r, "url") == Str(url) && Get(r, "url_speaking") == Str(urlSpeaking)
    ensures Get(r, "obj_id") == Str(ObjId(id, now))
  {
    var objId := ObjId(id, now);
    var ps := [Prop("id", Str(id)), Prop("url", Str(url)), Prop("url_speaking", Str(urlSpeaking)), Prop("obj_id", Str(objId))];
    NewUserKeys(ps);
    Obj(ps)
  }

  /**
   * `formSubmit`: all three inputs must be non-empty (they are not trimmed);
   * then one entry is appended and nothing else changes.
   */
  function SubmitSpec(users: seq<Value>, id: string, url: string, urlSpeaking: string, now: nat): (r: seq<Value>)
    ensures (id == [] || url == [] || urlSpeaking == []) <==> r == users
    ensures r != users ==> |r| == |users| + 1 && r[..|users|] == users &&
                           Get(r[|users|], "id") == Str(id) && Get(r[|users|], "url") == Str(url) &&
                           Get(r[|users|], "url_speaking") == Str(urlSpeaking) &&
                           Get(r[|users|], "obj_id") == Str(ObjId(id, now))
  {
    if id == [] || url == [] || urlSpeaking == [] then users
    else
      var r := users + [NewUser(id, url, urlSpeaking, now)];
      assert r[..|users|] == users;
      assert |r| != |users|;
      r
  }

  // ---------------------------------------------------------------------
  // Removing a participant (`removeUser`)
  // ---------------------------------------------------------------------

  /** `FindIndex` past a prefix it walks through: the same answer, shifted by the prefix length. */
  function Shift(r: Result<Option<nat>, LibState.Error>, n: nat): Result<Option<nat>, LibState.Error>
  {
    match r
    case Success(Some(k)) => Success(Some(k + n))
    case _ => r
  }

  /** Two shifts add up. */
  lemma ShiftShift(r: Result<Option<nat>, LibState.Error>, a: nat, b: nat)
    ensures Shift(Shift(r, a), b) == Shift(r, a + b)
  {
    match r
    case Success(Some(k)) =>
    case _ =>
  }

  /** The entry `findIndex` stops at: a match on `obj_id`, the end, or a throw. */
  function FindIndex(users: seq<Value>, id: Value): Result<Option<nat>, LibState.Error>
  {
    if users == [] then Success(None)
    else if !Readable(users[0]) then Failure(LibState.TypeError)
    else if Get(users[0], "obj_id") == id then Success(Some(0))
    else Shift(FindIndex(users[1..], id), 1)
  }

  /**
   * `findIndex` finds the first entry whose `obj_id` equals `id`, having
   * read every entry before it; it reports no match only when no entry
   * matches, and it throws only on an unreadable entry.
   */
  lemma {:induction false} FindIndexFirst(users: seq<Value>, id: Value)
    ensures var r := FindIndex(users, id);
            (r.Success? && r.value.Some? ==>
              r.value.value < |users| && Get(users[r.value.value], "obj_id") == id &&
              forall j :: 0 <= j < r.value.value ==> Readable(users[j]) && Get(users[j], "obj_id") != id) &&
            (r.Success? && r.value.None? ==> forall j :: 0 <= j < |users| ==> Get(users[j], "obj_id") != id) &&
            (r.Failure? ==> exists j :: 0 <= j < |users| && !Readable(users[j])) &&
            ((forall j :: 0 <= j < |users| ==> Readable(users[j])) ==> r.Success?)
  {
    if users != [] && Readable(users[0]) && Get(users[0], "obj_id") != id {
      var tail := users[1..];
      FindIndexFirst(tail, id);
      assert forall j :: 1 <= j < |users| ==> users[j] == tail[j - 1];
      if FindIndex(tail, id).Failure? {
        var j :| 0 <= j < |tail| && !Readable(tail[j]);
        assert !Readable(users[j + 1]);
      }
    }
  }

  /**
   * `removeUser(id)`: the entry `findIndex` stops at is spliced out; without
   * a match nothing changes; an unreadable entry before any match throws.
   */
  function RemoveSpec(users: seq<Value>, id: Value): Result<seq<Value>, LibState.Error>
  {
    match FindIndex(users, id)
    case Failure(e) => Failure(e)
    case Success(None) => Success(users)
    case Success(Some(i)) => if i < |users| then Success(users[..i] + users[i + 1..]) else Success(users)
  }

  /**
   * A removal drops exactly one entry, the first whose `obj_id` is `id`,
   * and keeps the others in order; it drops nothing exactly when no entry
   * matches, and it cannot throw on a list of readable entries.
   */
  lemma RemoveFirstMatch(users: seq<Value>, id: Value)
    ensures var r := RemoveSpec(users, id);
            (r.Success? ==> (|r.value| == |users| - 1 <==> exists j :: 0 <= j < |users| && Get(users[j], "obj_id") == id)) &&
            (r.Success? && r.value != users ==>
              exists i :: 0 <= i < |users| && Get(users[i], "obj_id") == id &&
                          (forall j :: 0 <= j < i ==> Get(users[j], "obj_id") != id) &&
                          r.value == users[..i] + users[i + 1..] &&
                          multiset(r.value) + multiset{users[i]} == multiset(users)) &&
            ((forall j :: 0 <= j < |users| ==> Readable(users[j])) ==> r.Success?)
  {
    FindIndexFirst(users, id);
    match FindIndex(users, id)
    case Success(Some(i)) =>
      assert users == users[..i] + [users[i]] + users[i + 1..];
      assert multiset(users) == multiset(users[..i]) + multiset{users[i]} + multiset(users[i + 1..]);
    case _ =>
  }

  lemma {:induction false} FindIndexSkip(users: seq<Value>, id: Value, n: nat)
    requires n <= |users|
    requires forall j :: 0 <= j < n ==> Readable(users[j]) && Get(users[j], "obj_id") != id
    ensures FindIndex(users, id) == Shift(FindIndex(users[n..], id), n)
  {
    if n == 0 {
      assert users[0..] == users;
      match FindIndex(users, id)
      case Success(Some(k)) =>
      case _ =>
    } else {
      var tail := users[1..];
      assert forall j :: 0 <= j < n - 1 ==> tail[j] == users[j + 1];
      FindIndexSkip(tail, id, n - 1);
      assert tail[n - 1..] == users[n..];
      assert FindIndex(users, id) == Shift(FindIndex(tail, id), 1) by {
        assert Readable(users[0]) && Get(users[0], "obj_id") != id;
      }
      ShiftShift(FindIndex(users[n..], id), n - 1, 1);
    }
  }

  /**
   * `removeUser` after walking past `i` readable entries that do not match:
   * at the end nothing changes, an unreadable entry throws, and a match is
   * spliced out.
   */
  lemma RemoveAfter(users: seq<Value>, id: Value, i: nat)
    requires i <= |users|
    requires forall j :: 0 <= j < i ==> Readable(users[j]) && Get(users[j], "obj_id") != id
    ensures i == |users| ==> RemoveSpec(users, id) == Success(users)
    ensures i < |users| && !Readable(users[i]) ==> RemoveSpec(users, id) == Failure(LibState.TypeError)
    ensures i < |users| && Readable(users[i]) && Get(users[i], "obj_id") == id ==>
              RemoveSpec(users, id) == Success(users[..i] + users[i + 1..])
  {
    FindIndexSkip(users, id, i);
    if i == |users| {
      assert users[i..] == [];
    }
  }

  /** Removing by the `obj_id` of the entry just added undoes the submission. */
  lemma SubmitThenRemove(users: seq<Value>, id: string, url: string, urlSpeaking: string, now: nat)
    requires id != [] && url != [] && urlSpeaking != []
    requires forall j :: 0 <= j < |users| ==> Readable(users[j]) && Get(users[j], "obj_id") != Str(ObjId(id, now))
    ensures RemoveSpec(SubmitSpec(users, id, url, urlSpeaking, now), Str(ObjId(id, now))) == Success(users)
  {
    var added := SubmitSpec(users, id, url, urlSpeaking, now);
    var key := Str(ObjId(id, now));
    assert added == users + [NewUser(id, url, urlSpeaking, now)];
    FindIndexSkip(added, key, |users|);
    assert added[|users|..] == [NewUser(id, url, urlSpeaking, now)];
    assert FindIndex(added, key) == Success(Some(|users|));
    assert added[..|users|] + added[|users| + 1..] == users;
  }

  // ---------------------------------------------------------------------
  // The overlay URL
  // ---------------------------------------------------------------------

  /** `{{ v }}` in a template: `null` and `undefined` show as nothing. */
  function Interpolated(v: Value): (r: string)
    ensures v.Str? ==> r == v.s
    ensures v.Null? || v.Undefined? ==> r == []
  {
    if v.Null? || v.Undefined? then [] else Display(v)
  }

  /**
   * The URL the configuration panel shows: the two ids go in as they are,
   * placeholders and empty strings included.
   */
  function ShareUrl(s: Shared): (r: string)
    ensures |OverlayCss.UrlPrefix| <= |r| && r[..|OverlayCss.UrlPrefix|] == OverlayCss.UrlPrefix
    ensures forall a, b :: s.serverId == Str(a) && s.vcId == Str(b) ==> r == OverlayCss.UrlPrefix + a + "/" + b
  {
    OverlayCss.UrlPrefix + Interpolated(s.serverId) + "/" + Interpolated(s.vcId)
  }

  /** Which input an `input` event came from; its element id names the field it sets. */
  datatype IdField = ServerIdField | VcIdField

  /** `update(e)`: `this[e.target.id] = e.target.value`. */
  function UpdateSpec(s: Shared, field: IdField, value: string): (r: Shared)
    ensures r.users == s.users
    ensures field.ServerIdField? ==> r.serverId == Str(value) && r.vcId == s.vcId
    ensures field.VcIdField? ==> r.vcId == Str(value) && r.serverId == s.serverId
  {
    match field
    case ServerIdField => s.(serverId := Str(value))
    case VcIdField => s.(vcId := Str(value))
  }

  /**
   * Typing both ids, in either order, makes the URL the stream-kit address
   * of that server and channel; an id not yet typed leaves its placeholder.
   */
  lemma TypedIdsMakeUrl(s: Shared, serverId: string, vcId: string)
    ensures ShareUrl(UpdateSpec(UpdateSpec(s, ServerIdField, serverId), VcIdField, vcId)) ==
            OverlayCss.UrlPrefix + serverId + "/" + vcId
    ensures ShareUrl(UpdateSpec(UpdateSpec(s, VcIdField, vcId), ServerIdField, serverId)) ==
            OverlayCss.UrlPrefix + serverId + "/" + vcId
    ensures ShareUrl(UpdateSpec(InitialShared, ServerIdField, serverId)) ==
            OverlayCss.UrlPrefix + serverId + "/" + VcPlaceholder
  {
  }

  // ---------------------------------------------------------------------
  // Export (`exportData`)
  // ---------------------------------------------------------------------

  /** The exported object: `users` only when non-empty, each id only when it is not its placeholder. */
  function ExportFields(s: Shared): (r: Value)
    ensures r.Obj? && |r.props| == 3 && Distinct(r.props)
    ensures Get(r, "users") == (if |s.users| > 0 then Arr(s.users) else Undefined)
    ensures Get(r, "serverId") == (if s.serverId == Str(ServerPlaceholder) then Undefined else s.serverId)
    ensures Get(r, "vcId") == (if s.vcId == Str(VcPlaceholder) then Undefined else s.vcId)
  {
    var users := if |s.users| > 0 then Arr(s.users) else Undefined;
    var serverId := if s.serverId == Str(ServerPlaceholder) then Undefined else s.serverId;
    var vcId := if s.vcId == Str(VcPlaceholder) then Undefined else s.vcId;
    assert "users"[0] == 'u' && "serverId"[0] == 's' && "vcId"[0] == 'v';
    Props3("users", users, "serverId", serverId, "vcId", vcId);
    Obj([Prop("users", users), Prop("serverId", serverId), Prop("vcId", vcId)])
  }

  /** `new Date().toJSON().slice(0, 10)`: the date part of an ISO time stamp. */
  function DatePart(iso: string): (r: string)
    ensures |r| == if |iso| < 10 then |iso| else 10
    ensures r == iso[..|r|]
  {
    if |iso| < 10 then iso else iso[..10]
  }

  function DvcoFileName(iso: string): string
  {
    "discord_vc_overlay_" + DatePart(iso) + ".dvco"
  }

  /** What the export button does: nothing, a download, or a throw from `JSON.stringify`. */
  datatype Exported = NothingToExport | Download(name: string, text: string) | Thrown(error: LibState.Error)

  /** Whether any field of the exported object is truthy. */
  predicate AnyTruthy(data: Value)
  {
    Truthy(Get(data, "users")) || Truthy(Get(data, "serverId")) || Truthy(Get(data, "vcId"))
  }

  function ExportSpec(s: Shared, iso: string): (r: Exported)
    ensures r.NothingToExport? <==> |s.users| == 0 && !AnyTruthy(ExportFields(s))
    ensures r.Thrown? <==> AnyTruthy(ExportFields(s)) && HasBigInt(ExportFields(s))
    ensures r.Download? ==> r.name == DvcoFileName(iso) && Stringify(ExportFields(s)) == Text(r.text)
  {
    var data := ExportFields(s);
    if !AnyTruthy(data) then NothingToExport
    else
      match Stringify(data)
      case Text(t) => Download(DvcoFileName(iso), t)
      case _ => Thrown(LibState.NotSerializable)
  }

  // ---------------------------------------------------------------------
  // Import (`importData`)
  // ---------------------------------------------------------------------

  /** The arguments `push(...v)` receives: an array's items, a string's characters; anything else throws. */
  function SpreadItems(v: Value): (r: Option<seq<Value>>)
    ensures r.Some? <==> v.Arr? || v.Str?
    ensures v.Arr? ==> r == Some(v.items)
    ensures v.Str? ==> |r.value| == |v.s| && forall i :: 0 <= i < |v.s| ==> r.value[i] == Str([v.s[i]])
  {
    match v
    case Arr(items) => Some(items)
    case Str(s) => Some(seq(|s|, i requires 0 <= i < |s| => Str([s[i]])))
    case _ => None
  }

  /**
   * Applying a parsed document: only an object has any of the keys (`in`
   * on a primitive throws, which the `catch` swallows). A present `users`
   * empties the list and refills it by spreading; when the spread throws,
   * the list stays empty and the ids are not reached. A present id is
   * assigned whatever its value is.
   */
  function ApplyImport(s: Shared, data: Value): (r: Shared)
    ensures !data.Obj? ==> r == s
    ensures !Has(data, "users") ==> r.users == s.users
    ensures Has(data, "users") && Get(data, "users").Arr? ==> r.users == Get(data, "users").items
    ensures Has(data, "users") && SpreadItems(Get(data, "users")).None? ==> r == s.(users := [])
    ensures !Has(data, "users") || SpreadItems(Get(data, "users")).Some? ==>
              r.serverId == (if Has(data, "serverId") then Get(data, "serverId") else s.serverId) &&
              r.vcId == (if Has(data, "vcId") then Get(data, "vcId") else s.vcId)
  {
    if !data.Obj? then s
    else
      var spread := if Has(data, "users") then SpreadItems(Get(data, "users")) else Some(s.users);
      match spread
      case None => s.(users := [])
      case Some(users) =>
        Shared(users,
               if Has(data, "serverId") then Get(data, "serverId") else s.serverId,
               if Has(data, "vcId") then Get(data, "vcId") else s.vcId)
  }

  /** `importData(e)`: the first chosen file is read and parsed; a failure at either step changes nothing. */
  function ImportSpec(s: Shared, files: seq<ImportExport.ImportFile>): (r: Shared)
    ensures files == [] ==> r == s
    ensures files != [] && files[0].content.None? ==> r == s
    ensures files != [] && files[0].content.Some? && Parse(files[0].content.value).None? ==> r == s
    ensures files != [] && files[0].content.Some? && Parse(files[0].content.value).Some? ==>
              r == ApplyImport(s, Parse(files[0].content.value).value)
  {
    if files == [] then s
    else match files[0].content
      case None => s
      case Some(text) =>
        match Parse(text)
        case None => s
        case Some(data) => ApplyImport(s, data)
  }

  /**
   * Through `CanonProps`, a property list of plain or `undefined` values
   * keeps exactly the defined entries, each unchanged.
   */
  lemma {:induction false} CanonPropsDefined(props: seq<Prop>, k: string)
    requires Distinct(props)
    requires forall i :: 0 <= i < |props| ==> Plain(props[i].val) || props[i].val.Undefined?
    ensures HasKey(CanonProps(props), k) <==> !LookupIn(props, k).Undefined?
    ensures LookupIn(CanonProps(props), k) == LookupIn(props, k)
  {
    if props != [] {
      var tail := props[1..];
      assert forall i :: 0 <= i < |tail| ==> tail[i] == props[i + 1];
      CanonPropsDefined(tail, k);
      if !Skipped(props[0].val) {
        PlainCanon(props[0].val);
        assert CanonProps(props) == [props[0]] + CanonProps(tail);
      } else if props[0].key == k {
        assert !HasKey(tail, k);
      }
    }
  }

  /** Plain entries and ids leave the exported object free of BigInts and well formed. */
  lemma ExportFieldsPlain(s: Shared)
    requires forall i :: 0 <= i < |s.users| ==> Plain(s.users[i])
    requires Plain(s.serverId) && Plain(s.vcId)
    ensures var data := ExportFields(s);
            WellFormed(data) && !Skipped(data) && !HasBigInt(data) &&
            forall i :: 0 <= i < |data.props| ==> Plain(data.props[i].val) || data.props[i].val.Undefined?
  {
    var data := ExportFields(s);
    forall i | 0 <= i < |data.props|
      ensures (Plain(data.props[i].val) || data.props[i].val.Undefined?) &&
              WellFormed(data.props[i].val) && !HasBigInt(data.props[i].val)
    {
      var v := data.props[i].val;
      if !v.Undefined? {
        assert Plain(v);
        PlainHasText(v);
        PlainCanon(v);
      }
    }
  }

  /**
   * Exporting and importing the file into any state restores the exported
   * fields: the list when it was non-empty and each id that was not its
   * placeholder; what was left out of the file keeps the target's value,
   * since the import resets nothing.
   */
  lemma ExportImportRoundTrip(s: Shared, t: Shared, iso: string)
    requires forall i :: 0 <= i < |s.users| ==> Plain(s.users[i])
    requires Plain(s.serverId) && Plain(s.vcId)
    requires AnyTruthy(ExportFields(s))
    ensures var e := ExportSpec(s, iso);
            e.Download? &&
            ImportSpec(t, [ImportExport.ImportFile(e.name, Some(e.text))]) ==
              Shared(if |s.users| > 0 then s.users else t.users,
                     if s.serverId == Str(ServerPlaceholder) then t.serverId else s.serverId,
                     if s.vcId == Str(VcPlaceholder) then t.vcId else s.vcId)
  {
    ExportParses(s, iso);
    var e := ExportSpec(s, iso);
    var data := Parse(e.text).value;
    assert ImportSpec(t, [ImportExport.ImportFile(e.name, Some(e.text))]) == ApplyImport(t, data);
    ApplyExported(s, t, data);
  }

  /**
   * The exported text parses back to an object that holds exactly the
   * fields `s` had to export, each unchanged.
   */
  lemma ExportParses(s: Shared, iso: string)
    requires forall i :: 0 <= i < |s.users| ==> Plain(s.users[i])
    requires Plain(s.serverId) && Plain(s.vcId)
    requires AnyTruthy(ExportFields(s))
    ensures var e := ExportSpec(s, iso);
            e.Download? && Parse(e.text).Some? &&
            var data := Parse(e.text).value;
            data.Obj? &&
            (Has(data, "users") <==> |s.users| > 0) &&
            (Has(data, "serverId") <==> s.serverId != Str(ServerPlaceholder)) &&
            (Has(data, "vcId") <==> s.vcId != Str(VcPlaceholder)) &&
            (|s.users| > 0 ==> Get(data, "users") == Arr(s.users)) &&
            (Get(data, "serverId") == s.serverId || !Has(data, "serverId")) &&
            (Get(data, "vcId") == s.vcId || !Has(data, "vcId"))
  {
    var doc := ExportFields(s);
    ExportFieldsPlain(s);
    StringifyParse(doc);
    var props := CanonProps(doc.props);
    assert Canon(doc) == Obj(props);
    CanonPropsDefined(doc.props, "users");
    CanonPropsDefined(doc.props, "serverId");
    CanonPropsDefined(doc.props, "vcId");
  }

  /** Importing an object that holds exactly the exported fields of `s`. */
  lemma ApplyExported(s: Shared, t: Shared, data: Value)
    requires data.Obj?
    requires Has(data, "users") <==> |s.users| > 0
    requires Has(data, "serverId") <==> s.serverId != Str(ServerPlaceholder)
    requires Has(data, "vcId") <==> s.vcId != Str(VcPlaceholder)
    requires |s.users| > 0 ==> Get(data, "users") == Arr(s.users)
    requires Get(data, "serverId") == s.serverId || !Has(data, "serverId")
    requires Get(data, "vcId") == s.vcId || !Has(data, "vcId")
    ensures ApplyImport(t, data) ==
              Shared(if |s.users| > 0 then s.users else t.users,
                     if s.serverId == Str(ServerPlaceholder) then t.serverId else s.serverId,
                     if s.vcId == Str(VcPlaceholder) then t.vcId else s.vcId)
  {
  }

  /** An import of a file that lists participants replaces the whole list, whatever it held before. */
  lemma ImportReplacesUsers(s: Shared, data: Value)
    requires Has(data, "users") && Get(data, "users").Arr?
    ensures ApplyImport(s, data).users == Get(data, "users").items
    ensures ApplyImport(ApplyImport(s, data), data) == ApplyImport(s, data)
  {
  }

  // ---------------------------------------------------------------------
  // The shared object
  // ---------------------------------------------------------------------

  /** `sharedState`, changed in place by every component. */
  class SharedState {
    var users: seq<Value>
    var serverId: Value
    var vcId: Value
    var usersCss: string

    function Snapshot(): Shared
      reads this
    {
      Shared(users, serverId, vcId)
    }

    constructor()
      ensures Snapshot() == InitialShared && usersCss == ""
    {
      users := [];
      serverId := Str(ServerPlaceholder);
      vcId := Str(VcPlaceholder);
      usersCss := "";
    }

    /** `formSubmit`, with the three input values and `Date.now()`. */
    method FormSubmit(id: string, url: string, urlSpeaking: string, now: nat)
      modifies this
      ensures users == SubmitSpec(old(users), id, url, urlSpeaking, now)
      ensures serverId == old(serverId) && vcId == old(vcId) && usersCss == old(usersCss)
    {
      if |id| < 1 { return; }
      if |url| < 1 { return; }
      if |urlSpeaking| < 1 { return; }
      users := users + [NewUser(id, url, urlSpeaking, now)];
    }

    /** `removeUser(id)`: `findIndex` on `obj_id`, then `splice(index, 1)`. */
    method RemoveUser(id: Value) returns (o: Outcome<LibState.Error>)
      modifies this
      ensures var r := RemoveSpec(old(users), id);
              (o.Fail? <==> r.Failure?) && users == (if r.Success? then r.value else old(users))
      ensures serverId == old(serverId) && vcId == old(vcId) && usersCss == old(usersCss)
    {
      var i := 0;
      while i < |users|
        invariant 0 <= i <= |users| && users == old(users)
        invariant forall j :: 0 <= j < i ==> Readable(users[j]) && Get(users[j], "obj_id") != id
      {
        if !Readable(users[i]) {
          RemoveAfter(users, id, i);
          return Fail(LibState.TypeError);
        }
        if Get(users[i], "obj_id") == id {
          RemoveAfter(users, id, i);
          users := users[..i] + users[i + 1..];
          return Pass;
        }
        i := i + 1;
      }
      RemoveAfter(users, id, i);
      return Pass;
    }

    /** `update(e)` on the server-id or voice-channel-id input. */
    method Update(field: IdField, value: string)
      modifies this
      ensures Snapshot() == UpdateSpec(old(Snapshot()), field, value)
      ensures usersCss == old(usersCss)
    {
      match field
      case ServerIdField => serverId := Str(value);
      case VcIdField => vcId := Str(value);
    }

    /**
     * `updateUserClasses`, which the `users` watcher runs after every change
     * to the list; an unreadable entry makes it throw with the CSS unchanged.
     */
    method UpdateUserClasses() returns (o: Outcome<LibState.Error>)
      modifies this
      ensures o.Pass? <==> AllReadable(users)
      ensures o.Pass? ==> usersCss == OverlayCss.OldestUsersCss(Arr(users)).value
      ensures o.Pass? ==> forall i :: 0 <= i < |users| ==> OverlayCss.IsInfix(OverlayCss.OldestUserBlock(users[i]), usersCss)
      ensures o.Fail? ==> o.error == LibState.TypeError && usersCss == old(usersCss)
      ensures Snapshot() == old(Snapshot())
    {
      var items := users;
      OverlayCss.OldestUsersCssBlocks(items, Undefined);
      var css := OverlayCss.OldestUsersCss(Arr(items));
      if css.None? {
        return Fail(LibState.TypeError);
      }
      usersCss := css.value;
      return Pass;
    }

    /** `exportData`, with the current time as an ISO string; the download itself is left to the browser. */
    method ExportData(iso: string) returns (r: Exported)
      ensures r == ExportSpec(Snapshot(), iso)
    {
      var data := ExportFields(Snapshot());
      if !AnyTruthy(data) {
        return NothingToExport;
      }
      var text := Stringify(data);
      if !text.Text? {
        return Thrown(LibState.NotSerializable);
      }
      return Download(DvcoFileName(iso), text.text);
    }

    /** `importData(e)`, with the chosen files and what reading the first one gave. */
    method ImportData(files: seq<ImportExport.ImportFile>)
      modifies this
      ensures Snapshot() == ImportSpec(old(Snapshot()), files)
      ensures usersCss == old(usersCss)
    {
      if |files| == 0 || files[0].content.None? {
        return;
      }
      var parsed := Parse(files[0].content.value);
      if parsed.None? {
        return;
      }
      var data := parsed.value;
      if !data.Obj? {
        return;
      }
      if Has(data, "users") {
        users := [];
        var items := SpreadItems(Get(data, "users"));
        if items.None? {
          return;
        }
        users := items.value;
      }
      if Has(data, "serverId") {
        serverId := Get(data, "serverId");
      }
      if Has(data, "vcId") {
        vcId := Get(data, "vcId");
      }
    }
  }
}

=== FILE: wrappers.dfy ===
/** Failure-carrying return types shared by every module of the model. */
module Wrappers {

  datatype Option<+T> = None | Some(value: T)

  /** A JavaScript call that either returns a value or throws `error`. */
  datatype Result<+T, +E> = Success(value: T) | Failure(error: E)

  /** A JavaScript call without a useful return value that either completes or throws. */
  datatype Outcome<+E> = Pass | Fail(error: E)
}
